=== FILE: README.md ===
# UnitySteer core, GoKit tweens, Testity and Uniject in Dafny

This project models the sequential, exactly statable parts of a Unity steering library and of the plugins bundled with it, and proves properties of those models.

- **Spatial database** (`lq.dfy`, `lq_query.dfy`, `lq_bulk.dfy`). The location-query database of UnitySteer is a uniform 3-D grid of bins in row-major order, plus a catch-all `other` bin. The model covers:
  - construction, bin indexing and bin-for-location;
  - adding, removing and relocating proxies;
  - the clipped locality query and nearest-neighbour search;
  - getAllObjects, removeAll and the most-populated bin.
- **Proximity databases** (`lq_proximity.dfy`, `brute_proximity.dfy`). The token wrappers around the database, and the brute-force database.
- **Steering helpers** (`geometry.dfy`, `steer_util.dfy`, `steer_library.dfy`, `vehicle.dfy`, `pathway.dfy`). All computed over exact reals:
  - the scalar and vector helpers of OpenSteerUtility;
  - the pursuit and evasion prediction rules, sphere-intersection root choice, `truncateLength` and the neighbourhood tests;
  - the clamping vehicle setters, seek and target-speed vectors;
  - the polyline pathway.
- **Small state machines** (`steering.dfy`, `tick.dfy`, `speedometer.dfy`):
  - the arrival/start-moving flags of a steering behaviour's `Force`;
  - the randomised tick schedule;
  - the speedometer's ring buffer with its cached speed.
- **GoKit** (`go_timeline.dfy`, `go_tween.dfy`, `go_collection.dfy`). The tween timeline over a real clock:
  - update, pause/play/reverse, complete and goTo, for any loop length: a loop of zero seconds divides to NaN, and the tween never completes; a loop of negative length clamps the clock to the negative total, and the tween completes at once;
  - a tween's delay phase and property list;
  - nested tween collections.
- **Testity engine math** (`testity_math.dfy`, `testity_quaternion.dfy`, `testity_vector_ext.dfy`):
  - the generic `Vector2<T>`, `Vector3<T>` and `Quaternion<T>` containers and `MathT` Min/Max, over 32-bit wrapping `int` and over exact reals;
  - the `int`, `byte` and `char` dot products, Scale and Reflect;
  - the float/double extension methods.
- **Testity build process** (`testity_services.dfy`, `testity_types.dfy`, `testity_mapping.dfy`, `testity_builder.dfy`):
  - the engine-object reference dictionary and the generic-event tracker;
  - the chain of type mappers, with the Action and default mappers;
  - type-name syntax and loadable type strings;
  - modifier-flag expansion, the serialized-field provider and the class builder's base-class rule.
- **Uniject** (`uniject.dfy`). The test harness's updatable-object manager and the testable game object.

Conventions:
- In Testity's generic math, C#'s unchecked `int` arithmetic is written out as wrap-around modulo 2^32 (`TestityMath.Wrap32`). Elsewhere integers are unbounded; the lines under "## Left out" that start with `Lq.NewDb`, `Lq.BinIndexInRange` and `LqQuery.ClipBox` say where that differs from the source.
- Casts to `byte` and `char` reduce modulo 256 and 65536.
- `(int)` of a float in `int`'s range truncates toward zero (`Lq.Trunc`, `GoTimeline.Trunc`). `(int)` of the NaN that a zero loop length produces is `GoTimeline.NonFiniteCast`, the value x86 and x64 give.
- A tween's loop time, which is NaN when a loop lasts zero seconds, is a `GoTimeline.Moment`: a real time or `NaN`.
- `float` and `double` are exact reals.
- A square root is never computed: the caller supplies it as an argument `s` with `s >= 0 && s * s == x` (`Geometry.IsSqrt`), or the model compares squares.
- A thrown exception is an `Err` of `Wrappers.Result`.
- A null reference is `None`.
- The clock and random draws are parameters.

## Model

| member | source | states |
|---|---|---|
| Lq.Trunc | UnitySteer/lq.cs:147-149 | the `(int)` conversion truncates toward zero: n ≤ r < n+1 for non-negative r, n−1 < r ≤ n for negative r |
| Lq.BinIndexInRange | UnitySteer/lq.cs:122-125 | row-major index of grid coordinates lies in [0, divx·divy·divz) |
| Lq.BinIndexInjective | UnitySteer/lq.cs:122-125 | two grid coordinates with the same row-major index are the same coordinates |
| Lq.BinIndexCarry | UnitySteer/lq.cs:86-92 | stepping past the last z of a row (last y of a slab) continues at the first bin of the next row (slab), so the triple loop visits consecutive indices |
| Lq.FillNext | UnitySteer/lq.cs:86-99 | filling index x·divy·divz+y·divz+z when that is the next free slot keeps every filled slot holding the bin of its own coordinates |
| Lq.FilledAll | UnitySteer/lq.cs:82-103 | once bincount slots are filled in loop order, every grid coordinate's index holds that coordinate's fresh bin |
| Lq.NewDb | UnitySteer/lq.cs:67-115 | the constructor builds exactly bincount empty bins, each grid coordinate's bin at its row-major index with its minimum-corner centre, plus an empty `other` at the origin |
| Lq.AxisBinInSlab | UnitySteer/lq.cs:147-149 | inside [origin, origin+size) the truncated axis coordinate is in [0, div) and names the slab that contains the point |
| Lq.CellInside | UnitySteer/lq.cs:139-144 | a point inside some grid cell passes all six outside-the-brick tests |
| Lq.SlabUnique | UnitySteer/lq.cs:147-149 | a coordinate lies in at most one slab of an axis |
| Lq.BinForLocation | UnitySteer/lq.cs:134-158 | a point outside the brick maps to `other`; a regular bin index is always below bincount; inside the brick of a grid with bins the point maps to a regular bin |
| Lq.BinForLocationCell | UnitySteer/lq.cs:147-157 | a point in grid cell (ix, iy, iz) maps to that cell's row-major index, so the range guard never fires for it |
| Lq.LocatedCell | UnitySteer/lq.cs:147-157 | inside the brick the truncated coordinates are on the grid and are the only cell holding the point |
| Lq.NewProxy | UnitySteer/lq.cs:24-31 | a new proxy has no bin and key point (0,0,0) and leaves every bin untouched and the invariant intact |
| Lq.RemoveFirst | UnitySteer/lq.cs:178 | ArrayList.Remove takes away one copy of the proxy and leaves a list without it unchanged |
| Lq.RemoveFirstShape | UnitySteer/lq.cs:178 | the copy removed is the first: the elements before and after it stay in order |
| Lq.AddToBin | UnitySteer/lq.cs:164-169 | appends the proxy to the bin's list, records the bin in the proxy, and changes no other list |
| Lq.RemoveFromBin | UnitySteer/lq.cs:175-180 | removes the first copy from the proxy's recorded bin, keeps the recorded bin, and is a no-op for a proxy with no bin |
| Lq.UpdateForNewLocation | UnitySteer/lq.cs:188-204 | the proxy stores the new coordinates and records the bin its position maps to; nothing else about proxies changes |
| Lq.UpdateLists | UnitySteer/lq.cs:198-203 | no list changes when the bin stays the same; when it changes the proxy is appended to the new bin's list |
| Lq.UpdateMoves | UnitySteer/lq.cs:198-203 | a move to a different bin removes the first copy from the old list, appends to the new one, and leaves every other list alone |
| Lq.MoveKeepsEntries | UnitySteer/lq.cs:198-203 | after a move every list entry is a proxy that records that list's bin |
| Lq.MoveKeepsPlacement | UnitySteer/lq.cs:198-203 | after a move every proxy with a bin sits exactly once in the bin its position maps to |
| Lq.StayKeepsValid | UnitySteer/lq.cs:198-199 | an update within the same bin keeps the database invariant |
| Lq.UpdatePreservesValid | UnitySteer/lq.cs:188-204 | an update keeps the invariant and leaves the proxy exactly once in the bin of its new position |
| LqQuery.InRadius | UnitySteer/lq.cs:210-233 | keeps exactly the listed proxies whose squared distance to the centre is strictly below radius² |
| LqQuery.InRadiusAppend | UnitySteer/lq.cs:210-233 | filtering a concatenation is the concatenation of the filtered parts, so list order is kept |
| LqQuery.InRadiusNoDuplicates | UnitySteer/lq.cs:210-233 | no proxy is reported more often than it is listed |
| LqQuery.XRunSound | UnitySteer/lq.cs:259-287 | everything the three nested loops collect is a known proxy strictly inside the sphere |
| LqQuery.XRunContains | UnitySteer/lq.cs:263-278 | every bin of the clipped box is visited: a near proxy listed in such a bin is collected |
| LqQuery.XRunListed | UnitySteer/lq.cs:263-278 | the traversal reports only proxies listed in regular bins |
| LqQuery.ZRunStep | UnitySteer/lq.cs:270-281 | the running offset iindex+jindex+kindex names bin (i, j, k), which exists, and one z step adds that bin's filtered list |
| LqQuery.CollectRow | UnitySteer/lq.cs:270-282 | the z loop, with kindex stepping by one from the row offset, collects the filtered lists of bins (i, j, minZ..maxZ) in order |
| LqQuery.CollectSlab | UnitySteer/lq.cs:266-284 | the y loop, with jindex stepping by a row, collects rows minY..maxY of slab i in order |
| LqQuery.ClippedTraversal | UnitySteer/lq.cs:243-288 | the x loop, with iindex stepping by a slab, visits every bin of the box in row-major order, the three offsets always summing to the bin's row-major index |
| LqQuery.ClipBox | UnitySteer/lq.cs:347-361 | the clipped bounds lie inside the grid, each bound is the raw one or the grid edge, and partlyOut holds iff some raw bound was outside [0, div−1] |
| LqQuery.Locality | UnitySteer/lq.cs:324-372 | the locality query reports only known proxies strictly inside the sphere |
| LqQuery.AllObjectsInLocalityAsWritten | UnitySteer/lq.cs:324-372 | the query with truncated low bins, as written, reports only proxies strictly inside the sphere |
| LqQuery.AllObjectsInLocality | UnitySteer/lq.cs:324-372 | the query with low bins rounded down reports only proxies strictly inside the sphere |
| LqQuery.AxisCovered | UnitySteer/lq.cs:348-353 | a point inside the brick and the sphere's bounding box has its bin between the low and the high bin of the query on that axis |
| LqQuery.AxisClips | UnitySteer/lq.cs:348-361 | a near point outside the brick on some axis forces the rounded-down range to be clipped on that axis |
| LqQuery.OtherClips | UnitySteer/lq.cs:356-364 | a near proxy filed in `other` makes the rounded-down query partly out, so `other` is consulted |
| LqQuery.CellCovered | UnitySteer/lq.cs:327-361 | a near proxy in a regular bin means the sphere is not completely outside, and its bin is inside the clipped box |
| LqQuery.CellCoordinates | UnitySteer/lq.cs:139-157 | a regular bin returned for a point comes from on-grid truncated coordinates of a point inside the brick |
| LqQuery.FiledCellFound | UnitySteer/lq.cs:327-370 | a near proxy filed in a regular bin is collected by the clipped traversal, whichever way the low end is rounded |
| LqQuery.FiledOtherFound | UnitySteer/lq.cs:356-364 | a near proxy filed in `other` is reported by the corrected query |
| LqQuery.LocalityComplete | UnitySteer/lq.cs:304-372 | the corrected query reports every filed proxy strictly inside the sphere, as the comment above the method promises |
| LqQuery.LocalityAsWrittenFindsCells | UnitySteer/lq.cs:324-372 | as written the query still reports every near proxy in a regular bin: what it loses is confined to `other` |
| LqQuery.ExampleEmpty | UnitySteer/lq.cs:67-115 | the empty database over the 2×2×2 unit brick is valid and has no clients |
| LqQuery.ExampleDb | UnitySteer/lq.cs:188-204 | one proxy placed at (−0.05, 0.5, 0.5) is filed in `other` |
| LqQuery.ExampleClipsNothing | UnitySteer/lq.cs:348-361 | for centre (0.5, 0.5, 0.5) and radius 0.6 the truncated bounds are (0..1)³ and nothing counts as clipped |
| LqQuery.ExampleAsWrittenEmpty | UnitySteer/lq.cs:324-372 | with empty grid bins the as-written query about that sphere reports nothing |
| LqQuery.LocalityUnclipped | UnitySteer/lq.cs:363-370 | a query that neither misses the brick nor is clipped returns exactly the traversal of its bin box, without `other` |
| LqQuery.UnclippedEmptyGrid | UnitySteer/lq.cs:363-370 | a query that neither misses the brick nor is clipped reports nothing when every grid bin is empty, whatever `other` holds |
| LqQuery.LocalityAsWrittenMissesOther | UnitySteer/lq.cs:348-364 | counterexample: a proxy in `other` at squared distance 0.3025 < 0.36 is missed as written and found by the corrected query |
| LqQuery.NearestIn | UnitySteer/lq.cs:398-425 | the scan returns a non-ignored candidate below float.MaxValue with the least squared distance, the first of equals, and none exactly when every candidate is at least float.MaxValue away |
| LqQuery.LocalityKnown | UnitySteer/lq.cs:324-372 | every proxy the locality query returns is known, whichever way the low end is rounded |
| LqQuery.FindNearestNeighborWithinRadius | UnitySteer/lq.cs:390-426 | as written, over the truncating locality query: the nearest non-ignored proxy among those it returns, strictly inside the sphere, the first of equals; none exactly when no candidate is below float.MaxValue |
| LqQuery.FindNearestNeighborWithinRadiusCorrected | UnitySteer/lq.cs:390-426 | the same search over the corrected locality query, so a near proxy in `other` is also a candidate |
| LqBulk.ListCount | UnitySteer/lq.cs:164-204 | under the invariant a bin's list holds a proxy once if the proxy records that bin, and not at all otherwise |
| LqBulk.ConcatCount | UnitySteer/lq.cs:441-444 | the first n grid lists together hold a proxy once if it records one of those bins, else not at all |
| LqBulk.AllListedOnce | UnitySteer/lq.cs:435-447 | under the invariant getAllObjects lists every placed proxy exactly once and nothing else |
| LqBulk.GetAllObjects | UnitySteer/lq.cs:435-447 | the loop appends every grid bin's list in index order and then `other`'s, which lists every placed proxy once |
| LqBulk.PopulationCount | UnitySteer/lq.cs:435-447 | the length of getAllObjects is the number of proxies that record a bin |
| LqBulk.GetPopulation | OpenSteerDotNet/lqProximity.cs:102-110 | getPopulation counts the proxies placed in some bin |
| LqBulk.ClearedBins | UnitySteer/lq.cs:454-457 | each bin keeps its centre and loses every client |
| LqBulk.RemoveAllObjectsAsWritten | UnitySteer/lq.cs:463-473 | as written: every list including `other` is empty afterwards, and the proxies are untouched |
| LqBulk.Unfiled | UnitySteer/lq.cs:12 | every proxy is reset to record no bin, all else kept |
| LqBulk.RemoveAllObjects | UnitySteer/lq.cs:463-473 | corrected: every list is empty, every proxy forgets its bin, and the invariant holds again |
| LqBulk.RemoveAllThenUpdateListed | UnitySteer/lq.cs:188-204 | after the corrected clear, one position update files the proxy again, listed exactly once |
| LqBulk.RemoveAllAsWrittenBreaksValid | UnitySteer/lq.cs:463-473 | the as-written clear breaks the invariant whenever some proxy was placed |
| LqBulk.ExampleCellZero | UnitySteer/lq.cs:134-158 | in the 2×2×2 unit brick a point of [0, 1)³ maps to bin 0 |
| LqBulk.ExampleFiled | UnitySteer/lq.cs:188-204 | one proxy filed in bin 0 of that brick |
| LqBulk.RemoveAllAsWrittenLosesProxy | UnitySteer/lq.cs:198-203 | counterexample: after the as-written clear, a move inside bin 0 does not re-file the proxy, which records bin 0 yet is listed nowhere |
| LqBulk.MostPopulatedUnique | UnitySteer/lq.cs:493-500 | there is at most one first fullest bin |
| LqBulk.GetMostPopulatedBin | UnitySteer/lq.cs:486-503 | the first non-empty grid bin with strictly maximal count, never `other`; none exactly when every grid bin is empty |
| LqBulk.GetMostPopulatedBinCenter | UnitySteer/lq.cs:475-484 | that bin's recorded centre, or the zero vector when every grid bin is empty |
| LqProximity.RoundHalfEvenUnique | OpenSteerDotNet/lqProximity.cs:21-23 | System.Math.Round gives the unique nearest integer, the even one on a tie |
| LqProximity.ProximityBrick | OpenSteerDotNet/lqProximity.cs:13-24 | the brick is centred on `center` with edges `dimensions` and rounded division counts |
| LqProximity.NewProximityDatabase | OpenSteerDotNet/lqProximity.cs:13-24 | a fresh lq database over that brick, valid and holding nothing |
| LqProximity.AllocateToken | OpenSteerDotNet/lqProximity.cs:40-44 | the new token's proxy is in no bin until its first update, so the population is unchanged |
| LqProximity.UpdateForNewPosition | OpenSteerDotNet/lqProximity.cs:53-56 | delegates to lqUpdateForNewLocation: the token sits, exactly once, in the bin of its new position |
| LqProximity.AppendClients | OpenSteerDotNet/lqProximity.cs:64-71 | the loop over the found proxies appends each one's client, in order, to `results` |
| LqProximity.FindNeighbors | OpenSteerDotNet/lqProximity.cs:59-72 | as written: appends the client of every proxy the truncating locality query returns, in order, without clearing `results` |
| LqProximity.FindNeighborsCorrected | OpenSteerDotNet/lqProximity.cs:59-72 | the same over the corrected locality query |
| LqProximity.ClientFound | OpenSteerDotNet/lqProximity.cs:64-71 | a known proxy in the found list contributes its client to the appended ones |
| LqProximity.NeighborsNearAndComplete | OpenSteerDotNet/lqProximity.cs:59-72 | as written: the appended neighbours are strictly within the radius, and every proxy within it that is filed in a regular bin contributes its client; one in `other` can be missed |
| LqProximity.NeighborsNearAndCompleteCorrected | OpenSteerDotNet/lqProximity.cs:59-72 | corrected: the neighbours are strictly within the radius, and every filed proxy within it, `other` included, contributes its client |
| LqProximity.GetNearestVehicle | OpenSteerDotNet/lqProximity.cs:112-120 | as written: the client of the nearest proxy the truncating search finds, with nothing ignored; none exactly when that search finds none |
| LqProximity.GetNearestVehicleCorrected | OpenSteerDotNet/lqProximity.cs:112-120 | the same over the corrected search |
| BruteProximity.NewBruteDb | UnitySteer/UnderReview/Proximity.cs:75-78 | the database starts with an empty group and population 0 |
| BruteProximity.AllocateToken | UnitySteer/UnderReview/Proximity.cs:82-86 | the token's constructor appends it to the group, so the population grows by one; the token starts at the origin |
| BruteProximity.RemoveToken | UnitySteer/UnderReview/Proximity.cs:88-91 | one copy of the token leaves the group, and the population drops by one when it was there; an absent token changes nothing |
| BruteProximity.RemoveFirstSubset | UnitySteer/UnderReview/Proximity.cs:90 | nothing new appears on removal, and a present token shortens the list by exactly one |
| BruteProximity.RemoveTokenKeepsOrder | UnitySteer/UnderReview/Proximity.cs:88-91 | the first occurrence is cut out and the other tokens keep their order |
| BruteProximity.UpdateForNewPosition | UnitySteer/UnderReview/Proximity.cs:125-128 | only the token's stored position changes |
| BruteProximity.NearParentsMembers | UnitySteer/UnderReview/Proximity.cs:137-148 | a parent is reported iff some token of the group with that parent is strictly within the radius |
| BruteProximity.NearParentsIncludesSelf | UnitySteer/UnderReview/Proximity.cs:131-149 | the querying token is not excluded: a token within the radius reports its own parent |
| BruteProximity.FindNeighbors | UnitySteer/UnderReview/Proximity.cs:131-149 | appends to `results`, in group order, the parent of every token strictly within the radius |
| Pathway.SqrtOrder | Vector3Pathway.cs:137 | the supplied square root orders values as their squares are |
| Pathway.SegmentLengthsAt | Vector3Pathway.cs:133-138 | entry i of the lengths is the magnitude of Path[i] − Path[i−1] |
| Pathway.SegmentNormals | Vector3Pathway.cs:129-139 | entry 0 is the zero vector and entry i the segment's difference divided by its length, one entry per point; a zero-length segment's NaN normal is stored as the zero vector and never read |
| Pathway.Initialize | Vector3Pathway.cs:109-142 | accepts any points: stores them and the radius, Lengths and Normals get one entry per point, each length is the root of its squared segment length and is zero exactly when that is zero (so a repeated point gives length 0), TotalPathLength is their sum; without repeated consecutive points every length is positive |
| Pathway.LengthsAreRoots | Vector3Pathway.cs:133-138 | every segment length is a non-negative root, zero exactly when the squared distance is zero, and zero for a repeated point |
| Pathway.LengthsPositive | Vector3Pathway.cs:136-138 | with no repeated consecutive points every segment length is the positive root of its squared length |
| Pathway.SegmentFrame | Vector3Pathway.cs:136-139 | on a segment of positive length the normal has unit length, and the point is the previous one plus normal times length |
| Pathway.SegmentCount | Vector3Pathway.cs:66-69 | the number of points, not of segments: one more than the segments of a non-empty path |
| Pathway.FirstPoint | Vector3Pathway.cs:54-57 | the first point, or zero for an empty path |
| Pathway.LastPoint | Vector3Pathway.cs:59-62 | the last point, or zero for an empty path |
| Pathway.ScanSelectsFirstNearest | Vector3Pathway.cs:155-173 | the segment loop selects the first segment of positive length with least distance below float.MaxValue, and index −1 if there is none; a zero-length segment's distance is NaN, whose comparison is false, so it is never selected |
| Pathway.MapPointToPath | Vector3Pathway.cs:153-180 | index −1 for fewer than two points or when no segment of positive length is below float.MaxValue; otherwise the first such segment of least distance with its chosen point and normal; Outside is ‖onPath − point‖ − Radius |
| Pathway.MapPointToPathNearest | Vector3Pathway.cs:144-180 | the point returned is a nearest point of the polyline: no point of any segment of positive length is closer, repeated points allowed |
| Pathway.HowFarOutsidePath | Vector3Pathway.cs:269-275 | the Outside value of a fresh MapPointToPath |
| Pathway.IsInsidePath | Vector3Pathway.cs:256-262 | inside iff HowFarOutsidePath is negative |
| Pathway.InsideIffWithinRadius | Vector3Pathway.cs:256-262 | a point is inside iff its path point is strictly within the radius |
| Pathway.DistanceScanTotals | Vector3Pathway.cs:197-205 | the running total is the sum of the segment lengths seen so far |
| Pathway.DistanceScansAgree | Vector3Pathway.cs:197-209 | the distance loop selects the same segment as MapPointToPath; as written it counts that segment's whole length plus the projection, corrected only the segments before it |
| Pathway.MapPointToPathDistanceAsWritten | Vector3Pathway.cs:188-213 | as written: 0 for fewer than two points, else the lengths through the selected segment plus the projection on it |
| Pathway.MapPointToPathDistance | Vector3Pathway.cs:188-213 | corrected: 0 for fewer than two points, else the lengths before the selected segment plus the projection on it |
| Pathway.MapPathDistanceToPoint | Vector3Pathway.cs:221-249 | the first point below zero and the last at or beyond the total length, which throw InvalidOperationException on an empty path; otherwise the walk along the segments, zero-length ones included |
| Pathway.WalkPositiveIsPoint | Vector3Pathway.cs:233-248 | a walk with a positive distance left always ends at a point, never at the 0/0 NaN of a zero-length segment |
| Pathway.WalkFromStart | Vector3Pathway.cs:233-248 | a walk of distance 0 from the first segment gives NaN exactly when that segment has length 0, and the first point otherwise |
| Pathway.NaNExactlyAtRepeatedStart | Vector3Pathway.cs:221-249 | the result is the NaN vector exactly when the distance is 0, the total length is positive and the first segment has length 0 (the path starts with a repeated point) |
| Pathway.WalkLands | Vector3Pathway.cs:234-247 | a distance of whole segments up to j plus proj on segment j lands on segment j at proj |
| Pathway.SumGrows | Vector3Pathway.cs:140 | prefix sums of the segment lengths grow strictly with positive lengths |
| Pathway.LerpOnSegment | Vector3Pathway.cs:243-244 | interpolating at ratio proj/length on a segment is moving proj along its normal |
| Pathway.DistanceOnSegmentMapsBack | Vector3Pathway.cs:221-249 | a distance of whole segments before k plus proj on k lies within the path and maps back to that point of segment k |
| Pathway.PathDistanceRoundTrip | Vector3Pathway.cs:188-249 | round trip: the corrected distance of a point maps back to the path point MapPointToPath finds for it |
| Pathway.StartSelectsFirstSegment | Vector3Pathway.cs:160-172 | the first point of a path selects segment 1 |
| Pathway.AsWrittenDistanceAtStart | Vector3Pathway.cs:197-209 | counterexample: for the first point the corrected distance is 0, but as written it is the first segment's whole length |
| Pathway.AsWrittenDistanceOvershoots | Vector3Pathway.cs:188-249 | counterexample: mapped back, the as-written distance of the first point gives the second point |
| SteerUtil.Clip | OpenSteerDotNet/OpenSteerUtility.cs:121-126 | the result is x itself, min or max; it lies in [min, max] when that interval is not empty, and is x when x already does |
| SteerUtil.ClipNearest | OpenSteerDotNet/OpenSteerUtility.cs:121-126 | the clipped value is the point of the interval nearest to x |
| SteerUtil.ClipIdempotent | OpenSteerDotNet/OpenSteerUtility.cs:121-126 | clipping a clipped value changes nothing |
| SteerUtil.Interpolate | OpenSteerDotNet/OpenSteerUtility.cs:14-17 | factor 0 gives x0 and factor 1 gives x1 |
| SteerUtil.InterpolateBetween | OpenSteerDotNet/OpenSteerUtility.cs:14-17 | for a factor in [0, 1] the result lies between x0 and x1 |
| SteerUtil.InterpolateVec | OpenSteerDotNet/OpenSteerUtility.cs:9-12 | the vector form interpolates each component and keeps the end points |
| SteerUtil.MathfLerp | OpenSteerUtility.cs:85 | the clamped interpolation always lies between a and b, is a for t ≤ 0 and b for t ≥ 1 |
| SteerUtil.Vector3Lerp | OpenSteerUtility.cs:80 | the clamped vector interpolation works per component and is a for t ≤ 0, b for t ≥ 1 |
| SteerUtil.Blend | OpenSteerDotNet/OpenSteerUtility.cs:116-119 | the blended value lies between the accumulator and the new value; rate ≤ 0 keeps the accumulator, rate ≥ 1 takes the new value |
| SteerUtil.BlendVec | OpenSteerDotNet/OpenSteerUtility.cs:111-114 | the vector blend works per component with the same end cases |
| SteerUtil.BlendFormsAgree | OpenSteerUtility.cs:78-86 | the UnitySteer blend through Mathf.Clamp and Lerp equals the OpenSteerDotNet blend through clip and interpolate |
| SteerUtil.ComponentsDecompose | OpenSteerUtility.cs:65-76 | parallel plus perpendicular component is the source; for a unit basis the perpendicular part is orthogonal to it and the parallel part keeps the source's projection |
| SteerUtil.SphericalWrapAround | OpenSteerUtility.cs:88-97 | for any radius, a negative one included, a point within the radius of the center is returned unchanged |
| SteerUtil.WrapAroundDistance | OpenSteerUtility.cs:88-97 | a point beyond the radius lands at distance ‖r − 2·radius‖ from the center |
| SteerUtil.WrapOffset | OpenSteerUtility.cs:93-94 | a wrapped point's offset from the center is the old offset scaled by 1 − 2·radius/r, so it stays on the line through the center |
| SteerUtil.LimitDeviation | OpenSteerUtility.cs:25-63 | a zero source is returned as it is, and so is a source already inside the cone (insideOrOutside) or outside it (otherwise) |
| SteerUtil.DeviationOnCone | OpenSteerUtility.cs:52-62 | a rotated source keeps its length and makes exactly the cone's angle with a unit basis |
| SteerUtil.ScalarRandomWalk | OpenSteerUtility.cs:100-105 | the walk always ends inside [min, max] |
| SteerUtil.RandomWalkStep | OpenSteerDotNet/SteerLibrary.cs:928-934 | the SteerLibrary walk, which clamps with the same two tests: starting inside the range, one step moves by at most walkspeed |
| SteerUtil.IntervalComparison | OpenSteerUtility.cs:107-112 | −1 exactly when x is below the lower bound; +1 only above the upper bound; otherwise 0 |
| SteerUtil.IntervalComparisonCases | OpenSteerDotNet/SteerLibrary.cs:956-961 | for a non-empty interval 0 means inside and +1 means above, each in both directions |
| SteerUtil.PointToSegment | OpenSteerUtility.cs:167-197 | a negative projection picks ep0 at 0, one beyond the length picks ep1 at the length, otherwise the projection itself; the projection stays in [0, length] |
| SteerUtil.SegmentChosenOnSegment | OpenSteerUtility.cs:193-195 | the chosen point is the segment's point at the returned projection |
| SteerUtil.SegmentNearest | OpenSteerUtility.cs:167-197 | with a unit normal, no point of the segment is closer to the query point than the chosen point |
| SteerLibrary.TimeFactor | OpenSteerDotNet/SteerLibrary.cs:759-818 | the factor is positive exactly when both classes are among −1, 0, +1, and never exceeds 4 |
| SteerLibrary.CapPrediction | OpenSteerDotNet/SteerLibrary.cs:824 | the capped time is the smaller of the estimate and the maximum |
| SteerLibrary.PursuitPredictionTime | OpenSteerDotNet/SteerLibrary.cs:755-824 | the prediction time never exceeds the maximum and is either the maximum or the travel time times the factor of the quarry's ±0.707 classes |
| SteerLibrary.PursuitFactorDefined | OpenSteerDotNet/SteerLibrary.cs:756-824 | every quarry falls into one of the nine cases, so the factor is positive and the prediction lies between 0 and four times the travel time |
| SteerLibrary.EvasionPredictionTime | OpenSteerDotNet/SteerLibrary.cs:848-851 | the prediction time is the smaller of the rough time and the maximum |
| SteerLibrary.IntersectionAsWritten | OpenSteerDotNet/SteerLibrary.cs:878-926 | as written: the intersection is never reported, whatever the obstacle |
| SteerLibrary.AsWrittenMissesObstacleAhead | OpenSteerDotNet/SteerLibrary.cs:915-919 | counterexample: an obstacle dead ahead with roots 4 and 6 is not reported as written, while the corrected routine reports a hit at 4 |
| SteerLibrary.FindNextIntersection | OpenSteerDotNet/SteerLibrary.cs:878-926 | corrected, with the PathIntersection passed by reference so that the caller sees the result: a hit is reported exactly when the discriminant is non-negative and not both roots are behind; a miss keeps the old distance; the distance chosen is the as-written one |
| SteerLibrary.IntersectionOnSphere | OpenSteerDotNet/SteerLibrary.cs:895-924 | a reported distance is a root: that point of the forward axis lies on the inflated obstacle sphere |
| SteerLibrary.IntersectionNearestAhead | OpenSteerDotNet/SteerLibrary.cs:919-924 | when a root lies strictly ahead, the distance is the nearest root ahead |
| SteerLibrary.TruncateLength | OpenSteerDotNet/SteerLibrary.cs:944-954 | a vector no longer than the maximum is returned unchanged |
| SteerLibrary.TruncateLengthBound | OpenSteerDotNet/SteerLibrary.cs:944-954 | for a non-negative maximum the result is never longer than it, and a longer vector that can be normalised ends up exactly that long |
| SteerLibrary.InBoidNeighborhood | OpenSteerDotNet/SteerLibrary.cs:574-606 | never oneself; in strictly inside the minimum distance; out strictly beyond the maximum; otherwise in exactly when the forwardness exceeds cosMaxAngle |
| SteerLibrary.NeighborhoodWidens | OpenSteerDotNet/SteerLibrary.cs:586-602 | a wider cone or a larger maximum distance never drops a neighbour |
| SteerLibrary.CloserBySquares | OpenSteerDotNet/SteerLibrary.cs:554-556 | comparing a distance with a positive bound is the same as comparing the squares |
| SteerLibrary.SteerToAvoidCloseNeighbors | OpenSteerDotNet/SteerLibrary.cs:542-566 | zero when no other vehicle is too close; otherwise the lateral force away from the first one that is |
| SteerLibrary.AvoidanceIsLateral | OpenSteerDotNet/SteerLibrary.cs:559 | for a unit forward vector the avoidance force has no component along the direction of travel |
| Vehicles.NewVehicle | Behaviors/Vehicle.cs:41-79 | the serialized defaults: mass 1, max force 10, max speed 1, arrival radius 0.25, turn time 0.25, able to move, at rest, squared arrival radius not yet derived |
| Vehicles.Awake | Behaviors/Vehicle.cs:256-273 | a zero movement priority becomes the instance id and a non-zero one stays; the squared arrival radius is derived; nothing else changes |
| Vehicles.AwakeDefaultsConsistent | Behaviors/Vehicle.cs:41-79 | an awake vehicle with default settings already satisfies every bound the setters enforce |
| Vehicles.SetMass | Behaviors/Vehicle.cs:111-115 | the stored mass is never negative, is the value when that is non-negative, and nothing else changes |
| Vehicles.SetMaxForce | Behaviors/Vehicle.cs:121-125 | the stored force lies in [0, float.MaxValue], is the value when that lies there, and nothing else changes |
| Vehicles.SetMaxSpeed | Behaviors/Vehicle.cs:130-134 | the stored speed lies in [0, float.MaxValue], is the value when that lies there, and nothing else changes |
| Vehicles.SetArrivalRadius | Behaviors/Vehicle.cs:172-180 | the stored radius lies in [0.01, float.MaxValue] and the squared radius is its square; nothing else changes |
| Vehicles.SetTurnTime | Behaviors/Vehicle.cs:204-208 | the stored turn time is never negative, is the value when that is non-negative, and nothing else changes |
| Vehicles.SettersKeepConsistent | Behaviors/Vehicle.cs:111-208 | every setter, given any value, keeps all the stored bounds and SquaredArrivalRadius == ArrivalRadius² |
| Vehicles.SettersRoundTrip | Behaviors/Vehicle.cs:111-208 | writing back a value just read changes nothing, and a clamping setter applied twice is applied once |
| Vehicles.IsInNeighborhood | Behaviors/Vehicle.cs:326-352 | never oneself; in strictly inside the minimum distance; out strictly beyond the maximum; otherwise in exactly when the forwardness exceeds cosMaxAngle |
| Vehicles.GetSeekVector | Behaviors/Vehicle.cs:372-396 | zero within the arrival radius; otherwise the force that carries the position, or the position plus the velocity, to the target |
| Vehicles.SeekStopsIffArrived | Behaviors/Vehicle.cs:380-386 | without the velocity term, the seek force is zero exactly when the target is within the arrival radius |
| Vehicles.GetTargetSpeedVector | Behaviors/Vehicle.cs:408-413 | the force is the forward vector scaled by at most MaxForce either way, and by the speed error itself when that is within MaxForce |
| Vehicles.TargetSpeedTowardTarget | Behaviors/Vehicle.cs:408-413 | the clamped scalar moves the speed toward the target speed and never past it |
| Vehicles.ApproximatelyZero | Behaviors/Vehicle.cs:459 | for a non-negative speed, Mathf.Approximately(relSpeed, 0) holds exactly below 8 × float.Epsilon |
| Vehicles.PredictNearestApproachTime | Behaviors/Vehicle.cs:449-478 | 0 when the relative speed is approximately zero; otherwise the time t with t·‖v‖² equal to the relative velocity dotted with the relative position |
| Vehicles.NearestApproachIsNearest | Behaviors/Vehicle.cs:449-478 | at the predicted time the two vehicles, moving at their current velocities, are at least as close as at any other time |
| Steering.Awake | Behaviors/Steering.cs:155-159 | after Awake arrival counts as reported and movement as not reported, so a behaviour that never moves raises nothing |
| Steering.Force | Behaviors/Steering.cs:42-77 | a non-zero force raises StartMoving only when movement was not yet reported and a handler is set, then marks moving; a zero force with arrival already reported raises nothing and changes no flag; otherwise Arrival is raised once, a requested retry recomputes the force once and clears the request, and a force still zero marks arrival |
| Steering.WeighedForce | Behaviors/Steering.cs:126-129 | the same read, with the same notifications and fields, scaled by the weight |
| Steering.ForceKeepsFlagsExclusive | Behaviors/Steering.cs:47-74 | arrival and movement are never both reported: Awake starts so and every read keeps it |
| Steering.ArrivalAnnouncedOnce | Behaviors/Steering.cs:56-74 | once arrival is reported, any run of zero-force reads raises nothing and arrival stays reported |
| Steering.StartAnnouncedOnce | Behaviors/Steering.cs:47-55 | once movement is reported, any run of non-zero reads raises nothing and movement stays reported |
| Steering.StopStartStop | Behaviors/Steering.cs:42-77 | from Awake, zero then moving then zero raises exactly StartMoving then Arrival |
| Tick.NewTick | Helpers/Tick.cs:11-27 | a new tick has an empty range at zero, next tick zero, and the lapse clamped at zero |
| Tick.DefaultTick | Helpers/Tick.cs:82-88 | the default constructor gives a lapse of 0.1f and next tick zero |
| Tick.SetRandomRangeMax | Helpers/Tick.cs:42-49 | the maximum is never set below the minimum, is the value when that is not below it, and keeps the range valid; nothing else changes |
| Tick.SetRandomRangeMin | Helpers/Tick.cs:54-61 | the minimum is never set above the maximum, is the value when that is not above it, and keeps the range valid; nothing else changes |
| Tick.SetTickLapse | Helpers/Tick.cs:70-79 | the lapse is never negative, is the value when that is non-negative, and the next tick is reset to zero |
| Tick.SetRangeOrder | Helpers/Tick.cs:42-61 | setting a range [lo, hi] through both setters gives exactly that range when the old bound on the other side does not stand in the way |
| Tick.SetRangeBlocked | Helpers/Tick.cs:42-61 | from [5, 5], setting the maximum to 2 and then the minimum to 1 leaves the range at [1, 5] |
| Tick.RandomRange | Helpers/Tick.cs:114 | Random.Range(min, max) lies in [min, max] for a non-empty range |
| Tick.TickBehavior | Helpers/Tick.cs:109-118 | answers CanTick; when false nothing changes; when true only the next tick changes, to now plus the override plus a value in the random range |
| Tick.TickBehaviorDefault | Helpers/Tick.cs:94-97 | the parameterless form uses the stored lapse as the override |
| Tick.NoTickBeforeLapse | Helpers/Tick.cs:109-128 | after ticking at `now` it cannot tick again until now + lapse + range minimum, and can after now + lapse + range maximum |
| Tick.LapseResetTicks | Helpers/Tick.cs:76-77 | setting the lapse makes the next check tick at any positive time |
| Speedometer.DefaultSpeedometer | Tools/Speedometer.cs:37-50 | the defaults: ten samples, a quarter second apart, the average refreshed every second |
| Speedometer.Awake | Tools/Speedometer.cs:77-82 | a negative sample count makes the allocation throw; otherwise the buffer has one zeroed slot per sample, the position is recorded and nothing else changes |
| Speedometer.AwakeDefault | Behaviors/Speedometer.cs:82-87 | with the defaults Awake succeeds with a valid zeroed buffer of ten slots |
| Speedometer.NextIndex | Tools/Speedometer.cs:105-108 | the index advances by one and wraps to zero at the end of the buffer |
| Speedometer.Measure | Tools/Speedometer.cs:102-111 | one sample writes the squared distance since the last position into the next slot, records the position and keeps the buffer valid; nothing else changes |
| Speedometer.MeasureSpeed | Behaviors/Speedometer.cs:107-116 | an empty buffer makes the write go out of range; otherwise one sample is taken |
| Speedometer.MeasureAll | Tools/Speedometer.cs:102-111 | a run of samples keeps the buffer valid and its size unchanged |
| Speedometer.SlotsDistinct | Tools/Speedometer.cs:105-108 | within one turn of the ring the slots written are all different |
| Speedometer.RingBuffer | Tools/Speedometer.cs:102-111 | after up to one turn of samples the j-th sits j slots past the starting index, the rest keep their old values, and the index points at the last sample |
| Speedometer.FullTurn | Behaviors/Speedometer.cs:107-116 | after exactly one turn the buffer holds the whole run, one sample per slot, and the index is back where it started |
| Speedometer.Speed | Tools/Speedometer.cs:56-74 | the cached speed is returned; it is recomputed only once the refresh interval has passed, as the root of the mean squared sample over the measuring interval, stamped with the current time |
| Speedometer.SumConstant | Tools/Speedometer.cs:64-68 | the sum of n equal samples is n times the sample |
| Speedometer.SpeedOfSteadyMotion | Behaviors/Speedometer.cs:61-79 | a vehicle that moved the same distance d in every interval reports d divided by the measuring interval |
| GoTimeline.ClampTotal | Assets/Plugins/GoKit/base/AbstractGoTween.cs:97 | the clock is clamped to [0, totalDuration], with no upper bound for an endless tween |
| GoTimeline.Trunc | Assets/Plugins/GoKit/base/AbstractGoTween.cs:101 | the cast to int keeps the whole part, rounding toward zero |
| GoTimeline.Fmod | Assets/Plugins/GoKit/base/AbstractGoTween.cs:142 | for a clock and a positive loop length, the remainder is the time into the current loop: below one loop, and adding the whole loops gives the clock back |
| GoTimeline.FloorCounts | Assets/Plugins/GoKit/base/AbstractGoTween.cs:101 | floor(total / duration) counts the whole loops that fit in the clock |
| GoTimeline.LoopCount | Assets/Plugins/GoKit/base/AbstractGoTween.cs:101 | for a non-zero loop length the count is the floor of clock / length; for a positive length and clock it is a non-negative n with n loops ≤ clock < n + 1 loops; for a zero length it is the cast of NaN or an infinity, `NonFiniteCast` |
| GoTimeline.LoopCountUnique | Assets/Plugins/GoKit/base/AbstractGoTween.cs:101 | the loop count is the only whole number of loops that brackets the clock |
| GoTimeline.LoopTime | Assets/Plugins/GoKit/base/AbstractGoTween.cs:125-143 | the loop time is the whole loop once all loops are run; for a positive loop length it lies within one loop and is the clock less the completed loops; for a zero loop length and an unfinished tween it is NaN |
| GoTimeline.Update | Assets/Plugins/GoKit/base/AbstractGoTween.cs:85-151 | for any loop length, a tick starts the tween, raising onStart only on the first tick when a handler is set, keeps the shape unchanged, keeps the clock within [0, totalDuration] when that total is not negative, and touches no other field |
| GoTimeline.UpdateClock | Assets/Plugins/GoKit/base/AbstractGoTween.cs:92-97 | the clock moves by deltaTime, backwards when reversed, and is clamped as Mathf.Clamp does: to 0 below zero and to the total above it, which for a negative total puts every clock at 0 or at the total |
| GoTimeline.UpdateLoops | Assets/Plugins/GoKit/base/AbstractGoTween.cs:100-143 | for loops that take time, after a tick the completed loops are the whole loops in the clock, the loop time is the rest (or the whole loop once finished), and the PingPong flag follows the parity rule |
| GoTimeline.UpdateState | Assets/Plugins/GoKit/base/AbstractGoTween.cs:125-148 | a tick completes the tween when a forward counted tween has run all its loops or a reversed one is back at zero, and leaves the state alone otherwise |
| GoTimeline.ConvertedWithinLoop | Assets/Plugins/GoKit/base/AbstractGoTween.cs:104-143 | for loops that take time, after any tick the time shown, mirrored on a backward pass, is a real time within one loop |
| GoTimeline.UpdateKeepsValid | Assets/Plugins/GoKit/base/AbstractGoTween.cs:85-151 | for a non-negative loop length, a tick keeps the tween's shape and its clock within [0, totalDuration] |
| GoTimeline.ForwardCompletesAtEnd | Assets/Plugins/GoKit/base/AbstractGoTween.cs:125-133 | a counted tween played forward completes exactly when its clock reaches the total duration, with every loop counted |
| GoTimeline.ReversedCompletesAtStart | Assets/Plugins/GoKit/base/AbstractGoTween.cs:146-148 | a reversed tween completes exactly when its clock reaches zero |
| GoTimeline.FinishedRestsAtEnd | Assets/Plugins/GoKit/base/AbstractGoTween.cs:114-128 | a finished counted tween rests at the end of the loop, except a PingPong tween with an even count, which rests at the start |
| GoTimeline.PassDirection | Assets/Plugins/GoKit/base/AbstractGoTween.cs:103-121 | before the end, a PingPong tween plays odd passes backward and even passes forward, and other tweens play every pass forward |
| GoTimeline.ZeroDurationStalls | Assets/Plugins/GoKit/base/AbstractGoTween.cs:92-148 | a forward counted tween whose loop lasts zero seconds keeps its clock at 0, counts `NonFiniteCast` loops, is not finished, shows NaN and keeps its state |
| GoTimeline.NegativeDurationCompletesAtOnce | Assets/Plugins/GoKit/base/AbstractGoTween.cs:92-133 | a forward counted tween whose loop lasts a negative time completes on any tick that does not move its clock below zero, with its clock at the (negative) total and every loop counted |
| GoTimeline.ZeroDurationNeverCompletes | Assets/Plugins/GoKit/base/AbstractGoTween.cs:85-151 | over any run of ticks a forward counted tween whose loop lasts zero seconds keeps its state: it never completes |
| GoTimeline.StartFiresOnce | Assets/Plugins/GoKit/base/AbstractGoTween.cs:61-67 | over any run of ticks onStart fires at most once, at the first tick of a tween not yet started |
| GoTimeline.Pause | Assets/Plugins/GoKit/base/AbstractGoTween.cs:198-201 | only the state changes, to Paused |
| GoTimeline.Play | Assets/Plugins/GoKit/base/AbstractGoTween.cs:207-210 | only the state changes, to Running |
| GoTimeline.PlayForward | Assets/Plugins/GoKit/base/AbstractGoTween.cs:216-220 | running forward whatever the direction was; nothing else changes |
| GoTimeline.PlayBackwards | Assets/Plugins/GoKit/base/AbstractGoTween.cs:226-230 | running backward whatever the direction was; nothing else changes |
| GoTimeline.Reverse | Assets/Plugins/GoKit/base/AbstractGoTween.cs:255-258 | only the direction flips |
| GoTimeline.ReverseInvolution | Assets/Plugins/GoKit/base/AbstractGoTween.cs:216-258 | reversing twice changes nothing, and reversing a tween played one way is playing it the other way |
| GoTimeline.CompleteTimeline | Assets/Plugins/GoKit/base/AbstractGoTween.cs:265-275 | an endless tween is left alone; otherwise the clock jumps to the end (the start when reversed), with the loops counted to match, and the tween runs; nothing else changes |
| GoTimeline.CompleteThenTickFinishes | Assets/Plugins/GoKit/base/AbstractGoTween.cs:265-275 | complete() followed by a zero tick finishes a counted tween whose loops take time, in either direction, at its end position |
| GoTimeline.CompleteThenTickStallsAtZeroDuration | Assets/Plugins/GoKit/base/AbstractGoTween.cs:265-275 | complete() followed by a zero tick leaves a forward counted tween whose loop lasts zero seconds running, unfinished, at a NaN loop time |
| GoTimeline.PositiveEndTimed | Assets/Plugins/GoKit/base/AbstractGoTween.cs:101 | a counted tween whose total duration is positive has loops that take time |
| GoTimeline.GoToTime | Assets/Plugins/GoKit/base/AbstractGoTween.cs:284-288 | the requested time is clamped to [0, totalDuration], or to twice that for PingPong, and is not negative unless the total is |
| GoTimeline.GoToPosition | Assets/Plugins/GoKit/base/AbstractGoTween.cs:282-305 | the clock is set to the clamped time; for a looping tween the completed loops are recounted from it, and the loop time is NaN when a loop lasts zero seconds; the shape is unchanged |
| GoTimeline.GoToLands | Assets/Plugins/GoKit/base/AbstractGoTween.cs:282-308 | goTo followed by its zero tick lands on the time clamped to [0, totalDuration] for either loop type, when that total is not negative |
| GoTimeline.GoToEndLands | Assets/Plugins/GoKit/base/AbstractGoTween.cs:282-308 | goTo(totalDuration) followed by its zero tick lands on the total duration, even a negative one |
| GoTweens.AddTweenProperty | Assets/Plugins/GoKit/GoTween.cs:162-181 | a property that accepts the target and is not listed yet is added; nothing is ever dropped; the list never gains a duplicate; nothing else changes |
| GoTweens.RemoveFirst | Assets/Plugins/GoKit/GoTween.cs:188 | List.Remove drops exactly one occurrence of a listed property and leaves an unlisted one's list as it was |
| GoTweens.RemoveTweenProperty | Assets/Plugins/GoKit/GoTween.cs:184-193 | answers true exactly when the property was listed; one copy goes, every other property stays, and without duplicates the property is gone |
| GoTweens.ClearTweenProperties | Assets/Plugins/GoKit/GoTween.cs:202-205 | afterwards no property is contained, and nothing else changes |
| GoTweens.AddRemoveRoundTrip | Assets/Plugins/GoKit/GoTween.cs:162-193 | adding a new property and removing it gives back the tween, and the removal reports it found |
| GoTweens.AddIdempotent | Assets/Plugins/GoKit/GoTween.cs:167-172 | adding the same property twice is adding it once |
| GoTweens.AddAll | Assets/Plugins/GoKit/GoTween.cs:74-83 | after adding a config's properties in order, exactly those that accepted the target are listed besides the old ones, without duplicates |
| GoTweens.NewGoTween | Assets/Plugins/GoKit/GoTween.cs:44-90 | a null target throws; otherwise the config is copied, the tween is paused only when the config says so, an onComplete argument wins, the accepted properties are listed once each, and the total duration is iterations × duration, endless for a negative count |
| GoTweens.Update | Assets/Plugins/GoKit/GoTween.cs:96-147 | for any duration, the answer is true exactly when target validation fails or the delay is over and the timeline is complete; onComplete is recorded as fired once the tween is done by completion; the shape is kept |
| GoTweens.DelayTick | Assets/Plugins/GoKit/GoTween.cs:114-126 | while delaying, the timeline stays put and the elapsed delay grows by the tick in unscaled seconds (not at all for a zero time scale); the delay is over once it reaches `delay` |
| GoTweens.RunTick | Assets/Plugins/GoKit/GoTween.cs:128-146 | after the delay, the base tick runs, the properties are shown at the loop time mirrored on a backward pass, and onComplete fires on the completing tick unless it already did |
| GoTweens.UpdateInvalid | Assets/Plugins/GoKit/GoTween.cs:99-112 | a tween whose target fails validation answers true, raises nothing and only turns on autoRemoveOnComplete |
| GoTweens.UpdateWhileDelaying | Assets/Plugins/GoKit/GoTween.cs:114-126 | a tick during the delay answers false, raises nothing and leaves the timeline unmoved |
| GoTweens.UpdateAfterDelay | Assets/Plugins/GoKit/GoTween.cs:128-146 | once the delay is over, a tick is the base tick plus the property update and a single onComplete on completion |
| GoTweens.CompleteFiresOnce | Assets/Plugins/GoKit/GoTween.cs:138-144 | over any run of ticks onComplete fires at most once, and never for a tween that already fired it |
| GoTweens.CompletedEvents | Assets/Plugins/GoKit/GoTween.cs:138-144 | one tick raises onComplete at most once, and only on the tick that first completes the tween |
| GoTweens.ZeroTimeScaleDelaysForever | Assets/Plugins/GoKit/GoTween.cs:118-119 | with a zero time scale the delay never runs out: any run of ticks raises nothing and never moves the timeline |
| GoTweens.Destroy | Assets/Plugins/GoKit/GoTween.cs:230-236 | the state is Destroyed, the properties are cleared and the target dropped, so the tween is no longer valid; nothing else changes |
| GoTweens.Rewind | Assets/Plugins/GoKit/GoTween.cs:262-272 | paused at the start with no loops counted and a loop time of 0, for any duration; the delay is skipped or, when not skipped, waited out again from zero |
| GoTweens.RewindDefault | Assets/Plugins/GoKit/GoTween.cs:256-259 | the parameterless rewind skips the delay |
| GoTweens.RestartAsWritten | Assets/Plugins/GoKit/base/AbstractGoTween.cs:243-249 | as written: restart calls the parameterless rewind, so the delay counts as done whatever skipDelay says; the tween runs from the start with onComplete armed again |
| GoTweens.Restart | Assets/Plugins/GoKit/base/AbstractGoTween.cs:239-249 | corrected: the delay is skipped or kept as skipDelay asks; the tween runs from the start with onComplete armed again |
| GoTweens.RestartSkippingAgrees | Assets/Plugins/GoKit/base/AbstractGoTween.cs:243-249 | with skipDelay true the corrected and the as-written restart agree |
| GoTweens.RestartAsWrittenSkipsDelay | Assets/Plugins/GoKit/base/AbstractGoTween.cs:243-249 | counterexample: as written, restart(false) on a delayed tween moves the clock on the very first tick |
| GoTweens.RestartWaitsOutDelay | Assets/Plugins/GoKit/GoTween.cs:114-126 | corrected: after restart(false) a tick shorter than the delay answers false, raises nothing and leaves the clock at zero |
| GoTweens.CompleteTween | Assets/Plugins/GoKit/GoTween.cs:278-287 | an endless tween is left alone; otherwise the timeline jumps to its end and the delay counts as done |
| GoTweens.CompleteThenTickIsDone | Assets/Plugins/GoKit/GoTween.cs:278-287 | complete() followed by a zero tick finishes a counted tween with a target whose loops take time, firing onComplete unless it already fired |
| GoTweens.GoToLandsOnTime | Assets/Plugins/GoKit/GoTween.cs:243-250 | goTo skips the delay and lands on the time clamped to [0, totalDuration] |
| GoTweens.GoToAndPlayRuns | Assets/Plugins/GoKit/base/AbstractGoTween.cs:314-318 | a counted forward tween sent to a time before its end keeps running and answers false |
| GoCollections.MatchesKeeps | Assets/Plugins/GoKit/base/AbstractGoTweenCollection.cs:154-199 | a tree that a tick or a positioning produced from a well-formed one has the same height and is well formed |
| GoCollections.MatchesTrans | Assets/Plugins/GoKit/base/AbstractGoTweenCollection.cs:154-199 | the "same items, same shapes" relation between trees chains across ticks |
| GoCollections.MatchesRefl | Assets/Plugins/GoKit/base/AbstractGoTweenCollection.cs:154-199 | every tree stands in the "same items, same shapes" relation to itself |
| GoCollections.CompleteFlows | Assets/Plugins/GoKit/base/AbstractGoTweenCollection.cs:166-175 | completing the children keeps every item's start time, kind and shape |
| GoCollections.CompleteAndTick | Assets/Plugins/GoKit/base/AbstractGoTweenCollection.cs:172-173 | complete() then update(0) on a child keeps its kind, shape and height |
| GoCollections.CompleteCollection | Assets/Plugins/GoKit/base/AbstractGoTweenCollection.cs:216-229 | an endless collection is left alone; otherwise the base complete runs, and every item keeps its kind and shape |
| GoCollections.GoToEndFlows | Assets/Plugins/GoKit/base/AbstractGoTweenCollection.cs:223-228 | sending the children to their ends keeps every item's start time, kind and shape |
| GoCollections.GoToFlows | Assets/Plugins/GoKit/base/AbstractGoTweenCollection.cs:185-194 | positioning the children keeps every item's start time, kind and shape |
| GoCollections.NodeGoTo | Assets/Plugins/GoKit/base/AbstractGoTweenCollection.cs:192 | goTo on a child keeps its kind, shape and height |
| GoCollections.CompleteFlowsAt | Assets/Plugins/GoKit/base/AbstractGoTweenCollection.cs:166-175 | the completing tick completes and ticks exactly the items that have a tween not yet complete, and leaves the others alone |
| GoCollections.GoToFlowsAt | Assets/Plugins/GoKit/base/AbstractGoTweenCollection.cs:185-194 | a running tick sends exactly the items with a tween whose start time has passed, and leaves the others alone |
| GoCollections.GoToEndFlowsAt | Assets/Plugins/GoKit/base/AbstractGoTweenCollection.cs:223-228 | complete() sends exactly the items with a tween of finite length to that length, and leaves the others alone |
| GoCollections.CompleteAndTickFinishes | Assets/Plugins/GoKit/base/AbstractGoTweenCollection.cs:169-174 | complete() then update(0) leaves a counted child whose loops take time complete |
| GoCollections.NodeGoToLands | Assets/Plugins/GoKit/base/AbstractGoTweenCollection.cs:192 | goTo on a child lands its clock on the time clamped to the child's [0, totalDuration], when that total is not negative |
| GoCollections.NodeGoToEnd | Assets/Plugins/GoKit/base/AbstractGoTweenCollection.cs:223-228 | goTo(totalDuration) on a child of finite length lands its clock on that length, even a negative one |
| GoCollections.UpdateCompletesChildren | Assets/Plugins/GoKit/base/AbstractGoTweenCollection.cs:161-180 | the tick that completes a collection completes every counted child whose loops take time with it |
| GoCollections.UpdatePositionsChildren | Assets/Plugins/GoKit/base/AbstractGoTweenCollection.cs:182-196 | a tick that does not complete the collection and shows a real time sends every child whose start time has passed to that time less its start time; every other child, and every child when the time shown is NaN, is left as it was |
| GoCollections.RunningFlows | Assets/Plugins/GoKit/base/AbstractGoTweenCollection.cs:154-199 | a tick that does not complete the collection changes the items only by positioning them, and not at all when the time shown is NaN |
| GoCollections.CompleteSendsChildrenToEnd | Assets/Plugins/GoKit/base/AbstractGoTweenCollection.cs:216-229 | complete() on a counted collection sends every child of finite length to its end |
| GoCollections.CompleteThenUpdateDone | Assets/Plugins/GoKit/base/AbstractGoTweenCollection.cs:154-229 | complete() followed by update(0) finishes a counted collection |
| GoCollections.NewCollection | Assets/Plugins/GoKit/base/AbstractGoTweenCollection.cs:40-52 | a new collection copies the config's id, loops and handlers, has time scale 1, starts paused and forward, holds no items, has duration and total duration 0, and is well formed |
| GoCollections.ZeroDurationNeverDone | Assets/Plugins/GoKit/base/AbstractGoTweenCollection.cs:154-199 | a forward collection of duration and total duration 0 that is not complete is never done by a tick: its clock stays at 0, the time shown is NaN, its state and shape are kept and no child moves |
| GoCollections.Rewind | Assets/Plugins/GoKit/base/AbstractGoTweenCollection.cs:202-210 | for any duration, paused at the start with no loops counted and a loop time of 0; the children stay where they are; nothing else changes |
| GoCollections.Restart | Assets/Plugins/GoKit/base/AbstractGoTween.cs:243-249 | running from the start with onComplete armed again; the children stay where they are |
| GoCollections.RestartRearms | Assets/Plugins/GoKit/base/AbstractGoTween.cs:243-249 | a restarted collection can complete again and fire onComplete a second time |
| GoCollections.ContainsIffListed | Assets/Plugins/GoKit/base/AbstractGoTweenCollection.cs:109-139 | the containment search and allTweenProperties agree: contained exactly when listed |
| GoCollections.RemoveTweenProperty | Assets/Plugins/GoKit/base/AbstractGoTweenCollection.cs:93-106 | answers true exactly when the tree contains the property; then exactly one copy is gone from allTweenProperties, otherwise nothing changes |
| GoCollections.RemoveFromFlows | Assets/Plugins/GoKit/base/AbstractGoTweenCollection.cs:95-105 | the search stops at the first item whose tween removes the property; one copy goes from the items' properties, or nothing changes |
| GoCollections.TweensWithTarget | Assets/Plugins/GoKit/base/AbstractGoTweenCollection.cs:61-90 | every tween returned has the requested target |
| GoCollections.TweensWithTargetIsFilter | Assets/Plugins/GoKit/base/AbstractGoTweenCollection.cs:61-90 | tweensWithTarget is exactly the tree's tweens, depth first, filtered by target: none missed, none extra, in order |
| TestityMath.Max | Testity-master/src/Testity.EngineMath/Math/MathT.cs:53-57 | the result is one of the two arguments |
| TestityMath.Min | Testity-master/src/Testity.EngineMath/Math/MathT.cs:59-63 | the result is one of the two arguments |
| TestityMath.IntMaxMin | Testity-master/src/Testity.EngineMath/Math/MathT.cs:53-63 | on int, Max bounds both arguments from above and Min from below, and a tie returns the first argument |
| TestityMath.RealMaxMin | Testity-master/src/Testity.EngineMath/Math/MathT.cs:53-63 | the same bounds and tie rule on float and double read as exact reals |
| TestityMath.Vector3XY | Testity-master/src/Testity.EngineMath/Vector/Vector3.cs:197-213 | the two-argument constructor reads x and y at indexes 0 and 1 and zero at index 2 |
| TestityMath.Get3 | Testity-master/src/Testity.EngineMath/Vector/Vector3.cs:157-188 | the indexer reads x, y, z at 0, 1, 2 and throws IndexOutOfRangeException at any other index |
| TestityMath.Set3 | Testity-master/src/Testity.EngineMath/Vector/Vector3.cs:157-188 | the indexer's setter throws outside 0..2; otherwise the addressed index reads back the value and every other index reads as before |
| TestityMath.Get3Extensional | Testity-master/src/Testity.EngineMath/Vector/Vector3.cs:157-188 | two vectors that read the same at every index are equal |
| TestityMath.Set3RoundTrip | Testity-master/src/Testity.EngineMath/Vector/Vector3.cs:157-188 | writing a component and then writing back the old value restores the vector |
| TestityMath.SetAll3 | Testity-master/src/Testity.EngineMath/Vector/Vector3.cs:332-337 | Set overwrites all three indexes with the new values |
| TestityMath.Equals3 | Testity-master/src/Testity.EngineMath/Vector/Vector3.cs:215-229 | Equals(Vector3) holds exactly when the two vectors are the same value |
| TestityMath.EqualsObject3 | Testity-master/src/Testity.EngineMath/Vector/Vector3.cs:215-229 | Equals(object) is false for anything but a Vector3, and otherwise value equality |
| TestityMath.EqualFrom3 | Testity-master/src/Testity.EngineMath/Vector/Vector3.cs:264-275 | the comparison loop from index i holds exactly when every remaining index reads the same |
| TestityMath.Equality3 | Testity-master/src/Testity.EngineMath/Vector/Vector3.cs:264-281 | operator ==, Equals and value equality agree; != is the exact complement; == is reflexive and symmetric |
| TestityMath.ScalarMul3 | Testity-master/src/Testity.EngineMath/Vector/Vector3.cs:289-302 | scalar times vector equals vector times scalar: component i is the element type's product of component i and the scalar |
| TestityMath.ScalarMulReal3 | Testity-master/src/Testity.EngineMath/Vector/Vector3.cs:289-302 | for `float`: scaling by 1 is the identity, scaling distributes over vector addition, and scaling twice is scaling by the product |
| TestityMath.ScalarMulInt3 | Testity-master/src/Testity.EngineMath/Vector/Vector3.cs:289-302 | for `int`: scaling by 1 is the identity and scaling by 0 gives the zero vector |
| TestityMath.Max3 | Testity-master/src/Testity.EngineMath/Vector/Vector3.cs:242-255 | each component of Max is MathT.Max of the two components at that index |
| TestityMath.Min3 | Testity-master/src/Testity.EngineMath/Vector/Vector3.cs:242-255 | each component of Min is MathT.Min of the two components at that index |
| TestityMath.IntVectorMaxMin | Testity-master/src/Testity.EngineMath/Vector/Vector3.cs:242-255 | on int vectors, each component of Max is at least, and of Min at most, both inputs' components |
| TestityMath.IntAdd3 | Testity-master/src/Testity.EngineMath/Vector/Vector3.cs:258-262 | int vector addition wraps each component to 32 bits and is still commutative and associative |
| TestityMath.IntSubIsAddNeg | Testity-master/src/Testity.EngineMath/Vector/Vector3.cs:310-323 | on int vectors a − b is a + (−b), even where the negation wraps |
| TestityMath.IntNegInvolution | Testity-master/src/Testity.EngineMath/Vector/Vector3.cs:320-323 | negating a 32-bit int vector twice gives it back, int.MinValue included |
| TestityMath.RealVectorAlgebra | Testity-master/src/Testity.EngineMath/Vector/Vector3.cs:258-323 | on exact reals + commutes, − is + of the negation, and negation is an involution |
| TestityMath.IntDirections | Testity-master/src/Testity.EngineMath/Vector/Vector3.cs:68-155 | on int, left, down and back are the negations of right, up and forward; one is (1, 1, 1) = right + up + forward; zero is (0, 0, 0) |
| TestityMath.Vector2X | Testity-master/src/Testity.EngineMath/Vector/Vector2.cs:159-173 | the one-argument constructor reads x at index 0 and zero at index 1 |
| TestityMath.Get2 | Testity-master/src/Testity.EngineMath/Vector/Vector2.cs:125-152 | the indexer reads x, y at 0, 1 and throws at any other index |
| TestityMath.Set2 | Testity-master/src/Testity.EngineMath/Vector/Vector2.cs:125-152 | the setter throws outside 0..1; otherwise only the addressed index changes |
| TestityMath.Equals2 | Testity-master/src/Testity.EngineMath/Vector/Vector2.cs:175-189 | Equals(Vector2) holds exactly when the two vectors are the same value |
| TestityMath.EqualFrom2 | Testity-master/src/Testity.EngineMath/Vector/Vector2.cs:223-234 | the comparison loop from index i holds exactly when every remaining index reads the same |
| TestityMath.Equality2 | Testity-master/src/Testity.EngineMath/Vector/Vector2.cs:223-240 | operator ==, Equals and value equality agree; != is the complement; == is reflexive |
| TestityMath.ScalarMul2 | Testity-master/src/Testity.EngineMath/Vector/Vector2.cs:248-261 | scalar times vector equals vector times scalar: component i is the element type's product of component i and the scalar |
| TestityMath.ScalarMulReal2 | Testity-master/src/Testity.EngineMath/Vector/Vector2.cs:248-261 | for `float`: scaling by 1 is the identity, scaling distributes over vector addition, and scaling twice is scaling by the product |
| TestityMath.ScalarMulInt2 | Testity-master/src/Testity.EngineMath/Vector/Vector2.cs:248-261 | for `int`: scaling by 1 is the identity and scaling by 0 gives the zero vector |
| TestityMath.Max2 | Testity-master/src/Testity.EngineMath/Vector/Vector2.cs:202-215 | each component of Max is MathT.Max of the two components at that index |
| TestityMath.Min2 | Testity-master/src/Testity.EngineMath/Vector/Vector2.cs:202-215 | each component of Min is MathT.Min of the two components at that index |
| TestityMath.IntVector2Algebra | Testity-master/src/Testity.EngineMath/Vector/Vector2.cs:218-282 | int vector + wraps each component and commutes; − is + of the negation; a − a is zero |
| TestityMath.IntDirections2 | Testity-master/src/Testity.EngineMath/Vector/Vector2.cs:61-123 | on int, left and down are the negations of right and up; right + up is one; zero is (0, 0) |
| TestityQuaternion.Get4 | Testity-master/src/Testity.EngineMath/Quaternion/Quaternion.cs:95-133 | the indexer reads x, y, z, w at 0..3 and throws IndexOutOfRangeException at any other index |
| TestityQuaternion.Set4 | Testity-master/src/Testity.EngineMath/Quaternion/Quaternion.cs:95-133 | the setter throws outside 0..3; otherwise the addressed index reads back the value and the others read as before |
| TestityQuaternion.Get4Extensional | Testity-master/src/Testity.EngineMath/Quaternion/Quaternion.cs:95-133 | two quaternions that read the same at every index are equal |
| TestityQuaternion.Xyz | Testity-master/src/Testity.EngineMath/Quaternion/Quaternion.cs:81-93 | xyz reads the same as the quaternion's first three indexes |
| TestityQuaternion.SetXyz | Testity-master/src/Testity.EngineMath/Quaternion/Quaternion.cs:81-93 | setting xyz writes the first three indexes from the vector and leaves w |
| TestityQuaternion.XyzRoundTrip | Testity-master/src/Testity.EngineMath/Quaternion/Quaternion.cs:81-93 | setting xyz and reading it back gives the vector with w unchanged; setting xyz to what it reads changes nothing |
| TestityQuaternion.FromVector | Testity-master/src/Testity.EngineMath/Quaternion/Quaternion.cs:155-174 | the (v, w) constructor's xyz is v and its last index is w |
| TestityQuaternion.FromVectorComponents | Testity-master/src/Testity.EngineMath/Quaternion/Quaternion.cs:155-174 | the (v, w) constructor agrees with the four-component one on v's indexes |
| TestityQuaternion.SetAll4 | Testity-master/src/Testity.EngineMath/Quaternion/Quaternion.cs:184-190 | Set overwrites all four indexes with the new values |
| TestityQuaternion.Identity | Testity-master/src/Testity.EngineMath/Quaternion/Quaternion.cs:74 | identity has xyz zero and w one in the element type |
| TestityQuaternion.EqualsObject4 | Testity-master/src/Testity.EngineMath/Quaternion/Quaternion.cs:192-201 | Equals(object) is false for anything but a Quaternion, and otherwise value equality |
| TestityQuaternion.QuaternionOperators | Testity-master/src/Testity.EngineMath/Quaternion/Quaternion.cs:208-216 | != is the exact complement of ==, and == is symmetric |
| TestityQuaternion.UnitEqualsItself | Testity-master/src/Testity.EngineMath/Quaternion/Quaternion.cs:208-216 | a unit quaternion, identity among them, is == to itself |
| TestityQuaternion.OperatorIsNotEquals | Testity-master/src/Testity.EngineMath/Quaternion/Quaternion.cs:192-216 | == is not Equals: the zero quaternion Equals itself but is not == to itself, and (0, 0, 0, 2) is == to identity without being Equal to it |
| TestityVectorExtensions.DotInt | Testity-master/src/Testity.EngineMath/Extensions/Vector/Vector3Extensions.cs:296-299 | the `int` dot product, with every product and sum wrapping, is the exact dot product wrapped once to 32 bits |
| TestityVectorExtensions.DotByte | Testity-master/src/Testity.EngineMath/Extensions/Vector/Vector3Extensions.cs:316-319 | the `byte` dot product is the exact dot product modulo 256, which is also the `int` dot product modulo 256 |
| TestityVectorExtensions.DotChar | Testity-master/src/Testity.EngineMath/Extensions/Vector/Vector3Extensions.cs:306-309 | the `char` dot product is the exact dot product modulo 65536, even though the intermediate `int` products may wrap |
| TestityVectorExtensions.CharDotWraps | Testity-master/src/Testity.EngineMath/Extensions/Vector/Vector3Extensions.cs:296-309 | for (65535, 0, 0) with itself the `int` dot product wraps to -131071, while the `char` dot product is 1 |
| TestityVectorExtensions.SqrMagnitude | Testity-master/src/Testity.EngineMath/Extensions/Vector/Vector3Extensions.cs:211-223 | the square magnitude is never negative, equals the dot product of the vector with itself, and is zero exactly for the zero vector |
| TestityVectorExtensions.SqrMagnitudeInt | Testity-master/src/Testity.EngineMath/Extensions/Vector/Vector3Extensions.cs:229-232 | the `int` square magnitude is a 32-bit value and equals the `int` dot product of the vector with itself |
| TestityVectorExtensions.SqrMagnitudeIntSmall | Testity-master/src/Testity.EngineMath/Extensions/Vector/Vector3Extensions.cs:229-232 | when every component is below 26755 in size, the `int` square magnitude is exact and non-negative |
| TestityVectorExtensions.SqrMagnitudeIntWraps | Testity-master/src/Testity.EngineMath/Extensions/Vector/Vector3Extensions.cs:229-232 | for (46341, 0, 0) the `int` sum of squares wraps to a negative number |
| TestityVectorExtensions.ScaleInt | Testity-master/src/Testity.EngineMath/Extensions/Vector/Vector3Extensions.cs:402-405 | each component of the `int` Scale is the product of the matching components, wrapped to 32 bits |
| TestityVectorExtensions.ScaleByte | Testity-master/src/Testity.EngineMath/Extensions/Vector/Vector3Extensions.cs:412-415 | the `byte` Scale is the `int` Scale reduced to its low eight bits, component by component |
| TestityVectorExtensions.ByteProduct | Testity-master/src/Testity.EngineMath/Extensions/Vector/Vector3Extensions.cs:412-415 | the product of two bytes computed in `int` never wraps |
| TestityVectorExtensions.DotIsSumOfScaleReal | Testity-master/src/Testity.EngineMath/Extensions/Vector/Vector3Extensions.cs:276-289 | the float and double dot product is the sum of the components of Scale, and Scaling a vector by itself squares each component |
| TestityVectorExtensions.DotIsSumOfScaleInt | Testity-master/src/Testity.EngineMath/Extensions/Vector/Vector3Extensions.cs:296-299 | the `int` dot product is the wrapped sum of the components of the `int` Scale |
| TestityVectorExtensions.CrossAlgebra | Testity-master/src/Testity.EngineMath/Extensions/Vector/Vector3Extensions.cs:14-24 | Cross is anti-commutative and orthogonal to both of its arguments |
| TestityVectorExtensions.ReflectInt | Testity-master/src/Testity.EngineMath/Extensions/Vector/Vector3Extensions.cs:354-360 | an `int` direction orthogonal to the normal reflects to itself |
| TestityVectorExtensions.ReflectIntExact | Testity-master/src/Testity.EngineMath/Extensions/Vector/Vector3Extensions.cs:354-360 | the `int` Reflect is the exact reflection d - 2 (n . d) n, wrapped once per component |
| TestityVectorExtensions.ReflectReal | Testity-master/src/Testity.EngineMath/Extensions/Vector/Vector3Extensions.cs:328-347 | the normal component of the reflected vector is the incoming one scaled by 1 - 2 (n . n) |
| TestityVectorExtensions.ReflectUnit | Testity-master/src/Testity.EngineMath/Extensions/Vector/Vector3Extensions.cs:328-347 | with a unit normal, Reflect negates the normal component, and reflecting twice gives back the direction |
| TestityVectorExtensions.Normalized | Testity-master/src/Testity.EngineMath/Extensions/Vector/Vector3Extensions.cs:32-54 | Normalized returns the zero vector when the magnitude is at most kEpsilon; otherwise it returns a vector of length one that, times the magnitude, gives back the input |
| TestityVectorExtensions.NormalizedScalesBack | Testity-master/src/Testity.EngineMath/Extensions/Vector/Vector3Extensions.cs:39 | dividing by a non-zero magnitude and multiplying back is the identity |
| TestityVectorExtensions.ScaleSqrMagnitude | Testity-master/src/Testity.EngineMath/Extensions/Vector/Vector3Extensions.cs:211-223 | scaling a vector by k multiplies its square magnitude by k squared |
| TestityVectorExtensions.ClampMagnitude | Testity-master/src/Testity.EngineMath/Extensions/Vector/Vector3Extensions.cs:63-122 | ClampMagnitude's result never has a square magnitude above maxLength squared; a vector within the bound is returned unchanged; a clamped vector whose magnitude exceeds kEpsilon lands exactly on the bound |
| TestityVectorExtensions.Project | Testity-master/src/Testity.EngineMath/Extensions/Vector/Vector3Extensions.cs:133-174 | Project returns zero for a negligible normal (at most kEpsilon for double, below it for float); otherwise it returns the multiple (v . n)/(n . n) of the normal, and the residue is orthogonal to the normal |
| TestityVectorExtensions.ResidueOrthogonal | Testity-master/src/Testity.EngineMath/Extensions/Vector/Vector3Extensions.cs:142 | a vector minus its component along a non-zero normal is orthogonal to that normal |
| TestityVectorExtensions.ProjectOnPlane | Testity-master/src/Testity.EngineMath/Extensions/Vector/Vector3Extensions.cs:150-184 | ProjectOnPlane's result is orthogonal to any non-negligible normal, and a negligible normal leaves the vector unchanged |
| TestityVectorExtensions.ProjectOnPlaneIdempotent | Testity-master/src/Testity.EngineMath/Extensions/Vector/Vector3Extensions.cs:150-184 | projecting onto a plane twice gives the same result as projecting once |
| TestityServices.EmptyDictionary | Testity-master/src/Testity.EngineServices/Collections/EngineObjectReferenceDictionary.cs:21-56 | a new reference dictionary, whatever its initial size or comparer, holds no registrations |
| TestityServices.Register | Testity-master/src/Testity.EngineServices/Collections/EngineObjectReferenceDictionary.cs:65-77 | a null key or reference throws ArgumentNullException; otherwise the key set grows by the key, an existing mapping is never overwritten, a fresh key maps to the reference, and the answer is always true |
| TestityServices.TryLookup | Testity-master/src/Testity.EngineServices/Collections/EngineObjectReferenceDictionary.cs:85-91 | a null key throws; a present key gives its stored reference and an absent key gives null |
| TestityServices.TryUnregister | Testity-master/src/Testity.EngineServices/Collections/EngineObjectReferenceDictionary.cs:98-112 | a present key is removed and its reference handed back with success; an absent key gives failure with null and leaves the dictionary unchanged; the other mappings are kept |
| TestityServices.RegisterThenLookup | Testity-master/src/Testity.EngineServices/Collections/EngineObjectReferenceDictionary.cs:65-91 | after Register, a lookup finds the new reference for a fresh key, and the first reference for a key that was already registered |
| TestityServices.RegisterUnregisterRoundTrip | Testity-master/src/Testity.EngineServices/Collections/EngineObjectReferenceDictionary.cs:65-112 | registering a fresh key and then unregistering it hands back the reference and restores the dictionary; unregistering it a second time fails |
| TestityServices.NewTracker | Testity-master/src/Testity.BuildProcess.Unity3D/Services/TestityGenericEventTracker.cs:17-21 | a new tracker has nothing pending and nothing handled |
| TestityServices.TrackerRegister | Testity-master/src/Testity.BuildProcess.Unity3D/Services/TestityGenericEventTracker.cs:23-36 | a null name throws; a name already pending or already handled is ignored; any other name is recorded with its arguments, and nothing else changes |
| TestityServices.GetAdditionsAndClear | Testity-master/src/Testity.BuildProcess.Unity3D/Services/TestityGenericEventTracker.cs:38-51 | the drain returns the pending entries, moves their names into the handled set and leaves nothing pending; it throws ArgumentException exactly when a pending name was already handled, which a valid tracker rules out |
| TestityServices.RunTracker | Testity-master/src/Testity.BuildProcess.Unity3D/Services/TestityGenericEventTracker.cs:23-51 | any sequence of registrations and drains keeps the tracker valid and never shrinks the handled set |
| TestityServices.EachNameHandedOutOnce | Testity-master/src/Testity.BuildProcess.Unity3D/Services/TestityGenericEventTracker.cs:23-51 | over a whole run no name is handed out twice: the drained snapshots are pairwise disjoint, none of them repeats a name handled earlier, and every name handed out ends up handled |
| TestityServices.RegisterDrainRegister | Testity-master/src/Testity.BuildProcess.Unity3D/Services/TestityGenericEventTracker.cs:23-51 | a name registered on a fresh tracker comes out of the next drain, and registering it again afterwards does nothing |
| TestityTypes.GenerateFrom | Testity-master/src/Testity.BuildProcess/Builders/DefaultTypeSyntaxBuilder.cs:23-39 | a non-generic type gives its FullName with '+' replaced by '.', and fails exactly when the FullName is null; a generic type gives a generic name, which is the definition's FullName cut before its first backtick, with one syntax per type argument in order |
| TestityTypes.GenerateFromList | Testity-master/src/Testity.BuildProcess/Builders/DefaultTypeSyntaxBuilder.cs:13-21 | the list of syntaxes has one entry per type, in order, and succeeds only when every type can be named |
| TestityTypes.GenericArgumentFailurePropagates | Testity-master/src/Testity.BuildProcess/Builders/DefaultTypeSyntaxBuilder.cs:25-34 | a type argument that cannot be named makes the enclosing generic name fail as well |
| TestityTypes.TypeToLoadableString | Testity-master/src/Testity.BuildProcess.Unity3D/BuildProcessImplementations/UnitySerializedFieldImplementationProvider.cs:160-193 | the comma loop produces exactly the reference loadable string: the namespace, the name, the bracketed arguments when the type is generic, and the assembly's short name |
| TestityTypes.JoinAddsSeparators | Testity-master/src/Testity.BuildProcess.Unity3D/BuildProcessImplementations/UnitySerializedFieldImplementationProvider.cs:166-178 | joining n parts adds exactly n - 1 commas: one between neighbours, none trailing |
| TestityTypes.LoadableArgumentCommas | Testity-master/src/Testity.BuildProcess.Unity3D/BuildProcessImplementations/UnitySerializedFieldImplementationProvider.cs:162-185 | the bracketed arguments of a generic type with n arguments are separated by exactly n - 1 commas |
| TestityMapping.IsActionTypeChecked | Testity-master/src/Testity.BuildProcess.Unity3D/TypeMapping/TestityToUnity/ActionTypeRelationalMapper.cs:27-31 | a null type throws NullReferenceException; otherwise a type counts as an Action type exactly when it is Action or a generic type whose definition is Action<> through Action<,,,> |
| TestityMapping.IsGenericActionType | Testity-master/src/Testity.BuildProcess.Unity3D/TypeMapping/TestityToUnity/ActionTypeRelationalMapper.cs:33-36 | a type is a generic Action type exactly when it is an Action type and is generic; a null type throws |
| TestityMapping.FindUnityEventTypeByArgCount | Testity-master/src/Testity.BuildProcess.Unity3D/TypeMapping/TestityToUnity/ActionTypeRelationalMapper.cs:68-87 | argument counts 0 to 4 give TestityEvent and its generic definitions of that arity; any other count throws ArgumentException |
| TestityMapping.ResolveAction | Testity-master/src/Testity.BuildProcess.Unity3D/TypeMapping/TestityToUnity/ActionTypeRelationalMapper.cs:17-66 | a non-Action type maps to null and Action maps to TestityEvent; a well-formed generic Action maps to the TestityEvent of the same arity, closed over the same type arguments in the same order |
| TestityMapping.ActionArity | Testity-master/src/Testity.BuildProcess.Unity3D/TypeMapping/TestityToUnity/ActionTypeRelationalMapper.cs:15-31 | a well-formed generic Action type has between one and four type arguments |
| TestityMapping.ActionMapperExamples | Testity-master/src/Testity.BuildProcess.Unity3D/TypeMapping/TestityToUnity/ActionTypeRelationalMapper.cs:15-66 | Action<int> maps to TestityEvent<int>, while Action with five parameters and Func<> map to null |
| TestityMapping.Sanitize | Testity-master/src/Testity.BuildProcess.Unity3D/TypeMapping/TestityToUnity/ActionTypeRelationalMapper.cs:45 | removing the characters outside [a-zA-Z0-9 -] leaves only allowed characters and never lengthens the text; a text that holds only allowed characters is kept as it is |
| TestityMapping.SanitizeAppend | Testity-master/src/Testity.BuildProcess.Unity3D/TypeMapping/TestityToUnity/ActionTypeRelationalMapper.cs:45 | sanitising text that is joined from two parts is the same as joining the sanitised parts |
| TestityMapping.SanitizeKeeps | Testity-master/src/Testity.BuildProcess.Unity3D/TypeMapping/TestityToUnity/ActionTypeRelationalMapper.cs:45 | a character survives sanitising exactly when it is allowed and occurs in the input |
| TestityMapping.SanitizeIdempotent | Testity-master/src/Testity.BuildProcess.Unity3D/TypeMapping/TestityToUnity/ActionTypeRelationalMapper.cs:45 | sanitising twice is the same as sanitising once |
| TestityMapping.GetSharedGenericEventTypeName | Testity-master/src/Testity.BuildProcess.Unity3D/TypeMapping/TestityToUnity/ActionTypeRelationalMapper.cs:38-46 | a null argument collection throws ArgumentNullException; otherwise the name starts with "TestityEvent" and holds only characters that are valid in a type name |
| TestityMapping.PrefixSurvives | Testity-master/src/Testity.BuildProcess.Unity3D/TypeMapping/TestityToUnity/ActionTypeRelationalMapper.cs:45 | the "TestityEvent" prefix passes through sanitising unchanged |
| TestityMapping.SharedNameDependsOnText | Testity-master/src/Testity.BuildProcess.Unity3D/TypeMapping/TestityToUnity/ActionTypeRelationalMapper.cs:38-46 | two argument lists whose FullNames concatenate to the same text get the same event name |
| TestityMapping.ResolveDefault | Testity-master/src/Testity.BuildProcess.Unity3D/TypeMapping/TestityToUnity/DefaultTypeRelationalMapper.cs:17-30 | a null type throws ArgumentNullException; an interface maps to MonoBehaviour and every other type maps to null |
| TestityMapping.NewMapperChain | Testity-master/src/Testity.BuildProcess.Unity3D/TypeMapping/TestityToUnity/UnityBuildProcessTypeRelationalMapper.cs:13-22 | a null chain throws ArgumentNullException and an empty chain throws ArgumentException; otherwise the mappers are kept in order |
| TestityMapping.ResolveFrom | Testity-master/src/Testity.BuildProcess.Unity3D/TypeMapping/TestityToUnity/UnityBuildProcessTypeRelationalMapper.cs:29-37 | the answer is the first non-null answer from the mappers, each earlier mapper having answered null; a mapper's exception is passed on; when every mapper answers null the result is ArgumentException |
| TestityMapping.ResolveChain | Testity-master/src/Testity.BuildProcess.Unity3D/TypeMapping/TestityToUnity/UnityBuildProcessTypeRelationalMapper.cs:24-38 | a null type throws ArgumentNullException; otherwise the chain gives the first-answer result over all of its mappers |
| TestityMapping.LaterMappersIgnored | Testity-master/src/Testity.BuildProcess.Unity3D/TypeMapping/TestityToUnity/UnityBuildProcessTypeRelationalMapper.cs:29-35 | once a mapper answers, mappers appended after it change nothing |
| TestityMapping.ActionThenDefaultChain | Testity-master/src/Testity.BuildProcess.Unity3D/TypeMapping/TestityToUnity/UnityBuildProcessTypeRelationalMapper.cs:24-38 | the action mapper followed by the default mapper maps Action<int> to TestityEvent<int> and an interface to MonoBehaviour, and throws ArgumentException for System.String |
| TestityBuilder.ConvertToSyntaxKind | Testity-master/src/Testity.BuildProcess/Extensions/MemberImplementationModifierExtensions.cs:25-46 | a modifier value converts exactly when some keyword's table value equals it, and then to a keyword with that value; any other value throws ArgumentException |
| TestityBuilder.Selected | Testity-master/src/Testity.BuildProcess/Extensions/MemberImplementationModifierExtensions.cs:20-21 | the selected values are exactly the declared enum values that the flags hold, never more than were declared |
| TestityBuilder.ToSyntaxKind | Testity-master/src/Testity.BuildProcess/Extensions/MemberImplementationModifierExtensions.cs:17-23 | the conversion succeeds exactly when every declared value the flags hold converts, and then gives one keyword per held value, in declaration order; otherwise it throws ArgumentException |
| TestityBuilder.SelectedNoDuplicates | Testity-master/src/Testity.BuildProcess/Extensions/MemberImplementationModifierExtensions.cs:20-21 | when the enum lists each value once, the held values are listed once too |
| TestityBuilder.KeywordsDistinct | Testity-master/src/Testity.BuildProcess/Extensions/MemberImplementationModifierExtensions.cs:17-46 | when the enum lists each value once, the keywords produced are pairwise distinct |
| TestityBuilder.SelectedNone | Testity-master/src/Testity.BuildProcess/Extensions/MemberImplementationModifierExtensions.cs:20-21 | when no declared value is held, nothing is selected |
| TestityBuilder.SelectedSingle | Testity-master/src/Testity.BuildProcess/Extensions/MemberImplementationModifierExtensions.cs:20-21 | when exactly one declared value is held and it is listed once, exactly that value is selected |
| TestityBuilder.PrivateOnly | Testity-master/src/Testity.BuildProcess/Extensions/MemberImplementationModifierExtensions.cs:17-30 | when Private is listed once and no other declared value is a sub-mask of it, Private converts to exactly [private] |
| TestityBuilder.UnityAttributes | Testity-master/src/Testity.BuildProcess.Unity3D/BuildProcessImplementations/UnitySerializedFieldImplementationProvider.cs:51-157 | every Unity field carries two attributes: SerializeField, then the wired-to attribute holding the loadable string of the type it is wired to |
| TestityBuilder.SerializedFieldFromType | Testity-master/src/Testity.BuildProcess.Unity3D/BuildProcessImplementations/UnitySerializedFieldImplementationProvider.cs:23-35 | a null type throws NullReferenceException and a null FullName ArgumentNullException; the provider fails exactly in those cases or when Private does not convert; otherwise it carries the member name, the parsed FullName, Private's keywords and the two Unity attributes |
| TestityBuilder.SerializedFieldFromName | Testity-master/src/Testity.BuildProcess.Unity3D/BuildProcessImplementations/UnitySerializedFieldImplementationProvider.cs:37-49 | the provider built from a full type name carries the member name, the parsed name, Private's keywords and the two Unity attributes |
| TestityBuilder.SerializedFieldsArePrivate | Testity-master/src/Testity.BuildProcess.Unity3D/BuildProcessImplementations/UnitySerializedFieldImplementationProvider.cs:23-49 | both constructors give a field whose only modifier is private |
| TestityBuilder.NewClassBuilder | Testity-master/src/Testity.BuildProcess/Builders/TestityClassBuilder.cs:52-58 | a new builder has the class name, no members, no bases and no modifiers, and satisfies the builder invariant |
| TestityBuilder.NewClassBuilderWithModifiers | Testity-master/src/Testity.BuildProcess/Builders/TestityClassBuilder.cs:43-50 | a new builder takes the keywords of its modifiers and fails exactly when they do not convert |
| TestityBuilder.AddBaseClass | Testity-master/src/Testity.BuildProcess/Builders/TestityClassBuilder.cs:60-83 | a type that is neither a class nor an interface throws InvalidOperationException, and so does a second class base; otherwise the type-syntax builder it is given is asked for the base: its error is thrown, or its syntax is appended, the class flag is updated, nothing else changes, and the invariant is kept |
| TestityBuilder.AddBases | Testity-master/src/Testity.BuildProcess/Builders/TestityClassBuilder.cs:66-83 | any series of AddBaseClass calls leaves at most one class base and keeps the members |
| TestityBuilder.InterfacesAroundClassBase | Testity-master/src/Testity.BuildProcess/Builders/TestityClassBuilder.cs:66-83 | interfaces may come before and after the class base, and a second class base then throws |
| TestityBuilder.AddClassField | Testity-master/src/Testity.BuildProcess/Builders/TestityClassBuilder.cs:86-98 | a field built from the provider is appended and nothing else changes; a null provider throws NullReferenceException |
| TestityBuilder.AddMemberMethod | Testity-master/src/Testity.BuildProcess/Builders/TestityClassBuilder.cs:100-119 | a null implementation provider or a null block provider throws ArgumentNullException; otherwise one method is appended, with or without parameters, and nothing else changes |
| TestityBuilder.Compile | Testity-master/src/Testity.BuildProcess/Builders/TestityClassBuilder.cs:126-142 | the compiled declaration holds the builder's name, modifiers, attributes, bases and members, and the builder itself is left unchanged |
| TestityBuilder.CompileThenAdd | Testity-master/src/Testity.BuildProcess/Builders/TestityClassBuilder.cs:126-142 | adding a field after a compile makes the next compile hold exactly one more member |
| TestityBuilder.AddParameterlessAttributeToClass | Testity-master/src/Testity.BuildProcess/Builders/TestityClassBuilder.cs:167-180 | an attribute naming the attribute type's FullName is appended to the class and nothing else changes; the builder invariant is kept |
| TestityBuilder.AttributeCompiled | Testity-master/src/Testity.BuildProcess/Builders/TestityClassBuilder.cs:126-180 | an attribute added to the class appears last on the compiled class, and the members and bases are untouched |
| Uniject.NewManager | Uniject-master/src/test/tests/src/Impl/framework/TestUpdatableManager.cs:38-40 | a new manager has no live objects and nothing queued |
| Uniject.Register | Uniject-master/src/test/tests/src/Impl/framework/TestUpdatableManager.cs:42-47 | an object that is already live or pending throws ArgumentException; otherwise it joins the additions queue, nothing else changes, and the queue invariant is kept |
| Uniject.Unregister | Uniject-master/src/test/tests/src/Impl/framework/TestUpdatableManager.cs:49-54 | an object that is neither live nor pending throws ArgumentException; otherwise it joins the removals queue, nothing else changes, and the queue invariant is kept |
| Uniject.StepOnce | Uniject-master/src/test/tests/src/Impl/framework/TestUpdatableManager.cs:13-21 | one iteration empties both queues; the live set afterwards is the old live set plus the additions, minus the removals |
| Uniject.Step | Uniject-master/src/test/tests/src/Impl/framework/TestUpdatableManager.cs:10-27 | a count of zero or less changes nothing; otherwise the run is one merge followed by numUpdates rounds, each of which updates exactly the new live set |
| Uniject.Count | Uniject-master/src/test/tests/src/Impl/framework/TestUpdatableManager.cs:29-36 | Count throws InvalidOperationException exactly when additions are pending; otherwise it is the number of live objects |
| Uniject.RegisterUnregisterStep | Uniject-master/src/test/tests/src/Impl/framework/TestUpdatableManager.cs:10-54 | an object registered and then unregistered before a step is not live after the step, and every other object ends where it would have ended anyway |
| Uniject.RegisterStepCount | Uniject-master/src/test/tests/src/Impl/framework/TestUpdatableManager.cs:10-47 | registering a new object and stepping makes the object live and adds one to Count |
| Uniject.RegisterTwiceThrows | Uniject-master/src/test/tests/src/Impl/framework/TestUpdatableManager.cs:42-47 | registering the same object again throws, both before the step that makes it live and after that step |
| Uniject.RegisterComponent | Uniject-master/src/Assets/Plugins/Uniject/impl/TestableGameObject.cs:21-23 | registering a component appends it after the existing ones and changes nothing else |
| Uniject.Destroy | Uniject-master/src/Assets/Plugins/Uniject/impl/TestableGameObject.cs:27-34 | the first Destroy calls OnDestroy on each component in order and marks the object destroyed; later calls do nothing |
| Uniject.DestroyOnce | Uniject-master/src/Assets/Plugins/Uniject/impl/TestableGameObject.cs:27-34 | across two Destroy calls, each component receives OnDestroy exactly once |
| Uniject.Update | Uniject-master/src/Assets/Plugins/Uniject/impl/TestableGameObject.cs:36-43 | an inactive object calls nothing; an active one calls OnUpdate on every component, in index order |
| Uniject.OnCollisionEnter | Uniject-master/src/Assets/Plugins/Uniject/impl/TestableGameObject.cs:56-60 | the collision goes to every component in order, whether or not the object is active |
| Uniject.GetComponent | Uniject-master/src/Assets/Plugins/Uniject/impl/TestableGameObject.cs:45-54 | the result is the first component of the type, or null exactly when no component is of the type; it agrees with the reference search |
| Uniject.FirstOfType | Uniject-master/src/Assets/Plugins/Uniject/impl/TestableGameObject.cs:45-54 | the reference search finds nothing exactly when no component matches, and otherwise finds a matching component |
| Uniject.RegisterKeepsFirst | Uniject-master/src/Assets/Plugins/Uniject/impl/TestableGameObject.cs:21-54 | registering another component never changes an existing match; on an object with no match, the new component is found exactly when it matches |

## Left out

- Floating point: every `float`/`double` is an exact real. IEEE rounding, NaN and infinities are not modelled, with these exceptions: a tween's infinite total duration is written out, a tween's loop time is NaN when a loop lasts zero seconds (`GoTimeline.Moment`), and the NaNs a zero-length path segment produces (its 0/0 normal, its NaN distance in the segment scans, the 0/0 ratio of a walk of distance 0 onto it) are modelled by their outcome. The 0.999999f constant of the quaternion `==` is the exact value of that float.
- Square roots (`Mathf.Sqrt`, `Math.Sqrt`, `magnitude`) are arguments constrained by `Geometry.IsSqrt` or `TestityVectorExtensions.IsMagnitude`. Testity's `Magnitude` and `Distance` extension methods are therefore not separate members: they are exactly such a root.
- `Time.time`, `Time.deltaTime`, `Random.value` and `Random.Range` are parameters. A random draw is a real in [0, 1].
- Unity plumbing (MonoBehaviour messages, `transform`, Debug drawing and logging, `Console.WriteLine`) is not part of this model.
- The `lock` blocks in the generic-event tracker and the class builder are not modelled. Both classes are modelled as sequential values.
- Finalizers (`~tokenType`, `~LQProximityDatabase`) run at times the program does not control and are not modelled.
- Lq.NewDb: the bin count `divx * divy * divz` is an unbounded product; in the source it is a C# `int` product that wraps above 2^31 − 1, which is not modelled. Division counts are natural numbers; a negative count is not modelled. NewDb itself has no precondition; the brick's positive edge lengths (`WellFormed`) are required only by the members that locate points and run queries, where the source divides by them. In the source, two negative counts give a positive product, the bin array is allocated, the fill loops do not run and every bin stays null; one negative count makes the allocation throw.
- Lq.BinIndexInRange and Lq.FillNext: the row-major bin index `(x * divy * divz) + (y * divz) + z` is an exact integer. In the source the constructor's fill loop computes it in `int`, which wraps above 2^31 − 1, and `lqBinCoordsToBinIndex` computes it in `float`, which rounds above 2^24; neither is modelled.
- LqQuery.ClipBox: the `(int)` casts of the scaled `x ± radius` coordinates are exact truncations. A value outside `int`'s range, which C# converts to an unspecified value (int.MinValue on x86 and x64) and which can leave the bin loops empty, is not modelled.
- GoTimeline.LoopCount: for a zero loop length the cast of NaN or an infinity is `NonFiniteCast`, int.MinValue as on x86 and x64; C# leaves it unspecified, and other platforms give 0 or int.MaxValue. For a non-zero loop length the floor is exact; a quotient outside `int`'s range is not modelled.
- LqProximity.NewProximityDatabase: requires divisions that round to non-negative integers, for the same reason.
- Lq.RemoveFromBin and Lq.UpdateForNewLocation: require the proxy to be known to the database and its recorded bin to be one of the database's bins. A proxy from another database is not modelled.
- Speedometer.Speed: requires a non-empty sample buffer and a non-zero measuring interval. In those cases the source divides by zero and produces a float NaN or infinity, which is not modelled.
- Speedometer.Measure and Speedometer.MeasureAll: require at least one sample slot. `Speedometer.MeasureSpeed` models the empty buffer as an `IndexOutOfRange` error: the source increments the index, resets it to 0 because it is at least the sample count, and the write to slot 0 of the empty array throws IndexOutOfRangeException.
- GoTweens: the global `Go` registry that tweens add themselves to, and the `GoTweenConfig` fluent setters, are not part of this model. The tween's target and property list are plain values. The ticking of the properties is represented by the time they are shown at (`shownAt`), and `prepareForUse` is not modelled.
- TestityBuilder.UnityAttributes: the Roslyn attribute syntax is not modelled, only the attribute values it carries.
- GoCollections.CompleteCollection: children whose total duration is infinite are left unchanged. In the source, completing them computes with an infinite duration.
- SteerLibrary: only the behaviours listed in this table are modelled. The other steering forces (wander, flee, separation, alignment, cohesion, path following, obstacle avoidance geometry, steerForTargetSpeed's callers) combine vectors numerically and are left out.
- SteerUtil.SphericalWrapAround: requires a non-negative radius or a point away from the center. A point at the center with a negative radius divides 0 by 0 in the source, giving a NaN vector, which is not modelled.
- SteerLibrary.IntersectionAsWritten and SteerLibrary.FindNextIntersection: the Intersection returned is the routine's own by-value copy of the PathIntersection struct. As written, no caller sees it: the `next` of steerToAvoidObstacles (OpenSteerDotNet/SteerLibrary.cs:333) keeps the intersect 0 it was given at line 318, so that behaviour never avoids anything. FindNextIntersection returns what a caller passing the struct by reference would see.
- SteerLibrary.TruncateLength: OpenSteerDotNet's `Vector3` is a class, so `Normalise()` rescales the caller's argument in place when it is too long (`returnVector` aliases `tVector`; the `*=` then builds a new vector). The model is a pure function and does not show the argument coming back normalised. The visible callers (OpenSteerDotNet/SteerLibrary.cs:167, 177) pass a local offset and do not reuse it.
- TestityBuilder.SerializedFieldFromType: the ArgumentNullException for a null FullName is the one Roslyn's `SyntaxFactory.ParseName` raises through `SourceText.From`. Roslyn is not part of this model.
- SteerUtil: `RandomUnitVectorOnXZPlane`, `RandomVectorInUnitRadiusSphere` and the degree/cosine conversions are left out. They are random sampling and trigonometry.
- TestityVectorExtensions: the `byte` overload of Reflect is not modelled. It multiplies through the generic `Vector3<byte>` operator, whose behaviour for `byte` lies in the MiscUtil library, which is not part of this model.
- TestityVectorExtensions.SqrMagnitudeInt: the `int` result is not converted to `float`. The rounding of that conversion is not modelled.
- TestityVectorExtensions.ClampMagnitude: the `(float)` cast of a `double` maxLength in the mixed overloads is not modelled; every overload is the same real function.
- TestityTypes: .NET `Type` is a small datatype of namespace, name, assembly, FullName, kind and generic structure. Reflection details beyond that are not modelled, such as nested-type names, arrays and pointers.
- TestityTypes.GenerateFrom and TestityTypes.GenerateFromList: take a type and a list, not nullable ones. The source's exceptions for a null argument are not modelled: a null list fails in `types.Count()` with ArgumentNullException, and a null type with NullReferenceException. `GenerateFrom<T>()` is `GenerateFrom` applied to that type and is not a separate member.
- TestityTypes: the Roslyn syntax trees are modelled as a small `TypeSyntax` datatype. Compile's formatted text (`Formatter.Format`) and `ToString`/`CompileAsync` are not modelled.
- TestityBuilder: the `MemberImplementationModifier` declaration is a parameter, giving its declared values and each keyword's value. Its declared values are taken in the order `Enum.GetValues` returns them.
- TestityMapping: the String, Engine and Primitive mappers of the build process are not part of this model. A chain may contain arbitrary other mappers (`OtherMapper`), each a fixed answer table.
- TestityMapping: the FullName and assembly naming of a constructed `TestityEvent<...>` follow the runtime's shape with short assembly names. Culture, version and public-key tokens are left out.
- Uniject: component callbacks are returned as a trace of calls, not performed. Re-entrant callbacks that register or destroy components during a traversal are not modelled. `TestableGameObject`'s abstract members (`active`, `name`, `layer`, `setActiveRecursively`) are fields or parameters.
- Uniject.Step: `Update` on each live object is represented by the set of objects updated in each round. The objects' own component updates are `Uniject.Update`.
- Pathway.PathDistanceRoundTrip, Pathway.WalkLands, Pathway.DistanceOnSegmentMapsBack, Pathway.SumGrows and the start-of-path counterexamples: proved for paths without repeated consecutive points (`Precalculated`), where every segment has positive length. On a path with a zero-length segment the distance and point mappings are still modelled, and `Pathway.NaNExactlyAtRepeatedStart` states where the walk gives NaN, but the round trip is not proved there.
- Pathway.MapPointToPathNearest and Pathway.SegmentFrame: state nearness and the unit normal for segments of positive length only. A zero-length segment has no unit normal, and the source never selects it.
- Dictionary and HashSet enumeration order is not modelled. The tracker's snapshot is a map, and the manager's sets are sets.

## Findings

| source | as written | input that shows it | evidently intended | confidence | as-written member | corrected member |
|---|---|---|---|---|---|---|
| UnitySteer/lq.cs:348-364 | the low bin of the locality query is `(int)` of the scaled coordinate, which truncates toward zero, so a sphere that crosses a low face by less than one bin is not counted as clipped and `other` is never consulted | the 2×2×2 brick at the origin with 2 divisions per axis, a proxy at (−0.05, 0.5, 0.5) filed in `other` (squared distance 0.3025 from the centre), and a query of radius 0.6 about (0.5, 0.5, 0.5): the truncated low bin (int)(−0.1) is 0, nothing is clipped and the proxy is not reported | the low bin rounded down, so that any sphere reaching outside the brick also consults `other` | not executed | LqQuery.LocalityAsWrittenMissesOther | LqQuery.AllObjectsInLocality, with LqQuery.FindNearestNeighborWithinRadiusCorrected, LqProximity.FindNeighborsCorrected and LqProximity.GetNearestVehicleCorrected over it |
| UnitySteer/lq.cs:463-473 | lqRemoveAllObjects empties every bin list but leaves each proxy's `bin` set | a proxy filed in bin 0, removeAll, then an update to another point of bin 0: the proxy records bin 0 but no list holds it | every proxy forgets its bin, so that the next update files it again | not executed | LqBulk.RemoveAllAsWrittenLosesProxy | LqBulk.RemoveAllObjects |
| OpenSteerDotNet/SteerLibrary.cs:918 | a hit assigns `intersect = 0`, so findNextIntersectionWithSphere never reports an intersection; moreover the PathIntersection is a struct passed by value (OpenSteerDotNet/SteerLibrary.cs:52, 878), so the caller at line 333 never sees any write | an obstacle centred 5 ahead with combined radius 1 (roots 4 and 6): no intersection is reported | pass the PathIntersection by `ref`, as OpenSteer's `PathIntersection&`, and set `intersect = 1` on a hit | not executed | SteerLibrary.AsWrittenMissesObstacleAhead | SteerLibrary.FindNextIntersection |
| Vector3Pathway.cs:205 | MapPointToPathDistance adds the segment's length before it compares, so the distance along the path includes the whole chosen segment as well as the projection onto it | the first point of any path whose first segment has positive length: the distance is that segment's length instead of 0, and mapping it back gives the second point | the cumulative length of the segments before the chosen one, plus the projection, so that the distance maps back to the point on the path | not executed | Pathway.AsWrittenDistanceAtStart | Pathway.PathDistanceRoundTrip |
| Assets/Plugins/GoKit/base/AbstractGoTween.cs:243-249 | restart(skipDelay) calls the parameterless rewind(), so the delay is always skipped | a tween with a positive delay, restart(false), then one forward tick: the clock already moves | rewind(skipDelay), so that restart(false) waits the delay out | not executed | GoTweens.RestartAsWrittenSkipsDelay | GoTweens.RestartWaitsOutDelay |

=== FILE: brute_proximity.dfy ===
/** BruteForceProximityDatabase: every token sits in one list, `group`, and a
    neighbour query scans the whole list. */
module BruteProximity {
  import opened Geometry
  import Lq

  type TokenId = nat

  /** What a token stores: the object it stands for and its last position
      (Vector3's default, zero, until the first update). */
  datatype Token = Token(parent: nat, position: Vec3)

  /** The database's `group` list and the token objects it refers to. */
  datatype BruteDb = BruteDb(group: seq<TokenId>, tokens: map<TokenId, Token>)

  /** Every entry of `group` is a known token. */
  predicate Known(db: BruteDb) {
    forall k :: 0 <= k < |db.group| ==> db.group[k] in db.tokens
  }

  /** The constructor: an empty group. */
  function NewBruteDb(): (db: BruteDb)
    ensures Known(db) && db.group == [] && Population(db) == 0
  {
    BruteDb([], map[])
  }

  /** getPopulation: the length of the group list. */
  function Population(db: BruteDb): nat {
    |db.group|
  }

  /** allocateToken: the token's constructor appends the new token to the
      group; allocateToken hands that token back. */
  function AllocateToken(db: BruteDb, t: TokenId, parent: nat): (db': BruteDb)
    requires t !in db.tokens
    ensures db'.group == db.group + [t] && Population(db') == Population(db) + 1
    ensures db'.tokens == db.tokens[t := Token(parent, Zero)]
    ensures Known(db) ==> Known(db')
  {
    BruteDb(db.group + [t], db.tokens[t := Token(parent, Zero)])
  }

  /** RemoveToken: ArrayList.Remove, which drops the first occurrence of the
      token and keeps the rest in order. */
  function RemoveToken(db: BruteDb, t: TokenId): (db': BruteDb)
    ensures db'.tokens == db.tokens
    ensures t in db.group ==> Population(db') == Population(db) - 1
    ensures t !in db.group ==> db' == db
    ensures multiset(db'.group) == multiset(db.group) - multiset{t}
    ensures Known(db) ==> Known(db')
  {
    var g := Lq.RemoveFirst(db.group, t);
    RemoveFirstSubset(db.group, t);
    RemoveKeepsKnown(db, t);
    BruteDb(g, db.tokens)
  }

  lemma RemoveKeepsKnown(db: BruteDb, t: TokenId)
    ensures Known(db) ==> Known(BruteDb(Lq.RemoveFirst(db.group, t), db.tokens))
  {
    var g := Lq.RemoveFirst(db.group, t);
    RemoveFirstSubset(db.group, t);
    if Known(db) {
      forall k | 0 <= k < |g| ensures g[k] in db.tokens {
        assert g[k] in g;
        var j :| 0 <= j < |db.group| && db.group[j] == g[k];
      }
    }
  }

  /** What survives the removal was in the list before. */
  lemma RemoveFirstSubset(s: seq<TokenId>, t: TokenId)
    ensures forall x :: x in Lq.RemoveFirst(s, t) ==> x in s
    ensures t in s ==> |Lq.RemoveFirst(s, t)| == |s| - 1
  {
    var g := Lq.RemoveFirst(s, t);
    if t in s {
      Lq.RemoveFirstShape(s, t);
    }
    forall x | x in g ensures x in s {
      assert x in multiset(g);
    }
  }

  /** Removal keeps the other tokens in order: what is left is the group with
      the first occurrence of the token cut out. */
  lemma RemoveTokenKeepsOrder(db: BruteDb, t: TokenId)
    requires t in db.group
    ensures exists i :: 0 <= i < |db.group| && db.group[i] == t && t !in db.group[..i] &&
                        RemoveToken(db, t).group == db.group[..i] + db.group[i + 1..]
  {
    Lq.RemoveFirstShape(db.group, t);
    var i := Lq.FirstIndex(db.group, t);
    assert db.group[i] == t && t !in db.group[..i];
  }

  /** updateForNewPosition: only the token's stored position changes. */
  function UpdateForNewPosition(db: BruteDb, t: TokenId, p: Vec3): (db': BruteDb)
    requires t in db.tokens
    ensures db'.group == db.group && db'.tokens.Keys == db.tokens.Keys
    ensures db'.tokens[t] == Token(db.tokens[t].parent, p)
    ensures forall u :: u in db.tokens && u != t ==> db'.tokens[u] == db.tokens[u]
  {
    BruteDb(db.group, db.tokens[t := db.tokens[t].(position := p)])
  }

  /** The parents of the tokens of `s` that lie strictly within sqrt(r2) of
      the center, in list order. */
  function NearParents(db: BruteDb, s: seq<TokenId>, c: Vec3, r2: real): seq<nat>
    requires forall k :: 0 <= k < |s| ==> s[k] in db.tokens
  {
    if |s| == 0 then []
    else
      var rest := NearParents(db, s[..|s| - 1], c, r2);
      var tok := db.tokens[s[|s| - 1]];
      if SqrDist(c, tok.position) < r2 then rest + [tok.parent] else rest
  }

  /** A parent is reported iff some token of the list with that parent lies
      strictly within the radius. */
  lemma {:induction false} NearParentsMembers(db: BruteDb, s: seq<TokenId>, c: Vec3, r2: real, x: nat)
    requires forall k :: 0 <= k < |s| ==> s[k] in db.tokens
    ensures x in NearParents(db, s, c, r2) <==>
            exists k :: 0 <= k < |s| && db.tokens[s[k]].parent == x && SqrDist(c, db.tokens[s[k]].position) < r2
  {
    if |s| > 0 {
      var s' := s[..|s| - 1];
      NearParentsMembers(db, s', c, r2, x);
      if exists k :: 0 <= k < |s'| && db.tokens[s'[k]].parent == x && SqrDist(c, db.tokens[s'[k]].position) < r2 {
        var k :| 0 <= k < |s'| && db.tokens[s'[k]].parent == x && SqrDist(c, db.tokens[s'[k]].position) < r2;
        assert s[k] == s'[k];
      }
      if exists k :: 0 <= k < |s| && db.tokens[s[k]].parent == x && SqrDist(c, db.tokens[s[k]].position) < r2 {
        var k :| 0 <= k < |s| && db.tokens[s[k]].parent == x && SqrDist(c, db.tokens[s[k]].position) < r2;
        if k < |s'| {
          assert s'[k] == s[k];
        }
      }
    }
  }

  /** The querying token is not excluded: a token strictly within the radius
      of the query center reports its own parent. */
  lemma NearParentsIncludesSelf(db: BruteDb, t: TokenId, c: Vec3, r2: real)
    requires Known(db) && t in db.group && SqrDist(c, db.tokens[t].position) < r2
    ensures db.tokens[t].parent in NearParents(db, db.group, c, r2)
  {
    var k :| 0 <= k < |db.group| && db.group[k] == t;
    NearParentsMembers(db, db.group, c, r2, db.tokens[t].parent);
  }

  /** findNeighbors: scan the whole group and append the parent of every token
      whose squared distance to the center is strictly below radius². */
  method FindNeighbors(db: BruteDb, center: Vec3, radius: real, results: seq<nat>) returns (results': seq<nat>)
    requires Known(db)
    ensures results' == results + NearParents(db, db.group, center, radius * radius)
  {
    var r2 := radius * radius;
    results' := results;
    var i := 0;
    while i < |db.group|
      invariant 0 <= i <= |db.group|
      invariant results' == results + NearParents(db, db.group[..i], center, r2)
    {
      var tok := db.tokens[db.group[i]];
      assert db.group[..i + 1][..i] == db.group[..i];
      if SqrDist(center, tok.position) < r2 {
        results' := results' + [tok.parent];
      }
      i := i + 1;
    }
    assert db.group[..i] == db.group;
  }
}

=== FILE: geometry.dfy ===
/** Exact-arithmetic stand-in for UnityEngine.Vector3: three real components
    with the component-wise operations the steering code uses. */
module Geometry {

  datatype Vec3 = Vec3(x: real, y: real, z: real)

  const Zero := Vec3(0.0, 0.0, 0.0)

  /** float.MaxValue, the largest finite binary32 value, which the searches
      use as their starting best distance. */
  const FloatMax: real := 340282346638528859811704183484516925440.0

  function Add(a: Vec3, b: Vec3): Vec3 { Vec3(a.x + b.x, a.y + b.y, a.z + b.z) }

  function Sub(a: Vec3, b: Vec3): Vec3 { Vec3(a.x - b.x, a.y - b.y, a.z - b.z) }

  function Scale(a: Vec3, k: real): Vec3 { Vec3(a.x * k, a.y * k, a.z * k) }

  function Dot(a: Vec3, b: Vec3): real { a.x * b.x + a.y * b.y + a.z * b.z }

  /** Vector3.sqrMagnitude */
  function SqrLength(a: Vec3): real { Dot(a, a) }

  function SqrDist(a: Vec3, b: Vec3): real { SqrLength(Sub(a, b)) }

  /** Vector3.Lerp without the clamp of the factor. */
  function Lerp(a: Vec3, b: Vec3, t: real): Vec3 { Add(a, Scale(Sub(b, a), t)) }

  /** `s` is the (non-negative) square root of `d`; the model never computes a root. */
  predicate IsSqrt(s: real, d: real) { s >= 0.0 && s * s == d }

  lemma SquareMonotone(a: real, b: real)
    requires 0.0 <= a <= b
    ensures a * a <= b * b
  {
  }

  lemma StrictSquareMonotone(a: real, b: real)
    requires 0.0 <= a < b
    ensures a * a < b * b
  {
    calc {
      a * a;
    <=
      a * b;
    <
      b * b;
    }
  }

  /** A non-negative number has one non-negative square root. */
  lemma RootUnique(s: real, r: real)
    requires s >= 0.0 && r >= 0.0 && s * s == r * r
    ensures s == r
  {
    if s < r { StrictSquareMonotone(s, r); }
    if r < s { StrictSquareMonotone(r, s); }
  }

  /** A square is never negative, and only zero squares to zero. */
  lemma SquareZero(x: real)
    ensures x * x >= 0.0
    ensures x * x == 0.0 <==> x == 0.0
  {
    if x > 0.0 { StrictSquareMonotone(0.0, x); }
    if x < 0.0 {
      StrictSquareMonotone(0.0, -x);
      assert (-x) * (-x) == x * x;
    }
  }

  lemma SqrLengthNonNegative(a: Vec3)
    ensures SqrLength(a) >= 0.0
  {
  }

  /** Negation, Vector3's unary minus. */
  function Neg(a: Vec3): Vec3 { Vec3(-a.x, -a.y, -a.z) }

  lemma SqrLengthScale(a: Vec3, k: real)
    ensures SqrLength(Scale(a, k)) == k * k * SqrLength(a)
  {
  }

  /** The squared distance from `l` to the point `t` steps along `n`, as a
      quadratic in `t`. */
  lemma QuadraticAlongLine(l: Vec3, n: Vec3, t: real)
    ensures SqrLength(Sub(l, Scale(n, t))) == SqrLength(l) - 2.0 * t * Dot(n, l) + t * t * SqrLength(n)
  {
  }

  lemma DotScale(a: Vec3, k: real, b: Vec3)
    ensures Dot(Scale(a, k), b) == k * Dot(a, b)
  {
    assert (a.x * k) * b.x == k * (a.x * b.x);
    assert (a.y * k) * b.y == k * (a.y * b.y);
    assert (a.z * k) * b.z == k * (a.z * b.z);
  }

  lemma DotAdd(a: Vec3, b: Vec3, c: Vec3)
    ensures Dot(Add(a, b), c) == Dot(a, c) + Dot(b, c)
  {
    assert (a.x + b.x) * c.x == a.x * c.x + b.x * c.x;
    assert (a.y + b.y) * c.y == a.y * c.y + b.y * c.y;
    assert (a.z + b.z) * c.z == a.z * c.z + b.z * c.z;
  }

  lemma DotComm(a: Vec3, b: Vec3)
    ensures Dot(a, b) == Dot(b, a)
  {
  }

  /** The squared length of a sum. */
  lemma SqrLengthAdd(a: Vec3, b: Vec3)
    ensures SqrLength(Add(a, b)) == SqrLength(a) + 2.0 * Dot(a, b) + SqrLength(b)
  {
    DotAdd(a, b, Add(a, b));
    assert Dot(a, Add(a, b)) == Dot(a, a) + Dot(a, b) by { DotComm(a, Add(a, b)); DotAdd(a, b, a); DotComm(a, b); }
    assert Dot(b, Add(a, b)) == Dot(a, b) + Dot(b, b) by { DotComm(b, Add(a, b)); DotAdd(a, b, b); }
  }
}

=== FILE: go_collection.dfy ===
/** AbstractGoTweenCollection: a timeline whose flow items start child
    tweens (or nested collections) at given times. The concrete chains and
    flows that fill the items and set the durations are not part of this
    model; a collection here has its items already, with whatever durations
    those subclasses gave it. */
module GoCollections {
  import opened Wrappers
  import opened GoTimeline
  import GoTweens

  /** The tween an item holds: a GoTween or a nested collection. */
  datatype Node = TweenNode(tween: GoTweens.GoTween) | CollectionNode(collection: Collection)

  /** TweenFlowItem: a start time, a duration, and the tween it starts (none
      for a pure delay item). */
  datatype FlowItem = FlowItem(startTime: real, duration: TotalDuration, tween: Option<Node>)

  datatype Collection = Collection(base: Timeline, flows: seq<FlowItem>)

  /** What a GoTweenCollectionConfig hands the constructor. */
  datatype CollectionConfig = CollectionConfig(id: int, iterations: int, loopType: LoopType, hasOnComplete: bool, hasOnStart: bool)

  // ---------------------------------------------------------------------------
  // The tree's measure and shape

  function Max(a: nat, b: nat): nat {
    if a < b then b else a
  }

  /** The nesting depth of collections. */
  function Height(c: Collection): nat
    decreases c, 1
  {
    1 + MaxHeight(c.flows)
  }

  function MaxHeight(flows: seq<FlowItem>): nat
    decreases flows
  {
    if |flows| == 0 then 0 else Max(ItemHeight(flows[0]), MaxHeight(flows[1..]))
  }

  function ItemHeight(f: FlowItem): nat
    decreases f
  {
    match f.tween
    case None => 0
    case Some(n) => NodeHeight(n)
  }

  function NodeHeight(n: Node): nat
    decreases n
  {
    match n
    case TweenNode(_) => 0
    case CollectionNode(c) => Height(c)
  }

  /** Every counted timeline in the tree has an end, as every constructor
      leaves it. */
  predicate WellFormed(c: Collection)
    decreases c, 1
  {
    CountedEnds(c.base) && forall i :: 0 <= i < |c.flows| ==> ItemWellFormed(c.flows[i])
  }

  predicate ItemWellFormed(f: FlowItem)
    decreases f
  {
    f.tween.Some? ==> NodeWellFormed(f.tween.value)
  }

  predicate NodeWellFormed(n: Node)
    decreases n
  {
    match n
    case TweenNode(tw) => CountedEnds(tw.base)
    case CollectionNode(c) => WellFormed(c)
  }

  /** `d` is `c` ticked or positioned: the same items with the same start
      times and durations, the same kinds of tween in them, every timeline
      of the same shape, and the same targets and property lists. */
  predicate Matches(c: Collection, d: Collection)
    decreases c, 1
  {
    SameShape(c.base, d.base) && |c.flows| == |d.flows| &&
    forall i :: 0 <= i < |c.flows| ==> ItemMatches(c.flows[i], d.flows[i])
  }

  predicate ItemMatches(f: FlowItem, g: FlowItem)
    decreases f
  {
    f.startTime == g.startTime && f.duration == g.duration && f.tween.None? == g.tween.None? &&
    (f.tween.Some? && g.tween.Some? ==> NodeMatches(f.tween.value, g.tween.value))
  }

  predicate NodeMatches(n: Node, m: Node)
    decreases n
  {
    match n
    case TweenNode(a) =>
      m.TweenNode? && SameShape(a.base, m.tween.base) && m.tween.target == a.target && m.tween.properties == a.properties
    case CollectionNode(c) => m.CollectionNode? && Matches(c, m.collection)
  }

  /** Matching trees have the same height, and a tree matching a well-formed
      one is well formed. */
  lemma {:induction false} MatchesKeeps(c: Collection, d: Collection)
    requires Matches(c, d)
    ensures Height(d) == Height(c)
    ensures WellFormed(c) ==> WellFormed(d)
    decreases c, 1
  {
    FlowsMatchKeep(c.flows, d.flows);
    if WellFormed(c) {
      ShapeKept(c.base, d.base);
    }
  }

  lemma {:induction false} FlowsMatchKeep(a: seq<FlowItem>, b: seq<FlowItem>)
    requires |a| == |b| && forall i :: 0 <= i < |a| ==> ItemMatches(a[i], b[i])
    ensures MaxHeight(b) == MaxHeight(a)
    ensures (forall i :: 0 <= i < |a| ==> ItemWellFormed(a[i])) ==> forall i :: 0 <= i < |b| ==> ItemWellFormed(b[i])
    decreases a
  {
    if |a| > 0 {
      ItemMatchKeeps(a[0], b[0]);
      assert forall i :: 0 <= i < |a| - 1 ==> a[1..][i] == a[i + 1] && b[1..][i] == b[i + 1];
      FlowsMatchKeep(a[1..], b[1..]);
      forall i | 0 <= i < |a|
        ensures ItemHeight(b[i]) == ItemHeight(a[i])
        ensures ItemWellFormed(a[i]) ==> ItemWellFormed(b[i])
      {
        ItemMatchKeeps(a[i], b[i]);
      }
    }
  }

  lemma {:induction false} ItemMatchKeeps(f: FlowItem, g: FlowItem)
    requires ItemMatches(f, g)
    ensures ItemHeight(g) == ItemHeight(f)
    ensures ItemWellFormed(f) ==> ItemWellFormed(g)
    decreases f
  {
    if f.tween.Some? {
      match f.tween.value
      case TweenNode(a) =>
        assert NodeMatches(f.tween.value, g.tween.value);
        if ItemWellFormed(f) {
          assert NodeWellFormed(f.tween.value);
          ShapeKept(a.base, g.tween.value.tween.base);
          assert NodeWellFormed(g.tween.value);
        }
      case CollectionNode(c) =>
        assert NodeMatches(f.tween.value, g.tween.value);
        MatchesKeeps(c, g.tween.value.collection);
        if ItemWellFormed(f) {
          assert NodeWellFormed(f.tween.value);
          assert NodeWellFormed(g.tween.value);
        }
    }
  }

  /** Matching is transitive, so ticks can be chained. */
  lemma {:induction false} MatchesTrans(c: Collection, d: Collection, e: Collection)
    requires Matches(c, d) && Matches(d, e)
    ensures Matches(c, e)
    decreases c, 1
  {
    forall i | 0 <= i < |c.flows|
      ensures ItemMatches(c.flows[i], e.flows[i])
    {
      ItemMatchesTrans(c.flows[i], d.flows[i], e.flows[i]);
    }
  }

  lemma {:induction false} ItemMatchesTrans(f: FlowItem, g: FlowItem, h: FlowItem)
    requires ItemMatches(f, g) && ItemMatches(g, h)
    ensures ItemMatches(f, h)
    decreases f
  {
    if f.tween.Some? {
      match f.tween.value
      case TweenNode(_) =>
      case CollectionNode(c) =>
        MatchesTrans(c, g.tween.value.collection, h.tween.value.collection);
    }
  }

  /** Every tree matches itself. */
  lemma {:induction false} MatchesRefl(c: Collection)
    ensures Matches(c, c)
    decreases c, 1
  {
    forall i | 0 <= i < |c.flows|
      ensures ItemMatches(c.flows[i], c.flows[i])
    {
      var f := c.flows[i];
      if f.tween.Some? && f.tween.value.CollectionNode? {
        MatchesRefl(f.tween.value.collection);
      }
    }
  }

  lemma ItemMatchesRefl(f: FlowItem)
    ensures ItemMatches(f, f)
  {
    if f.tween.Some? && f.tween.value.CollectionNode? {
      MatchesRefl(f.tween.value.collection);
    }
  }

  /** Items matched one to one. */
  predicate FlowsMatch(a: seq<FlowItem>, b: seq<FlowItem>) {
    |a| == |b| && forall i :: 0 <= i < |a| ==> ItemMatches(a[i], b[i])
  }

  predicate FlowsWellFormed(flows: seq<FlowItem>) {
    forall i :: 0 <= i < |flows| ==> ItemWellFormed(flows[i])
  }

  lemma FlowsTail(flows: seq<FlowItem>)
    requires |flows| > 0 && FlowsWellFormed(flows)
    ensures FlowsWellFormed(flows[1..]) && ItemWellFormed(flows[0])
  {
    assert forall i :: 0 <= i < |flows| - 1 ==> flows[1..][i] == flows[i + 1];
  }

  /** The first item's tree is no higher than the sequence's, and neither is
      the rest of the sequence. */
  lemma HeadHeight(flows: seq<FlowItem>)
    requires |flows| > 0
    ensures ItemHeight(flows[0]) <= MaxHeight(flows) && MaxHeight(flows[1..]) <= MaxHeight(flows)
    ensures flows[0].tween.Some? ==> NodeHeight(flows[0].tween.value) <= MaxHeight(flows)
  {
  }

  /** Replacing an item's tween by a matching one gives a matching item. */
  lemma ReplacedMatches(f: FlowItem, n: Node)
    requires f.tween.Some? && NodeMatches(f.tween.value, n)
    ensures ItemMatches(f, f.(tween := Some(n)))
  {
  }

  lemma FlowsCons(f: FlowItem, g: FlowItem, a: seq<FlowItem>, b: seq<FlowItem>)
    requires ItemMatches(f, g) && FlowsMatch(a, b)
    ensures FlowsMatch([f] + a, [g] + b)
  {
    assert forall i :: 0 < i < |a| + 1 ==> ([f] + a)[i] == a[i - 1] && ([g] + b)[i] == b[i - 1];
  }

  /** The timeline of the tween an item holds. */
  function NodeTimeline(n: Node): Timeline {
    match n
    case TweenNode(tw) => tw.base
    case CollectionNode(c) => c.base
  }

  /** A collection's tick: the collection, its answer, and every event raised
      in the tree, in order. */
  datatype CTick = CTick(collection: Collection, done: bool, events: seq<TweenEvent>)

  /** A collection after complete(), with the events its children raised. */
  datatype Run = Run(collection: Collection, events: seq<TweenEvent>)

  datatype NodeTick = NodeTick(node: Node, events: seq<TweenEvent>)

  datatype FlowsTick = FlowsTick(flows: seq<FlowItem>, events: seq<TweenEvent>)

  // ---------------------------------------------------------------------------
  // Ticking, completing and positioning, through the whole tree

  /** update(deltaTime): the base tick; then, if that completed the
      collection, every child not yet complete is completed and ticked by
      zero and onComplete fires once; otherwise every child whose start time
      has passed is sent to the collection's shown time less its start time,
      and none is when the shown time is NaN, since a comparison with NaN is
      false. The answer is true exactly when the collection completed. */
  function Update(c: Collection, deltaTime: real, validateEachTick: bool): (r: CTick)
    requires WellFormed(c)
    ensures Matches(c, r.collection) && WellFormed(r.collection) && Height(r.collection) == Height(c)
    ensures var step := GoTimeline.Update(c.base, deltaTime);
            (r.done <==> step.timeline.state == TweenState.Complete) &&
            r.collection.base == step.timeline.(didComplete := c.base.didComplete || r.done)
    decreases Height(c), 2, 0
  {
    var step := GoTimeline.Update(c.base, deltaTime);
    ShapeKept(c.base, step.timeline);
    if step.timeline.state == TweenState.Complete then
      var children := CompleteFlows(c.flows, validateEachTick);
      var own := if !c.base.didComplete && c.base.hasOnComplete then [Completed] else [];
      var d := Collection(step.timeline.(didComplete := true), children.flows);
      MatchesKeeps(c, d);
      CTick(d, true, step.events + children.events + own)
    else if Converted(step.timeline).NaN? then
      var d := Collection(step.timeline, c.flows);
      MatchesRefl(c);
      MatchesKeeps(c, d);
      CTick(d, false, step.events)
    else
      var children := GoToFlows(c.flows, Converted(step.timeline).time, validateEachTick);
      var d := Collection(step.timeline, children.flows);
      MatchesKeeps(c, d);
      CTick(d, false, step.events + children.events)
  }

  /** The completing half of update, over the items from the first. */
  function CompleteFlows(flows: seq<FlowItem>, validateEachTick: bool): (r: FlowsTick)
    requires FlowsWellFormed(flows)
    ensures FlowsMatch(flows, r.flows)
    decreases MaxHeight(flows) + 1, 0, |flows|
  {
    if |flows| == 0 then FlowsTick([], [])
    else
      FlowsTail(flows);
      HeadHeight(flows);
      var f := flows[0];
      var rest := CompleteFlows(flows[1..], validateEachTick);
      assert flows == [f] + flows[1..];
      if f.tween.Some? && NodeTimeline(f.tween.value).state != TweenState.Complete then
        var t := CompleteAndTick(f.tween.value, validateEachTick);
        ReplacedMatches(f, t.node);
        FlowsCons(f, f.(tween := Some(t.node)), flows[1..], rest.flows);
        FlowsTick([f.(tween := Some(t.node))] + rest.flows, t.events + rest.events)
      else
        ItemMatchesRefl(f);
        FlowsCons(f, f, flows[1..], rest.flows);
        FlowsTick([f] + rest.flows, rest.events)
  }

  /** complete() followed by update(0), on one child. */
  function CompleteAndTick(n: Node, validateEachTick: bool): (r: NodeTick)
    requires NodeWellFormed(n)
    ensures NodeMatches(n, r.node) && NodeWellFormed(r.node) && NodeHeight(r.node) == NodeHeight(n)
    decreases NodeHeight(n), 4, 0
  {
    match n
    case TweenNode(tw) =>
      var t := GoTweens.Update(GoTweens.CompleteTween(tw), 0.0, validateEachTick);
      NodeTick(TweenNode(t.tween), t.events)
    case CollectionNode(cc) =>
      var done := CompleteCollection(cc, validateEachTick);
      var t := Update(done.collection, 0.0, validateEachTick);
      MatchesTrans(cc, done.collection, t.collection);
      NodeTick(CollectionNode(t.collection), done.events + t.events)
  }

  /** complete(): nothing for an endless collection; otherwise the base
      complete, then every child sent to its own total duration. */
  function CompleteCollection(c: Collection, validateEachTick: bool): (r: Run)
    requires WellFormed(c)
    ensures Matches(c, r.collection) && WellFormed(r.collection) && Height(r.collection) == Height(c)
    ensures c.base.iterations < 0 ==> r == Run(c, [])
    ensures c.base.iterations >= 0 ==> r.collection.base == CompleteTimeline(c.base)
    decreases Height(c), 3, 0
  {
    if c.base.iterations < 0 then
      MatchesRefl(c);
      MatchesKeeps(c, c);
      Run(c, [])
    else
      var children := GoToEndFlows(c.flows, validateEachTick);
      var d := Collection(CompleteTimeline(c.base), children.flows);
      MatchesKeeps(c, d);
      Run(d, children.events)
  }

  /** The positioning half of complete, over the items from the first: each
      child with a finite total duration goes to it. */
  function GoToEndFlows(flows: seq<FlowItem>, validateEachTick: bool): (r: FlowsTick)
    requires FlowsWellFormed(flows)
    ensures FlowsMatch(flows, r.flows)
    decreases MaxHeight(flows) + 1, 0, |flows|
  {
    if |flows| == 0 then FlowsTick([], [])
    else
      FlowsTail(flows);
      HeadHeight(flows);
      var f := flows[0];
      var rest := GoToEndFlows(flows[1..], validateEachTick);
      assert flows == [f] + flows[1..];
      if f.tween.Some? && NodeTimeline(f.tween.value).totalDuration.Finite? then
        var t := NodeGoTo(f.tween.value, NodeTimeline(f.tween.value).totalDuration.value, validateEachTick);
        ReplacedMatches(f, t.node);
        FlowsCons(f, f.(tween := Some(t.node)), flows[1..], rest.flows);
        FlowsTick([f.(tween := Some(t.node))] + rest.flows, t.events + rest.events)
      else
        ItemMatchesRefl(f);
        FlowsCons(f, f, flows[1..], rest.flows);
        FlowsTick([f] + rest.flows, rest.events)
  }

  /** The positioning half of update, over the items from the first: each
      child that has started goes to the shown time less its start time. */
  function GoToFlows(flows: seq<FlowItem>, shown: real, validateEachTick: bool): (r: FlowsTick)
    requires FlowsWellFormed(flows)
    ensures FlowsMatch(flows, r.flows)
    decreases MaxHeight(flows) + 1, 0, |flows|
  {
    if |flows| == 0 then FlowsTick([], [])
    else
      FlowsTail(flows);
      HeadHeight(flows);
      var f := flows[0];
      var rest := GoToFlows(flows[1..], shown, validateEachTick);
      assert flows == [f] + flows[1..];
      if f.tween.Some? && f.startTime < shown then
        var t := NodeGoTo(f.tween.value, shown - f.startTime, validateEachTick);
        ReplacedMatches(f, t.node);
        FlowsCons(f, f.(tween := Some(t.node)), flows[1..], rest.flows);
        FlowsTick([f.(tween := Some(t.node))] + rest.flows, t.events + rest.events)
      else
        ItemMatchesRefl(f);
        FlowsCons(f, f, flows[1..], rest.flows);
        FlowsTick([f] + rest.flows, rest.events)
  }

  /** goTo(time) on one child: a GoTween's own goTo, or for a collection the
      base goTo followed by the collection's update(0). */
  function NodeGoTo(n: Node, time: real, validateEachTick: bool): (r: NodeTick)
    requires NodeWellFormed(n)
    ensures NodeMatches(n, r.node) && NodeWellFormed(r.node) && NodeHeight(r.node) == NodeHeight(n)
    decreases NodeHeight(n), 5, 0
  {
    match n
    case TweenNode(tw) =>
      var t := GoTweens.GoTo(tw, time, validateEachTick);
      NodeTick(TweenNode(t.tween), t.events)
    case CollectionNode(cc) =>
      assert WellFormed(cc);
      var positioned := cc.(base := GoToPosition(cc.base, time));
      MatchesRefl(cc);
      MatchesKeeps(cc, positioned);
      var t := Update(positioned, 0.0, validateEachTick);
      MatchesTrans(cc, positioned, t.collection);
      NodeTick(CollectionNode(t.collection), t.events)
  }

  // ---------------------------------------------------------------------------
  // What the tree operations do to each child

  /** `g` is what the completing tick makes of item `f`: a tween not yet
      complete is completed and ticked by zero, anything else stays. */
  predicate CompletedItem(f: FlowItem, g: FlowItem, validateEachTick: bool) {
    (f.tween.Some? && NodeTimeline(f.tween.value).state != TweenState.Complete ==>
       ItemWellFormed(f) && g == f.(tween := Some(CompleteAndTick(f.tween.value, validateEachTick).node))) &&
    (!(f.tween.Some? && NodeTimeline(f.tween.value).state != TweenState.Complete) ==> g == f)
  }

  /** `g` is what a running tick at shown time `shown` makes of item `f`: a
      tween whose start time has passed goes to the shown time less that
      start time, anything else stays. */
  predicate PositionedItem(f: FlowItem, g: FlowItem, shown: real, validateEachTick: bool) {
    (f.tween.Some? && f.startTime < shown ==>
       ItemWellFormed(f) && g == f.(tween := Some(NodeGoTo(f.tween.value, shown - f.startTime, validateEachTick).node))) &&
    (!(f.tween.Some? && f.startTime < shown) ==> g == f)
  }

  /** `g` is what complete() makes of item `f`: a tween of finite total
      duration goes to that duration, anything else stays. */
  predicate EndedItem(f: FlowItem, g: FlowItem, validateEachTick: bool) {
    (f.tween.Some? && NodeTimeline(f.tween.value).totalDuration.Finite? ==>
       ItemWellFormed(f) &&
       g == f.(tween := Some(NodeGoTo(f.tween.value, NodeTimeline(f.tween.value).totalDuration.value, validateEachTick).node))) &&
    (!(f.tween.Some? && NodeTimeline(f.tween.value).totalDuration.Finite?) ==> g == f)
  }

  lemma CompleteFlowsStep(flows: seq<FlowItem>, validateEachTick: bool)
    requires |flows| > 0 && FlowsWellFormed(flows) && FlowsWellFormed(flows[1..]) && ItemWellFormed(flows[0])
    ensures var r := CompleteFlows(flows, validateEachTick).flows;
            |r| == |flows| && r[1..] == CompleteFlows(flows[1..], validateEachTick).flows &&
            CompletedItem(flows[0], r[0], validateEachTick)
  {
  }

  lemma {:induction false} CompleteFlowsAt(flows: seq<FlowItem>, validateEachTick: bool, i: int)
    requires FlowsWellFormed(flows) && 0 <= i < |flows|
    ensures CompletedItem(flows[i], CompleteFlows(flows, validateEachTick).flows[i], validateEachTick)
    decreases |flows|
  {
    FlowsTail(flows);
    CompleteFlowsStep(flows, validateEachTick);
    if i > 0 {
      var r := CompleteFlows(flows, validateEachTick).flows;
      var rest := CompleteFlows(flows[1..], validateEachTick).flows;
      CompleteFlowsAt(flows[1..], validateEachTick, i - 1);
      assert r[i] == r[1..][i - 1] == rest[i - 1];
      assert flows[1..][i - 1] == flows[i];
    }
  }

  lemma GoToFlowsStep(flows: seq<FlowItem>, shown: real, validateEachTick: bool)
    requires |flows| > 0 && FlowsWellFormed(flows) && FlowsWellFormed(flows[1..]) && ItemWellFormed(flows[0])
    ensures var r := GoToFlows(flows, shown, validateEachTick).flows;
            |r| == |flows| && r[1..] == GoToFlows(flows[1..], shown, validateEachTick).flows &&
            PositionedItem(flows[0], r[0], shown, validateEachTick)
  {
  }

  lemma {:induction false} GoToFlowsAt(flows: seq<FlowItem>, shown: real, validateEachTick: bool, i: int)
    requires FlowsWellFormed(flows) && 0 <= i < |flows|
    ensures PositionedItem(flows[i], GoToFlows(flows, shown, validateEachTick).flows[i], shown, validateEachTick)
    decreases |flows|
  {
    FlowsTail(flows);
    GoToFlowsStep(flows, shown, validateEachTick);
    if i > 0 {
      var r := GoToFlows(flows, shown, validateEachTick).flows;
      var rest := GoToFlows(flows[1..], shown, validateEachTick).flows;
      GoToFlowsAt(flows[1..], shown, validateEachTick, i - 1);
      assert r[i] == r[1..][i - 1] == rest[i - 1];
      assert flows[1..][i - 1] == flows[i];
    }
  }

  lemma GoToEndFlowsStep(flows: seq<FlowItem>, validateEachTick: bool)
    requires |flows| > 0 && FlowsWellFormed(flows) && FlowsWellFormed(flows[1..]) && ItemWellFormed(flows[0])
    ensures var r := GoToEndFlows(flows, validateEachTick).flows;
            |r| == |flows| && r[1..] == GoToEndFlows(flows[1..], validateEachTick).flows &&
            EndedItem(flows[0], r[0], validateEachTick)
  {
  }

  lemma {:induction false} GoToEndFlowsAt(flows: seq<FlowItem>, validateEachTick: bool, i: int)
    requires FlowsWellFormed(flows) && 0 <= i < |flows|
    ensures EndedItem(flows[i], GoToEndFlows(flows, validateEachTick).flows[i], validateEachTick)
    decreases |flows|
  {
    FlowsTail(flows);
    GoToEndFlowsStep(flows, validateEachTick);
    if i > 0 {
      var r := GoToEndFlows(flows, validateEachTick).flows;
      var rest := GoToEndFlows(flows[1..], validateEachTick).flows;
      GoToEndFlowsAt(flows[1..], validateEachTick, i - 1);
      assert r[i] == r[1..][i - 1] == rest[i - 1];
      assert flows[1..][i - 1] == flows[i];
    }
  }

  /** A child may be ticked when it is a collection, or a tween whose target
      passes validation (or is not validated). */
  predicate Tickable(n: Node, validateEachTick: bool) {
    n.TweenNode? && validateEachTick ==> GoTweens.IsValid(n.tween)
  }

  /** complete() then update(0) leaves a counted child whose loops take time
      complete. */
  lemma CompleteAndTickFinishes(n: Node, validateEachTick: bool)
    requires NodeWellFormed(n) && Timed(NodeTimeline(n)) && NodeTimeline(n).iterations > 0
    requires n.TweenNode? ==> GoTweens.IsValid(n.tween)
    ensures NodeTimeline(CompleteAndTick(n, validateEachTick).node).state == TweenState.Complete
  {
    match n
    case TweenNode(tw) =>
      GoTweens.CompleteThenTickIsDone(tw, validateEachTick);
    case CollectionNode(cc) =>
      assert WellFormed(cc);
      CompleteThenTickFinishes(cc.base);
  }

  /** goTo(time) on a child lands its clock on the time clamped to the
      child's [0, totalDuration]. */
  lemma NodeGoToLands(n: Node, time: real, validateEachTick: bool)
    requires NodeWellFormed(n) && Tickable(n, validateEachTick) && NonNegative(NodeTimeline(n).totalDuration)
    ensures NodeTimeline(NodeGoTo(n, time, validateEachTick).node).totalElapsedTime == ClampTotal(time, NodeTimeline(n).totalDuration)
  {
    match n
    case TweenNode(tw) =>
      GoTweens.GoToLandsOnTime(tw, time, validateEachTick);
    case CollectionNode(cc) =>
      assert WellFormed(cc);
      GoToLands(cc.base, time);
  }

  /** The tick that completes a collection completes every counted child
      with it (a tween child needs its target). */
  lemma UpdateCompletesChildren(c: Collection, deltaTime: real, validateEachTick: bool, i: int)
    requires WellFormed(c) && Update(c, deltaTime, validateEachTick).done
    requires 0 <= i < |c.flows| && c.flows[i].tween.Some?
    requires Timed(NodeTimeline(c.flows[i].tween.value)) && NodeTimeline(c.flows[i].tween.value).iterations > 0
    requires c.flows[i].tween.value.TweenNode? ==> GoTweens.IsValid(c.flows[i].tween.value.tween)
    ensures var g := Update(c, deltaTime, validateEachTick).collection.flows[i];
            g.tween.Some? && NodeTimeline(g.tween.value).state == TweenState.Complete
  {
    CompleteFlowsAt(c.flows, validateEachTick, i);
    var f := c.flows[i];
    if NodeTimeline(f.tween.value).state != TweenState.Complete {
      CompleteAndTickFinishes(f.tween.value, validateEachTick);
    }
  }

  /** A tick that does not complete the collection sends every child whose
      start time has passed to the collection's shown time less that start
      time, and leaves the others as they were, all of them when the shown
      time is NaN. */
  lemma UpdatePositionsChildren(c: Collection, deltaTime: real, validateEachTick: bool, i: int)
    requires WellFormed(c) && !Update(c, deltaTime, validateEachTick).done
    requires 0 <= i < |c.flows|
    ensures var shown := Converted(GoTimeline.Update(c.base, deltaTime).timeline);
            var f := c.flows[i];
            var g := Update(c, deltaTime, validateEachTick).collection.flows[i];
            (shown.At? && f.tween.Some? && f.startTime < shown.time && Tickable(f.tween.value, validateEachTick) &&
             NonNegative(NodeTimeline(f.tween.value).totalDuration) ==>
               g.tween.Some? && NodeTimeline(g.tween.value).totalElapsedTime == ClampTotal(shown.time - f.startTime, NodeTimeline(f.tween.value).totalDuration)) &&
            (!(shown.At? && f.tween.Some? && f.startTime < shown.time) ==> g == f)
  {
    RunningFlows(c, deltaTime, validateEachTick);
    var shown := Converted(GoTimeline.Update(c.base, deltaTime).timeline);
    if shown.At? {
      PositionsChild(c.flows, shown.time, validateEachTick, i);
    }
  }

  lemma PositionsChild(flows: seq<FlowItem>, shown: real, validateEachTick: bool, i: int)
    requires FlowsWellFormed(flows) && 0 <= i < |flows|
    ensures var f := flows[i];
            var g := GoToFlows(flows, shown, validateEachTick).flows[i];
            (f.tween.Some? && f.startTime < shown && Tickable(f.tween.value, validateEachTick) &&
             NonNegative(NodeTimeline(f.tween.value).totalDuration) ==>
               g.tween.Some? && NodeTimeline(g.tween.value).totalElapsedTime == ClampTotal(shown - f.startTime, NodeTimeline(f.tween.value).totalDuration)) &&
            (!(f.tween.Some? && f.startTime < shown) ==> g == f)
  {
    GoToFlowsAt(flows, shown, validateEachTick, i);
    var f := flows[i];
    var g := GoToFlows(flows, shown, validateEachTick).flows[i];
    assert PositionedItem(f, g, shown, validateEachTick);
    if f.tween.Some? && f.startTime < shown && Tickable(f.tween.value, validateEachTick) &&
       NonNegative(NodeTimeline(f.tween.value).totalDuration) {
      PositionedLands(f, g, shown, validateEachTick);
    }
  }

  /** An item positioned at `shown` lands its clock on the shown time less
      its start time, clamped to its total duration. */
  lemma PositionedLands(f: FlowItem, g: FlowItem, shown: real, validateEachTick: bool)
    requires PositionedItem(f, g, shown, validateEachTick)
    requires f.tween.Some? && f.startTime < shown && Tickable(f.tween.value, validateEachTick)
    requires NonNegative(NodeTimeline(f.tween.value).totalDuration)
    ensures g.tween.Some? && NodeTimeline(g.tween.value).totalElapsedTime == ClampTotal(shown - f.startTime, NodeTimeline(f.tween.value).totalDuration)
  {
    var n := f.tween.value;
    assert NodeWellFormed(n);
    var t := NodeGoTo(n, shown - f.startTime, validateEachTick);
    assert g == f.(tween := Some(t.node));
    NodeGoToLands(n, shown - f.startTime, validateEachTick);
  }

  lemma RunningFlows(c: Collection, deltaTime: real, validateEachTick: bool)
    requires WellFormed(c) && !Update(c, deltaTime, validateEachTick).done
    ensures var shown := Converted(GoTimeline.Update(c.base, deltaTime).timeline);
            (shown.NaN? ==> Update(c, deltaTime, validateEachTick).collection.flows == c.flows) &&
            (shown.At? ==> Update(c, deltaTime, validateEachTick).collection.flows == GoToFlows(c.flows, shown.time, validateEachTick).flows)
  {
  }

  /** complete() on a counted collection sends every child with a finite
      total duration to its end. */
  lemma CompleteSendsChildrenToEnd(c: Collection, validateEachTick: bool, i: int)
    requires WellFormed(c) && c.base.iterations >= 0
    requires 0 <= i < |c.flows| && c.flows[i].tween.Some?
    requires NodeTimeline(c.flows[i].tween.value).totalDuration.Finite?
    requires Tickable(c.flows[i].tween.value, validateEachTick)
    ensures var g := CompleteCollection(c, validateEachTick).collection.flows[i];
            g.tween.Some? && NodeTimeline(g.tween.value).totalElapsedTime == NodeTimeline(c.flows[i].tween.value).totalDuration.value
  {
    GoToEndFlowsAt(c.flows, validateEachTick, i);
    NodeGoToEnd(c.flows[i].tween.value, validateEachTick);
  }

  /** goTo(totalDuration) on a child with an end leaves its clock there. */
  lemma NodeGoToEnd(n: Node, validateEachTick: bool)
    requires NodeWellFormed(n) && Tickable(n, validateEachTick) && NodeTimeline(n).totalDuration.Finite?
    ensures NodeTimeline(NodeGoTo(n, NodeTimeline(n).totalDuration.value, validateEachTick).node).totalElapsedTime == NodeTimeline(n).totalDuration.value
  {
    var time := NodeTimeline(n).totalDuration.value;
    match n
    case TweenNode(tw) =>
      var positioned := tw.(delayComplete := true, elapsedDelay := tw.delay, base := GoToPosition(tw.base, time));
      GoToEndLands(tw.base);
      GoTweens.UpdateAfterDelay(positioned, 0.0, validateEachTick);
    case CollectionNode(cc) =>
      assert WellFormed(cc);
      GoToEndLands(cc.base);
  }

  /** complete() followed by update(0) finishes a counted collection. */
  lemma CompleteThenUpdateDone(c: Collection, validateEachTick: bool)
    requires WellFormed(c) && Timed(c.base) && c.base.iterations > 0
    ensures Update(CompleteCollection(c, validateEachTick).collection, 0.0, validateEachTick).done
  {
    CompleteThenTickFinishes(c.base);
  }

  // ---------------------------------------------------------------------------
  // Controls

  /** The constructor: the config's id, loop settings and handlers, a time
      scale of one, paused, with no items yet. */
  function NewCollection(config: CollectionConfig): (c: Collection)
    ensures c.base.id == config.id && c.base.iterations == config.iterations && c.base.loopType == config.loopType
    ensures c.base.hasOnComplete == config.hasOnComplete && c.base.hasOnStart == config.hasOnStart
    ensures c.base.timeScale == 1.0 && c.base.state == Paused && c.flows == []
    ensures !c.base.didStart && !c.base.didComplete && c.base.totalElapsedTime == 0.0
    ensures c.base.duration == 0.0 && c.base.totalDuration == Finite(0.0) && !c.base.isReversed && WellFormed(c)
  {
    Collection(Timeline(
      id := config.id, state := Paused, duration := 0.0, totalDuration := Finite(0.0), timeScale := 1.0,
      loopType := config.loopType, iterations := config.iterations, autoRemoveOnComplete := false,
      isReversed := false, didStart := false, didComplete := false, elapsedTime := At(0.0), totalElapsedTime := 0.0,
      isLoopingBackOnPingPong := false, completedIterations := 0,
      hasOnStart := config.hasOnStart, hasOnComplete := config.hasOnComplete), [])
  }

  /** A collection whose loop lasts zero seconds, as the constructor leaves
      it, and that plays forward is never done: its clock stays at zero, 0 / 0
      casts to NonFiniteCast loops, its shown time is NaN, and its state and
      items stay as they were, tick after tick, unless it was already
      complete. */
  lemma ZeroDurationNeverDone(c: Collection, deltaTime: real, validateEachTick: bool)
    requires WellFormed(c) && c.base.duration == 0.0 && c.base.totalDuration == Finite(0.0) && !c.base.isReversed
    requires c.base.state != TweenState.Complete
    ensures var r := Update(c, deltaTime, validateEachTick);
            !r.done && r.collection.flows == c.flows && r.collection.base.state == c.base.state &&
            r.collection.base.totalElapsedTime == 0.0 && Converted(r.collection.base) == NaN &&
            r.collection.base.duration == 0.0 && r.collection.base.totalDuration == Finite(0.0) && !r.collection.base.isReversed
  {
    var total := ClampTotal(Moved(c.base, deltaTime), c.base.totalDuration);
    assert total == 0.0;
    assert LoopCount(total, 0.0) == NonFiniteCast;
    var step := GoTimeline.Update(c.base, deltaTime).timeline;
    assert step.state == c.base.state && Converted(step).NaN?;
  }

  /** isValid: a collection is always valid. */
  predicate IsValid(c: Collection) {
    true
  }

  /** rewind(): paused at the start; the children are left where they are. */
  function Rewind(c: Collection): (r: Collection)
    ensures r.flows == c.flows && r.base.state == Paused
    ensures Shaped(c.base) && c.base.duration >= 0.0 ==> Valid(r.base)
    ensures SameShape(c.base, r.base) && r.base.totalElapsedTime == 0.0 && r.base.elapsedTime == At(0.0)
    ensures r.base.completedIterations == 0 && !r.base.isLoopingBackOnPingPong
    ensures r.base.(state := c.base.state, totalElapsedTime := c.base.totalElapsedTime, elapsedTime := c.base.elapsedTime,
                    completedIterations := c.base.completedIterations, isLoopingBackOnPingPong := c.base.isLoopingBackOnPingPong) == c.base
  {
    c.(base := c.base.(state := Paused, elapsedTime := At(0.0), totalElapsedTime := 0.0,
                       isLoopingBackOnPingPong := false, completedIterations := 0))
  }

  /** restart(): onComplete armed again, rewound, and running. */
  function Restart(c: Collection): (r: Collection)
    ensures r.flows == c.flows && r.base.state == Running && !r.base.didComplete && r.base.totalElapsedTime == 0.0
    ensures r.base == Rewind(c).base.(didComplete := false, state := Running)
  {
    var w := Rewind(c.(base := c.base.(didComplete := false)));
    w.(base := w.base.(state := Running))
  }

  /** A restarted collection completes again: it can fire onComplete a second
      time. */
  lemma RestartRearms(c: Collection, validateEachTick: bool)
    requires WellFormed(c) && Timed(c.base) && c.base.iterations > 0
    ensures var r := Restart(c);
            WellFormed(r) && !r.base.didComplete &&
            var t := Update(CompleteCollection(r, validateEachTick).collection, 0.0, validateEachTick);
            t.done && (c.base.hasOnComplete ==> Completed in t.events)
  {
    var r := Restart(c);
    MatchesRefl(c);
    assert Matches(c, r);
    MatchesKeeps(c, r);
    CompleteThenTickFinishes(r.base);
    var d := CompleteCollection(r, validateEachTick).collection;
    var step := GoTimeline.Update(d.base, 0.0);
    var children := CompleteFlows(d.flows, validateEachTick);
    assert Update(d, 0.0, validateEachTick).events == step.events + children.events + [Completed] || !c.base.hasOnComplete;
  }

  // ---------------------------------------------------------------------------
  // Queries over the tree

  /** allTweenProperties: every property of every tween in the tree, items
      in order. */
  function AllTweenProperties(c: Collection): seq<GoTweens.Property>
    decreases c, 1
  {
    FlowsProperties(c.flows)
  }

  function FlowsProperties(flows: seq<FlowItem>): seq<GoTweens.Property>
    decreases flows
  {
    if |flows| == 0 then [] else ItemProperties(flows[0]) + FlowsProperties(flows[1..])
  }

  function ItemProperties(f: FlowItem): seq<GoTweens.Property>
    decreases f
  {
    match f.tween
    case None => []
    case Some(n) => NodeProperties(n)
  }

  function NodeProperties(n: Node): seq<GoTweens.Property>
    decreases n
  {
    match n
    case TweenNode(tw) => tw.properties
    case CollectionNode(c) => AllTweenProperties(c)
  }

  /** containsTweenProperty: some item's tween contains it, searched item by
      item. */
  predicate ContainsTweenProperty(c: Collection, p: GoTweens.Property)
    decreases c, 1
  {
    FlowsContain(c.flows, p)
  }

  predicate FlowsContain(flows: seq<FlowItem>, p: GoTweens.Property)
    decreases flows
  {
    |flows| > 0 && (ItemContains(flows[0], p) || FlowsContain(flows[1..], p))
  }

  predicate ItemContains(f: FlowItem, p: GoTweens.Property)
    decreases f
  {
    match f.tween
    case None => false
    case Some(n) => NodeContains(n, p)
  }

  predicate NodeContains(n: Node, p: GoTweens.Property)
    decreases n
  {
    match n
    case TweenNode(tw) => GoTweens.ContainsTweenProperty(tw, p)
    case CollectionNode(c) => ContainsTweenProperty(c, p)
  }

  /** The search agrees with the list: a collection contains a property
      exactly when allTweenProperties lists it. */
  lemma {:induction false} ContainsIffListed(c: Collection, p: GoTweens.Property)
    ensures ContainsTweenProperty(c, p) <==> p in AllTweenProperties(c)
    decreases c, 1
  {
    FlowsContainIffListed(c.flows, p);
  }

  lemma {:induction false} FlowsContainIffListed(flows: seq<FlowItem>, p: GoTweens.Property)
    ensures FlowsContain(flows, p) <==> p in FlowsProperties(flows)
    decreases flows
  {
    if |flows| > 0 {
      FlowsContainIffListed(flows[1..], p);
      ItemContainsIffListed(flows[0], p);
    }
  }

  lemma {:induction false} ItemContainsIffListed(f: FlowItem, p: GoTweens.Property)
    ensures ItemContains(f, p) <==> p in ItemProperties(f)
    decreases f
  {
    if f.tween.Some? {
      match f.tween.value
      case TweenNode(_) =>
      case CollectionNode(cc) => ContainsIffListed(cc, p);
    }
  }

  /** removeTweenProperty: the first item whose tween removes the property
      stops the search. The answer is whether the tree contained it; when it
      did, exactly one copy is gone from allTweenProperties, and otherwise
      nothing changes. */
  function RemoveTweenProperty(c: Collection, p: GoTweens.Property): (r: (Collection, bool))
    ensures r.1 <==> ContainsTweenProperty(c, p)
    ensures !r.1 ==> r.0 == c
    ensures r.1 ==> multiset(AllTweenProperties(r.0)) == multiset(AllTweenProperties(c)) - multiset{p}
    ensures r.0.base == c.base
    decreases c, 1
  {
    var rest := RemoveFromFlows(c.flows, p);
    (c.(flows := rest.0), rest.1)
  }

  function RemoveFromFlows(flows: seq<FlowItem>, p: GoTweens.Property): (r: (seq<FlowItem>, bool))
    ensures r.1 <==> FlowsContain(flows, p)
    ensures !r.1 ==> r.0 == flows
    ensures r.1 ==> multiset(FlowsProperties(r.0)) == multiset(FlowsProperties(flows)) - multiset{p}
    decreases flows
  {
    if |flows| == 0 then (flows, false)
    else
      var f := flows[0];
      var here := RemoveFromItem(f, p);
      PropertiesCons(f, flows[1..]);
      assert flows == [f] + flows[1..];
      if here.1 then
        PropertiesCons(here.0, flows[1..]);
        ItemContainsIffListed(f, p);
        MultisetSplice(ItemProperties(f), ItemProperties(here.0), FlowsProperties(flows[1..]), p);
        ([here.0] + flows[1..], true)
      else
        var rest := RemoveFromFlows(flows[1..], p);
        PropertiesCons(f, rest.0);
        FlowsContainIffListed(flows[1..], p);
        MultisetSplice2(ItemProperties(f), FlowsProperties(flows[1..]), FlowsProperties(rest.0), p);
        ([f] + rest.0, rest.1)
  }

  lemma PropertiesCons(f: FlowItem, rest: seq<FlowItem>)
    ensures FlowsProperties([f] + rest) == ItemProperties(f) + FlowsProperties(rest)
  {
    assert ([f] + rest)[1..] == rest;
  }

  lemma MultisetSplice(a: seq<GoTweens.Property>, a': seq<GoTweens.Property>, b: seq<GoTweens.Property>, p: GoTweens.Property)
    requires p in a && multiset(a') == multiset(a) - multiset{p}
    ensures multiset(a' + b) == multiset(a + b) - multiset{p}
  {
    assert p in multiset(a);
  }

  lemma MultisetSplice2(a: seq<GoTweens.Property>, b: seq<GoTweens.Property>, b': seq<GoTweens.Property>, p: GoTweens.Property)
    ensures p in b && multiset(b') == multiset(b) - multiset{p} ==> multiset(a + b') == multiset(a + b) - multiset{p}
  {
    if p in b {
      assert p in multiset(b);
    }
  }

  function RemoveFromItem(f: FlowItem, p: GoTweens.Property): (r: (FlowItem, bool))
    ensures r.1 <==> ItemContains(f, p)
    ensures !r.1 ==> r.0 == f
    ensures r.1 ==> multiset(ItemProperties(r.0)) == multiset(ItemProperties(f)) - multiset{p}
    decreases f
  {
    match f.tween
    case None => (f, false)
    case Some(n) =>
      var t := RemoveFromNode(n, p);
      (f.(tween := Some(t.0)), t.1)
  }

  function RemoveFromNode(n: Node, p: GoTweens.Property): (r: (Node, bool))
    ensures r.1 <==> NodeContains(n, p)
    ensures !r.1 ==> r.0 == n
    ensures r.1 ==> multiset(NodeProperties(r.0)) == multiset(NodeProperties(n)) - multiset{p}
    decreases n
  {
    match n
    case TweenNode(tw) =>
      var t := GoTweens.RemoveTweenProperty(tw, p);
      (TweenNode(t.0), t.1)
    case CollectionNode(c) =>
      var t := RemoveTweenProperty(c, p);
      (CollectionNode(t.0), t.1)
  }

  /** Every GoTween in the tree, items in order, depth first. */
  function AllTweens(c: Collection): seq<GoTweens.GoTween>
    decreases c, 1
  {
    FlowsTweens(c.flows)
  }

  function FlowsTweens(flows: seq<FlowItem>): seq<GoTweens.GoTween>
    decreases flows
  {
    if |flows| == 0 then [] else ItemTweens(flows[0]) + FlowsTweens(flows[1..])
  }

  function ItemTweens(f: FlowItem): seq<GoTweens.GoTween>
    decreases f
  {
    match f.tween
    case None => []
    case Some(TweenNode(tw)) => [tw]
    case Some(CollectionNode(c)) => AllTweens(c)
  }

  /** The tweens of a list whose target is `target`, in order. */
  function WithTarget(s: seq<GoTweens.GoTween>, target: Option<GoTweens.Target>): (r: seq<GoTweens.GoTween>)
    ensures forall k :: 0 <= k < |r| ==> r[k].target == target
  {
    if |s| == 0 then [] else (if s[0].target == target then [s[0]] else []) + WithTarget(s[1..], target)
  }

  lemma {:induction false} WithTargetAppend(a: seq<GoTweens.GoTween>, b: seq<GoTweens.GoTween>, target: Option<GoTweens.Target>)
    ensures WithTarget(a + b, target) == WithTarget(a, target) + WithTarget(b, target)
    decreases |a|
  {
    if |a| > 0 {
      var head := if a[0].target == target then [a[0]] else [];
      assert (a + b)[0] == a[0] && (a + b)[1..] == a[1..] + b;
      assert WithTarget(a + b, target) == head + WithTarget(a[1..] + b, target);
      WithTargetAppend(a[1..], b, target);
      assert WithTarget(a, target) == head + WithTarget(a[1..], target);
      assert head + (WithTarget(a[1..], target) + WithTarget(b, target))
          == (head + WithTarget(a[1..], target)) + WithTarget(b, target);
    } else {
      assert a + b == b;
    }
  }

  /** tweensWithTarget: the GoTweens among the items whose target is
      `target`, with each nested collection searched in its place. */
  function TweensWithTarget(c: Collection, target: Option<GoTweens.Target>): (r: seq<GoTweens.GoTween>)
    ensures forall k :: 0 <= k < |r| ==> r[k].target == target
    decreases c, 1
  {
    FlowsTweensWithTarget(c.flows, target)
  }

  function FlowsTweensWithTarget(flows: seq<FlowItem>, target: Option<GoTweens.Target>): (r: seq<GoTweens.GoTween>)
    ensures forall k :: 0 <= k < |r| ==> r[k].target == target
    decreases flows
  {
    if |flows| == 0 then []
    else
      ItemTweensWithTarget(flows[0], target) + FlowsTweensWithTarget(flows[1..], target)
  }

  function ItemTweensWithTarget(f: FlowItem, target: Option<GoTweens.Target>): (r: seq<GoTweens.GoTween>)
    ensures forall k :: 0 <= k < |r| ==> r[k].target == target
    decreases f
  {
    match f.tween
    case None => []
    case Some(n) => NodeTweensWithTarget(n, target)
  }

  function NodeTweensWithTarget(n: Node, target: Option<GoTweens.Target>): (r: seq<GoTweens.GoTween>)
    ensures forall k :: 0 <= k < |r| ==> r[k].target == target
    decreases n
  {
    match n
    case TweenNode(tw) => if tw.target == target then [tw] else []
    case CollectionNode(cc) => TweensWithTarget(cc, target)
  }

  /** tweensWithTarget is the filter of every tween in the tree by target:
      nothing is missed and nothing else is returned, in tree order. */
  lemma {:induction false} TweensWithTargetIsFilter(c: Collection, target: Option<GoTweens.Target>)
    ensures TweensWithTarget(c, target) == WithTarget(AllTweens(c), target)
    decreases c, 1
  {
    FlowsTweensWithTargetIsFilter(c.flows, target);
  }

  lemma {:induction false} FlowsTweensWithTargetIsFilter(flows: seq<FlowItem>, target: Option<GoTweens.Target>)
    ensures FlowsTweensWithTarget(flows, target) == WithTarget(FlowsTweens(flows), target)
    decreases flows
  {
    if |flows| > 0 {
      FlowsTweensWithTargetIsFilter(flows[1..], target);
      WithTargetAppend(ItemTweens(flows[0]), FlowsTweens(flows[1..]), target);
      ItemTweensWithTargetIsFilter(flows[0], target);
    }
  }

  lemma {:induction false} ItemTweensWithTargetIsFilter(f: FlowItem, target: Option<GoTweens.Target>)
    ensures ItemTweensWithTarget(f, target) == WithTarget(ItemTweens(f), target)
    decreases f
  {
    match f.tween
    case None =>
    case Some(n) =>
      match n
      case TweenNode(tw) =>
        assert WithTarget([tw], target) == if tw.target == target then [tw] else [];
      case CollectionNode(cc) =>
        TweensWithTargetIsFilter(cc, target);
  }
}

=== FILE: go_timeline.dfy ===
/** The timeline shared by every GoKit tween (AbstractGoTween): a clock that
    runs forward or backward, clamped to the total duration, counted in
    loop iterations, with PingPong loops that play every other iteration
    backwards. The onStart / onComplete handlers are represented by whether
    they are set; what they do is outside the model. */
module GoTimeline {
  import opened SteerUtil

  datatype TweenState = Running | Paused | Complete | Destroyed

  datatype LoopType = RestartFromBeginning | PingPong

  /** The duration of all loops: float.PositiveInfinity for endless tweens. */
  datatype TotalDuration = Finite(value: real) | Infinite

  /** The notifications a call raises, in order. */
  datatype TweenEvent = Started | Completed

  /** A float time that may be NaN: the loop time of a tween whose loop lasts
      zero seconds is `x % 0`, and NaN stays NaN through the arithmetic and
      compares false. */
  datatype Moment = At(time: real) | NaN

  /** What (int) makes of NaN or an infinity. C# leaves the value
      unspecified; the x86 and x64 conversion that Unity's editor and desktop
      players use gives int.MinValue. */
  const NonFiniteCast: int := -0x8000_0000

  datatype Timeline = Timeline(
    id: int,
    state: TweenState,
    duration: real,
    totalDuration: TotalDuration,
    timeScale: real,
    loopType: LoopType,
    iterations: int,
    autoRemoveOnComplete: bool,
    isReversed: bool,
    didStart: bool,
    didComplete: bool,
    elapsedTime: Moment,
    totalElapsedTime: real,
    isLoopingBackOnPingPong: bool,
    completedIterations: int,
    hasOnStart: bool,
    hasOnComplete: bool)

  /** A counted tween (zero or more loops) has an end: its total duration is
      finite. Every constructor leaves a timeline so, a collection with no
      items yet included. */
  predicate CountedEnds(t: Timeline) {
    t.iterations >= 0 ==> t.totalDuration.Finite?
  }

  /** The shape the GoTween constructor gives a timeline, whatever its
      duration: a total duration of `iterations` loops, endless for a
      negative count. */
  predicate Shaped(t: Timeline) {
    (t.iterations < 0 ==> t.totalDuration == Infinite) &&
    (t.iterations >= 0 ==> t.totalDuration == Finite(Loops(t.iterations, t.duration)))
  }

  /** Shaped with loops that take time: the timelines whose clock counts
      loops. */
  predicate Timed(t: Timeline) {
    Shaped(t) && t.duration > 0.0
  }

  /** Shaped, with the clock inside [0, totalDuration]. */
  predicate Valid(t: Timeline) {
    Shaped(t) && Within(t.totalElapsedTime, t.totalDuration)
  }

  /** A total duration the clock can lie within: not negative. */
  predicate NonNegative(total: TotalDuration) {
    total.Finite? ==> total.value >= 0.0
  }

  predicate Within(x: real, total: TotalDuration) {
    0.0 <= x && (total.Finite? ==> x <= total.value)
  }

  /** Mathf.Clamp(x, 0, totalDuration). */
  function ClampTotal(x: real, total: TotalDuration): (r: real)
    ensures total.Infinite? ==> r == if x < 0.0 then 0.0 else x
    ensures total.Finite? ==> r == Clip(x, 0.0, total.value)
  {
    match total
    case Infinite => if x < 0.0 then 0.0 else x
    case Finite(v) => Clip(x, 0.0, v)
  }

  /** The integer part of a real, rounded toward zero as a float-to-int cast
      does. */
  function Trunc(x: real): (n: int)
    ensures Abs(n as real) <= Abs(x) < Abs(n as real) + 1.0
    ensures x >= 0.0 ==> n >= 0
    ensures x < 0.0 ==> n <= 0
  {
    if x >= 0.0 then x.Floor else -((-x).Floor)
  }

  /** The time `n` loops of length `d` take. */
  function Loops(n: int, d: real): real {
    n as real * d
  }

  /** The float remainder `x % d`: the sign of `x`, the magnitude below |d|;
      for a clock and a loop length, the time into the current loop. */
  function Fmod(x: real, d: real): (r: real)
    requires d != 0.0
    ensures d > 0.0 && x >= 0.0 ==> 0.0 <= r < d && r + Loops(LoopCount(x, d), d) == x
  {
    if d > 0.0 && x >= 0.0 then
      FloorCounts(x, d);
      x - Trunc(x / d) as real * d
    else x - Trunc(x / d) as real * d
  }

  lemma MulPositive(a: real, b: real)
    requires a > 0.0 && b > 0.0
    ensures a * b > 0.0
  {
  }

  /** More loops take longer, by at least one loop per loop. */
  lemma Multiples(m: int, n: int, d: real)
    requires m < n && d > 0.0
    ensures Loops(m, d) + d <= Loops(n, d)
  {
    MulNonNegative(n as real - m as real - 1.0, d);
    assert (n as real - m as real - 1.0) * d == n as real * d - m as real * d - d;
  }

  lemma DivMul(x: real, d: real)
    requires d > 0.0
    ensures (x / d) * d == x
  {
  }

  /** The whole part `f` of `q = total / d` counts the loops that fit in
      `total`. */
  lemma WholePart(q: real, f: int, d: real, total: real)
    requires f as real <= q < f as real + 1.0 && d > 0.0 && q * d == total
    ensures Loops(f, d) <= total < Loops(f, d) + d
  {
    WholeFits(q, f, d, total);
    NextDoesNot(q, f, d, total);
  }

  lemma WholeFits(q: real, f: int, d: real, total: real)
    requires f as real <= q && d > 0.0 && q * d == total
    ensures Loops(f, d) <= total
  {
    MulNonNegative(q - f as real, d);
    assert (q - f as real) * d == q * d - f as real * d;
  }

  lemma NextDoesNot(q: real, f: int, d: real, total: real)
    requires q < f as real + 1.0 && d > 0.0 && q * d == total
    ensures total < Loops(f, d) + d
  {
    MulPositive(f as real + 1.0 - q, d);
    assert (f as real + 1.0 - q) * d == f as real * d + d - q * d;
  }

  /** floor(total / duration) counts the whole loops of length `duration` in
      `total`. */
  lemma FloorCounts(total: real, duration: real)
    requires total >= 0.0 && duration > 0.0
    ensures total / duration >= 0.0 && (total / duration).Floor >= 0
    ensures Loops((total / duration).Floor, duration) <= total < Loops((total / duration).Floor, duration) + duration
  {
    var q := total / duration;
    DivMul(total, duration);
    WholePart(q, q.Floor, duration, total);
  }


  /** (int)Mathf.Floor(total / duration): the number of whole loops in the
      clock. For a zero duration the quotient is NaN or infinite, and the
      cast gives NonFiniteCast. */
  function LoopCount(total: real, duration: real): (n: int)
    ensures duration == 0.0 ==> n == NonFiniteCast
    ensures duration != 0.0 ==> n as real <= total / duration < n as real + 1.0
    ensures total >= 0.0 && duration > 0.0 ==> n >= 0 && Loops(n, duration) <= total < Loops(n, duration) + duration
  {
    if duration == 0.0 then NonFiniteCast
    else if total >= 0.0 && duration > 0.0 then
      FloorCounts(total, duration);
      (total / duration).Floor
    else (total / duration).Floor
  }

  /** The loop count is the only whole number of loops that fits. */
  lemma LoopCountUnique(total: real, duration: real, n: int)
    requires total >= 0.0 && duration > 0.0
    requires Loops(n, duration) <= total < Loops(n, duration) + duration
    ensures LoopCount(total, duration) == n
  {
    var m := LoopCount(total, duration);
    if m < n {
      Multiples(m, n, duration);
    } else if m > n {
      Multiples(n, m, duration);
    }
  }

  /** Whether the tween is on a backward pass of a PingPong loop after
      `completed` loops: the odd passes of an endless tween; for a counted
      one the odd passes, and the even pass one past the end, so that a
      finished tween rests where its last pass ended. Only the zero test of
      `% 2` matters, so C#'s truncating remainder and Dafny's agree, for
      negative counts too. */
  predicate LoopingBack(loopType: LoopType, iterations: int, completed: int) {
    loopType == PingPong &&
    ((iterations < 0 && completed % 2 != 0) ||
     (iterations > 0 &&
      ((completed >= iterations && completed % 2 == 0) ||
       (completed < iterations && completed % 2 != 0))))
  }

  /** Whether a counted tween has run all its loops. */
  predicate Finished(t: Timeline) {
    t.iterations > 0 && t.completedIterations >= t.iterations
  }

  /** The time into the current loop: the whole loop once all loops are run,
      the clock itself before it passes the loop length, otherwise what is
      left of the clock after the completed loops, which is NaN for a loop
      of zero seconds. */
  function LoopTime(total: real, duration: real, finished: bool): (e: Moment)
    ensures finished ==> e == At(duration)
    ensures !finished && duration == 0.0 && total >= 0.0 ==> e == NaN
    ensures total >= 0.0 && duration > 0.0 ==>
              e.At? && 0.0 <= e.time <= duration &&
              (!finished ==> e.time + Loops(LoopCount(total, duration), duration) == total)
  {
    if finished then At(duration)
    else if total < duration then
      if total >= 0.0 then
        LoopCountUnique(total, duration, 0);
        At(total)
      else At(total)
    else if duration == 0.0 then NaN
    else At(Fmod(total, duration))
  }

  /** The clock moved by deltaTime, backwards when reversed, before it is
      clamped. */
  function Moved(t: Timeline, deltaTime: real): real {
    if t.isReversed then t.totalElapsedTime - deltaTime else t.totalElapsedTime + deltaTime
  }

  /** The fields that fix a tween's shape agree. */
  predicate SameShape(t: Timeline, u: Timeline) {
    u.duration == t.duration && u.totalDuration == t.totalDuration && u.iterations == t.iterations
  }

  lemma ShapeKept(t: Timeline, u: Timeline)
    requires SameShape(t, u)
    ensures Shaped(t) ==> Shaped(u)
    ensures Timed(t) ==> Timed(u)
    ensures CountedEnds(t) ==> CountedEnds(u)
  {
  }

  /** The result of a tick: the new timeline and the events raised. */
  datatype Step = Step(timeline: Timeline, events: seq<TweenEvent>)

  /** The base update(deltaTime), which always answers false. It takes any
      duration: a zero one divides to NaN as in the source. */
  function Update(t: Timeline, deltaTime: real): (r: Step)
    ensures SameShape(t, r.timeline) && r.timeline.didStart
    ensures r.events == (if !t.didStart && t.hasOnStart then [Started] else [])
    ensures NonNegative(t.totalDuration) ==> Within(r.timeline.totalElapsedTime, t.totalDuration)
    ensures r.timeline.(didStart := t.didStart, totalElapsedTime := t.totalElapsedTime, completedIterations := t.completedIterations,
                        isLoopingBackOnPingPong := t.isLoopingBackOnPingPong, elapsedTime := t.elapsedTime, state := t.state) == t
  {
    var events := if !t.didStart && t.hasOnStart then [Started] else [];
    var total := ClampTotal(Moved(t, deltaTime), t.totalDuration);
    var completed := LoopCount(total, t.duration);
    var finished := t.iterations > 0 && completed >= t.iterations;
    var complete := (finished && !t.isReversed) || (t.isReversed && total <= 0.0);
    Step(t.(didStart := true,
            totalElapsedTime := total,
            completedIterations := completed,
            isLoopingBackOnPingPong := LoopingBack(t.loopType, t.iterations, completed),
            elapsedTime := LoopTime(total, t.duration, finished),
            state := if complete then Complete else t.state),
         events)
  }

  /** The clock after a tick: moved by deltaTime (backwards when reversed)
      and clamped to [0, totalDuration] as Mathf.Clamp does, which for a
      negative total duration means 0 below zero and the total above it. */
  lemma UpdateClock(t: Timeline, deltaTime: real)
    ensures var u := Update(t, deltaTime).timeline;
            (Within(Moved(t, deltaTime), t.totalDuration) ==> u.totalElapsedTime == Moved(t, deltaTime)) &&
            (Moved(t, deltaTime) < 0.0 ==> u.totalElapsedTime == 0.0) &&
            (t.totalDuration.Finite? && Moved(t, deltaTime) >= 0.0 && Moved(t, deltaTime) > t.totalDuration.value ==>
               u.totalElapsedTime == t.totalDuration.value)
  {
  }

  /** The loop bookkeeping after a tick of a tween whose loops take time:
      the completed loops are the whole loops in the clock, and the loop
      time is the rest of the clock, or the whole loop once a counted tween
      has run all its loops. */
  lemma UpdateLoops(t: Timeline, deltaTime: real)
    requires Timed(t)
    ensures var u := Update(t, deltaTime).timeline;
            u.completedIterations >= 0 &&
            Loops(u.completedIterations, t.duration) <= u.totalElapsedTime < Loops(u.completedIterations, t.duration) + t.duration &&
            u.elapsedTime.At? && 0.0 <= u.elapsedTime.time <= t.duration &&
            (Finished(u) ==> u.elapsedTime == At(t.duration)) &&
            (!Finished(u) ==> u.elapsedTime.time + Loops(u.completedIterations, t.duration) == u.totalElapsedTime) &&
            u.isLoopingBackOnPingPong == LoopingBack(t.loopType, t.iterations, u.completedIterations)
  {
    TotalNonNegative(t);
  }

  /** A tick completes the tween when a forward counted tween has run all its
      loops, or a reversed tween's clock is back at zero, and otherwise
      leaves the state alone. */
  lemma UpdateState(t: Timeline, deltaTime: real)
    ensures var u := Update(t, deltaTime).timeline;
            var completes := (Finished(u) && !t.isReversed) || (t.isReversed && u.totalElapsedTime <= 0.0);
            (completes ==> u.state == Complete) && (!completes ==> u.state == t.state)
  {
  }

  /** The time the tween's properties are shown at: the loop time, mirrored
      on a backward PingPong pass; NaN when the loop time is. */
  function Converted(t: Timeline): (m: Moment)
    ensures m.NaN? <==> t.elapsedTime.NaN?
  {
    match t.elapsedTime
    case NaN => NaN
    case At(e) => At(if t.isLoopingBackOnPingPong then t.duration - e else e)
  }

  /** After any tick of a tween whose loops take time, the shown time lies
      within one loop. */
  lemma ConvertedWithinLoop(t: Timeline, deltaTime: real)
    requires Timed(t)
    ensures var m := Converted(Update(t, deltaTime).timeline);
            m.At? && 0.0 <= m.time <= t.duration
  {
    UpdateLoops(t, deltaTime);
  }

  /** Update keeps a timeline of non-negative duration valid. */
  lemma UpdateKeepsValid(t: Timeline, deltaTime: real)
    requires Shaped(t) && t.duration >= 0.0
    ensures Valid(Update(t, deltaTime).timeline)
  {
    TotalNonNegative(t);
  }

  /** A counted tween played forward completes exactly when its clock
      reaches the total duration; until then its state is left as it was. */
  lemma ForwardCompletesAtEnd(t: Timeline, deltaTime: real)
    requires Timed(t) && t.iterations > 0 && !t.isReversed
    ensures var u := Update(t, deltaTime).timeline;
            (Moved(t, deltaTime) >= t.totalDuration.value ==>
               u.state == Complete && u.completedIterations == t.iterations) &&
            (Moved(t, deltaTime) < t.totalDuration.value ==> u.state == t.state && !Finished(u))
  {
    var u := Update(t, deltaTime).timeline;
    UpdateLoops(t, deltaTime);
    UpdateState(t, deltaTime);
    TotalNonNegative(t);
    if Moved(t, deltaTime) >= t.totalDuration.value {
      assert u.totalElapsedTime == Loops(t.iterations, t.duration);
      LoopCountUnique(u.totalElapsedTime, t.duration, t.iterations);
    } else if u.completedIterations >= t.iterations {
      if u.completedIterations > t.iterations {
        Multiples(t.iterations, u.completedIterations, t.duration);
      }
      assert false;
    }
  }

  /** A reversed tween with at least one loop of positive length completes
      exactly when its clock reaches zero. */
  lemma ReversedCompletesAtStart(t: Timeline, deltaTime: real)
    requires Timed(t) && t.isReversed && t.iterations != 0
    ensures var u := Update(t, deltaTime).timeline;
            (Moved(t, deltaTime) <= 0.0 ==> u.state == Complete) &&
            (Moved(t, deltaTime) > 0.0 ==> u.state == t.state)
  {
    UpdateClock(t, deltaTime);
    UpdateState(t, deltaTime);
    if t.iterations > 0 {
      Multiples(0, t.iterations, t.duration);
    }
  }

  /** Where a counted tween rests once its loops are done: at the end of the
      loop, except a PingPong with an even count, which has come back to the
      start. */
  lemma FinishedRestsAtEnd(t: Timeline, deltaTime: real)
    requires Timed(t) && t.iterations > 0
    requires Finished(Update(t, deltaTime).timeline)
    ensures var u := Update(t, deltaTime).timeline;
            Converted(u) == At(if t.loopType == PingPong && t.iterations % 2 == 0 then 0.0 else t.duration)
  {
    var u := Update(t, deltaTime).timeline;
    UpdateLoops(t, deltaTime);
    if u.completedIterations > t.iterations {
      Multiples(t.iterations, u.completedIterations, t.duration);
      assert false;
    }
  }

  /** Between the start and the end of a counted tween, a PingPong tween plays
      its even passes forward and its odd passes backward, and a restarting
      tween plays every pass forward. */
  lemma PassDirection(t: Timeline, deltaTime: real)
    requires t.iterations > 0
    ensures var u := Update(t, deltaTime).timeline;
            !Finished(u) ==>
              (u.isLoopingBackOnPingPong <==> t.loopType == PingPong && u.completedIterations % 2 == 1)
  {
  }

  /** A tween whose loop lasts zero seconds and that plays forward never
      completes: its clock stays at zero, 0 / 0 casts to NonFiniteCast loops,
      fewer than any positive count, and its loop time and shown time are
      NaN. */
  lemma ZeroDurationStalls(t: Timeline, deltaTime: real)
    requires Shaped(t) && t.duration == 0.0 && t.iterations > 0 && !t.isReversed
    ensures var u := Update(t, deltaTime).timeline;
            u.state == t.state && u.totalElapsedTime == 0.0 && u.completedIterations == NonFiniteCast &&
            !Finished(u) && u.elapsedTime == NaN && Converted(u) == NaN
  {
    var total := ClampTotal(Moved(t, deltaTime), t.totalDuration);
    assert t.totalDuration == Finite(0.0);
    assert total == 0.0;
  }

  /** A tween whose loops last a negative time and that plays forward
      completes on any tick that does not move its clock below zero: the
      clock is clamped to the (negative) total, which divides back into
      exactly `iterations` loops. */
  lemma NegativeDurationCompletesAtOnce(t: Timeline, deltaTime: real)
    requires Shaped(t) && t.duration < 0.0 && t.iterations > 0 && !t.isReversed
    requires Moved(t, deltaTime) >= 0.0
    ensures var u := Update(t, deltaTime).timeline;
            u.state == Complete && u.totalElapsedTime == t.totalDuration.value && u.completedIterations == t.iterations
  {
    var n := t.iterations as real;
    var total := t.totalDuration.value;
    assert total == n * t.duration;
    assert total < 0.0 by {
      MulPositive(n, -t.duration);
      assert n * -t.duration == -(n * t.duration);
    }
    assert total / t.duration == n;
    assert LoopCount(total, t.duration) == t.iterations;
  }

  /** A sequence of ticks: the final timeline and every event raised. */
  function Replay(t: Timeline, deltas: seq<real>): (r: (Timeline, seq<TweenEvent>))
    ensures SameShape(t, r.0)
    decreases |deltas|
  {
    if |deltas| == 0 then (t, [])
    else
      var r := Update(t, deltas[0]);
      var rest := Replay(r.timeline, deltas[1..]);
      (rest.0, r.events + rest.1)
  }

  /** onStart fires only on the first tick of a tween that has not started:
      a started tween raises nothing however many ticks follow, and a fresh
      one raises Started once, at the front. */
  lemma {:induction false} StartFiresOnce(t: Timeline, deltas: seq<real>)
    ensures t.didStart ==> Replay(t, deltas).1 == []
    ensures !t.didStart && t.hasOnStart && |deltas| > 0 ==> Replay(t, deltas).1 == [Started]
    decreases |deltas|
  {
    if |deltas| > 0 {
      StartFiresOnce(Update(t, deltas[0]).timeline, deltas[1..]);
    }
  }

  /** However long a forward tween whose loop lasts zero seconds is ticked,
      its state stays what it was: it never completes. */
  lemma {:induction false} ZeroDurationNeverCompletes(t: Timeline, deltas: seq<real>)
    requires Shaped(t) && t.duration == 0.0 && t.iterations > 0 && !t.isReversed
    ensures Replay(t, deltas).0.state == t.state
    decreases |deltas|
  {
    if |deltas| > 0 {
      var u := Update(t, deltas[0]).timeline;
      ZeroDurationStalls(t, deltas[0]);
      ShapeKept(t, u);
      ZeroDurationNeverCompletes(u, deltas[1..]);
    }
  }

  // ---------------------------------------------------------------------------
  // Playback controls

  /** pause(): only the state changes. */
  function Pause(t: Timeline): (u: Timeline)
    ensures u.state == Paused && u.(state := t.state) == t
  {
    t.(state := Paused)
  }

  /** play(): only the state changes. */
  function Play(t: Timeline): (u: Timeline)
    ensures u.state == Running && u.(state := t.state) == t
  {
    t.(state := Running)
  }

  /** playForward(): forward and running, whatever the direction was. */
  function PlayForward(t: Timeline): (u: Timeline)
    ensures u.state == Running && !u.isReversed
    ensures u.(state := t.state, isReversed := t.isReversed) == t
  {
    t.(isReversed := false, state := Running)
  }

  /** playBackwards(): backward and running, whatever the direction was. */
  function PlayBackwards(t: Timeline): (u: Timeline)
    ensures u.state == Running && u.isReversed
    ensures u.(state := t.state, isReversed := t.isReversed) == t
  {
    t.(isReversed := true, state := Running)
  }

  /** reverse(): flips the direction and nothing else. */
  function Reverse(t: Timeline): (u: Timeline)
    ensures u.isReversed != t.isReversed
    ensures u.(isReversed := t.isReversed) == t
  {
    t.(isReversed := !t.isReversed)
  }

  /** Reversing twice changes nothing; reversing a tween played forward is
      playing it backwards, and the other way round. */
  lemma ReverseInvolution(t: Timeline)
    ensures Reverse(Reverse(t)) == t
    ensures Reverse(PlayForward(t)) == PlayBackwards(t)
    ensures Reverse(PlayBackwards(t)) == PlayForward(t)
  {
  }

  /** The base complete(): nothing for an endless tween; otherwise the clock
      jumps to the end (to the start when reversed) and the tween runs, so
      that its next tick finishes it. It needs a counted tween to have an
      end, as every constructor leaves it. */
  function CompleteTimeline(t: Timeline): (u: Timeline)
    requires CountedEnds(t)
    ensures t.iterations < 0 ==> u == t
    ensures t.iterations >= 0 && !t.isReversed ==>
              u.totalElapsedTime == t.totalDuration.value && u.elapsedTime == At(t.duration) &&
              u.completedIterations == t.iterations
    ensures t.iterations >= 0 && t.isReversed ==>
              u.totalElapsedTime == 0.0 && u.elapsedTime == At(0.0) && u.completedIterations == 0
    ensures t.iterations >= 0 ==> u.state == Running
    ensures u.(totalElapsedTime := t.totalElapsedTime, elapsedTime := t.elapsedTime,
               completedIterations := t.completedIterations, state := t.state) == t
  {
    if t.iterations < 0 then t
    else
      t.(elapsedTime := At(if t.isReversed then 0.0 else t.duration),
         totalElapsedTime := if t.isReversed then 0.0 else t.totalDuration.value,
         completedIterations := if t.isReversed then 0 else t.iterations,
         state := Running)
  }

  /** complete() followed by a tick of zero finishes a counted tween whose
      loops take time, in either direction, at its end position. */
  lemma CompleteThenTickFinishes(t: Timeline)
    requires Timed(t) && t.iterations > 0
    ensures var u := Update(CompleteTimeline(t), 0.0).timeline;
            u.state == Complete &&
            (!t.isReversed ==> Converted(u) == At(if t.loopType == PingPong && t.iterations % 2 == 0 then 0.0 else t.duration)) &&
            (t.isReversed ==> u.totalElapsedTime == 0.0)
  {
    var c := CompleteTimeline(t);
    if !t.isReversed {
      ForwardCompletesAtEnd(c, 0.0);
      FinishedRestsAtEnd(c, 0.0);
    }
  }

  /** complete() cannot finish a forward counted tween whose loop lasts zero
      seconds: the tick after it counts NonFiniteCast loops again, and the
      tween is left running at a NaN loop time. */
  lemma CompleteThenTickStallsAtZeroDuration(t: Timeline)
    requires Shaped(t) && t.duration == 0.0 && t.iterations > 0 && !t.isReversed
    ensures var u := Update(CompleteTimeline(t), 0.0).timeline;
            u.state == Running && !Finished(u) && u.elapsedTime == NaN
  {
    ZeroDurationStalls(CompleteTimeline(t), 0.0);
  }

  /** A shaped tween of non-negative duration has a non-negative total
      duration. */
  lemma TotalNonNegative(t: Timeline)
    requires Shaped(t) && t.duration >= 0.0
    ensures NonNegative(t.totalDuration)
  {
    if t.iterations >= 0 {
      MulNonNegative(t.iterations as real, t.duration);
    }
  }

  /** A counted tween whose end lies after its start has loops that take
      time. */
  lemma PositiveEndTimed(t: Timeline)
    requires Shaped(t) && t.iterations > 0 && t.totalDuration.value > 0.0
    ensures Timed(t)
  {
    if t.duration <= 0.0 {
      MulNonNegative(t.iterations as real, -t.duration);
    }
  }

  /** The time goTo(time) moves the clock to: clamped to [0, totalDuration],
      or to twice that for PingPong; not negative unless the total is. */
  function GoToTime(t: Timeline, time: real): (r: real)
    ensures NonNegative(t.totalDuration) ==> 0.0 <= r
    ensures t.loopType == PingPong ==> r == ClampTotal(time, Doubled(t.totalDuration))
    ensures t.loopType != PingPong ==> r == ClampTotal(time, t.totalDuration)
  {
    if t.loopType == PingPong then ClampTotal(time, Doubled(t.totalDuration)) else ClampTotal(time, t.totalDuration)
  }

  /** The positioning half of goTo(time): the clock set to the clamped time,
      with the loop count, the PingPong pass and the loop time recomputed for
      a counted or endless tween (the loop time is NaN for a loop of zero
      seconds). The update(0) that follows belongs to the concrete tween. */
  function GoToPosition(t: Timeline, time: real): (u: Timeline)
    ensures u.totalElapsedTime == GoToTime(t, time)
    ensures t.iterations == 0 ==> u.elapsedTime == At(u.totalElapsedTime) && u.completedIterations == t.completedIterations
    ensures t.iterations != 0 ==> u.completedIterations == LoopCount(u.totalElapsedTime, t.duration)
    ensures t.iterations != 0 && t.duration == 0.0 ==> u.elapsedTime == NaN
    ensures SameShape(t, u)
  {
    var time' := GoToTime(t, time);
    if t.iterations == 0 then
      t.(totalElapsedTime := time', elapsedTime := At(time'))
    else
      var completed := LoopCount(time', t.duration);
      var loopsLeft := t.iterations < 0 || completed < t.iterations + 1;
      t.(totalElapsedTime := time',
         elapsedTime := LoopRemainder(time', t.duration, loopsLeft),
         completedIterations := completed,
         isLoopingBackOnPingPong := if t.loopType == PingPong then completed % 2 != 0 else t.isLoopingBackOnPingPong)
  }

  /** The loop time goTo sets: the clock itself once no loop is left, NaN
      for a loop of zero seconds, otherwise the time into the current loop. */
  function LoopRemainder(time: real, duration: real, loopsLeft: bool): (e: Moment)
    ensures loopsLeft && duration == 0.0 <==> e == NaN
  {
    if !loopsLeft then At(time) else if duration == 0.0 then NaN else At(Fmod(time, duration))
  }

  /** totalDuration * 2. */
  function Doubled(total: TotalDuration): TotalDuration {
    match total
    case Infinite => Infinite
    case Finite(v) => Finite(2.0 * v)
  }

  /** goTo(time) then update(0) lands on the time clamped to [0,
      totalDuration], for either loop type: the doubled PingPong range is
      clamped back by the tick. */
  lemma GoToLands(t: Timeline, time: real)
    requires NonNegative(t.totalDuration)
    ensures Update(GoToPosition(t, time), 0.0).timeline.totalElapsedTime == ClampTotal(time, t.totalDuration)
  {
  }

  /** goTo(totalDuration) then update(0) leaves the clock at the total
      duration, even a negative one, where Mathf.Clamp's two tests meet. */
  lemma GoToEndLands(t: Timeline)
    requires t.totalDuration.Finite?
    ensures Update(GoToPosition(t, t.totalDuration.value), 0.0).timeline.totalElapsedTime == t.totalDuration.value
  {
    if t.totalDuration.value >= 0.0 {
      GoToLands(t, t.totalDuration.value);
    }
  }
}

=== FILE: go_tween.dfy ===
/** GoTween: a timeline that animates the properties of one target, after an
    optional delay. The properties themselves (their easing and what they
    write to the target) are outside the model: they are identities kept in
    a duplicate-free list, and whether a property accepts the target is an
    argument. Go.validateTargetObjectsEachTick is an argument of the tick. */
module GoTweens {
  import opened Wrappers
  import opened GoTimeline
  import opened SteerUtil

  datatype Target = Target(id: int)

  /** An AbstractTweenProperty, compared the way List.Contains compares it. */
  datatype Property = Property(id: int)

  /** What GoTweenConfig hands the constructor; each property comes with the
      answer its validateTarget gives for the tween's target. */
  datatype Config = Config(
    id: int,
    delay: real,
    loopType: LoopType,
    iterations: int,
    isFrom: bool,
    timeScale: real,
    hasOnComplete: bool,
    hasOnStart: bool,
    isPaused: bool,
    properties: seq<(Property, bool)>)

  datatype GoTween = GoTween(
    base: Timeline,
    target: Option<Target>,
    delay: real,
    elapsedDelay: real,
    delayComplete: bool,
    isFrom: bool,
    properties: seq<Property>)

  /** No property is listed twice. */
  predicate NoDuplicates(s: seq<Property>) {
    forall i, j :: 0 <= i < j < |s| ==> s[i] != s[j]
  }

  // ---------------------------------------------------------------------------
  // The property list

  /** addTweenProperty: a property that accepts the target and is not listed
      yet goes at the end; anything else leaves the list alone. */
  function AddTweenProperty(tw: GoTween, p: Property, validates: bool): (r: GoTween)
    ensures p in r.properties <==> p in tw.properties || validates
    ensures forall q :: q in tw.properties ==> q in r.properties
    ensures forall q :: q in r.properties && q != p ==> q in tw.properties
    ensures NoDuplicates(tw.properties) ==> NoDuplicates(r.properties)
    ensures r.(properties := tw.properties) == tw
  {
    if validates && p !in tw.properties then tw.(properties := tw.properties + [p]) else tw
  }

  /** List.Remove: the first occurrence goes. */
  function RemoveFirst(s: seq<Property>, p: Property): (r: seq<Property>)
    ensures p !in s ==> r == s
    ensures p in s ==> |r| == |s| - 1 && multiset(r) == multiset(s) - multiset{p}
    decreases |s|
  {
    if |s| == 0 then s
    else
      assert s == [s[0]] + s[1..];
      if s[0] == p then s[1..]
      else [s[0]] + RemoveFirst(s[1..], p)
  }

  /** removeTweenProperty: answers whether the property was listed, and drops
      it. */
  function RemoveTweenProperty(tw: GoTween, p: Property): (r: (GoTween, bool))
    ensures r.1 <==> p in tw.properties
    ensures r.1 ==> multiset(r.0.properties) == multiset(tw.properties) - multiset{p}
    ensures !r.1 ==> r.0 == tw
    ensures NoDuplicates(tw.properties) ==> p !in r.0.properties
    ensures forall q :: q in tw.properties && q != p ==> q in r.0.properties
    ensures forall q :: q in r.0.properties ==> q in tw.properties
    ensures r.0.(properties := tw.properties) == tw
  {
    var s := RemoveFirst(tw.properties, p);
    MultisetMembers(tw.properties, s, p);
    (tw.(properties := s), p in tw.properties)
  }

  /** What removing one copy of `p` keeps: the other members, and `p` itself
      only if it was listed more than once. */
  lemma MultisetMembers(s: seq<Property>, r: seq<Property>, p: Property)
    requires p !in s ==> r == s
    requires p in s ==> multiset(r) == multiset(s) - multiset{p}
    ensures forall q :: q in s && q != p ==> q in r
    ensures forall q :: q in r ==> q in s
    ensures NoDuplicates(s) ==> p !in r
  {
    if p in s {
      forall q | q in s && q != p
        ensures q in r
      {
        assert q in multiset(s);
        assert multiset(r)[q] == multiset(s)[q];
      }
      forall q | q in r
        ensures q in s
      {
        assert q in multiset(r);
        assert q in multiset(s);
      }
      if NoDuplicates(s) {
        CountOne(s, p);
        assert multiset(r)[p] == 0;
      }
    }
  }

  /** In a list without duplicates a member occurs once. */
  lemma {:induction false} CountOne(s: seq<Property>, p: Property)
    requires NoDuplicates(s) && p in s
    ensures multiset(s)[p] == 1
    decreases |s|
  {
    assert s == [s[0]] + s[1..];
    assert NoDuplicates(s[1..]);
    if s[0] == p {
      assert p !in s[1..];
    } else {
      CountOne(s[1..], p);
    }
  }

  /** containsTweenProperty. */
  predicate ContainsTweenProperty(tw: GoTween, p: Property) {
    p in tw.properties
  }

  /** clearTweenProperties: the list is emptied and nothing else changes. */
  function ClearTweenProperties(tw: GoTween): (r: GoTween)
    ensures forall p :: !ContainsTweenProperty(r, p)
    ensures r.(properties := tw.properties) == tw
  {
    tw.(properties := [])
  }

  /** Adding a new property and removing it again gives back the tween, and
      the removal reports the property as found. */
  lemma AddRemoveRoundTrip(tw: GoTween, p: Property)
    requires p !in tw.properties
    ensures RemoveTweenProperty(AddTweenProperty(tw, p, true), p) == (tw, true)
  {
    var s := tw.properties + [p];
    RemoveAppended(tw.properties, p);
  }

  lemma {:induction false} RemoveAppended(s: seq<Property>, p: Property)
    requires p !in s
    ensures RemoveFirst(s + [p], p) == s
    decreases |s|
  {
    if |s| > 0 {
      assert (s + [p])[1..] == s[1..] + [p];
      RemoveAppended(s[1..], p);
    }
  }

  /** Adding twice is adding once. */
  lemma AddIdempotent(tw: GoTween, p: Property, validates: bool)
    ensures AddTweenProperty(AddTweenProperty(tw, p, validates), p, validates) == AddTweenProperty(tw, p, validates)
  {
  }

  // ---------------------------------------------------------------------------
  // Construction

  /** The properties of a config, added one by one in order. */
  function AddAll(tw: GoTween, ps: seq<(Property, bool)>): (r: GoTween)
    ensures forall p :: p in r.properties <==> p in tw.properties || exists k :: 0 <= k < |ps| && ps[k] == (p, true)
    ensures NoDuplicates(tw.properties) ==> NoDuplicates(r.properties)
    ensures r.(properties := tw.properties) == tw
    decreases |ps|
  {
    if |ps| == 0 then tw
    else
      var r := AddAll(AddTweenProperty(tw, ps[0].0, ps[0].1), ps[1..]);
      assert forall p :: (exists k :: 0 <= k < |ps| && ps[k] == (p, true)) <==>
                         (ps[0] == (p, true) || exists k :: 0 <= k < |ps[1..]| && ps[1..][k] == (p, true)) by {
        forall p
          ensures (exists k :: 0 <= k < |ps| && ps[k] == (p, true)) ==>
                  (ps[0] == (p, true) || exists k :: 0 <= k < |ps[1..]| && ps[1..][k] == (p, true))
        {
          if exists k :: 0 <= k < |ps| && ps[k] == (p, true) {
            var k :| 0 <= k < |ps| && ps[k] == (p, true);
            if k > 0 {
              assert ps[1..][k - 1] == (p, true);
            }
          }
        }
      }
      r
  }

  /** The timeline a new GoTween starts from: the config's id, loop settings,
      time scale and handlers, unstarted at time zero, paused or running as
      the config says. */
  function NewBase(duration: real, config: Config, onCompleteArgument: bool): (b: Timeline)
    ensures b.duration == duration && b.iterations == config.iterations && b.loopType == config.loopType
    ensures (b.state == Paused <==> config.isPaused) && (b.state == Running <==> !config.isPaused)
    ensures b.hasOnComplete == (onCompleteArgument || config.hasOnComplete)
    ensures b.autoRemoveOnComplete && !b.didStart && !b.didComplete && !b.isReversed
    ensures b.totalElapsedTime == 0.0 && b.completedIterations == 0
    ensures config.iterations < 0 ==> b.totalDuration == Infinite
    ensures config.iterations >= 0 ==> b.totalDuration == Finite(Loops(config.iterations, duration))
    ensures Shaped(b) && (duration >= 0.0 ==> Valid(b))
  {
    LoopsNonNegative(config.iterations, duration);
    Timeline(
      id := config.id,
      state := if config.isPaused then Paused else Running,
      duration := duration,
      totalDuration := if config.iterations < 0 then Infinite else Finite(Loops(config.iterations, duration)),
      timeScale := config.timeScale,
      loopType := config.loopType,
      iterations := config.iterations,
      autoRemoveOnComplete := true,
      isReversed := false,
      didStart := false,
      didComplete := false,
      elapsedTime := At(0.0),
      totalElapsedTime := 0.0,
      isLoopingBackOnPingPong := false,
      completedIterations := 0,
      hasOnStart := config.hasOnStart,
      hasOnComplete := onCompleteArgument || config.hasOnComplete)
  }

  /** The constructor. Reading the target's type throws on a null target;
      otherwise the config is copied, the tween starts paused when the config
      says so, an onComplete argument takes the place of the config's, the
      properties that accept the target are added once each, and the total
      duration is the loop count times the duration, endless for a negative
      count. */
  function NewGoTween(target: Option<Target>, duration: real, config: Config, onCompleteArgument: bool): (r: Result<GoTween, Exception>)
    ensures target.None? <==> r == Err(NullReference)
    ensures r.Ok? ==>
              var tw := r.value;
              var b := tw.base;
              tw.target == target && b.duration == duration &&
              b.iterations == config.iterations && b.loopType == config.loopType &&
              tw.delay == config.delay && tw.elapsedDelay == 0.0 && !tw.delayComplete &&
              (b.state == Paused <==> config.isPaused) && (b.state == Running <==> !config.isPaused) &&
              b.hasOnComplete == (onCompleteArgument || config.hasOnComplete) &&
              b.autoRemoveOnComplete && !b.didStart && !b.didComplete && !b.isReversed &&
              b.totalElapsedTime == 0.0 && b.completedIterations == 0 &&
              (config.iterations < 0 ==> b.totalDuration == Infinite) &&
              (config.iterations >= 0 ==> b.totalDuration == Finite(Loops(config.iterations, duration))) &&
              Shaped(b) && (duration >= 0.0 ==> Valid(b)) &&
              NoDuplicates(tw.properties) &&
              (forall p :: p in tw.properties <==> exists k :: 0 <= k < |config.properties| && config.properties[k] == (p, true))
  {
    if target.None? then Err(NullReference)
    else
      var base := NewBase(duration, config, onCompleteArgument);
      var empty := GoTween(base, target, config.delay, 0.0, false, config.isFrom, []);
      var tw := AddAll(empty, config.properties);
      assert tw.base == base && tw.target == target && tw.delay == config.delay;
      assert tw.elapsedDelay == 0.0 && !tw.delayComplete;
      assert NoDuplicates(empty.properties);
      Ok(tw)
  }

  lemma LoopsNonNegative(n: int, d: real)
    ensures n >= 0 && d >= 0.0 ==> Loops(n, d) >= 0.0
  {
    if n >= 0 && d >= 0.0 {
      MulNonNegative(n as real, d);
    }
  }

  // ---------------------------------------------------------------------------
  // Ticking

  /** isValid: the tween has a target. */
  predicate IsValid(tw: GoTween) {
    tw.target.Some?
  }

  /** Whether the tween is still waiting out its delay. */
  predicate Delaying(tw: GoTween) {
    !tw.delayComplete && tw.elapsedDelay < tw.delay
  }

  /** The result of update(deltaTime): the tween, the answer (true when the
      tween is done), the events raised and the time the properties are
      shown at, when they are ticked (NaN for a loop of zero seconds). */
  datatype Tick = Tick(tween: GoTween, done: bool, events: seq<TweenEvent>, shownAt: Option<Moment>)

  /** update(deltaTime). Its answer is true exactly when the tween is done:
      its target failed validation, or its timeline is complete. */
  function Update(tw: GoTween, deltaTime: real, validateEachTick: bool): (r: Tick)
    ensures SameShape(tw.base, r.tween.base)
    ensures r.done <==> (validateEachTick && !IsValid(tw)) || (!Delaying(tw) && r.tween.base.state == TweenState.Complete)
    ensures r.tween.base.didComplete == (tw.base.didComplete || (r.done && !(validateEachTick && !IsValid(tw))))
    ensures r.tween.(base := tw.base, elapsedDelay := tw.elapsedDelay, delayComplete := tw.delayComplete) == tw
  {
    if validateEachTick && !IsValid(tw) then
      Tick(tw.(base := tw.base.(autoRemoveOnComplete := true)), true, [], None)
    else if Delaying(tw) then DelayTick(tw, deltaTime)
    else RunTick(tw, deltaTime)
  }

  /** The delay half of update: the timeline stays where it is while the
      elapsed delay grows by the tick in unscaled seconds. */
  function DelayTick(tw: GoTween, deltaTime: real): (r: Tick)
    requires Delaying(tw)
    ensures !r.done && r.events == [] && r.shownAt.None? && r.tween.base == tw.base
    ensures tw.base.timeScale == 0.0 ==> r.tween.elapsedDelay == tw.elapsedDelay
    ensures tw.base.timeScale != 0.0 ==> (r.tween.elapsedDelay - tw.elapsedDelay) * tw.base.timeScale == deltaTime
    ensures r.tween.delayComplete <==> r.tween.elapsedDelay >= tw.delay
    ensures r.tween.(elapsedDelay := tw.elapsedDelay, delayComplete := tw.delayComplete) == tw
  {
    var elapsed := if tw.base.timeScale != 0.0 then tw.elapsedDelay + deltaTime / tw.base.timeScale else tw.elapsedDelay;
    Tick(tw.(elapsedDelay := elapsed, delayComplete := elapsed >= tw.delay), false, [], None)
  }

  /** The timeline half of update: the base tick, the properties shown at the
      converted time, and onComplete on the completing tick unless it already
      fired. */
  function RunTick(tw: GoTween, deltaTime: real): (r: Tick)
    ensures var step := GoTimeline.Update(tw.base, deltaTime);
            (r.done <==> step.timeline.state == TweenState.Complete) &&
            r.shownAt == Some(Converted(step.timeline)) &&
            r.events == step.events + (if r.done && !tw.base.didComplete && tw.base.hasOnComplete then [Completed] else []) &&
            r.tween.base == step.timeline.(didComplete := tw.base.didComplete || r.done)
    ensures SameShape(tw.base, r.tween.base)
    ensures r.tween.base.state == TweenState.Complete <==> r.done
    ensures r.tween == tw.(base := r.tween.base)
  {
    var step := GoTimeline.Update(tw.base, deltaTime);
    var done := step.timeline.state == TweenState.Complete;
    var events := step.events + (if done && !tw.base.didComplete && tw.base.hasOnComplete then [Completed] else []);
    Tick(tw.(base := step.timeline.(didComplete := tw.base.didComplete || done)), done, events, Some(Converted(step.timeline)))
  }

  /** A tween whose target fails validation asks to be removed: it answers
      true, raises nothing and only turns on autoRemoveOnComplete. */
  lemma UpdateInvalid(tw: GoTween, deltaTime: real)
    requires !IsValid(tw)
    ensures var r := Update(tw, deltaTime, true);
            r.done && r.events == [] && r.shownAt.None? &&
            r.tween == tw.(base := tw.base.(autoRemoveOnComplete := true))
  {
  }

  /** While the delay runs, the timeline does not move: the elapsed delay
      grows by the tick measured in unscaled seconds (not at all for a zero
      time scale), and the delay is done once it reaches `delay`. */
  lemma UpdateWhileDelaying(tw: GoTween, deltaTime: real, validateEachTick: bool)
    requires Delaying(tw)
    requires validateEachTick ==> IsValid(tw)
    ensures var r := Update(tw, deltaTime, validateEachTick);
            !r.done && r.events == [] && r.shownAt.None? && r.tween.base == tw.base &&
            (tw.base.timeScale == 0.0 ==> r.tween.elapsedDelay == tw.elapsedDelay) &&
            (tw.base.timeScale != 0.0 ==> (r.tween.elapsedDelay - tw.elapsedDelay) * tw.base.timeScale == deltaTime) &&
            (r.tween.delayComplete <==> r.tween.elapsedDelay >= tw.delay)
  {
  }

  /** Once the delay is over, the tween ticks its timeline, shows its
      properties at the converted time, and fires onComplete on the tick that
      completes it, unless it already did. */
  lemma UpdateAfterDelay(tw: GoTween, deltaTime: real, validateEachTick: bool)
    requires !Delaying(tw)
    requires validateEachTick ==> IsValid(tw)
    ensures var r := Update(tw, deltaTime, validateEachTick);
            var step := GoTimeline.Update(tw.base, deltaTime);
            (r.done <==> step.timeline.state == TweenState.Complete) &&
            r.shownAt == Some(Converted(step.timeline)) &&
            r.events == step.events + (if r.done && !tw.base.didComplete && tw.base.hasOnComplete then [Completed] else []) &&
            r.tween.base.(didComplete := step.timeline.didComplete) == step.timeline &&
            r.tween.delayComplete == tw.delayComplete && r.tween.elapsedDelay == tw.elapsedDelay
  {
  }

  /** A sequence of ticks: the final tween, every answer and every event. */
  function Replay(tw: GoTween, deltas: seq<real>, validateEachTick: bool): (r: (GoTween, seq<TweenEvent>))
    ensures SameShape(tw.base, r.0.base)
    ensures tw.base.didComplete ==> r.0.base.didComplete
    decreases |deltas|
  {
    if |deltas| == 0 then (tw, [])
    else
      var t := Update(tw, deltas[0], validateEachTick);
      var rest := Replay(t.tween, deltas[1..], validateEachTick);
      (rest.0, t.events + rest.1)
  }

  /** onComplete fires at most once over any number of ticks, and never for a
      tween that already fired it. */
  lemma {:induction false} CompleteFiresOnce(tw: GoTween, deltas: seq<real>, validateEachTick: bool)
    ensures multiset(Replay(tw, deltas, validateEachTick).1)[Completed] <= 1
    ensures tw.base.didComplete ==> multiset(Replay(tw, deltas, validateEachTick).1)[Completed] == 0
    decreases |deltas|
  {
    if |deltas| > 0 {
      var t := Update(tw, deltas[0], validateEachTick);
      CompleteFiresOnce(t.tween, deltas[1..], validateEachTick);
      var rest := Replay(t.tween, deltas[1..], validateEachTick);
      assert Replay(tw, deltas, validateEachTick).1 == t.events + rest.1;
      assert multiset(t.events + rest.1) == multiset(t.events) + multiset(rest.1);
      CompletedEvents(tw, deltas[0], validateEachTick);
      if multiset(t.events)[Completed] > 0 {
        assert t.tween.base.didComplete;
      }
    }
  }

  /** One tick raises onComplete at most once, and only on the tick that
      first completes the tween. */
  lemma CompletedEvents(tw: GoTween, deltaTime: real, validateEachTick: bool)
    ensures var t := Update(tw, deltaTime, validateEachTick);
            multiset(t.events)[Completed] <= 1 &&
            (multiset(t.events)[Completed] > 0 ==> !tw.base.didComplete && t.tween.base.didComplete)
  {
    if !(validateEachTick && !IsValid(tw)) && !Delaying(tw) {
      var t := Update(tw, deltaTime, validateEachTick);
      var step := GoTimeline.Update(tw.base, deltaTime);
      StartEventsOnly(tw.base, deltaTime);
      var extra := if t.done && !tw.base.didComplete && tw.base.hasOnComplete then [Completed] else [];
      assert multiset(t.events) == multiset(step.events) + multiset(extra);
    }
  }

  /** The base tick raises no Completed event. */
  lemma StartEventsOnly(t: Timeline, deltaTime: real)
    ensures multiset(GoTimeline.Update(t, deltaTime).events)[Completed] == 0
  {
  }

  /** With a time scale of zero the delay never runs out: the tween keeps
      answering false and its timeline does not move, however long it is
      ticked. */
  lemma {:induction false} ZeroTimeScaleDelaysForever(tw: GoTween, deltas: seq<real>, validateEachTick: bool)
    requires Delaying(tw) && tw.base.timeScale == 0.0
    requires validateEachTick ==> IsValid(tw)
    ensures Replay(tw, deltas, validateEachTick).0.base == tw.base
    ensures Replay(tw, deltas, validateEachTick).1 == []
    decreases |deltas|
  {
    if |deltas| > 0 {
      var t := Update(tw, deltas[0], validateEachTick);
      UpdateWhileDelaying(tw, deltas[0], validateEachTick);
      assert t.tween == tw;
      ZeroTimeScaleDelaysForever(t.tween, deltas[1..], validateEachTick);
    }
  }

  // ---------------------------------------------------------------------------
  // Controls

  /** destroy(): the state is Destroyed, the properties are cleared and the
      target is dropped, so the tween is no longer valid. */
  function Destroy(tw: GoTween): (r: GoTween)
    ensures r.base.state == Destroyed && !IsValid(r) && r.properties == []
    ensures r.(base := tw.base, properties := tw.properties, target := tw.target) == tw
    ensures r.base.(state := tw.base.state) == tw.base
  {
    tw.(base := tw.base.(state := Destroyed), properties := [], target := None)
  }

  /** rewind(skipDelay): paused at the start; the delay is either skipped or
      to be waited out again. */
  function Rewind(tw: GoTween, skipDelay: bool): (r: GoTween)
    ensures SameShape(tw.base, r.base) && (Shaped(tw.base) && tw.base.duration >= 0.0 ==> Valid(r.base))
    ensures r.base.state == Paused && r.base.totalElapsedTime == 0.0 && r.base.elapsedTime == At(0.0)
    ensures r.base.completedIterations == 0 && !r.base.isLoopingBackOnPingPong
    ensures r.delayComplete == skipDelay
    ensures !skipDelay ==> r.elapsedDelay == 0.0
    ensures r.base.(state := tw.base.state, totalElapsedTime := tw.base.totalElapsedTime, elapsedTime := tw.base.elapsedTime,
                    completedIterations := tw.base.completedIterations, isLoopingBackOnPingPong := tw.base.isLoopingBackOnPingPong) == tw.base
    ensures r.(base := tw.base, elapsedDelay := tw.elapsedDelay, delayComplete := tw.delayComplete) == tw
  {
    tw.(base := tw.base.(state := Paused, elapsedTime := At(0.0), totalElapsedTime := 0.0,
                         isLoopingBackOnPingPong := false, completedIterations := 0),
        elapsedDelay := if skipDelay then tw.base.duration else 0.0,
        delayComplete := skipDelay)
  }

  /** rewind(): the parameterless override skips the delay. */
  function RewindDefault(tw: GoTween): (r: GoTween)
    ensures r.delayComplete && r.base.state == Paused && r.base.totalElapsedTime == 0.0
    ensures r == Rewind(tw, true)
  {
    Rewind(tw, true)
  }

  /** restart(skipDelay) as written: it calls the parameterless rewind, so the
      delay is skipped whatever `skipDelay` says. */
  function RestartAsWritten(tw: GoTween, skipDelay: bool): (r: GoTween)
    ensures r.delayComplete
    ensures r.base.state == Running && !r.base.didComplete && r.base.totalElapsedTime == 0.0
    ensures r == RewindDefault(tw).(base := RewindDefault(tw).base.(didComplete := false, state := Running))
  {
    var w := RewindDefault(tw.(base := tw.base.(didComplete := false)));
    w.(base := w.base.(state := Running))
  }

  /** restart(skipDelay) as documented: rewound with the delay skipped or
      kept as asked, then running, with onComplete armed again. */
  function Restart(tw: GoTween, skipDelay: bool): (r: GoTween)
    ensures r.delayComplete == skipDelay
    ensures r.base.state == Running && !r.base.didComplete && r.base.totalElapsedTime == 0.0
    ensures r == Rewind(tw, skipDelay).(base := Rewind(tw, skipDelay).base.(didComplete := false, state := Running))
  {
    var w := Rewind(tw.(base := tw.base.(didComplete := false)), skipDelay);
    w.(base := w.base.(state := Running))
  }

  /** The two agree when the delay is to be skipped. */
  lemma RestartSkippingAgrees(tw: GoTween)
    ensures Restart(tw, true) == RestartAsWritten(tw, true)
  {
  }

  /** As written, restart(false) on a tween with a delay does not wait: the
      first forward tick of `deltaTime` already moves the clock. */
  lemma RestartAsWrittenSkipsDelay(tw: GoTween, deltaTime: real)
    requires Timed(tw.base) && !tw.base.isReversed && tw.base.iterations != 0 && tw.delay > 0.0 && deltaTime > 0.0
    requires IsValid(tw)
    ensures Update(RestartAsWritten(tw, false), deltaTime, true).tween.base.totalElapsedTime > 0.0
  {
    var r := RestartAsWritten(tw, false);
    UpdateClock(r.base, deltaTime);
    UpdateAfterDelay(r, deltaTime, true);
    TotalNonNegative(r.base);
    assert r.base.iterations != 0 ==> r.base.totalDuration.Infinite? || r.base.totalDuration.value > 0.0 by {
      if r.base.iterations > 0 {
        Multiples(0, r.base.iterations, r.base.duration);
      }
    }
  }

  /** As intended, restart(false) on a tween with a delay waits it out: a
      tick shorter than the delay (in unscaled seconds) leaves the clock at
      zero and answers false. */
  lemma RestartWaitsOutDelay(tw: GoTween, deltaTime: real, validateEachTick: bool)
    requires tw.delay > 0.0 && tw.base.timeScale > 0.0
    requires 0.0 <= deltaTime / tw.base.timeScale < tw.delay
    requires validateEachTick ==> IsValid(tw)
    ensures var t := Update(Restart(tw, false), deltaTime, validateEachTick);
            !t.done && t.tween.base.totalElapsedTime == 0.0 && t.events == []
  {
    UpdateWhileDelaying(Restart(tw, false), deltaTime, validateEachTick);
  }

  /** complete(): nothing for an endless tween; otherwise the clock jumps to
      the end (the start when reversed) and the delay counts as done, so that
      the next tick finishes the tween. */
  function CompleteTween(tw: GoTween): (r: GoTween)
    requires CountedEnds(tw.base)
    ensures tw.base.iterations < 0 ==> r == tw
    ensures tw.base.iterations >= 0 ==> r.delayComplete && r.base == CompleteTimeline(tw.base)
    ensures r.(base := tw.base, delayComplete := tw.delayComplete) == tw
  {
    if tw.base.iterations < 0 then tw
    else tw.(base := CompleteTimeline(tw.base), delayComplete := true)
  }

  /** complete() followed by update(0) finishes a counted tween with a target:
      the answer is true, and onComplete fires unless it already has. */
  lemma CompleteThenTickIsDone(tw: GoTween, validateEachTick: bool)
    requires Timed(tw.base) && tw.base.iterations > 0 && IsValid(tw)
    ensures var t := Update(CompleteTween(tw), 0.0, validateEachTick);
            t.done && t.tween.base.didComplete &&
            (!tw.base.didComplete && tw.base.hasOnComplete ==> Completed in t.events)
  {
    CompleteThenTickFinishes(tw.base);
    UpdateAfterDelay(CompleteTween(tw), 0.0, validateEachTick);
  }

  /** goTo(time): the delay counts as waited out, the clock is positioned,
      then the tween ticks by zero. */
  function GoTo(tw: GoTween, time: real, validateEachTick: bool): (r: Tick)
    ensures SameShape(tw.base, r.tween.base)
    ensures r == Update(tw.(delayComplete := true, elapsedDelay := tw.delay, base := GoToPosition(tw.base, time)), 0.0, validateEachTick)
  {
    var positioned := tw.(delayComplete := true, elapsedDelay := tw.delay, base := GoToPosition(tw.base, time));
    Update(positioned, 0.0, validateEachTick)
  }

  /** goTo lands on the requested time clamped to [0, totalDuration], for
      either loop type, whatever the delay. */
  lemma GoToLandsOnTime(tw: GoTween, time: real, validateEachTick: bool)
    requires NonNegative(tw.base.totalDuration)
    requires validateEachTick ==> IsValid(tw)
    ensures GoTo(tw, time, validateEachTick).tween.base.totalElapsedTime == ClampTotal(time, tw.base.totalDuration)
    ensures GoTo(tw, time, validateEachTick).tween.delayComplete
  {
    GoToLands(tw.base, time);
    var positioned := tw.(delayComplete := true, elapsedDelay := tw.delay, base := GoToPosition(tw.base, time));
    UpdateAfterDelay(positioned, 0.0, validateEachTick);
  }

  /** goToAndPlay(time): running, then goTo. */
  function GoToAndPlay(tw: GoTween, time: real, validateEachTick: bool): (r: Tick)
    ensures r == GoTo(tw.(base := Play(tw.base)), time, validateEachTick)
  {
    GoTo(tw.(base := Play(tw.base)), time, validateEachTick)
  }

  /** A tween that is played and sent to a time before its end stays running
      there. */
  lemma GoToAndPlayRuns(tw: GoTween, time: real, validateEachTick: bool)
    requires Shaped(tw.base) && !tw.base.isReversed && tw.base.iterations > 0
    requires validateEachTick ==> IsValid(tw)
    requires 0.0 <= time < tw.base.totalDuration.value
    ensures GoToAndPlay(tw, time, validateEachTick).tween.base.state == Running
    ensures !GoToAndPlay(tw, time, validateEachTick).done
  {
    PositiveEndTimed(tw.base);
    var positioned := tw.(base := Play(tw.base)).(delayComplete := true, elapsedDelay := tw.delay,
                                                  base := GoToPosition(Play(tw.base), time));
    ShapeKept(tw.base, positioned.base);
    ForwardCompletesAtEnd(positioned.base, 0.0);
    UpdateAfterDelay(positioned, 0.0, validateEachTick);
  }
}

=== FILE: lq.dfy ===
/** The locality-query database (UnitySteer lq.cs): a uniform 3-D grid of bins
    laid out in row-major order, plus one catch-all bin, "other", for every
    point outside the super-brick.  Client proxies are identified by a number;
    a bin holds the list of proxies filed in it, and each proxy remembers its
    bin (null until its first update) and its last position.  Floats are exact
    reals. */
module Lq {
  import opened Wrappers
  import opened Geometry

  type ProxyId = nat

  /** Which bin a proxy is filed in: a regular bin by its linear index, or `other`. */
  datatype BinRef = Cell(index: nat) | Other

  /** lqClientProxy: its bin (None is the C# null), its key point and its client object. */
  datatype Proxy = Proxy(bin: Option<BinRef>, pos: Vec3, client: nat)

  /** lqBin: the recorded "center" and the client list. */
  datatype Bin = Bin(center: Vec3, clients: seq<ProxyId>)

  /** The super-brick: minimum corner, edge lengths and divisions per axis. */
  datatype Brick = Brick(origin: Vec3, size: Vec3, divx: nat, divy: nat, divz: nat)
  {
    /** Every operation divides by the edge lengths, so they must be positive. */
    predicate WellFormed() { size.x > 0.0 && size.y > 0.0 && size.z > 0.0 }

    function BinCount(): nat { divx * divy * divz }
  }

  datatype Db = Db(brick: Brick, bins: seq<Bin>, other: Bin, proxies: map<ProxyId, Proxy>)

  /** C#'s `(int)` conversion of a float truncates toward zero. */
  function Trunc(r: real): (n: int)
    ensures 0.0 <= r ==> 0 <= n && n as real <= r < n as real + 1.0
    ensures r < 0.0 ==> n <= 0 && n as real - 1.0 < r <= n as real
  {
    if r >= 0.0 then r.Floor else -((-r).Floor)
  }

  // ---------------------------------------------------------------------------
  // Index arithmetic

  /** lqBinCoordsToBinIndex: row-major linear index of bin coordinates. */
  function BinIndex(b: Brick, ix: int, iy: int, iz: int): int {
    ix * b.divy * b.divz + iy * b.divz + iz
  }

  predicate InGrid(b: Brick, ix: int, iy: int, iz: int) {
    0 <= ix < b.divx && 0 <= iy < b.divy && 0 <= iz < b.divz
  }

  lemma MulMonotone(a: int, c: int, k: nat)
    requires a <= c
    ensures a * k <= c * k
  {
    assert c * k - a * k == (c - a) * k;
  }

  lemma MulStep(a: int, c: int, k: nat)
    requires a < c
    ensures a * k + k <= c * k
  {
    MulMonotone(a + 1, c, k);
    assert (a + 1) * k == a * k + k;
  }

  /** Quotient and remainder by a positive k are unique. */
  lemma QuotRemUnique(q1: int, r1: int, q2: int, r2: int, k: int)
    requires k > 0 && 0 <= r1 < k && 0 <= r2 < k
    requires q1 * k + r1 == q2 * k + r2
    ensures q1 == q2 && r1 == r2
  {
    if q1 < q2 {
      MulStep(q1, q2, k);
      assert false;
    } else if q2 < q1 {
      MulStep(q2, q1, k);
      assert false;
    }
  }

  /** A quotient below n and a remainder below k give a value below n * k. */
  lemma QuotRemBound(q: int, r: int, n: int, k: int)
    requires 0 <= q < n && 0 <= r < k
    ensures 0 <= q * k + r < n * k
  {
    MulMonotone(q, n - 1, k);
    assert (n - 1) * k + k == n * k;
  }

  /** The row-major index read as nested quotient/remainder. */
  lemma BinIndexNested(b: Brick, ix: int, iy: int, iz: int)
    ensures BinIndex(b, ix, iy, iz) == (ix * b.divy + iy) * b.divz + iz
  {
    assert (ix * b.divy + iy) * b.divz == ix * b.divy * b.divz + iy * b.divz;
  }

  /** Bin coordinates inside the grid land in [0, bincount). */
  lemma BinIndexInRange(b: Brick, ix: int, iy: int, iz: int)
    requires InGrid(b, ix, iy, iz)
    ensures 0 <= BinIndex(b, ix, iy, iz) < b.BinCount()
  {
    BinIndexNested(b, ix, iy, iz);
    QuotRemBound(ix, iy, b.divx, b.divy);
    QuotRemBound(ix * b.divy + iy, iz, b.divx * b.divy, b.divz);
  }

  /** The row-major index is injective on the grid. */
  lemma BinIndexInjective(b: Brick, ix: int, iy: int, iz: int, jx: int, jy: int, jz: int)
    requires InGrid(b, ix, iy, iz) && InGrid(b, jx, jy, jz)
    requires BinIndex(b, ix, iy, iz) == BinIndex(b, jx, jy, jz)
    ensures ix == jx && iy == jy && iz == jz
  {
    BinIndexNested(b, ix, iy, iz);
    BinIndexNested(b, jx, jy, jz);
    QuotRemUnique(ix * b.divy + iy, iz, jx * b.divy + jy, jz, b.divz);
    QuotRemUnique(ix, iy, jx, jy, b.divy);
  }

  /** Stepping past the last z (or y) bin of a row (or slab) continues at the next row (slab). */
  lemma BinIndexCarry(b: Brick, ix: int, iy: int)
    ensures BinIndex(b, ix, iy, b.divz) == BinIndex(b, ix, iy + 1, 0)
    ensures BinIndex(b, ix, b.divy, 0) == BinIndex(b, ix + 1, 0, 0)
  {
    assert (iy + 1) * b.divz == iy * b.divz + b.divz;
    assert (ix + 1) * b.divy * b.divz == ix * b.divy * b.divz + b.divy * b.divz;
  }

  // ---------------------------------------------------------------------------
  // Construction

  /** The "center" the constructor records for a bin: the bin's minimum corner
      (the code computes origin + index * size / div on each axis). */
  function BinCorner(b: Brick, ix: int, iy: int, iz: int): Vec3
    requires b.divx > 0 && b.divy > 0 && b.divz > 0
  {
    Vec3(b.origin.x + (ix as real) * (b.size.x / b.divx as real),
         b.origin.y + (iy as real) * (b.size.y / b.divy as real),
         b.origin.z + (iz as real) * (b.size.z / b.divz as real))
  }

  /** The freshly built bin at grid coordinates (ix, iy, iz). */
  function FreshBin(b: Brick, ix: int, iy: int, iz: int): Bin {
    if b.divx > 0 && b.divy > 0 && b.divz > 0 then Bin(BinCorner(b, ix, iy, iz), []) else Bin(Zero, [])
  }

  /** Every bin whose grid index is already below |bins| holds its fresh bin. */
  ghost predicate FilledUpTo(b: Brick, bins: seq<Bin>) {
    (forall n :: 0 <= n < |bins| ==> bins[n].clients == []) &&
    forall ix, iy, iz :: InGrid(b, ix, iy, iz) && 0 <= BinIndex(b, ix, iy, iz) < |bins| ==>
      bins[BinIndex(b, ix, iy, iz)] == FreshBin(b, ix, iy, iz)
  }

  /** Filling position BinIndex(x, y, z) next keeps the layout correct. */
  lemma FillNext(b: Brick, bins: seq<Bin>, x: int, y: int, z: int)
    requires InGrid(b, x, y, z) && |bins| == BinIndex(b, x, y, z)
    requires FilledUpTo(b, bins)
    ensures FilledUpTo(b, bins + [FreshBin(b, x, y, z)])
  {
    var bins' := bins + [FreshBin(b, x, y, z)];
    forall ix, iy, iz | InGrid(b, ix, iy, iz) && 0 <= BinIndex(b, ix, iy, iz) < |bins'|
      ensures bins'[BinIndex(b, ix, iy, iz)] == FreshBin(b, ix, iy, iz)
    {
      var i := BinIndex(b, ix, iy, iz);
      if i == |bins| {
        BinIndexInjective(b, ix, iy, iz, x, y, z);
        assert bins'[i] == FreshBin(b, x, y, z);
      } else {
        assert bins'[i] == bins[i];
      }
    }
  }

  lemma FilledAll(b: Brick, bins: seq<Bin>)
    requires FilledUpTo(b, bins) && |bins| == b.BinCount()
    ensures forall ix, iy, iz :: InGrid(b, ix, iy, iz) ==>
              0 <= BinIndex(b, ix, iy, iz) < |bins| && bins[BinIndex(b, ix, iy, iz)] == FreshBin(b, ix, iy, iz)
  {
    forall ix, iy, iz | InGrid(b, ix, iy, iz)
      ensures 0 <= BinIndex(b, ix, iy, iz) < |bins| && bins[BinIndex(b, ix, iy, iz)] == FreshBin(b, ix, iy, iz)
    {
      BinIndexInRange(b, ix, iy, iz);
    }
  }

  /** The locationQueryDatabase constructor: the triple loop assigns bin index
      x*divy*divz + y*divz + z, which is always the next unfilled position, so
      every index in [0, bincount) is filled exactly once, in order. */
  method NewDb(b: Brick) returns (db: Db)
    ensures db.brick == b && db.proxies == map[] && db.other == Bin(Zero, [])
    ensures |db.bins| == b.BinCount()
    ensures forall n :: 0 <= n < |db.bins| ==> db.bins[n].clients == []
    ensures forall ix, iy, iz :: InGrid(b, ix, iy, iz) ==>
              0 <= BinIndex(b, ix, iy, iz) < |db.bins| && db.bins[BinIndex(b, ix, iy, iz)] == FreshBin(b, ix, iy, iz)
  {
    var bins: seq<Bin> := [];
    var x := 0;
    while x < b.divx
      invariant 0 <= x <= b.divx
      invariant |bins| == BinIndex(b, x, 0, 0)
      invariant FilledUpTo(b, bins)
    {
      var y := 0;
      while y < b.divy
        invariant 0 <= y <= b.divy
        invariant |bins| == BinIndex(b, x, y, 0)
        invariant FilledUpTo(b, bins)
      {
        var z := 0;
        while z < b.divz
          invariant 0 <= z <= b.divz
          invariant |bins| == BinIndex(b, x, y, z)
          invariant FilledUpTo(b, bins)
        {
          FillNext(b, bins, x, y, z);
          bins := bins + [FreshBin(b, x, y, z)];
          z := z + 1;
        }
        BinIndexCarry(b, x, y);
        y := y + 1;
      }
      BinIndexCarry(b, x, y);
      x := x + 1;
    }
    assert |bins| == b.BinCount() by {
      assert b.divx * b.divy * b.divz == BinIndex(b, b.divx, 0, 0);
    }
    FilledAll(b, bins);
    db := Db(b, bins, Bin(Zero, []), map[]);
  }

  // ---------------------------------------------------------------------------
  // Bin for a location

  /** The point lies outside the super-brick: below the origin or at or beyond
      the far face on some axis. */
  predicate Outside(b: Brick, p: Vec3) {
    p.x < b.origin.x || p.y < b.origin.y || p.z < b.origin.z ||
    p.x >= b.origin.x + b.size.x || p.y >= b.origin.y + b.size.y || p.z >= b.origin.z + b.size.z
  }

  /** On one axis, coordinate v lies in the i-th of d equal slabs of [o, o + s):
      o + i*s/d <= v < o + (i+1)*s/d, written without division. */
  predicate InSlab(v: real, o: real, s: real, d: nat, i: int) {
    (i as real) * s <= (v - o) * (d as real) < ((i + 1) as real) * s
  }

  /** The point lies in the bin with grid coordinates (ix, iy, iz). */
  predicate InCell(b: Brick, p: Vec3, ix: int, iy: int, iz: int) {
    InSlab(p.x, b.origin.x, b.size.x, b.divx, ix) &&
    InSlab(p.y, b.origin.y, b.size.y, b.divy, iy) &&
    InSlab(p.z, b.origin.z, b.size.z, b.divz, iz)
  }

  /** The bin coordinate the code computes on one axis: (int)(((v - o) / s) * d). */
  function AxisBin(v: real, o: real, s: real, d: nat): int
    requires s != 0.0
  {
    Trunc(((v - o) / s) * (d as real))
  }

  lemma RealMulMonotone(a: real, c: real, k: real)
    requires a <= c && k >= 0.0
    ensures a * k <= c * k
  {
    assert c * k - a * k == (c - a) * k;
  }

  lemma RealMulStrict(a: real, c: real, k: real)
    requires a < c && k > 0.0
    ensures a * k < c * k
  {
    assert c * k - a * k == (c - a) * k;
  }

  lemma DivMulCancel(a: real, s: real, d: real)
    requires s != 0.0
    ensures ((a / s) * d) * s == a * d
  {
    var q := a / s;
    assert q * s == a;
    assert (q * d) * s == (q * s) * d;
  }

  lemma UnitFraction(a: real, s: real)
    requires 0.0 <= a < s
    ensures 0.0 <= a / s < 1.0
  {
    var q := a / s;
    assert q * s == a;
    RealMulCancelLe(0.0, q, s);
    RealMulCancel(q, 1.0, s);
  }

  lemma ScaledBelow(q: real, d: real)
    requires 0.0 <= q < 1.0 && d > 0.0
    ensures 0.0 <= q * d < d
  {
    RealMulMonotone(0.0, q, d);
    RealMulStrict(q, 1.0, d);
  }

  lemma SlabFromScaled(c: int, t: real, s: real, m: real)
    requires s > 0.0 && c as real <= t < (c + 1) as real && t * s == m
    ensures (c as real) * s <= m < ((c + 1) as real) * s
  {
    var lo, hi := (c as real) * s, ((c + 1) as real) * s;
    RealMulMonotone(c as real, t, s);
    assert lo <= t * s;
    RealMulStrict(t, (c + 1) as real, s);
    assert t * s < hi;
  }

  /** Inside [o, o + s), the computed axis bin is the slab that holds v. */
  lemma AxisBinInSlab(v: real, o: real, s: real, d: nat)
    requires s > 0.0 && d > 0 && o <= v < o + s
    ensures 0 <= AxisBin(v, o, s, d) < d
    ensures InSlab(v, o, s, d, AxisBin(v, o, s, d))
  {
    var q := (v - o) / s;
    UnitFraction(v - o, s);
    ScaledBelow(q, d as real);
    var t := q * (d as real);
    var c := Trunc(t);
    assert c == AxisBin(v, o, s, d);
    DivMulCancel(v - o, s, d as real);
    SlabFromScaled(c, t, s, (v - o) * (d as real));
  }

  lemma RealMulCancel(a: real, c: real, k: real)
    requires k > 0.0 && a * k < c * k
    ensures a < c
  {
    if c <= a {
      RealMulMonotone(c, a, k);
      assert false;
    }
  }

  lemma RealMulCancelLe(a: real, c: real, k: real)
    requires k > 0.0 && a * k <= c * k
    ensures a <= c
  {
    if c < a {
      RealMulStrict(c, a, k);
      assert false;
    }
  }

  /** A slab of the grid lies inside [o, o + s). */
  lemma SlabInside(v: real, o: real, s: real, d: nat, i: int)
    requires 0 <= i < d && InSlab(v, o, s, d, i)
    ensures s > 0.0 && o <= v < o + s
  {
    var m := (v - o) * (d as real);
    assert ((i + 1) as real) * s - (i as real) * s == s;
    RealMulMonotone(0.0, i as real, s);
    assert 0.0 * (d as real) <= m;
    RealMulCancelLe(0.0, v - o, d as real);
    RealMulMonotone((i + 1) as real, d as real, s);
    assert m < s * (d as real);
    RealMulCancel(v - o, s, d as real);
  }

  /** A point in a grid cell is inside the super-brick. */
  lemma CellInside(b: Brick, p: Vec3, ix: int, iy: int, iz: int)
    requires InGrid(b, ix, iy, iz) && InCell(b, p, ix, iy, iz)
    ensures !Outside(b, p)
  {
    SlabInside(p.x, b.origin.x, b.size.x, b.divx, ix);
    SlabInside(p.y, b.origin.y, b.size.y, b.divy, iy);
    SlabInside(p.z, b.origin.z, b.size.z, b.divz, iz);
  }

  /** On one axis the slabs are disjoint: a coordinate lies in at most one. */
  lemma SlabUnique(v: real, o: real, s: real, d: nat, i: int, j: int)
    requires s > 0.0
    requires InSlab(v, o, s, d, i) && InSlab(v, o, s, d, j)
    ensures i == j
  {
    RealMulCancel(j as real, (i + 1) as real, s);
    RealMulCancel(i as real, (j + 1) as real, s);
  }

  /** lqBinForLocation: `other` for points outside the super-brick; otherwise
      the bin whose index the truncated coordinates give, or `other` again if
      that index falls outside [0, bincount). */
  function BinForLocation(b: Brick, p: Vec3): (r: BinRef)
    ensures Outside(b, p) ==> r == Other
    ensures r.Cell? ==> r.index < b.BinCount()
    ensures !Outside(b, p) && b.BinCount() > 0 ==> r.Cell?
  {
    if Outside(b, p) then Other
    else
      var ix := AxisBin(p.x, b.origin.x, b.size.x, b.divx);
      var iy := AxisBin(p.y, b.origin.y, b.size.y, b.divy);
      var iz := AxisBin(p.z, b.origin.z, b.size.z, b.divz);
      var i := BinIndex(b, ix, iy, iz);
      LocatedCell(b, p, ix, iy, iz);
      if i < 0 || i >= b.BinCount() then Other else Cell(i)
  }

  /** The bin for a location is the grid cell that holds the point: the guard
      against an index outside [0, bincount) never fires for such a point. */
  lemma BinForLocationCell(b: Brick, p: Vec3, ix: int, iy: int, iz: int)
    requires InGrid(b, ix, iy, iz) && InCell(b, p, ix, iy, iz)
    ensures BinForLocation(b, p) == Cell(BinIndex(b, ix, iy, iz))
  {
    CellInside(b, p, ix, iy, iz);
    LocatedCell(b, p, AxisBin(p.x, b.origin.x, b.size.x, b.divx),
                AxisBin(p.y, b.origin.y, b.size.y, b.divy), AxisBin(p.z, b.origin.z, b.size.z, b.divz));
  }

  /** Inside the brick of a grid with bins, the computed coordinates are on the
      grid and name the one cell that holds the point. */
  lemma LocatedCell(b: Brick, p: Vec3, ix: int, iy: int, iz: int)
    requires !Outside(b, p)
    requires ix == AxisBin(p.x, b.origin.x, b.size.x, b.divx)
    requires iy == AxisBin(p.y, b.origin.y, b.size.y, b.divy)
    requires iz == AxisBin(p.z, b.origin.z, b.size.z, b.divz)
    ensures b.BinCount() > 0 ==> InGrid(b, ix, iy, iz) && 0 <= BinIndex(b, ix, iy, iz) < b.BinCount()
    ensures forall jx, jy, jz :: InGrid(b, jx, jy, jz) && InCell(b, p, jx, jy, jz) ==>
              jx == ix && jy == iy && jz == iz && 0 <= BinIndex(b, ix, iy, iz) < b.BinCount()
  {
    if b.divx > 0 && b.divy > 0 && b.divz > 0 {
      AxisBinInSlab(p.x, b.origin.x, b.size.x, b.divx);
      AxisBinInSlab(p.y, b.origin.y, b.size.y, b.divy);
      AxisBinInSlab(p.z, b.origin.z, b.size.z, b.divz);
      BinIndexInRange(b, ix, iy, iz);
      forall jx, jy, jz | InGrid(b, jx, jy, jz) && InCell(b, p, jx, jy, jz)
        ensures jx == ix && jy == iy && jz == iz
      {
        SlabUnique(p.x, b.origin.x, b.size.x, b.divx, ix, jx);
        SlabUnique(p.y, b.origin.y, b.size.y, b.divy, iy, jy);
        SlabUnique(p.z, b.origin.z, b.size.z, b.divz, iz, jz);
      }

    } else {
      assert b.BinCount() == 0 by {
        if b.divx == 0 { assert b.BinCount() == 0 * b.divy * b.divz; }
        else if b.divy == 0 { assert b.BinCount() == b.divx * 0 * b.divz; }
        else { assert b.BinCount() == b.divx * b.divy * 0; }
      }
    }
  }

  // ---------------------------------------------------------------------------
  // Client lists and the database invariant

  /** The client list of a bin; an index past the array reads as an empty list. */
  function ClientsOf(db: Db, r: BinRef): seq<ProxyId> {
    match r
    case Other => db.other.clients
    case Cell(i) => if i < |db.bins| then db.bins[i].clients else []
  }

  /** A bin reference that names an existing bin object. */
  predicate IsBin(db: Db, r: BinRef) {
    r.Cell? ==> r.index < |db.bins|
  }

  /** The database with one bin's client list replaced. */
  function WithClients(db: Db, r: BinRef, s: seq<ProxyId>): (db': Db)
    requires IsBin(db, r)
    ensures db'.brick == db.brick && db'.proxies == db.proxies && |db'.bins| == |db.bins|
    ensures ClientsOf(db', r) == s
    ensures forall q :: q != r ==> ClientsOf(db', q) == ClientsOf(db, q)
    ensures forall i :: 0 <= i < |db.bins| ==> db'.bins[i].center == db.bins[i].center
  {
    match r
    case Other => db.(other := db.other.(clients := s))
    case Cell(i) => db.(bins := db.bins[i := db.bins[i].(clients := s)])
  }

  /** Number of times v occurs in s. */
  function Occurrences(s: seq<ProxyId>, v: ProxyId): nat {
    multiset(s)[v]
  }

  /** Proxy p is known and its bin field is Some(r). */
  predicate FiledIn(db: Db, p: ProxyId, r: BinRef) {
    p in db.proxies && db.proxies[p].bin == Some(r)
  }

  /** The lq invariant: one bin per grid cell; every list entry is a proxy that
      records that list's bin; a proxy that records a bin sits in that bin
      exactly once, and that bin is the one its position maps to. */
  ghost predicate Valid(db: Db) {
    |db.bins| == db.brick.BinCount() &&
    (forall r: BinRef, k :: IsBin(db, r) && 0 <= k < |ClientsOf(db, r)| ==> FiledIn(db, ClientsOf(db, r)[k], r)) &&
    (forall p :: p in db.proxies && db.proxies[p].bin.Some? ==>
       db.proxies[p].bin.value == BinForLocation(db.brick, db.proxies[p].pos) &&
       Occurrences(ClientsOf(db, db.proxies[p].bin.value), p) == 1)
  }

  /** Every entry of every list is a known proxy, so positions can be read. */
  ghost predicate Registered(db: Db) {
    forall r: BinRef, k :: IsBin(db, r) && 0 <= k < |ClientsOf(db, r)| ==> ClientsOf(db, r)[k] in db.proxies
  }

  lemma ValidRegistered(db: Db)
    requires Valid(db)
    ensures Registered(db)
  {
  }

  // ---------------------------------------------------------------------------
  // Proxies, add, remove, update

  /** The lqClientProxy constructor: no bin yet, key point at the origin. */
  function NewProxy(db: Db, p: ProxyId, client: nat): (db': Db)
    requires p !in db.proxies
    ensures db'.proxies == db.proxies[p := Proxy(None, Zero, client)]
    ensures db'.bins == db.bins && db'.other == db.other
    ensures Valid(db) ==> Valid(db')
  {
    var db' := db.(proxies := db.proxies[p := Proxy(None, Zero, client)]);
    assert forall r :: ClientsOf(db', r) == ClientsOf(db, r);
    db'
  }

  /** Index of the first occurrence of v in s. */
  function FirstIndex(s: seq<ProxyId>, v: ProxyId): (i: nat)
    requires v in s
    ensures i < |s| && s[i] == v && forall j :: 0 <= j < i ==> s[j] != v
  {
    if s[0] == v then 0 else 1 + FirstIndex(s[1..], v)
  }

  /** ArrayList.Remove: drop the first occurrence of v, if any. */
  function RemoveFirst(s: seq<ProxyId>, v: ProxyId): (r: seq<ProxyId>)
    ensures v !in s ==> r == s
    ensures multiset(r) == multiset(s) - multiset{v}
  {
    if s == [] then []
    else if s[0] == v then
      assert s == [s[0]] + s[1..];
      s[1..]
    else
      assert s == [s[0]] + s[1..];
      [s[0]] + RemoveFirst(s[1..], v)
  }

  /** Dropping the first occurrence behind a different head keeps the head. */
  lemma RemoveFirstCons(s: seq<ProxyId>, v: ProxyId)
    requires v in s && s[0] != v
    ensures v in s[1..]
    ensures RemoveFirst(s, v) == [s[0]] + RemoveFirst(s[1..], v)
    ensures FirstIndex(s, v) == FirstIndex(s[1..], v) + 1
  {
    assert s == [s[0]] + s[1..];
  }

  lemma SliceAroundCons(s: seq<ProxyId>, i: nat)
    requires i + 2 <= |s|
    ensures s[..i + 1] + s[i + 2..] == [s[0]] + (s[1..][..i] + s[1..][i + 1..])
  {
    assert s[..i + 1] == [s[0]] + s[1..][..i];
    assert s[i + 2..] == s[1..][i + 1..];
  }

  /** The element removed is the first occurrence: everything before it and
      everything after it stays, in order. */
  lemma {:induction false} RemoveFirstShape(s: seq<ProxyId>, v: ProxyId)
    requires v in s
    ensures RemoveFirst(s, v) == s[..FirstIndex(s, v)] + s[FirstIndex(s, v) + 1..]
  {
    if s[0] != v {
      RemoveFirstCons(s, v);
      RemoveFirstShape(s[1..], v);
      SliceAroundCons(s, FirstIndex(s[1..], v));
    } else {
      assert s[..0] + s[1..] == s[1..];
    }
  }

  /** lqAddToBin: append the proxy to the bin's list and record the bin in it. */
  function AddToBin(db: Db, p: ProxyId, r: BinRef): (db': Db)
    requires p in db.proxies && IsBin(db, r)
    ensures ClientsOf(db', r) == ClientsOf(db, r) + [p]
    ensures forall q :: q != r ==> ClientsOf(db', q) == ClientsOf(db, q)
    ensures db'.proxies == db.proxies[p := db.proxies[p].(bin := Some(r))]
    ensures db'.brick == db.brick && |db'.bins| == |db.bins|
  {
    var db1 := WithClients(db, r, ClientsOf(db, r) + [p]);
    db1.(proxies := db1.proxies[p := db1.proxies[p].(bin := Some(r))])
  }

  /** lqRemoveFromBin: take the first occurrence of the proxy out of its current
      bin's list.  The proxy's bin field is left as it was; a proxy with no bin
      is left alone. */
  function RemoveFromBin(db: Db, p: ProxyId): (db': Db)
    requires p in db.proxies && (db.proxies[p].bin.Some? ==> IsBin(db, db.proxies[p].bin.value))
    ensures db'.proxies == db.proxies && db'.brick == db.brick && |db'.bins| == |db.bins|
    ensures db.proxies[p].bin == None ==> db' == db
    ensures db.proxies[p].bin.Some? ==>
              var r := db.proxies[p].bin.value;
              ClientsOf(db', r) == RemoveFirst(ClientsOf(db, r), p) &&
              forall q :: q != r ==> ClientsOf(db', q) == ClientsOf(db, q)
  {
    match db.proxies[p].bin
    case None => db
    case Some(r) => WithClients(db, r, RemoveFirst(ClientsOf(db, r), p))
  }

  /** lqUpdateForNewLocation: store the new key point; if the point maps to a
      different bin than the recorded one, unlink from the old bin and append
      to the new one. */
  function UpdateForNewLocation(db: Db, p: ProxyId, pos: Vec3): (db': Db)
    requires p in db.proxies && |db.bins| == db.brick.BinCount()
    requires db.proxies[p].bin.Some? ==> IsBin(db, db.proxies[p].bin.value)
    ensures db'.brick == db.brick && |db'.bins| == |db.bins|
    ensures db'.proxies == db.proxies[p := Proxy(Some(BinForLocation(db.brick, pos)), pos, db.proxies[p].client)]
  {
    var nb := BinForLocation(db.brick, pos);
    var db1 := db.(proxies := db.proxies[p := db.proxies[p].(pos := pos)]);
    if Some(nb) != db.proxies[p].bin then
      AddToBin(RemoveFromBin(db1, p), p, nb)
    else
      db1
  }

  /** The lists after an update: untouched when the bin stays the same, and
      the proxy appended to its new bin's list when it changes. */
  lemma UpdateLists(db: Db, p: ProxyId, pos: Vec3)
    requires p in db.proxies && |db.bins| == db.brick.BinCount()
    requires db.proxies[p].bin.Some? ==> IsBin(db, db.proxies[p].bin.value)
    ensures db.proxies[p].bin == Some(BinForLocation(db.brick, pos)) ==>
              UpdateForNewLocation(db, p, pos).bins == db.bins && UpdateForNewLocation(db, p, pos).other == db.other
    ensures db.proxies[p].bin != Some(BinForLocation(db.brick, pos)) ==>
              ClientsOf(UpdateForNewLocation(db, p, pos), BinForLocation(db.brick, pos))
                == ClientsOf(db, BinForLocation(db.brick, pos)) + [p]
  {
    var nb := BinForLocation(db.brick, pos);
    var db1 := db.(proxies := db.proxies[p := db.proxies[p].(pos := pos)]);
    if Some(nb) != db.proxies[p].bin {
      assert ClientsOf(db1, nb) == ClientsOf(db, nb);
      var db2 := RemoveFromBin(db1, p);
      assert ClientsOf(db2, nb) == ClientsOf(db, nb);
      assert UpdateForNewLocation(db, p, pos) == AddToBin(db2, p, nb);
    }
  }

  /** A proxy that records no bin, or another bin than r, is not in r's list. */
  lemma NotInOtherList(db: Db, p: ProxyId, r: BinRef)
    requires Valid(db) && p in db.proxies && IsBin(db, r) && db.proxies[p].bin != Some(r)
    ensures p !in ClientsOf(db, r)
  {
  }

  /** The entry clause of Valid. */
  ghost predicate EntriesFiled(db: Db) {
    forall r: BinRef, k :: IsBin(db, r) && 0 <= k < |ClientsOf(db, r)| ==> FiledIn(db, ClientsOf(db, r)[k], r)
  }

  /** The placement clause of Valid. */
  ghost predicate ProxiesPlaced(db: Db) {
    forall p :: p in db.proxies && db.proxies[p].bin.Some? ==>
      db.proxies[p].bin.value == BinForLocation(db.brick, db.proxies[p].pos) &&
      Occurrences(ClientsOf(db, db.proxies[p].bin.value), p) == 1
  }

  lemma ValidParts(db: Db)
    ensures Valid(db) <==> |db.bins| == db.brick.BinCount() && EntriesFiled(db) && ProxiesPlaced(db)
  {
  }

  /** How a move of p from `ob` into the different bin `nb` changes the database. */
  ghost predicate MovedTo(db: Db, db': Db, p: ProxyId, nb: BinRef) {
    p in db.proxies && db.proxies[p].bin != Some(nb) && IsBin(db, nb) &&
    db'.brick == db.brick && |db'.bins| == |db.bins| &&
    p in db'.proxies && db'.proxies == db.proxies[p := db'.proxies[p]] && db'.proxies[p].bin == Some(nb) &&
    ClientsOf(db', nb) == ClientsOf(db, nb) + [p] &&
    (db.proxies[p].bin.Some? ==>
       ClientsOf(db', db.proxies[p].bin.value) == RemoveFirst(ClientsOf(db, db.proxies[p].bin.value), p)) &&
    (forall q :: q != nb && Some(q) != db.proxies[p].bin ==> ClientsOf(db', q) == ClientsOf(db, q))
  }

  lemma UpdateMoves(db: Db, p: ProxyId, pos: Vec3)
    requires Valid(db) && p in db.proxies
    requires db.proxies[p].bin != Some(BinForLocation(db.brick, pos))
    ensures MovedTo(db, UpdateForNewLocation(db, p, pos), p, BinForLocation(db.brick, pos))
  {
    var nb := BinForLocation(db.brick, pos);
    var db1 := db.(proxies := db.proxies[p := db.proxies[p].(pos := pos)]);
    assert forall q :: ClientsOf(db1, q) == ClientsOf(db, q);
    var db2 := RemoveFromBin(db1, p);
    var db' := AddToBin(db2, p, nb);
    assert db' == UpdateForNewLocation(db, p, pos);
    forall q | q != nb && Some(q) != db.proxies[p].bin
      ensures ClientsOf(db', q) == ClientsOf(db, q)
    {
      assert ClientsOf(db', q) == ClientsOf(db2, q);
    }
    if db.proxies[p].bin.Some? {
      var ob := db.proxies[p].bin.value;
      assert ClientsOf(db', ob) == ClientsOf(db2, ob);
    }
  }

  /** After a move, an entry of the new bin's list is filed there. */
  lemma MovedEntryNew(db: Db, db': Db, p: ProxyId, nb: BinRef, k: int)
    requires Valid(db) && MovedTo(db, db', p, nb) && 0 <= k < |ClientsOf(db', nb)|
    ensures FiledIn(db', ClientsOf(db', nb)[k], nb)
  {
    if k < |ClientsOf(db, nb)| {
      assert ClientsOf(db', nb)[k] == ClientsOf(db, nb)[k];
    }
  }

  /** After a move, an entry left in the old bin's list is another proxy, still filed there. */
  lemma MovedEntryOld(db: Db, db': Db, p: ProxyId, nb: BinRef, k: int)
    requires Valid(db) && MovedTo(db, db', p, nb) && db.proxies[p].bin.Some?
    requires 0 <= k < |ClientsOf(db', db.proxies[p].bin.value)|
    ensures FiledIn(db', ClientsOf(db', db.proxies[p].bin.value)[k], db.proxies[p].bin.value)
  {
    var r := db.proxies[p].bin.value;
    var q := ClientsOf(db', r)[k];
    assert Occurrences(ClientsOf(db, r), p) == 1;
    assert q in multiset(ClientsOf(db', r));
    assert q in multiset(ClientsOf(db, r));
    var k0 :| 0 <= k0 < |ClientsOf(db, r)| && ClientsOf(db, r)[k0] == q;
    assert FiledIn(db, q, r);
    assert q != p by {
      assert multiset(ClientsOf(db', r))[p] == 0;
    }
  }

  /** After a move, the lists of all other bins are untouched and still filed. */
  lemma MovedEntryElse(db: Db, db': Db, p: ProxyId, nb: BinRef, r: BinRef, k: int)
    requires Valid(db) && MovedTo(db, db', p, nb) && r != nb && Some(r) != db.proxies[p].bin
    requires IsBin(db', r) && 0 <= k < |ClientsOf(db', r)|
    ensures FiledIn(db', ClientsOf(db', r)[k], r)
  {
    assert ClientsOf(db', r)[k] == ClientsOf(db, r)[k];
    assert FiledIn(db, ClientsOf(db, r)[k], r);
  }

  /** Moving a proxy into a new bin keeps every list entry filed correctly. */
  lemma MoveKeepsEntries(db: Db, db': Db, p: ProxyId, nb: BinRef)
    requires Valid(db) && MovedTo(db, db', p, nb)
    ensures EntriesFiled(db')
  {
    forall r: BinRef, k | IsBin(db', r) && 0 <= k < |ClientsOf(db', r)|
      ensures FiledIn(db', ClientsOf(db', r)[k], r)
    {
      if r == nb {
        MovedEntryNew(db, db', p, nb, k);
      } else if Some(r) == db.proxies[p].bin {
        MovedEntryOld(db, db', p, nb, k);
      } else {
        MovedEntryElse(db, db', p, nb, r, k);
      }
    }
  }

  /** Moving a proxy into a new bin keeps every proxy placed exactly once. */
  lemma MoveKeepsPlacement(db: Db, db': Db, p: ProxyId, nb: BinRef)
    requires Valid(db) && MovedTo(db, db', p, nb)
    requires nb == BinForLocation(db'.brick, db'.proxies[p].pos)
    ensures ProxiesPlaced(db')
  {
    NotInOtherList(db, p, nb);
    assert Occurrences(ClientsOf(db', nb), p) == 1;
    forall q | q in db'.proxies && db'.proxies[q].bin.Some?
      ensures db'.proxies[q].bin.value == BinForLocation(db'.brick, db'.proxies[q].pos)
      ensures Occurrences(ClientsOf(db', db'.proxies[q].bin.value), q) == 1
    {
      if q != p {
        var rq := db.proxies[q].bin.value;
        assert Occurrences(ClientsOf(db, rq), q) == 1;
      }
    }
  }

  /** Staying in the same bin changes no list. */
  lemma StayKeepsValid(db: Db, p: ProxyId, pos: Vec3)
    requires Valid(db) && p in db.proxies
    requires db.proxies[p].bin == Some(BinForLocation(db.brick, pos))
    ensures Valid(UpdateForNewLocation(db, p, pos))
  {
    var db' := UpdateForNewLocation(db, p, pos);
    forall r: BinRef, k | IsBin(db', r) && 0 <= k < |ClientsOf(db', r)|
      ensures FiledIn(db', ClientsOf(db', r)[k], r)
    {
      assert FiledIn(db, ClientsOf(db, r)[k], r);
    }
  }

  /** lqUpdateForNewLocation keeps the invariant and leaves the proxy filed,
      exactly once, in the bin of its new position. */
  lemma UpdatePreservesValid(db: Db, p: ProxyId, pos: Vec3)
    requires Valid(db) && p in db.proxies
    ensures Valid(UpdateForNewLocation(db, p, pos))
    ensures Occurrences(ClientsOf(UpdateForNewLocation(db, p, pos), BinForLocation(db.brick, pos)), p) == 1
  {
    var db' := UpdateForNewLocation(db, p, pos);
    if db.proxies[p].bin == Some(BinForLocation(db.brick, pos)) {
      StayKeepsValid(db, p, pos);
    } else {
      UpdateMoves(db, p, pos);
      MoveKeepsEntries(db, db', p, BinForLocation(db.brick, pos));
      MoveKeepsPlacement(db, db', p, BinForLocation(db.brick, pos));
      ValidParts(db');
    }
  }
}

=== FILE: lq_bulk.dfy ===
/** The whole-database operations of the lq bin lattice: getAllObjects,
    lqRemoveAllObjects and the most-populated-bin lookups. */
module LqBulk {
  import opened Wrappers
  import opened Geometry
  import opened Lq
  import LqQuery

  // ---------------------------------------------------------------------------
  // getAllObjects

  /** The grid bins' client lists one after another, in bin-index order. */
  function Concat(bins: seq<Bin>): seq<ProxyId> {
    if |bins| == 0 then [] else Concat(bins[..|bins| - 1]) + bins[|bins| - 1].clients
  }

  /** Every grid bin's clients in index order, then the clients of `other`. */
  function AllListed(db: Db): seq<ProxyId> {
    Concat(db.bins) + db.other.clients
  }

  /** A known proxy that records a bin. */
  predicate Placed(db: Db, p: ProxyId) {
    p in db.proxies && db.proxies[p].bin.Some?
  }

  /** The proxies that record a bin. */
  function PlacedSet(db: Db): set<ProxyId> {
    set p | p in db.proxies && db.proxies[p].bin.Some?
  }

  /** Under the invariant a bin's list holds p once if p records that bin and
      not at all otherwise. */
  lemma ListCount(db: Db, r: BinRef, p: ProxyId)
    requires Valid(db) && IsBin(db, r)
    ensures Occurrences(ClientsOf(db, r), p) == if FiledIn(db, p, r) then 1 else 0
  {
  }

  /** The first n grid bins together hold p once if p records one of them. */
  lemma {:induction false} ConcatCount(db: Db, n: nat, p: ProxyId)
    requires Valid(db) && n <= |db.bins|
    ensures Occurrences(Concat(db.bins[..n]), p) ==
            if Placed(db, p) && db.proxies[p].bin.value.Cell? && db.proxies[p].bin.value.index < n then 1 else 0
  {
    if n > 0 {
      assert db.bins[..n][..n - 1] == db.bins[..n - 1];
      assert Concat(db.bins[..n]) == Concat(db.bins[..n - 1]) + db.bins[n - 1].clients;
      ConcatCount(db, n - 1, p);
      ListCount(db, Cell(n - 1), p);
    }
  }

  /** Under the invariant getAllObjects lists every placed proxy exactly once
      and nothing else. */
  lemma AllListedOnce(db: Db)
    ensures Valid(db) ==> forall p :: Occurrences(AllListed(db), p) == if Placed(db, p) then 1 else 0
  {
    if Valid(db) {
      forall p ensures Occurrences(AllListed(db), p) == if Placed(db, p) then 1 else 0 {
        ConcatCount(db, |db.bins|, p);
        assert db.bins[..|db.bins|] == db.bins;
        ListCount(db, Other, p);
        if Placed(db, p) && db.proxies[p].bin.value.Cell? {
          assert db.proxies[p].bin.value == BinForLocation(db.brick, db.proxies[p].pos);
        }
      }
    }
  }

  /** getAllObjects: append every grid bin's list, then other's. */
  method GetAllObjects(db: Db) returns (all: seq<ProxyId>)
    requires |db.bins| == db.brick.BinCount()
    ensures all == AllListed(db)
    ensures Valid(db) ==> forall p :: Occurrences(all, p) == if Placed(db, p) then 1 else 0
  {
    all := [];
    var i := 0;
    while i < db.brick.BinCount()
      invariant 0 <= i <= |db.bins|
      invariant all == Concat(db.bins[..i])
    {
      assert db.bins[..i + 1][..i] == db.bins[..i];
      all := all + db.bins[i].clients;
      i := i + 1;
    }
    assert db.bins[..i] == db.bins;
    all := all + db.other.clients;
    AllListedOnce(db);
  }

  /** Under the invariant the length of getAllObjects is the number of placed
      proxies. */
  lemma PopulationCount(db: Db)
    ensures Valid(db) ==> |AllListed(db)| == |PlacedSet(db)|
  {
    if Valid(db) {
      AllListedOnce(db);
      var s := AllListed(db);
      forall p ensures multiset(s)[p] == multiset(PlacedSet(db))[p] {
        assert Occurrences(s, p) == multiset(s)[p];
        assert p in PlacedSet(db) <==> Placed(db, p);
      }
      assert multiset(s) == multiset(PlacedSet(db));
      assert |multiset(s)| == |s|;
    }
  }

  /** getPopulation (in the proximity wrapper): the size of getAllObjects. */
  method GetPopulation(db: Db) returns (n: nat)
    requires |db.bins| == db.brick.BinCount()
    ensures Valid(db) ==> n == |PlacedSet(db)|
  {
    var all := GetAllObjects(db);
    n := |all|;
    PopulationCount(db);
  }

  // ---------------------------------------------------------------------------
  // lqRemoveAllObjects

  /** Every bin keeps its center and loses its clients. */
  function ClearedBins(bins: seq<Bin>): (r: seq<Bin>)
    ensures |r| == |bins|
    ensures forall i :: 0 <= i < |r| ==> r[i].center == bins[i].center && r[i].clients == []
  {
    seq(|bins|, i requires 0 <= i < |bins| => bins[i].(clients := []))
  }

  lemma {:induction false} ConcatCleared(bins: seq<Bin>)
    requires forall i :: 0 <= i < |bins| ==> bins[i].clients == []
    ensures Concat(bins) == []
  {
    if |bins| > 0 {
      ConcatCleared(bins[..|bins| - 1]);
    }
  }

  /** lqRemoveAllObjects as written: every list is cleared, but each proxy
      keeps the bin it records. */
  function RemoveAllObjectsAsWritten(db: Db): (db': Db)
    ensures db'.brick == db.brick && db'.proxies == db.proxies && |db'.bins| == |db.bins|
    ensures forall i :: 0 <= i < |db.bins| ==> db'.bins[i].center == db.bins[i].center
    ensures forall r :: ClientsOf(db', r) == []
    ensures AllListed(db') == []
  {
    var bins := ClearedBins(db.bins);
    ConcatCleared(bins);
    db.(bins := bins, other := db.other.(clients := []))
  }

  /** The proxy table with every proxy's bin reset to none. */
  function Unfiled(proxies: map<ProxyId, Proxy>): (r: map<ProxyId, Proxy>)
    ensures r.Keys == proxies.Keys
    ensures forall p :: p in r ==> r[p] == proxies[p].(bin := None)
  {
    map p | p in proxies :: proxies[p].(bin := None)
  }

  /** lqRemoveAllObjects corrected: every list is cleared and every proxy
      forgets its bin, so that a later update files it again. */
  function RemoveAllObjects(db: Db): (db': Db)
    ensures db'.brick == db.brick && |db'.bins| == |db.bins|
    ensures forall i :: 0 <= i < |db.bins| ==> db'.bins[i].center == db.bins[i].center
    ensures db'.proxies.Keys == db.proxies.Keys
    ensures forall p :: p in db.proxies ==> db'.proxies[p] == db.proxies[p].(bin := None)
    ensures AllListed(db') == [] && PlacedSet(db') == {}
    ensures |db.bins| == db.brick.BinCount() ==> Valid(db')
  {
    var bins := ClearedBins(db.bins);
    ConcatCleared(bins);
    var db' := db.(bins := bins, other := db.other.(clients := []), proxies := Unfiled(db.proxies));
    assert forall r :: ClientsOf(db', r) == [];
    db'
  }

  /** After the corrected removal any update files the proxy again: the
      invariant holds and getAllObjects lists it exactly once. */
  lemma RemoveAllThenUpdateListed(db: Db, p: ProxyId, pos: Vec3)
    requires Valid(db) && p in db.proxies
    ensures Valid(UpdateForNewLocation(RemoveAllObjects(db), p, pos))
    ensures Occurrences(AllListed(UpdateForNewLocation(RemoveAllObjects(db), p, pos)), p) == 1
  {
    var d1 := RemoveAllObjects(db);
    UpdatePreservesValid(d1, p, pos);
    var d2 := UpdateForNewLocation(d1, p, pos);
    AllListedOnce(d2);
  }

  /** The as-written removal breaks the invariant whenever some proxy is placed:
      that proxy still records a bin whose list no longer holds it. */
  lemma RemoveAllAsWrittenBreaksValid(db: Db, p: ProxyId)
    requires Valid(db) && Placed(db, p)
    ensures !Valid(RemoveAllObjectsAsWritten(db))
  {
    var d := RemoveAllObjectsAsWritten(db);
    assert Occurrences(ClientsOf(d, d.proxies[p].bin.value), p) == 0;
  }

  /** In ExampleBrick a point of [0, 1)^3 lies in grid bin 0. */
  lemma ExampleCellZero(pos: Vec3)
    requires 0.0 <= pos.x < 1.0 && 0.0 <= pos.y < 1.0 && 0.0 <= pos.z < 1.0
    ensures BinForLocation(LqQuery.ExampleBrick, pos) == Cell(0)
  {
    var b := LqQuery.ExampleBrick;
    assert InCell(b, pos, 0, 0, 0);
    BinForLocationCell(b, pos, 0, 0, 0);
  }

  /** One proxy filed by lqUpdateForNewLocation in grid bin 0 of ExampleBrick. */
  function ExampleFiled(): (db: Db)
    ensures Valid(db) && db.brick == LqQuery.ExampleBrick && |db.bins| == 8
    ensures 0 in db.proxies && db.proxies[0].bin == Some(Cell(0))
  {
    var e := LqQuery.ExampleEmpty();
    var db1 := NewProxy(e, 0, 0);
    var pos := Vec3(0.5, 0.5, 0.5);
    UpdatePreservesValid(db1, 0, pos);
    ExampleCellZero(pos);
    UpdateForNewLocation(db1, 0, pos)
  }

  /** After the as-written removal, moving the proxy within the same bin does
      not file it again: it records bin 0, yet getAllObjects no longer lists
      it. */
  lemma RemoveAllAsWrittenLosesProxy()
    ensures var d := UpdateForNewLocation(RemoveAllObjectsAsWritten(ExampleFiled()), 0, Vec3(0.6, 0.5, 0.5));
            FiledIn(d, 0, Cell(0)) && 0 !in AllListed(d)
  {
    var d1 := RemoveAllObjectsAsWritten(ExampleFiled());
    var pos := Vec3(0.6, 0.5, 0.5);
    ExampleCellZero(pos);
    UpdateLists(d1, 0, pos);
  }

  // ---------------------------------------------------------------------------
  // getMostPopulatedBin, getMostPopulatedBinCenter

  /** Grid bin i is the first of the fullest grid bins and is not empty. */
  predicate MostPopulated(db: Db, i: nat) {
    i < |db.bins| && |db.bins[i].clients| > 0 &&
    (forall j :: 0 <= j < |db.bins| ==> |db.bins[j].clients| <= |db.bins[i].clients|) &&
    (forall j :: 0 <= j < i ==> |db.bins[j].clients| < |db.bins[i].clients|)
  }

  /** At most one bin is the first of the fullest. */
  lemma MostPopulatedUnique(db: Db, i: nat, j: nat)
    requires MostPopulated(db, i) && MostPopulated(db, j)
    ensures i == j
  {
  }

  /** getMostPopulatedBin: scan the grid bins keeping the first strictly
      larger list, starting from a population of zero; `other` is ignored. */
  method GetMostPopulatedBin(db: Db) returns (r: Option<nat>)
    requires |db.bins| == db.brick.BinCount()
    ensures r.Some? ==> MostPopulated(db, r.value)
    ensures r.None? <==> forall j :: 0 <= j < |db.bins| ==> db.bins[j].clients == []
  {
    var largest := 0;
    r := None;
    var i := 0;
    while i < db.brick.BinCount()
      invariant 0 <= i <= |db.bins|
      invariant r.None? ==> largest == 0 && forall j :: 0 <= j < i ==> db.bins[j].clients == []
      invariant r.Some? ==> r.value < i && largest == |db.bins[r.value].clients| > 0
      invariant r.Some? ==> forall j :: 0 <= j < i ==> |db.bins[j].clients| <= largest
      invariant r.Some? ==> forall j :: 0 <= j < r.value ==> |db.bins[j].clients| < largest
    {
      if |db.bins[i].clients| > largest {
        largest := |db.bins[i].clients|;
        r := Some(i);
      }
      i := i + 1;
    }
    if r.Some? {
      assert db.bins[r.value].clients != [];
    }
  }

  /** getMostPopulatedBinCenter: the recorded center of the most populated
      grid bin, or the zero vector when every grid bin is empty. */
  method GetMostPopulatedBinCenter(db: Db) returns (c: Vec3)
    requires |db.bins| == db.brick.BinCount()
    ensures forall i: nat :: MostPopulated(db, i) ==> c == db.bins[i].center
    ensures (forall j :: 0 <= j < |db.bins| ==> db.bins[j].clients == []) ==> c == Zero
  {
    var r := GetMostPopulatedBin(db);
    if r.Some? {
      c := db.bins[r.value].center;
      forall i: nat | MostPopulated(db, i) ensures c == db.bins[i].center {
        MostPopulatedUnique(db, i, r.value);
      }
    } else {
      c := Zero;
    }
  }
}

=== FILE: lq_proximity.dfy ===
/** LQProximityDatabase: the proximity-database interface over the lq bin
    lattice. A token is the proxy it owns; a client object is named by the
    `client` number its proxy carries. */
module LqProximity {
  import opened Wrappers
  import opened Geometry
  import opened Lq
  import opened LqQuery
  import LqBulk

  // ---------------------------------------------------------------------------
  // Constructor

  /** System.Math.Round on a double: round to the nearest integer, ties to the
      even neighbour. */
  function RoundHalfEven(r: real): (n: int)
    ensures -0.5 <= r - n as real <= 0.5
    ensures r - n as real == 0.5 || r - n as real == -0.5 ==> n % 2 == 0
  {
    var f := r.Floor;
    var d := r - f as real;
    if d < 0.5 then f
    else if d > 0.5 then f + 1
    else if f % 2 == 0 then f
    else f + 1
  }

  /** The rounding is the nearest integer: any integer strictly closer than
      one half is it, and so is an even integer at exactly one half. */
  lemma RoundHalfEvenUnique(r: real, m: int)
    requires (-0.5 < r - m as real < 0.5) || ((r - m as real == 0.5 || r - m as real == -0.5) && m % 2 == 0)
    ensures RoundHalfEven(r) == m
  {
    var n := RoundHalfEven(r);
    assert -1 <= n - m <= 1 by {
      assert -1.0 <= (n - m) as real <= 1.0;
    }
    // n == m + 1 would put r half-way between them, with both n and m even.
    if n == m + 1 {
      assert false;
    } else if n == m - 1 {
      assert false;
    }
  }

  /** The constructor's super-brick: centered on `center`, so its origin is
      center - dimensions/2, with each division count rounded. */
  function ProximityBrick(center: Vec3, dimensions: Vec3, divisions: Vec3): (b: Brick)
    requires RoundHalfEven(divisions.x) >= 0 && RoundHalfEven(divisions.y) >= 0 && RoundHalfEven(divisions.z) >= 0
    ensures Add(b.origin, Scale(b.size, 0.5)) == center && b.size == dimensions
    ensures b.divx == RoundHalfEven(divisions.x) && b.divy == RoundHalfEven(divisions.y) && b.divz == RoundHalfEven(divisions.z)
  {
    Brick(Sub(center, Scale(dimensions, 0.5)), dimensions,
          RoundHalfEven(divisions.x) as nat, RoundHalfEven(divisions.y) as nat, RoundHalfEven(divisions.z) as nat)
  }

  /** LQProximityDatabase(center, dimensions, divisions): a fresh lq database
      over the centered brick; it satisfies the lq invariant and holds nothing. */
  method NewProximityDatabase(center: Vec3, dimensions: Vec3, divisions: Vec3) returns (db: Db)
    requires RoundHalfEven(divisions.x) >= 0 && RoundHalfEven(divisions.y) >= 0 && RoundHalfEven(divisions.z) >= 0
    ensures db.brick == ProximityBrick(center, dimensions, divisions)
    ensures Valid(db) && db.proxies == map[] && LqBulk.AllListed(db) == []
  {
    db := NewDb(ProximityBrick(center, dimensions, divisions));
    assert forall r :: ClientsOf(db, r) == [];
    LqBulk.ConcatCleared(db.bins);
  }

  // ---------------------------------------------------------------------------
  // Tokens

  /** allocateToken: a token with a fresh proxy for the client object; the
      proxy belongs to no bin until its first position update, so the
      population does not change. */
  function AllocateToken(db: Db, t: ProxyId, client: nat): (db': Db)
    requires t !in db.proxies
    ensures t in db'.proxies && db'.proxies[t].bin == None && db'.proxies[t].client == client
    ensures LqBulk.AllListed(db') == LqBulk.AllListed(db)
    ensures Valid(db) ==> Valid(db') && LqBulk.PlacedSet(db') == LqBulk.PlacedSet(db)
  {
    NewProxy(db, t, client)
  }

  /** updateForNewPosition: lqUpdateForNewLocation with the new position;
      afterwards the token is listed exactly once by getAllObjects, in the bin
      its position maps to. */
  function UpdateForNewPosition(db: Db, t: ProxyId, p: Vec3): (db': Db)
    requires Valid(db) && t in db.proxies
    ensures Valid(db') && t in db'.proxies && db'.proxies[t].pos == p
    ensures FiledIn(db', t, BinForLocation(db.brick, p))
    ensures Occurrences(LqBulk.AllListed(db'), t) == 1
  {
    UpdatePreservesValid(db, t, p);
    var db' := UpdateForNewLocation(db, t, p);
    LqBulk.AllListedOnce(db');
    db'
  }

  // ---------------------------------------------------------------------------
  // Queries

  /** The client objects of a list of proxies, in order. */
  function ClientsIn(db: Db, s: seq<ProxyId>): (r: seq<nat>)
    requires forall k :: 0 <= k < |s| ==> s[k] in db.proxies
    ensures |r| == |s| && forall k :: 0 <= k < |s| ==> r[k] == db.proxies[s[k]].client
  {
    if |s| == 0 then [] else [db.proxies[s[0]].client] + ClientsIn(db, s[1..])
  }

  /** Append the client of every proxy of `found`, in order. */
  method AppendClients(db: Db, found: seq<ProxyId>, results: seq<nat>) returns (results': seq<nat>)
    requires AllKnown(db, found)
    ensures results' == results + ClientsIn(db, found)
  {
    results' := results;
    var i := 0;
    while i < |found|
      invariant 0 <= i <= |found|
      invariant results' == results + ClientsIn(db, found[..i])
    {
      assert found[..i + 1] == found[..i] + [found[i]];
      ClientsInAppend(db, found[..i], found[i]);
      results' := results' + [db.proxies[found[i]].client];
      i := i + 1;
    }
    assert found[..i] == found;
  }

  /** findNeighbors: append, in query order, the client of every proxy the
      locality query as written returns; `results` is not cleared first. */
  method FindNeighbors(db: Db, center: Vec3, radius: real, results: seq<nat>) returns (results': seq<nat>)
    requires db.brick.WellFormed()
    ensures AllKnown(db, AllObjectsInLocalityAsWritten(db, center, radius))
    ensures results' == results + ClientsIn(db, AllObjectsInLocalityAsWritten(db, center, radius))
  {
    LocalityKnown(db, center, radius, true);
    results' := AppendClients(db, AllObjectsInLocalityAsWritten(db, center, radius), results);
  }

  /** findNeighbors over the corrected locality query. */
  method FindNeighborsCorrected(db: Db, center: Vec3, radius: real, results: seq<nat>) returns (results': seq<nat>)
    requires db.brick.WellFormed()
    ensures AllKnown(db, AllObjectsInLocality(db, center, radius))
    ensures results' == results + ClientsIn(db, AllObjectsInLocality(db, center, radius))
  {
    LocalityKnown(db, center, radius, false);
    results' := AppendClients(db, AllObjectsInLocality(db, center, radius), results);
  }

  lemma {:induction false} ClientsInAppend(db: Db, s: seq<ProxyId>, q: ProxyId)
    requires forall k :: 0 <= k < |s| ==> s[k] in db.proxies
    requires q in db.proxies
    ensures ClientsIn(db, s + [q]) == ClientsIn(db, s) + [db.proxies[q].client]
  {
    var t := s + [q];
    assert forall k :: 0 <= k < |t| ==> t[k] in db.proxies;
  }

  /** The client of a proxy a query returns is among the clients appended. */
  lemma ClientFound(db: Db, found: seq<ProxyId>, q: ProxyId)
    requires AllKnown(db, found) && q in found && q in db.proxies
    ensures db.proxies[q].client in ClientsIn(db, found)
  {
    var k :| 0 <= k < |found| && found[k] == q;
    assert ClientsIn(db, found)[k] == db.proxies[q].client;
  }

  /** The neighbours findNeighbors appends are the clients of known proxies
      strictly within the radius, and (under the lq invariant) every proxy
      filed in a regular bin strictly within the radius contributes its client.
      A near proxy filed in `other` can be missed: see
      LqQuery.LocalityAsWrittenMissesOther. */
  lemma NeighborsNearAndComplete(db: Db, center: Vec3, radius: real, q: ProxyId)
    requires db.brick.WellFormed()
    ensures AllKnown(db, AllObjectsInLocalityAsWritten(db, center, radius))
    ensures var found := AllObjectsInLocalityAsWritten(db, center, radius);
            forall k :: 0 <= k < |found| ==> Near(db, center, radius * radius, found[k])
    ensures Valid(db) && radius >= 0.0 && q in db.proxies && db.proxies[q].bin.Some? &&
            db.proxies[q].bin.value.Cell? && DistSq(db, center, q) < radius * radius ==>
              db.proxies[q].client in ClientsIn(db, AllObjectsInLocalityAsWritten(db, center, radius))
  {
    LocalityKnown(db, center, radius, true);
    var found := AllObjectsInLocalityAsWritten(db, center, radius);
    forall k | 0 <= k < |found| ensures Near(db, center, radius * radius, found[k]) {
      assert found[k] in found;
    }
    if Valid(db) && radius >= 0.0 && q in db.proxies && db.proxies[q].bin.Some? &&
       db.proxies[q].bin.value.Cell? && DistSq(db, center, q) < radius * radius {
      LocalityAsWrittenFindsCells(db, center, radius, q);
      ClientFound(db, found, q);
    }
  }

  /** Over the corrected query the neighbours are complete: every filed proxy
      strictly within the radius, in `other` as well, contributes its client. */
  lemma NeighborsNearAndCompleteCorrected(db: Db, center: Vec3, radius: real, q: ProxyId)
    requires db.brick.WellFormed()
    ensures AllKnown(db, AllObjectsInLocality(db, center, radius))
    ensures var found := AllObjectsInLocality(db, center, radius);
            forall k :: 0 <= k < |found| ==> Near(db, center, radius * radius, found[k])
    ensures Valid(db) && radius >= 0.0 && q in db.proxies && db.proxies[q].bin.Some? &&
            DistSq(db, center, q) < radius * radius ==>
              db.proxies[q].client in ClientsIn(db, AllObjectsInLocality(db, center, radius))
  {
    LocalityKnown(db, center, radius, false);
    var found := AllObjectsInLocality(db, center, radius);
    forall k | 0 <= k < |found| ensures Near(db, center, radius * radius, found[k]) {
      assert found[k] in found;
    }
    if Valid(db) && radius >= 0.0 && q in db.proxies && db.proxies[q].bin.Some? && DistSq(db, center, q) < radius * radius {
      LocalityComplete(db, center, radius, q);
      ClientFound(db, found, q);
    }
  }

  /** getNearestVehicle: the client of the nearest proxy the query as written
      returns, with nothing to ignore; none exactly when the nearest-neighbour
      search finds none. */
  method GetNearestVehicle(db: Db, position: Vec3, radius: real) returns (vehicle: Option<nat>)
    requires db.brick.WellFormed()
    ensures vehicle.Some? ==> exists q :: (q in AllObjectsInLocalityAsWritten(db, position, radius) &&
              q in db.proxies && db.proxies[q].client == vehicle.value &&
              forall q' :: q' in AllObjectsInLocalityAsWritten(db, position, radius) ==> q' in db.proxies && DistSq(db, position, q) <= DistSq(db, position, q'))
    ensures vehicle.None? <==> forall q :: q in AllObjectsInLocalityAsWritten(db, position, radius) ==> q in db.proxies && DistSq(db, position, q) >= FloatMax
  {
    var nearest := FindNearestNeighborWithinRadius(db, position, radius, None);
    if nearest.Some? {
      vehicle := Some(db.proxies[nearest.value].client);
      assert Candidate(AllObjectsInLocalityAsWritten(db, position, radius), None, nearest.value);
    } else {
      vehicle := None;
    }
  }

  /** getNearestVehicle over the corrected query. */
  method GetNearestVehicleCorrected(db: Db, position: Vec3, radius: real) returns (vehicle: Option<nat>)
    requires db.brick.WellFormed()
    ensures vehicle.Some? ==> exists q :: (q in AllObjectsInLocality(db, position, radius) &&
              q in db.proxies && db.proxies[q].client == vehicle.value &&
              forall q' :: q' in AllObjectsInLocality(db, position, radius) ==> q' in db.proxies && DistSq(db, position, q) <= DistSq(db, position, q'))
    ensures vehicle.None? <==> forall q :: q in AllObjectsInLocality(db, position, radius) ==> q in db.proxies && DistSq(db, position, q) >= FloatMax
  {
    var nearest := FindNearestNeighborWithinRadiusCorrected(db, position, radius, None);
    if nearest.Some? {
      vehicle := Some(db.proxies[nearest.value].client);
      assert Candidate(AllObjectsInLocality(db, position, radius), None, nearest.value);
    } else {
      vehicle := None;
    }
  }
}

=== FILE: lq_query.dfy ===
/** The queries of the locality-query database (UnitySteer lq.cs): radius
    searches over the grid, the nearest neighbour, the whole population, the
    bulk removal and the most populated bin. */
module LqQuery {
  import opened Wrappers
  import opened Geometry
  import opened Lq

  /** Squared distance from the query centre to a known proxy's key point. */
  function DistSq(db: Db, c: Vec3, q: ProxyId): real
    requires q in db.proxies
  {
    SqrDist(c, db.proxies[q].pos)
  }

  /** The proxy is known and its key point strictly within the squared radius. */
  predicate Near(db: Db, c: Vec3, r2: real, q: ProxyId) {
    q in db.proxies && DistSq(db, c, q) < r2
  }

  /** getBinClientObjectList: the proxies of a list whose squared distance to
      the centre is strictly below r2, in list order. */
  function InRadius(db: Db, s: seq<ProxyId>, c: Vec3, r2: real): (r: seq<ProxyId>)
    ensures forall q :: q in r <==> q in s && Near(db, c, r2, q)
  {
    if s == [] then []
    else
      assert s == [s[0]] + s[1..];
      (if Near(db, c, r2, s[0]) then [s[0]] else []) + InRadius(db, s[1..], c, r2)
  }

  /** Filtering a concatenation filters each part, in order. */
  lemma {:induction false} InRadiusAppend(db: Db, s: seq<ProxyId>, t: seq<ProxyId>, c: Vec3, r2: real)
    ensures InRadius(db, s + t, c, r2) == InRadius(db, s, c, r2) + InRadius(db, t, c, r2)
  {
    if s != [] {
      assert (s + t)[1..] == s[1..] + t;
      InRadiusAppend(db, s[1..], t, c, r2);
    } else {
      assert s + t == t;
    }
  }

  /** No proxy is reported more often than it is listed. */
  lemma {:induction false} InRadiusNoDuplicates(db: Db, s: seq<ProxyId>, c: Vec3, r2: real)
    ensures multiset(InRadius(db, s, c, r2)) <= multiset(s)
  {
    if s != [] {
      assert s == [s[0]] + s[1..];
      InRadiusNoDuplicates(db, s[1..], c, r2);
    }
  }

  /** The bins of the clipped traversal exist: bounds within the grid. */
  predicate InBox(b: Brick, minX: int, minY: int, minZ: int, maxX: int, maxY: int, maxZ: int) {
    0 <= minX && maxX < b.divx && 0 <= minY && maxY < b.divy && 0 <= minZ && maxZ < b.divz
  }

  /** The client list of bin (i, j, k); empty for coordinates off the array. */
  function BinList(db: Db, i: int, j: int, k: int): seq<ProxyId> {
    var idx := BinIndex(db.brick, i, j, k);
    if 0 <= idx < |db.bins| then db.bins[idx].clients else []
  }

  /** What the z loop collects for bins (i, j, minZ..kHi), in order. */
  function ZRun(db: Db, c: Vec3, r2: real, i: int, j: int, minZ: int, kHi: int): seq<ProxyId>
    decreases kHi - minZ + 1
  {
    if kHi < minZ then []
    else ZRun(db, c, r2, i, j, minZ, kHi - 1) + InRadius(db, BinList(db, i, j, kHi), c, r2)
  }

  /** What the y loop collects for rows minY..jHi of slab i. */
  function YRun(db: Db, c: Vec3, r2: real, i: int, minY: int, jHi: int, minZ: int, maxZ: int): seq<ProxyId>
    decreases jHi - minY + 1
  {
    if jHi < minY then []
    else YRun(db, c, r2, i, minY, jHi - 1, minZ, maxZ) + ZRun(db, c, r2, i, jHi, minZ, maxZ)
  }

  /** What the whole clipped traversal collects for slabs minX..iHi. */
  function XRun(db: Db, c: Vec3, r2: real, minX: int, iHi: int, minY: int, maxY: int, minZ: int, maxZ: int): seq<ProxyId>
    decreases iHi - minX + 1
  {
    if iHi < minX then []
    else XRun(db, c, r2, minX, iHi - 1, minY, maxY, minZ, maxZ) + YRun(db, c, r2, iHi, minY, maxY, minZ, maxZ)
  }

  /** Everything the z run collects is near. */
  lemma {:induction false} ZRunSound(db: Db, c: Vec3, r2: real, i: int, j: int, minZ: int, kHi: int)
    ensures forall q :: q in ZRun(db, c, r2, i, j, minZ, kHi) ==> Near(db, c, r2, q)
    decreases kHi - minZ + 1
  {
    if minZ <= kHi {
      ZRunSound(db, c, r2, i, j, minZ, kHi - 1);
    }
  }

  lemma {:induction false} YRunSound(db: Db, c: Vec3, r2: real, i: int, minY: int, jHi: int, minZ: int, maxZ: int)
    ensures forall q :: q in YRun(db, c, r2, i, minY, jHi, minZ, maxZ) ==> Near(db, c, r2, q)
    decreases jHi - minY + 1
  {
    if minY <= jHi {
      YRunSound(db, c, r2, i, minY, jHi - 1, minZ, maxZ);
      ZRunSound(db, c, r2, i, jHi, minZ, maxZ);
    }
  }

  /** Everything the clipped traversal collects is a known proxy strictly
      inside the radius. */
  lemma {:induction false} XRunSound(db: Db, c: Vec3, r2: real, minX: int, iHi: int, minY: int, maxY: int, minZ: int, maxZ: int)
    ensures forall q :: q in XRun(db, c, r2, minX, iHi, minY, maxY, minZ, maxZ) ==> Near(db, c, r2, q)
    decreases iHi - minX + 1
  {
    if minX <= iHi {
      XRunSound(db, c, r2, minX, iHi - 1, minY, maxY, minZ, maxZ);
      YRunSound(db, c, r2, iHi, minY, maxY, minZ, maxZ);
    }
  }

  /** A near proxy listed in bin (i, j, k) with minZ <= k <= kHi is in the z run. */
  lemma {:induction false} ZRunContains(db: Db, c: Vec3, r2: real, i: int, j: int, minZ: int, kHi: int, k: int, q: ProxyId)
    requires minZ <= k <= kHi
    requires q in BinList(db, i, j, k) && Near(db, c, r2, q)
    ensures q in ZRun(db, c, r2, i, j, minZ, kHi)
    decreases kHi - minZ + 1
  {
    if k < kHi {
      ZRunContains(db, c, r2, i, j, minZ, kHi - 1, k, q);
    } else {
      assert q in InRadius(db, BinList(db, i, j, k), c, r2);
    }
  }

  lemma {:induction false} YRunContains(db: Db, c: Vec3, r2: real, i: int, minY: int, jHi: int, minZ: int, maxZ: int,
                                        j: int, k: int, q: ProxyId)
    requires minY <= j <= jHi && minZ <= k <= maxZ
    requires q in BinList(db, i, j, k) && Near(db, c, r2, q)
    ensures q in YRun(db, c, r2, i, minY, jHi, minZ, maxZ)
    decreases jHi - minY + 1
  {
    var run := YRun(db, c, r2, i, minY, jHi, minZ, maxZ);
    assert run == YRun(db, c, r2, i, minY, jHi - 1, minZ, maxZ) + ZRun(db, c, r2, i, jHi, minZ, maxZ);
    if j < jHi {
      YRunContains(db, c, r2, i, minY, jHi - 1, minZ, maxZ, j, k, q);
    } else {
      ZRunContains(db, c, r2, i, j, minZ, maxZ, k, q);
    }
  }

  /** Every bin of the box is visited: a near proxy listed in a bin inside the
      box is in what the traversal collects. */
  lemma {:induction false} XRunContains(db: Db, c: Vec3, r2: real, minX: int, iHi: int, minY: int, maxY: int, minZ: int, maxZ: int,
                                        i: int, j: int, k: int, q: ProxyId)
    requires minX <= i <= iHi && minY <= j <= maxY && minZ <= k <= maxZ
    requires q in BinList(db, i, j, k) && Near(db, c, r2, q)
    ensures q in XRun(db, c, r2, minX, iHi, minY, maxY, minZ, maxZ)
    decreases iHi - minX + 1
  {
    var run := XRun(db, c, r2, minX, iHi, minY, maxY, minZ, maxZ);
    assert run == XRun(db, c, r2, minX, iHi - 1, minY, maxY, minZ, maxZ) + YRun(db, c, r2, iHi, minY, maxY, minZ, maxZ);
    if i < iHi {
      XRunContains(db, c, r2, minX, iHi - 1, minY, maxY, minZ, maxZ, i, j, k, q);
    } else {
      YRunContains(db, c, r2, i, minY, maxY, minZ, maxZ, j, k, q);
    }
  }

  lemma MulSucc(i: int, k: int)
    ensures (i + 1) * k == i * k + k
  {
  }

  lemma BinIndexSplit(b: Brick, i: int, j: int, k: int)
    ensures BinIndex(b, i, j, k) == i * (b.divy * b.divz) + j * b.divz + k
  {
    assert i * b.divy * b.divz == i * (b.divy * b.divz);
  }

  /** One step of the z loop: the running offset names bin (i, j, k), which
      exists, and its filtered list is what ZRun adds for k. */
  lemma ZRunStep(db: Db, c: Vec3, r2: real, i: int, j: int, minZ: int, k: int, idx: int)
    requires |db.bins| == db.brick.BinCount()
    requires 0 <= i < db.brick.divx && 0 <= j < db.brick.divy && 0 <= minZ <= k < db.brick.divz
    requires idx == i * (db.brick.divy * db.brick.divz) + j * db.brick.divz + k
    ensures 0 <= idx < |db.bins|
    ensures ZRun(db, c, r2, i, j, minZ, k) == ZRun(db, c, r2, i, j, minZ, k - 1) + InRadius(db, db.bins[idx].clients, c, r2)
  {
    BinIndexSplit(db.brick, i, j, k);
    BinIndexInRange(db.brick, i, j, k);
  }

  /** The innermost (z) loop of the clipped traversal: kindex runs from the
      row's base offset, one bin per step. */
  method CollectRow(db: Db, c: Vec3, r2: real, i: int, j: int, minZ: int, maxZ: int, base: int)
    returns (found: seq<ProxyId>)
    requires |db.bins| == db.brick.BinCount()
    requires 0 <= i < db.brick.divx && 0 <= j < db.brick.divy && 0 <= minZ && maxZ < db.brick.divz
    requires base == i * (db.brick.divy * db.brick.divz) + j * db.brick.divz
    ensures found == ZRun(db, c, r2, i, j, minZ, maxZ)
  {
    found := [];
    var kindex := minZ;
    while kindex <= maxZ
      invariant minZ <= kindex && (kindex <= maxZ + 1 || kindex == minZ)
      invariant found == ZRun(db, c, r2, i, j, minZ, kindex - 1)
    {
      ZRunStep(db, c, r2, i, j, minZ, kindex, base + kindex);
      found := found + InRadius(db, db.bins[base + kindex].clients, c, r2);
      kindex := kindex + 1;
    }
  }

  /** The middle (y) loop of the clipped traversal: jindex advances by one
      row of bins per step. */
  method CollectSlab(db: Db, c: Vec3, r2: real, i: int, minY: int, maxY: int, minZ: int, maxZ: int, base: int)
    returns (found: seq<ProxyId>)
    requires |db.bins| == db.brick.BinCount()
    requires 0 <= i < db.brick.divx && 0 <= minY && maxY < db.brick.divy && 0 <= minZ && maxZ < db.brick.divz
    requires base == i * (db.brick.divy * db.brick.divz)
    ensures found == YRun(db, c, r2, i, minY, maxY, minZ, maxZ)
  {
    var row := db.brick.divz;
    found := [];
    var jindex := minY * row;
    var j := minY;
    while j <= maxY
      invariant minY <= j && (j <= maxY + 1 || j == minY)
      invariant jindex == j * row
      invariant found == YRun(db, c, r2, i, minY, j - 1, minZ, maxZ)
    {
      var rowFound := CollectRow(db, c, r2, i, j, minZ, maxZ, base + jindex);
      assert YRun(db, c, r2, i, minY, j, minZ, maxZ) == found + rowFound;
      found := found + rowFound;
      MulSucc(j, row);
      jindex := jindex + row;
      j := j + 1;
    }
  }

  /** getAllClientObjectsInLocalityClipped: the outer (x) loop advances iindex
      by one slab of bins per step; the inner loops are CollectSlab and
      CollectRow, whose offsets sum to the row-major index of each bin. */
  method ClippedTraversal(db: Db, c: Vec3, radius: real,
                          minX: int, minY: int, minZ: int, maxX: int, maxY: int, maxZ: int)
    returns (found: seq<ProxyId>)
    requires |db.bins| == db.brick.BinCount()
    requires InBox(db.brick, minX, minY, minZ, maxX, maxY, maxZ)
    ensures found == XRun(db, c, radius * radius, minX, maxX, minY, maxY, minZ, maxZ)
  {
    var slab := db.brick.divy * db.brick.divz;
    var r2 := radius * radius;
    found := [];
    var iindex := minX * slab;
    var i := minX;
    while i <= maxX
      invariant minX <= i && (i <= maxX + 1 || i == minX)
      invariant iindex == i * slab
      invariant found == XRun(db, c, r2, minX, i - 1, minY, maxY, minZ, maxZ)
    {
      var slabFound := CollectSlab(db, c, r2, i, minY, maxY, minZ, maxZ, iindex);
      assert XRun(db, c, r2, minX, i, minY, maxY, minZ, maxZ) == found + slabFound;
      found := found + slabFound;
      MulSucc(i, slab);
      iindex := iindex + slab;
      i := i + 1;
    }
  }

  // ---------------------------------------------------------------------------
  // getAllObjectsInLocality

  /** The query sphere cannot meet the super-brick (the code's
      completelyOutside test). */
  predicate CompletelyOutside(b: Brick, c: Vec3, radius: real) {
    c.x + radius < b.origin.x || c.y + radius < b.origin.y || c.z + radius < b.origin.z ||
    c.x - radius >= b.origin.x + b.size.x || c.y - radius >= b.origin.y + b.size.y ||
    c.z - radius >= b.origin.z + b.size.z
  }

  /** The clipped box of bins to visit, and whether anything was clipped. */
  datatype Clip = Clip(minX: int, minY: int, minZ: int, maxX: int, maxY: int, maxZ: int, partlyOut: bool)

  /** The bin coordinate of the low end of the query on one axis.  The code
      truncates (`truncate`); the lower bound of a range needs rounding down. */
  function LowBin(v: real, o: real, s: real, d: nat, truncate: bool): int
    requires s != 0.0
  {
    if truncate then AxisBin(v, o, s, d) else (((v - o) / s) * (d as real)).Floor
  }

  /** Clamp the raw bin range to the grid, noting whether any end was clipped. */
  function ClipBox(b: Brick, c: Vec3, radius: real, truncate: bool): (k: Clip)
    requires b.WellFormed()
    ensures InBox(b, k.minX, k.minY, k.minZ, k.maxX, k.maxY, k.maxZ)
    ensures k.partlyOut <==>
              LowBin(c.x - radius, b.origin.x, b.size.x, b.divx, truncate) < 0 ||
              LowBin(c.y - radius, b.origin.y, b.size.y, b.divy, truncate) < 0 ||
              LowBin(c.z - radius, b.origin.z, b.size.z, b.divz, truncate) < 0 ||
              AxisBin(c.x + radius, b.origin.x, b.size.x, b.divx) >= b.divx ||
              AxisBin(c.y + radius, b.origin.y, b.size.y, b.divy) >= b.divy ||
              AxisBin(c.z + radius, b.origin.z, b.size.z, b.divz) >= b.divz
    ensures k.minX <= LowBin(c.x - radius, b.origin.x, b.size.x, b.divx, truncate) || k.minX == 0
    ensures k.minY <= LowBin(c.y - radius, b.origin.y, b.size.y, b.divy, truncate) || k.minY == 0
    ensures k.minZ <= LowBin(c.z - radius, b.origin.z, b.size.z, b.divz, truncate) || k.minZ == 0
    ensures k.maxX >= AxisBin(c.x + radius, b.origin.x, b.size.x, b.divx) || k.maxX == b.divx - 1
    ensures k.maxY >= AxisBin(c.y + radius, b.origin.y, b.size.y, b.divy) || k.maxY == b.divy - 1
    ensures k.maxZ >= AxisBin(c.z + radius, b.origin.z, b.size.z, b.divz) || k.maxZ == b.divz - 1
  {
    var lx := LowBin(c.x - radius, b.origin.x, b.size.x, b.divx, truncate);
    var ly := LowBin(c.y - radius, b.origin.y, b.size.y, b.divy, truncate);
    var lz := LowBin(c.z - radius, b.origin.z, b.size.z, b.divz, truncate);
    var hx := AxisBin(c.x + radius, b.origin.x, b.size.x, b.divx);
    var hy := AxisBin(c.y + radius, b.origin.y, b.size.y, b.divy);
    var hz := AxisBin(c.z + radius, b.origin.z, b.size.z, b.divz);
    Clip(if lx < 0 then 0 else lx, if ly < 0 then 0 else ly, if lz < 0 then 0 else lz,
         if hx >= b.divx then b.divx - 1 else hx, if hy >= b.divy then b.divy - 1 else hy,
         if hz >= b.divz then b.divz - 1 else hz,
         lx < 0 || ly < 0 || lz < 0 || hx >= b.divx || hy >= b.divy || hz >= b.divz)
  }

  /** The locality query, with the low bin rounding as a parameter: `other` alone
      when the sphere misses the brick; otherwise `other` if the box was clipped,
      followed by the clipped traversal. */
  function Locality(db: Db, c: Vec3, radius: real, truncate: bool): (r: seq<ProxyId>)
    requires db.brick.WellFormed()
    ensures forall q :: q in r ==> Near(db, c, radius * radius, q)
  {
    var r2 := radius * radius;
    if CompletelyOutside(db.brick, c, radius) then InRadius(db, db.other.clients, c, r2)
    else
      var k := ClipBox(db.brick, c, radius, truncate);
      XRunSound(db, c, r2, k.minX, k.maxX, k.minY, k.maxY, k.minZ, k.maxZ);
      (if k.partlyOut then InRadius(db, db.other.clients, c, r2) else [])
        + XRun(db, c, r2, k.minX, k.maxX, k.minY, k.maxY, k.minZ, k.maxZ)
  }

  /** getAllObjectsInLocality as the code computes it: the low bin of each axis
      is truncated toward zero. */
  function AllObjectsInLocalityAsWritten(db: Db, c: Vec3, radius: real): (r: seq<ProxyId>)
    requires db.brick.WellFormed()
    ensures forall q :: q in r ==> Near(db, c, radius * radius, q)
  {
    Locality(db, c, radius, true)
  }

  /** getAllObjectsInLocality with the low bin rounded down, so that a sphere
      that pokes out of the brick's low faces also consults `other`. */
  function AllObjectsInLocality(db: Db, c: Vec3, radius: real): (r: seq<ProxyId>)
    requires db.brick.WellFormed()
    ensures forall q :: q in r ==> Near(db, c, radius * radius, q)
  {
    Locality(db, c, radius, false)
  }

  // ---------------------------------------------------------------------------
  // Completeness of the locality query

  /** A proxy listed in some regular bin. */
  ghost predicate Listed(db: Db, q: ProxyId) {
    exists n :: 0 <= n < |db.bins| && q in db.bins[n].clients
  }

  lemma {:induction false} ZRunListed(db: Db, c: Vec3, r2: real, i: int, j: int, minZ: int, kHi: int)
    ensures forall q :: q in ZRun(db, c, r2, i, j, minZ, kHi) ==> Listed(db, q)
    decreases kHi - minZ + 1
  {
    if minZ <= kHi {
      ZRunListed(db, c, r2, i, j, minZ, kHi - 1);
      var idx := BinIndex(db.brick, i, j, kHi);
      forall q | q in InRadius(db, BinList(db, i, j, kHi), c, r2)
        ensures Listed(db, q)
      {
        assert 0 <= idx < |db.bins| && q in db.bins[idx].clients;
      }
    }
  }

  lemma {:induction false} YRunListed(db: Db, c: Vec3, r2: real, i: int, minY: int, jHi: int, minZ: int, maxZ: int)
    ensures forall q :: q in YRun(db, c, r2, i, minY, jHi, minZ, maxZ) ==> Listed(db, q)
    decreases jHi - minY + 1
  {
    if minY <= jHi {
      YRunListed(db, c, r2, i, minY, jHi - 1, minZ, maxZ);
      ZRunListed(db, c, r2, i, jHi, minZ, maxZ);
    }
  }

  /** The clipped traversal only reports proxies listed in the grid's bins. */
  lemma {:induction false} XRunListed(db: Db, c: Vec3, r2: real, minX: int, iHi: int, minY: int, maxY: int, minZ: int, maxZ: int)
    ensures forall q :: q in XRun(db, c, r2, minX, iHi, minY, maxY, minZ, maxZ) ==> Listed(db, q)
    decreases iHi - minX + 1
  {
    if minX <= iHi {
      XRunListed(db, c, r2, minX, iHi - 1, minY, maxY, minZ, maxZ);
      YRunListed(db, c, r2, iHi, minY, maxY, minZ, maxZ);
    }
  }

  lemma SquareBelow(d: real, r: real)
    requires r >= 0.0 && d * d < r * r
    ensures -r < d < r
  {
    if d >= r {
      SquareMonotone(r, d);
      assert false;
    }
    assert (-d) * (-d) == d * d;
    if d <= -r {
      SquareMonotone(r, -d);
      assert false;
    }
  }

  /** A point strictly inside the query sphere is strictly inside its bounding
      box on every axis. */
  lemma NearAxes(c: Vec3, p: Vec3, r: real)
    requires r >= 0.0 && SqrDist(c, p) < r * r
    ensures c.x - r < p.x < c.x + r && c.y - r < p.y < c.y + r && c.z - r < p.z < c.z + r
  {
    var dx, dy, dz := c.x - p.x, c.y - p.y, c.z - p.z;
    assert SqrDist(c, p) == dx * dx + dy * dy + dz * dz;
    assert dx * dx >= 0.0 && dy * dy >= 0.0 && dz * dz >= 0.0;
    SquareBelow(dx, r);
    SquareBelow(dy, r);
    SquareBelow(dz, r);
  }

  /** Scaling a coordinate into bin units is monotone. */
  lemma ScaledMonotone(v: real, w: real, o: real, s: real, d: nat)
    requires s > 0.0 && v <= w
    ensures ((v - o) / s) * (d as real) <= ((w - o) / s) * (d as real)
  {
    var a, b := (v - o) / s, (w - o) / s;
    assert a * s == v - o && b * s == w - o;
    RealMulCancelLe(a, b, s);
    RealMulMonotone(a, b, d as real);
  }

  /** On an axis where the point is inside the brick and inside the sphere's
      bounding box, the point's bin lies between the low end of the query
      (rounded either way) and its truncated high end. */
  lemma AxisCovered(v: real, o: real, s: real, d: nat, cv: real, r: real, truncate: bool)
    requires s > 0.0 && d > 0 && o <= v < o + s && cv - r < v < cv + r
    ensures LowBin(cv - r, o, s, d, truncate) <= AxisBin(v, o, s, d) <= AxisBin(cv + r, o, s, d)
  {
    var lo := ((cv - r - o) / s) * (d as real);
    var t := ((v - o) / s) * (d as real);
    var hi := ((cv + r - o) / s) * (d as real);
    ScaledMonotone(cv - r, v, o, s, d);
    ScaledMonotone(v, cv + r, o, s, d);
    ScaledMonotone(o, v, o, s, d);
    assert ((o - o) / s) * (d as real) == 0.0;
    assert lo <= t && 0.0 <= t;
    FloorBelowTrunc(lo, t);
    TruncBelow(lo, t);
    TruncMonotone(t, hi);
  }

  lemma FloorBelowTrunc(x: real, y: real)
    requires x <= y && 0.0 <= y
    ensures x.Floor <= Trunc(y)
  {
  }

  lemma TruncBelow(x: real, y: real)
    requires x <= y && 0.0 <= y
    ensures Trunc(x) <= Trunc(y)
  {
  }

  lemma TruncMonotone(x: real, y: real)
    requires 0.0 <= x <= y
    ensures Trunc(x) <= Trunc(y)
  {
  }

  lemma MulPositive(x: nat, y: nat, z: nat)
    requires x > 0 && y > 0 && z > 0
    ensures x * y * z > 0
  {
    MulMonotone(1, x, y);
    MulMonotone(1, x * y, z);
  }

  /** On an axis where the point lies outside the brick (or the axis has no
      divisions), a sphere that holds the point clips the rounded-down range. */
  lemma AxisClips(v: real, o: real, s: real, d: nat, cv: real, r: real)
    requires s > 0.0 && cv - r < v < cv + r && (v < o || v >= o + s || d == 0)
    ensures LowBin(cv - r, o, s, d, false) < 0 || AxisBin(cv + r, o, s, d) >= d
  {
    if d == 0 {
      assert ((cv + r - o) / s) * (d as real) == 0.0;
    } else if v < o {
      var a := (cv - r - o) / s;
      assert a * s == cv - r - o;
      RealMulCancel(a, 0.0, s);
      RealMulStrict(a, 0.0, d as real);
    } else {
      var u := (cv + r - o) / s;
      assert u * s == cv + r - o;
      RealMulCancel(1.0, u, s);
      RealMulMonotone(1.0, u, d as real);
    }
  }

  /** A proxy filed in `other` that lies inside the sphere forces the clip. */
  lemma OtherClips(b: Brick, p: Vec3, c: Vec3, radius: real)
    requires b.WellFormed()
    requires Outside(b, p) || b.BinCount() == 0
    requires c.x - radius < p.x < c.x + radius && c.y - radius < p.y < c.y + radius && c.z - radius < p.z < c.z + radius
    ensures ClipBox(b, c, radius, false).partlyOut
  {
    if b.divx > 0 && b.divy > 0 && b.divz > 0 {
      MulPositive(b.divx, b.divy, b.divz);
    }
    if p.x < b.origin.x || p.x >= b.origin.x + b.size.x || b.divx == 0 {
      AxisClips(p.x, b.origin.x, b.size.x, b.divx, c.x, radius);
    } else if p.y < b.origin.y || p.y >= b.origin.y + b.size.y || b.divy == 0 {
      AxisClips(p.y, b.origin.y, b.size.y, b.divy, c.y, radius);
    } else {
      AxisClips(p.z, b.origin.z, b.size.z, b.divz, c.z, radius);
    }
  }

  /** A proxy filed in a regular bin is inside the box of bins the query
      visits, whichever way the low end is rounded. */
  lemma CellCovered(b: Brick, p: Vec3, c: Vec3, radius: real, ix: int, iy: int, iz: int, truncate: bool)
    requires b.WellFormed() && !Outside(b, p) && InGrid(b, ix, iy, iz)
    requires ix == AxisBin(p.x, b.origin.x, b.size.x, b.divx)
    requires iy == AxisBin(p.y, b.origin.y, b.size.y, b.divy)
    requires iz == AxisBin(p.z, b.origin.z, b.size.z, b.divz)
    requires c.x - radius < p.x < c.x + radius && c.y - radius < p.y < c.y + radius && c.z - radius < p.z < c.z + radius
    ensures !CompletelyOutside(b, c, radius)
    ensures var k := ClipBox(b, c, radius, truncate);
            k.minX <= ix <= k.maxX && k.minY <= iy <= k.maxY && k.minZ <= iz <= k.maxZ
  {
    AxisCovered(p.x, b.origin.x, b.size.x, b.divx, c.x, radius, truncate);
    AxisCovered(p.y, b.origin.y, b.size.y, b.divy, c.y, radius, truncate);
    AxisCovered(p.z, b.origin.z, b.size.z, b.divz, c.z, radius, truncate);
  }

  /** The coordinates behind a regular bin returned by lqBinForLocation. */
  lemma CellCoordinates(b: Brick, p: Vec3)
    requires BinForLocation(b, p).Cell?
    ensures !Outside(b, p)
    ensures InGrid(b, AxisBin(p.x, b.origin.x, b.size.x, b.divx), AxisBin(p.y, b.origin.y, b.size.y, b.divy),
                   AxisBin(p.z, b.origin.z, b.size.z, b.divz))
    ensures BinForLocation(b, p).index == BinIndex(b, AxisBin(p.x, b.origin.x, b.size.x, b.divx),
                   AxisBin(p.y, b.origin.y, b.size.y, b.divy), AxisBin(p.z, b.origin.z, b.size.z, b.divz))
  {
    LocatedCell(b, p, AxisBin(p.x, b.origin.x, b.size.x, b.divx), AxisBin(p.y, b.origin.y, b.size.y, b.divy),
                AxisBin(p.z, b.origin.z, b.size.z, b.divz));
  }

  /** A near proxy filed in a regular bin is in what the clipped traversal of
      the query collects, whichever way the low end is rounded. */
  lemma FiledCellFound(db: Db, c: Vec3, radius: real, q: ProxyId, truncate: bool)
    requires Valid(db) && db.brick.WellFormed() && radius >= 0.0
    requires q in db.proxies && db.proxies[q].bin.Some? && db.proxies[q].bin.value.Cell?
    requires DistSq(db, c, q) < radius * radius
    ensures !CompletelyOutside(db.brick, c, radius)
    ensures var k := ClipBox(db.brick, c, radius, truncate);
            q in XRun(db, c, radius * radius, k.minX, k.maxX, k.minY, k.maxY, k.minZ, k.maxZ)
  {
    var b := db.brick;
    var p := db.proxies[q].pos;
    NearAxes(c, p, radius);
    var bin := db.proxies[q].bin.value;
    assert bin == BinForLocation(b, p) && Occurrences(ClientsOf(db, bin), q) == 1;
    assert q in ClientsOf(db, bin);
    var k := ClipBox(b, c, radius, truncate);
    CellCoordinates(b, p);
    var ix := AxisBin(p.x, b.origin.x, b.size.x, b.divx);
    var iy := AxisBin(p.y, b.origin.y, b.size.y, b.divy);
    var iz := AxisBin(p.z, b.origin.z, b.size.z, b.divz);
    CellCovered(b, p, c, radius, ix, iy, iz, truncate);
    assert q in BinList(db, ix, iy, iz);
    XRunContains(db, c, radius * radius, k.minX, k.maxX, k.minY, k.maxY, k.minZ, k.maxZ, ix, iy, iz, q);
  }

  /** A near proxy filed in `other` is reported by the corrected query. */
  lemma FiledOtherFound(db: Db, c: Vec3, radius: real, q: ProxyId)
    requires Valid(db) && db.brick.WellFormed() && radius >= 0.0
    requires q in db.proxies && db.proxies[q].bin == Some(Other)
    requires DistSq(db, c, q) < radius * radius
    ensures q in AllObjectsInLocality(db, c, radius)
  {
    var b := db.brick;
    var p := db.proxies[q].pos;
    NearAxes(c, p, radius);
    assert Other == BinForLocation(b, p) && Occurrences(ClientsOf(db, Other), q) == 1;
    assert q in db.other.clients;
    assert q in InRadius(db, db.other.clients, c, radius * radius);
    if !CompletelyOutside(b, c, radius) {
      OtherClips(b, p, c, radius);
    }
  }

  /** The corrected getAllObjectsInLocality finds every filed proxy strictly
      inside the sphere, wherever it is filed: the promise that all objects
      whose key point is within the sphere are identified. */
  lemma LocalityComplete(db: Db, c: Vec3, radius: real, q: ProxyId)
    requires Valid(db) && db.brick.WellFormed() && radius >= 0.0
    requires q in db.proxies && db.proxies[q].bin.Some? && DistSq(db, c, q) < radius * radius
    ensures q in AllObjectsInLocality(db, c, radius)
  {
    if db.proxies[q].bin.value == Other {
      FiledOtherFound(db, c, radius, q);
    } else {
      FiledCellFound(db, c, radius, q, false);
    }
  }

  /** As written, the query still finds every near proxy filed in a regular
      bin: what truncation loses is confined to `other`. */
  lemma LocalityAsWrittenFindsCells(db: Db, c: Vec3, radius: real, q: ProxyId)
    requires Valid(db) && db.brick.WellFormed() && radius >= 0.0
    requires q in db.proxies && db.proxies[q].bin.Some? && db.proxies[q].bin.value.Cell?
    requires DistSq(db, c, q) < radius * radius
    ensures q in AllObjectsInLocalityAsWritten(db, c, radius)
  {
    FiledCellFound(db, c, radius, q, true);
  }

  /** The brick of the counterexample: [0, 2)^3 cut into 2x2x2 bins. */
  const ExampleBrick := Brick(Vec3(0.0, 0.0, 0.0), Vec3(2.0, 2.0, 2.0), 2, 2, 2)

  /** The empty database over ExampleBrick. */
  function ExampleEmpty(): (db: Db)
    ensures Valid(db) && db.brick == ExampleBrick && db.proxies == map[]
    ensures forall n :: 0 <= n < |db.bins| ==> db.bins[n].clients == []
  {
    Db(ExampleBrick, seq(8, _ => Bin(Zero, [])), Bin(Zero, []), map[])
  }

  /** One proxy, placed by lqUpdateForNewLocation just below the x = 0 face of
      ExampleBrick, hence in `other`. */
  function ExampleDb(): (db: Db)
    ensures Valid(db) && db.brick == ExampleBrick && |db.bins| == 8
    ensures 0 in db.proxies && db.proxies[0].bin == Some(Other) && db.proxies[0].pos == Vec3(-0.05, 0.5, 0.5)
    ensures forall n :: 0 <= n < |db.bins| ==> db.bins[n].clients == []
  {
    var e := ExampleEmpty();
    var db1 := NewProxy(e, 0, 0);
    var pos := Vec3(-0.05, 0.5, 0.5);
    UpdatePreservesValid(db1, 0, pos);
    assert BinForLocation(ExampleBrick, pos) == Other;
    UpdateForNewLocation(db1, 0, pos)
  }

  /** With the truncated low ends, the query about (0.5, 0.5, 0.5) with radius
      0.6 clips nothing: (int)(-0.1) is 0. */
  lemma ExampleClipsNothing()
    ensures !CompletelyOutside(ExampleBrick, Vec3(0.5, 0.5, 0.5), 0.6)
    ensures ClipBox(ExampleBrick, Vec3(0.5, 0.5, 0.5), 0.6, true) == Clip(0, 0, 0, 1, 1, 1, false)
  {
    assert AxisBin(-0.1, 0.0, 2.0, 2) == 0;
    assert AxisBin(1.1, 0.0, 2.0, 2) == 1;
  }

  /** What the as-written query reports about (0.5, 0.5, 0.5) with radius 0.6
      on a database over ExampleBrick whose grid bins are all empty: only
      what its clipped traversal finds, which is nothing. */
  lemma ExampleAsWrittenEmpty(db: Db)
    requires db.brick == ExampleBrick && |db.bins| == 8
    requires forall n :: 0 <= n < |db.bins| ==> db.bins[n].clients == []
    ensures forall q :: q !in AllObjectsInLocalityAsWritten(db, Vec3(0.5, 0.5, 0.5), 0.6)
  {
    ExampleClipsNothing();
    UnclippedEmptyGrid(db, Vec3(0.5, 0.5, 0.5), 0.6, true);
  }

  /** A query that neither misses the brick nor is clipped never consults
      `other`: over a grid whose bins are all empty it reports nothing. */
  lemma UnclippedEmptyGrid(db: Db, c: Vec3, radius: real, truncate: bool)
    requires db.brick.WellFormed() && !CompletelyOutside(db.brick, c, radius)
    requires !ClipBox(db.brick, c, radius, truncate).partlyOut
    requires forall n :: 0 <= n < |db.bins| ==> db.bins[n].clients == []
    ensures forall q :: q !in Locality(db, c, radius, truncate)
  {
    var k := ClipBox(db.brick, c, radius, truncate);
    LocalityUnclipped(db, c, radius, truncate, k);
    XRunListed(db, c, radius * radius, k.minX, k.maxX, k.minY, k.maxY, k.minZ, k.maxZ);
    NotListed(db);
  }

  /** Nothing is listed in a grid whose bins are all empty. */
  lemma NotListed(db: Db)
    requires forall n :: 0 <= n < |db.bins| ==> db.bins[n].clients == []
    ensures forall q :: !Listed(db, q)
  {
  }

  /** A query that neither misses the brick nor is clipped is exactly the
      traversal of its bin box. */
  lemma LocalityUnclipped(db: Db, c: Vec3, radius: real, truncate: bool, k: Clip)
    requires db.brick.WellFormed() && !CompletelyOutside(db.brick, c, radius)
    requires ClipBox(db.brick, c, radius, truncate) == k && !k.partlyOut
    ensures Locality(db, c, radius, truncate) == XRun(db, c, radius * radius, k.minX, k.maxX, k.minY, k.maxY, k.minZ, k.maxZ)
  {
    assert [] + XRun(db, c, radius * radius, k.minX, k.maxX, k.minY, k.maxY, k.minZ, k.maxZ)
        == XRun(db, c, radius * radius, k.minX, k.maxX, k.minY, k.maxY, k.minZ, k.maxZ);
  }

  /** The truncation of the low bin coordinates loses a proxy: a sphere of
      radius 0.6 about (0.5, 0.5, 0.5) reaches to x = -0.1, but nothing counts
      as clipped, `other` is never consulted, and the proxy at squared distance
      0.3025 < 0.36 is not reported.  The corrected query reports it. */
  lemma LocalityAsWrittenMissesOther()
    ensures var db := ExampleDb();
            Valid(db) && 0 in db.proxies && db.proxies[0].bin == Some(Other) &&
            DistSq(db, Vec3(0.5, 0.5, 0.5), 0) < 0.6 * 0.6 &&
            0 !in AllObjectsInLocalityAsWritten(db, Vec3(0.5, 0.5, 0.5), 0.6) &&
            0 in AllObjectsInLocality(db, Vec3(0.5, 0.5, 0.5), 0.6)
  {
    var db := ExampleDb();
    var c := Vec3(0.5, 0.5, 0.5);
    assert DistSq(db, c, 0) == 0.3025;
    ExampleAsWrittenEmpty(db);
    LocalityComplete(db, c, 0.6, 0);
  }

  // ---------------------------------------------------------------------------
  // lqFindNearestNeighborWithinRadius

  /** A proxy of the query's result that is not the one to ignore. */
  predicate Candidate(found: seq<ProxyId>, ignore: Option<ProxyId>, q: ProxyId) {
    q in found && Some(q) != ignore
  }

  /** Every entry of the list is a known proxy. */
  predicate AllKnown(db: Db, s: seq<ProxyId>) {
    forall k :: 0 <= k < |s| ==> s[k] in db.proxies
  }

  /** The scan of lqFindNearestNeighborWithinRadius over a candidate list:
      the best squared distance starts at float.MaxValue and is replaced only on
      a strictly smaller one, so the first of equally near proxies wins. */
  method NearestIn(db: Db, c: Vec3, found: seq<ProxyId>, ignore: Option<ProxyId>)
    returns (nearest: Option<ProxyId>)
    requires AllKnown(db, found)
    ensures nearest.Some? ==> Candidate(found, ignore, nearest.value) && nearest.value in db.proxies &&
                              DistSq(db, c, nearest.value) < FloatMax
    ensures nearest.Some? ==> forall q :: Candidate(found, ignore, q) ==> q in db.proxies && DistSq(db, c, nearest.value) <= DistSq(db, c, q)
    ensures nearest.Some? ==> exists i :: (0 <= i < |found| && found[i] == nearest.value &&
                              forall j :: 0 <= j < i && Some(found[j]) != ignore ==> DistSq(db, c, nearest.value) < DistSq(db, c, found[j]))
    ensures nearest.None? <==> forall q :: Candidate(found, ignore, q) ==> q in db.proxies && DistSq(db, c, q) >= FloatMax
  {
    var minD := FloatMax;
    nearest := None;
    ghost var best := 0;
    var i := 0;
    while i < |found|
      invariant 0 <= i <= |found|
      invariant nearest.None? ==> minD == FloatMax
      invariant nearest.None? ==> forall j :: 0 <= j < i && Some(found[j]) != ignore ==> DistSq(db, c, found[j]) >= FloatMax
      invariant nearest.Some? ==> 0 <= best < i && found[best] == nearest.value && Some(nearest.value) != ignore
      invariant nearest.Some? ==> minD == DistSq(db, c, nearest.value) < FloatMax
      invariant nearest.Some? ==> forall j :: 0 <= j < i && Some(found[j]) != ignore ==> minD <= DistSq(db, c, found[j])
      invariant nearest.Some? ==> forall j :: 0 <= j < best && Some(found[j]) != ignore ==> minD < DistSq(db, c, found[j])
    {
      var q := found[i];
      if Some(q) != ignore {
        var d := DistSq(db, c, q);
        if d < minD {
          nearest := Some(q);
          minD := d;
          best := i;
        }
      }
      i := i + 1;
    }
  }

  /** Every proxy the locality query returns, with either rounding of the low
      bin, is known. */
  lemma LocalityKnown(db: Db, c: Vec3, radius: real, truncate: bool)
    requires db.brick.WellFormed()
    ensures AllKnown(db, Locality(db, c, radius, truncate))
  {
    var found := Locality(db, c, radius, truncate);
    forall k | 0 <= k < |found| ensures found[k] in db.proxies {
      assert found[k] in found;
    }
  }

  /** lqFindNearestNeighborWithinRadius: the nearest non-ignored proxy among
      those the locality query as written returns, None when none is below
      float.MaxValue. */
  method FindNearestNeighborWithinRadius(db: Db, c: Vec3, radius: real, ignore: Option<ProxyId>)
    returns (nearest: Option<ProxyId>)
    requires db.brick.WellFormed()
    ensures nearest.Some? ==> Candidate(AllObjectsInLocalityAsWritten(db, c, radius), ignore, nearest.value) &&
                              Near(db, c, radius * radius, nearest.value)
    ensures nearest.Some? ==> forall q :: Candidate(AllObjectsInLocalityAsWritten(db, c, radius), ignore, q) ==>
                                q in db.proxies && DistSq(db, c, nearest.value) <= DistSq(db, c, q)
    ensures nearest.None? <==> forall q :: Candidate(AllObjectsInLocalityAsWritten(db, c, radius), ignore, q) ==>
                                 q in db.proxies && DistSq(db, c, q) >= FloatMax
  {
    var found := AllObjectsInLocalityAsWritten(db, c, radius);
    LocalityKnown(db, c, radius, true);
    nearest := NearestIn(db, c, found, ignore);
  }

  /** The same search over the corrected locality query, which also consults
      `other` whenever the sphere leaves the brick. */
  method FindNearestNeighborWithinRadiusCorrected(db: Db, c: Vec3, radius: real, ignore: Option<ProxyId>)
    returns (nearest: Option<ProxyId>)
    requires db.brick.WellFormed()
    ensures nearest.Some? ==> Candidate(AllObjectsInLocality(db, c, radius), ignore, nearest.value) &&
                              Near(db, c, radius * radius, nearest.value)
    ensures nearest.Some? ==> forall q :: Candidate(AllObjectsInLocality(db, c, radius), ignore, q) ==>
                                q in db.proxies && DistSq(db, c, nearest.value) <= DistSq(db, c, q)
    ensures nearest.None? <==> forall q :: Candidate(AllObjectsInLocality(db, c, radius), ignore, q) ==>
                                 q in db.proxies && DistSq(db, c, q) >= FloatMax
  {
    var found := AllObjectsInLocality(db, c, radius);
    LocalityKnown(db, c, radius, false);
    nearest := NearestIn(db, c, found, ignore);
  }
}

=== FILE: pathway.dfy ===
/** Vector3Pathway: a polyline of points with a radius, the per-segment
    lengths and unit normals precalculated, and the mappings between points,
    the path, and distances along it. Square roots come from `sqrt`, any
    function that returns the non-negative root of a non-negative number. */
module Pathway {
  import opened Wrappers
  import opened Geometry
  import opened SteerUtil

  /** `sqrt` returns square roots. */
  ghost predicate IsSqrtFn(sqrt: real -> real) {
    forall x :: x >= 0.0 ==> IsSqrt(sqrt(x), x)
  }

  /** Roots are ordered as their squares are. */
  lemma SqrtOrder(sqrt: real -> real, x: real, y: real)
    requires IsSqrtFn(sqrt) && x >= 0.0 && y >= 0.0
    ensures sqrt(x) <= sqrt(y) <==> x <= y
    ensures sqrt(x) < sqrt(y) <==> x < y
  {
    var a, b := sqrt(x), sqrt(y);
    assert IsSqrt(a, x) && IsSqrt(b, y);
    if a <= b { SquareMonotone(a, b); }
    if b <= a { SquareMonotone(b, a); }
    if a < b { assert a * a < b * b by { StrictSquareMonotone(a, b); } }
    if b < a { assert b * b < a * a by { StrictSquareMonotone(b, a); } }
  }

  /** The sum of a sequence of lengths, added up from the front. */
  function Sum(s: seq<real>): real {
    if |s| == 0 then 0.0 else Sum(s[..|s| - 1]) + s[|s| - 1]
  }

  /** Consecutive points are apart, so every segment has a length to divide
      by and a direction. */
  predicate NoRepeats(path: seq<Vec3>) {
    forall i :: 1 <= i < |path| ==> SqrDist(path[i], path[i - 1]) > 0.0
  }

  /** The pathway object: the points, the radius, and what
      PrecalculatePathData derives from the points. */
  datatype Pathway = Pathway(path: seq<Vec3>, radius: real, lengths: seq<real>, normals: seq<Vec3>, total: real)

  /** The number of entries PrecalculatePathData writes: one per point, and
      one for an empty path. */
  function Entries(path: seq<Vec3>): nat {
    if |path| == 0 then 1 else |path|
  }

  /** The shape of the precalculated lists: one entry per point (one for an
      empty path), and a zero length in entry 0. */
  predicate Shaped(pw: Pathway) {
    |pw.lengths| == Entries(pw.path) && |pw.normals| == Entries(pw.path) && pw.lengths[0] == 0.0
  }

  /** The normal PrecalculatePathData stores for a segment: its difference
      divided by its length. A segment between two equal points has length 0,
      and the division makes every component of its normal 0/0, a float NaN.
      Reals have no NaN, so that normal is stored as Zero; nothing reads it,
      because every use the source makes of a zero-length segment's normal is
      modelled by the outcome NaN has there (see Nearer and Walk). */
  function NormalOf(d: Vec3, length: real): Vec3 {
    if length == 0.0 then Zero else Scale(d, 1.0 / length)
  }

  /** The state PrecalculatePathData leaves: entry 0 is a zero length and a
      zero normal, entry i is the length of segment i (from point i-1 to point
      i) and its normal; the total is the sum. */
  ghost predicate Prepared(pw: Pathway) {
    Shaped(pw) && pw.normals[0] == Zero &&
    (forall i {:trigger pw.lengths[i]} :: 1 <= i < |pw.path| ==>
       IsSqrt(pw.lengths[i], SqrDist(pw.path[i], pw.path[i - 1])) &&
       pw.normals[i] == NormalOf(Sub(pw.path[i], pw.path[i - 1]), pw.lengths[i])) &&
    pw.total == Sum(pw.lengths)
  }

  /** The prepared state of a path without repeated consecutive points: every
      segment has a positive length. */
  ghost predicate Precalculated(pw: Pathway) {
    Prepared(pw) && forall i {:trigger pw.lengths[i]} :: 1 <= i < |pw.path| ==> pw.lengths[i] > 0.0
  }

  /** The length and normal of a segment of positive length. */
  lemma NormalAt(pw: Pathway, i: nat)
    requires Prepared(pw) && 1 <= i < |pw.path| && pw.lengths[i] > 0.0
    ensures IsSqrt(pw.lengths[i], SqrDist(pw.path[i], pw.path[i - 1]))
    ensures pw.normals[i] == Scale(Sub(pw.path[i], pw.path[i - 1]), 1.0 / pw.lengths[i])
  {
  }

  /** The lengths and normals PrecalculatePathData computes. */
  function SegmentLengths(path: seq<Vec3>, sqrt: real -> real): (r: seq<real>)
    ensures |r| == Entries(path) && r[0] == 0.0
  {
    if |path| <= 1 then [0.0]
    else SegmentLengths(path[..|path| - 1], sqrt) + [sqrt(SqrDist(path[|path| - 1], path[|path| - 2]))]
  }

  lemma {:induction false} SegmentLengthsAt(path: seq<Vec3>, sqrt: real -> real, i: nat)
    requires 1 <= i < |path|
    ensures SegmentLengths(path, sqrt)[i] == sqrt(SqrDist(path[i], path[i - 1]))
  {
    if i < |path| - 1 {
      var p := path[..|path| - 1];
      SegmentLengthsAt(p, sqrt, i);
      assert p[i] == path[i] && p[i - 1] == path[i - 1];
    }
  }

  function SegmentNormals(path: seq<Vec3>, lengths: seq<real>): (r: seq<Vec3>)
    requires |lengths| == Entries(path)
    ensures |r| == Entries(path) && r[0] == Zero
    ensures forall i :: 1 <= i < |path| ==> r[i] == NormalOf(Sub(path[i], path[i - 1]), lengths[i])
    ensures forall i :: 1 <= i < |path| && lengths[i] != 0.0 ==>
              r[i] == Scale(Sub(path[i], path[i - 1]), 1.0 / lengths[i])
  {
    if |path| == 0 then [Zero]
    else seq(|path|, k requires 0 <= k < |path| =>
               if k == 0 then Zero else NormalOf(Sub(path[k], path[k - 1]), lengths[k]))
  }

  /** Initialize(path, radius) with PrecalculatePathData. Any list of points is
      accepted: a segment has length 0 exactly when its squared length is 0,
      as it is between two equal points, and with no such segment every length
      is positive. */
  function Initialize(path: seq<Vec3>, radius: real, sqrt: real -> real): (pw: Pathway)
    requires IsSqrtFn(sqrt)
    ensures pw.path == path && pw.radius == radius
    ensures Prepared(pw)
    ensures forall i :: 1 <= i < |path| ==> pw.lengths[i] == sqrt(SqrDist(path[i], path[i - 1]))
    ensures forall i :: 1 <= i < |path| ==> (pw.lengths[i] == 0.0 <==> SqrDist(path[i], path[i - 1]) == 0.0)
    ensures forall i :: 1 <= i < |path| && path[i] == path[i - 1] ==> pw.lengths[i] == 0.0
    ensures NoRepeats(path) ==> Precalculated(pw)
  {
    var lengths := SegmentLengths(path, sqrt);
    var pw := Pathway(path, radius, lengths, SegmentNormals(path, lengths), Sum(lengths));
    InitializedPrepared(pw, sqrt);
    InitializedPositive(pw, sqrt);
    pw
  }

  /** The lists PrecalculatePathData builds are the prepared state. */
  lemma InitializedPrepared(pw: Pathway, sqrt: real -> real)
    requires IsSqrtFn(sqrt) && pw.lengths == SegmentLengths(pw.path, sqrt)
    requires pw.normals == SegmentNormals(pw.path, pw.lengths) && pw.total == Sum(pw.lengths)
    ensures Prepared(pw)
    ensures forall i :: 1 <= i < |pw.path| ==> pw.lengths[i] == sqrt(SqrDist(pw.path[i], pw.path[i - 1]))
    ensures forall i :: 1 <= i < |pw.path| ==> (pw.lengths[i] == 0.0 <==> SqrDist(pw.path[i], pw.path[i - 1]) == 0.0)
    ensures forall i :: 1 <= i < |pw.path| && pw.path[i] == pw.path[i - 1] ==> pw.lengths[i] == 0.0
  {
    LengthsAreRoots(pw.path, sqrt);
  }

  /** Without repeated points the prepared lengths are all positive. */
  lemma InitializedPositive(pw: Pathway, sqrt: real -> real)
    requires IsSqrtFn(sqrt) && pw.lengths == SegmentLengths(pw.path, sqrt) && Prepared(pw)
    ensures NoRepeats(pw.path) ==> Precalculated(pw)
  {
    if NoRepeats(pw.path) {
      LengthsPositive(pw.path, sqrt);
    }
  }

  /** Every computed length is the root of its segment's squared length, so
      it is 0 exactly when that is, and it is 0 between two equal points. */
  lemma LengthsAreRoots(path: seq<Vec3>, sqrt: real -> real)
    requires IsSqrtFn(sqrt)
    ensures forall i :: 1 <= i < |path| ==>
              SegmentLengths(path, sqrt)[i] == sqrt(SqrDist(path[i], path[i - 1])) &&
              IsSqrt(SegmentLengths(path, sqrt)[i], SqrDist(path[i], path[i - 1])) &&
              (SegmentLengths(path, sqrt)[i] == 0.0 <==> SqrDist(path[i], path[i - 1]) == 0.0) &&
              (path[i] == path[i - 1] ==> SegmentLengths(path, sqrt)[i] == 0.0)
  {
    forall i | 1 <= i < |path|
      ensures SegmentLengths(path, sqrt)[i] == sqrt(SqrDist(path[i], path[i - 1]))
      ensures IsSqrt(SegmentLengths(path, sqrt)[i], SqrDist(path[i], path[i - 1]))
      ensures SegmentLengths(path, sqrt)[i] == 0.0 <==> SqrDist(path[i], path[i - 1]) == 0.0
      ensures path[i] == path[i - 1] ==> SegmentLengths(path, sqrt)[i] == 0.0
    {
      SegmentLengthsAt(path, sqrt, i);
      var d := SqrDist(path[i], path[i - 1]);
      SqrLengthNonNegative(Sub(path[i], path[i - 1]));
      assert IsSqrt(sqrt(d), d);
      RootZeroIffZero(sqrt(d), d);
      if path[i] == path[i - 1] { SelfDistance(path[i]); }
    }
  }

  /** A root is 0 exactly when its square is. */
  lemma RootZeroIffZero(s: real, q: real)
    requires IsSqrt(s, q)
    ensures s == 0.0 <==> q == 0.0
  {
    if q == 0.0 { SquareZero(s); }
  }

  /** A point is at squared distance 0 from itself. */
  lemma SelfDistance(a: Vec3)
    ensures SqrDist(a, a) == 0.0
  {
    assert Sub(a, a) == Vec3(0.0, 0.0, 0.0);
  }

  lemma LengthsPositive(path: seq<Vec3>, sqrt: real -> real)
    requires IsSqrtFn(sqrt) && NoRepeats(path)
    ensures forall i :: 1 <= i < |path| ==>
              SegmentLengths(path, sqrt)[i] == sqrt(SqrDist(path[i], path[i - 1])) &&
              IsSqrt(SegmentLengths(path, sqrt)[i], SqrDist(path[i], path[i - 1])) &&
              SegmentLengths(path, sqrt)[i] > 0.0
  {
    forall i | 1 <= i < |path|
      ensures SegmentLengths(path, sqrt)[i] == sqrt(SqrDist(path[i], path[i - 1]))
      ensures IsSqrt(SegmentLengths(path, sqrt)[i], SqrDist(path[i], path[i - 1]))
      ensures SegmentLengths(path, sqrt)[i] > 0.0
    {
      LengthPositiveAt(path, sqrt, i);
    }
  }

  lemma LengthPositiveAt(path: seq<Vec3>, sqrt: real -> real, i: nat)
    requires IsSqrtFn(sqrt) && NoRepeats(path) && 1 <= i < |path|
    ensures SegmentLengths(path, sqrt)[i] == sqrt(SqrDist(path[i], path[i - 1]))
    ensures IsSqrt(SegmentLengths(path, sqrt)[i], SqrDist(path[i], path[i - 1]))
    ensures SegmentLengths(path, sqrt)[i] > 0.0
  {
    SegmentLengthsAt(path, sqrt, i);
    var d := SqrDist(path[i], path[i - 1]);
    assert d > 0.0;
    assert IsSqrt(sqrt(d), d);
    PositiveRoot(sqrt(d), d);
  }

  /** The root of a positive number is positive. */
  lemma PositiveRoot(s: real, d: real)
    requires IsSqrt(s, d) && d > 0.0
    ensures s > 0.0
  {
  }

  /** The precalculated data describes the polyline: each normal has unit
      length and each point is the previous one plus its normal times its
      length. */
  lemma SegmentFrame(pw: Pathway, i: nat)
    requires Prepared(pw) && 1 <= i < |pw.path| && pw.lengths[i] > 0.0
    ensures SqrLength(pw.normals[i]) == 1.0
    ensures pw.path[i] == Add(pw.path[i - 1], Scale(pw.normals[i], pw.lengths[i]))
  {
    NormalAt(pw, i);
    UnitDirection(pw.path[i - 1], pw.path[i], pw.lengths[i]);
  }

  /** The difference of two points divided by its length is a unit vector
      that leads from the first point to the second in `len` steps. */
  lemma UnitDirection(a: Vec3, b: Vec3, len: real)
    requires IsSqrt(len, SqrDist(b, a)) && len > 0.0
    ensures SqrLength(Scale(Sub(b, a), 1.0 / len)) == 1.0
    ensures b == Add(a, Scale(Scale(Sub(b, a), 1.0 / len), len))
  {
    var d := Sub(b, a);
    SqrLengthScale(d, 1.0 / len);
    assert (1.0 / len) * (1.0 / len) * (len * len) == 1.0;
    assert Scale(Scale(d, 1.0 / len), len) == d by {
      assert (1.0 / len) * len == 1.0;
      assert d.x * (1.0 / len) * len == d.x;
      assert d.y * (1.0 / len) * len == d.y;
      assert d.z * (1.0 / len) * len == d.z;
    }
  }

  /** SegmentCount: the number of points, which is one more than the number
      of segments and equal to the number of precalculated entries of a
      non-empty path. */
  function SegmentCount(pw: Pathway): (n: nat)
    requires |pw.lengths| == Entries(pw.path)
    ensures |pw.path| >= 1 ==> n == |pw.lengths|
    ensures |pw.path| == 0 ==> n == 0
  {
    |pw.path|
  }

  /** FirstPoint and LastPoint: FirstOrDefault / LastOrDefault, so zero for an
      empty path. */
  function FirstPoint(pw: Pathway): (p: Vec3)
    ensures |pw.path| > 0 ==> p == pw.path[0]
    ensures |pw.path| == 0 ==> p == Zero
  {
    if |pw.path| == 0 then Zero else pw.path[0]
  }

  function LastPoint(pw: Pathway): (p: Vec3)
    ensures |pw.path| > 0 ==> p == pw.path[|pw.path| - 1]
    ensures |pw.path| == 0 ==> p == Zero
  {
    if |pw.path| == 0 then Zero else pw.path[|pw.path| - 1]
  }

  // ---------------------------------------------------------------------------
  // MapPointToPath

  /** PointToSegmentDistance on segment i, and the distance it returns. */
  function SegmentProjection(pw: Pathway, point: Vec3, i: nat): SegmentPoint
    requires 1 <= i < |pw.path| && Shaped(pw)
  {
    PointToSegment(point, pw.path[i - 1], pw.path[i], pw.normals[i], pw.lengths[i])
  }

  function SegmentDistance(pw: Pathway, point: Vec3, i: nat, sqrt: real -> real): real
    requires 1 <= i < |pw.path| && Shaped(pw)
  {
    sqrt(SqrDist(point, SegmentProjection(pw, point, i).chosen))
  }

  /** The loop state of MapPointToPath: the best distance so far, the chosen
      segment (-1 for none), the point on it and its normal. */
  datatype Scan = Scan(minDistance: real, segmentIndex: int, onPath: Vec3, tangent: Vec3)

  /** The loop's test d < minDistance for segment i. A zero-length segment
      has a NaN normal, so the projection on it, the point it chooses and the
      distance d are NaN too, and the comparison is false: such a segment is
      never selected. */
  predicate Nearer(pw: Pathway, point: Vec3, sqrt: real -> real, i: nat, minDistance: real)
    requires 1 <= i < |pw.path| && Shaped(pw)
  {
    pw.lengths[i] != 0.0 && SegmentDistance(pw, point, i, sqrt) < minDistance
  }

  /** The state before iteration `i` of the loop over segments 1, 2, ...:
      a segment replaces the best only when strictly closer. */
  function ScanTo(pw: Pathway, point: Vec3, sqrt: real -> real, tangent: Vec3, i: nat): Scan
    requires 1 <= i <= Entries(pw.path)
    requires Shaped(pw)
  {
    if i == 1 then Scan(FloatMax, -1, Zero, tangent)
    else
      var s := ScanTo(pw, point, sqrt, tangent, i - 1);
      var d := SegmentDistance(pw, point, i - 1, sqrt);
      if Nearer(pw, point, sqrt, i - 1, s.minDistance) then
        Scan(d, i - 1, SegmentProjection(pw, point, i - 1).chosen, pw.normals[i - 1])
      else s
  }

  /** The scan selects, among the segments of non-zero length, the first of
      strictly least distance below float.MaxValue, and none if there is no
      such segment. */
  lemma {:induction false} ScanSelectsFirstNearest(pw: Pathway, point: Vec3, sqrt: real -> real, tangent: Vec3, i: nat)
    requires 1 <= i <= Entries(pw.path)
    requires Shaped(pw)
    ensures var s := ScanTo(pw, point, sqrt, tangent, i);
            (s.segmentIndex == -1 || 1 <= s.segmentIndex < i) &&
            (s.segmentIndex == -1 <==> forall j :: 1 <= j < i ==> pw.lengths[j] == 0.0 || SegmentDistance(pw, point, j, sqrt) >= FloatMax) &&
            (s.segmentIndex == -1 ==> s == Scan(FloatMax, -1, Zero, tangent))
    ensures var s := ScanTo(pw, point, sqrt, tangent, i);
            s.segmentIndex != -1 ==>
              var k := s.segmentIndex;
              pw.lengths[k] != 0.0 &&
              s.minDistance == SegmentDistance(pw, point, k, sqrt) < FloatMax &&
              s.onPath == SegmentProjection(pw, point, k).chosen && s.tangent == pw.normals[k] &&
              (forall j :: 1 <= j < i && pw.lengths[j] != 0.0 ==> SegmentDistance(pw, point, k, sqrt) <= SegmentDistance(pw, point, j, sqrt)) &&
              (forall j :: 1 <= j < k && pw.lengths[j] != 0.0 ==> SegmentDistance(pw, point, k, sqrt) < SegmentDistance(pw, point, j, sqrt))
  {
    if i > 1 {
      ScanSelectsFirstNearest(pw, point, sqrt, tangent, i - 1);
    }
  }

  /** Where MapPointToPath leaves the caller's PathRelativePosition: the
      segment index, the tangent, and how far outside the tube the point is. */
  datatype PathRelative = PathRelative(segmentIndex: int, tangent: Vec3, outside: real)

  /** MapPointToPath: the nearest point found on the path, with the relative
      position; `tangent` is the value the caller's structure held before. */
  function MapPointToPath(pw: Pathway, point: Vec3, sqrt: real -> real, tangent: Vec3): (r: (Vec3, PathRelative))
    requires Shaped(pw)
    ensures |pw.path| < 2 ==> r.0 == Zero && r.1.segmentIndex == -1 && r.1.tangent == tangent
    ensures r.1.outside == sqrt(SqrDist(r.0, point)) - pw.radius
    ensures r.1.segmentIndex == -1 <==>
              forall j :: 1 <= j < |pw.path| ==> pw.lengths[j] == 0.0 || SegmentDistance(pw, point, j, sqrt) >= FloatMax
    ensures r.1.segmentIndex != -1 ==>
              var k := r.1.segmentIndex;
              1 <= k < |pw.path| && pw.lengths[k] != 0.0 &&
              r.0 == SegmentProjection(pw, point, k).chosen && r.1.tangent == pw.normals[k] &&
              (forall j :: 1 <= j < |pw.path| && pw.lengths[j] != 0.0 ==> SegmentDistance(pw, point, k, sqrt) <= SegmentDistance(pw, point, j, sqrt)) &&
              (forall j :: 1 <= j < k && pw.lengths[j] != 0.0 ==> SegmentDistance(pw, point, k, sqrt) < SegmentDistance(pw, point, j, sqrt))
  {
    var s := ScanTo(pw, point, sqrt, tangent, Entries(pw.path));
    ScanSelectsFirstNearest(pw, point, sqrt, tangent, Entries(pw.path));
    (s.onPath, PathRelative(s.segmentIndex, s.tangent, sqrt(SqrDist(s.onPath, point)) - pw.radius))
  }

  /** The point MapPointToPath returns is a nearest point of the polyline: no
      point of any segment of positive length is closer. */
  lemma MapPointToPathNearest(pw: Pathway, point: Vec3, sqrt: real -> real, tangent: Vec3, j: nat, t: real)
    requires Prepared(pw) && IsSqrtFn(sqrt) && 1 <= j < |pw.path| && pw.lengths[j] > 0.0 && 0.0 <= t <= pw.lengths[j]
    requires MapPointToPath(pw, point, sqrt, tangent).1.segmentIndex != -1
    ensures SqrDist(point, MapPointToPath(pw, point, sqrt, tangent).0) <=
            SqrDist(point, Add(pw.path[j - 1], Scale(pw.normals[j], t)))
  {
    var r := MapPointToPath(pw, point, sqrt, tangent);
    var k := r.1.segmentIndex;
    var ck := SegmentProjection(pw, point, k).chosen;
    var cj := SegmentProjection(pw, point, j).chosen;
    assert r.0 == ck;
    assert SegmentDistance(pw, point, k, sqrt) <= SegmentDistance(pw, point, j, sqrt);
    SqrLengthNonNegative(Sub(point, ck));
    SqrLengthNonNegative(Sub(point, cj));
    SqrtOrder(sqrt, SqrDist(point, ck), SqrDist(point, cj));
    assert SqrDist(point, ck) <= SqrDist(point, cj);
    SegmentFrame(pw, j);
    SegmentNearest(point, pw.path[j - 1], pw.normals[j], pw.lengths[j], t);
    assert cj == PointToSegment(point, pw.path[j - 1], Add(pw.path[j - 1], Scale(pw.normals[j], pw.lengths[j])), pw.normals[j], pw.lengths[j]).chosen;
  }

  /** HowFarOutsidePath: the Outside value of MapPointToPath. */
  function HowFarOutsidePath(pw: Pathway, point: Vec3, sqrt: real -> real): (d: real)
    requires Shaped(pw)
    ensures d == MapPointToPath(pw, point, sqrt, Zero).1.outside
  {
    MapPointToPath(pw, point, sqrt, Zero).1.outside
  }

  /** IsInsidePath: Outside is negative. */
  function IsInsidePath(pw: Pathway, point: Vec3, sqrt: real -> real): (b: bool)
    requires Shaped(pw)
    ensures b <==> HowFarOutsidePath(pw, point, sqrt) < 0.0
  {
    MapPointToPath(pw, point, sqrt, Zero).1.outside < 0.0
  }

  /** A point is inside exactly when the path point found for it is strictly
      within the radius. */
  lemma InsideIffWithinRadius(pw: Pathway, point: Vec3, sqrt: real -> real)
    requires Shaped(pw) && IsSqrtFn(sqrt)
    ensures var onPath := MapPointToPath(pw, point, sqrt, Zero).0;
            IsInsidePath(pw, point, sqrt) <==> pw.radius > 0.0 && SqrDist(onPath, point) < pw.radius * pw.radius
  {
    var r := MapPointToPath(pw, point, sqrt, Zero);
    var x := SqrDist(r.0, point);
    SqrLengthNonNegative(Sub(r.0, point));
    assert r.1.outside == sqrt(x) - pw.radius;
    RootBelowRadius(sqrt, x, pw.radius);
  }

  lemma RootBelowRadius(sqrt: real -> real, x: real, radius: real)
    requires IsSqrtFn(sqrt) && x >= 0.0
    ensures sqrt(x) - radius < 0.0 <==> radius > 0.0 && x < radius * radius
  {
    assert IsSqrt(sqrt(x), x);
    if radius > 0.0 {
      SqrtOfSquare(sqrt, radius);
      SqrtOrder(sqrt, x, radius * radius);
    }
  }

  lemma SqrtOfSquare(sqrt: real -> real, r: real)
    requires IsSqrtFn(sqrt) && r >= 0.0
    ensures sqrt(r * r) == r
  {
    var s := sqrt(r * r);
    assert IsSqrt(s, r * r);
    if s < r { StrictSquareMonotone(s, r); }
    if r < s { StrictSquareMonotone(r, s); }
  }

  // ---------------------------------------------------------------------------
  // MapPointToPathDistance

  /** The loop state of MapPointToPathDistance. */
  datatype DistanceScan = DistanceScan(minDistance: real, segmentLengthTotal: real, pathDistance: real)

  /** The loop as written: the segment's length is added to the running
      total before the comparison, so a selected segment contributes its whole
      length as well as the projection on it. */
  function DistanceScanAsWritten(pw: Pathway, point: Vec3, sqrt: real -> real, i: nat): DistanceScan
    requires 1 <= i <= Entries(pw.path)
    requires Shaped(pw)
  {
    if i == 1 then DistanceScan(FloatMax, 0.0, 0.0)
    else
      var s := DistanceScanAsWritten(pw, point, sqrt, i - 1);
      var d := SegmentDistance(pw, point, i - 1, sqrt);
      var total := s.segmentLengthTotal + pw.lengths[i - 1];
      if Nearer(pw, point, sqrt, i - 1, s.minDistance) then
        DistanceScan(d, total, total + SegmentProjection(pw, point, i - 1).projection)
      else DistanceScan(s.minDistance, total, s.pathDistance)
  }

  /** The loop with the length added after the comparison, as in OpenSteer's
      PolylinePathway: the distance along the path up to the start of the
      selected segment, plus the projection on it. */
  function DistanceScanCorrected(pw: Pathway, point: Vec3, sqrt: real -> real, i: nat): DistanceScan
    requires 1 <= i <= Entries(pw.path)
    requires Shaped(pw)
  {
    if i == 1 then DistanceScan(FloatMax, 0.0, 0.0)
    else
      var s := DistanceScanCorrected(pw, point, sqrt, i - 1);
      var d := SegmentDistance(pw, point, i - 1, sqrt);
      var total := s.segmentLengthTotal + pw.lengths[i - 1];
      if Nearer(pw, point, sqrt, i - 1, s.minDistance) then
        DistanceScan(d, total, s.segmentLengthTotal + SegmentProjection(pw, point, i - 1).projection)
      else DistanceScan(s.minDistance, total, s.pathDistance)
  }

  /** Both loops keep the running total equal to the length of the segments
      seen so far. */
  lemma DistanceScanTotals(pw: Pathway, point: Vec3, sqrt: real -> real, i: nat)
    requires 1 <= i <= Entries(pw.path) && Shaped(pw)
    ensures DistanceScanAsWritten(pw, point, sqrt, i).segmentLengthTotal == Sum(pw.lengths[..i])
    ensures DistanceScanCorrected(pw, point, sqrt, i).segmentLengthTotal == Sum(pw.lengths[..i])
  {
    AsWrittenTotal(pw, point, sqrt, i);
    CorrectedTotal(pw, point, sqrt, i);
  }

  /** The first entry of the lengths is their prefix sum of length one. */
  lemma FirstLengthSum(pw: Pathway)
    requires Shaped(pw) && |pw.lengths| >= 1
    ensures Sum(pw.lengths[..1]) == 0.0 + pw.lengths[0]
  {
    assert pw.lengths[..1] == [pw.lengths[0]];
    assert Sum(pw.lengths[..1]) == Sum([]) + pw.lengths[0];
  }

  lemma {:induction false} AsWrittenTotal(pw: Pathway, point: Vec3, sqrt: real -> real, i: nat)
    requires 1 <= i <= Entries(pw.path) && Shaped(pw)
    ensures DistanceScanAsWritten(pw, point, sqrt, i).segmentLengthTotal == Sum(pw.lengths[..i])
  {
    if i == 1 {
      FirstLengthSum(pw);
    } else {
      AsWrittenTotal(pw, point, sqrt, i - 1);
      SumStep(pw.lengths, i - 1);
    }
  }

  lemma {:induction false} CorrectedTotal(pw: Pathway, point: Vec3, sqrt: real -> real, i: nat)
    requires 1 <= i <= Entries(pw.path) && Shaped(pw)
    ensures DistanceScanCorrected(pw, point, sqrt, i).segmentLengthTotal == Sum(pw.lengths[..i])
  {
    if i == 1 {
      FirstLengthSum(pw);
    } else {
      CorrectedTotal(pw, point, sqrt, i - 1);
      SumStep(pw.lengths, i - 1);
    }
  }

  /** Both loops keep the same minimum as MapPointToPath's and so select the
      same segment; the as-written distance then counts that segment's whole
      length, the corrected one only the segments before it. */
  lemma DistanceScansAgree(pw: Pathway, point: Vec3, sqrt: real -> real, i: nat)
    requires 1 <= i <= Entries(pw.path) && Shaped(pw)
    ensures var s := ScanTo(pw, point, sqrt, Zero, i);
            var w := DistanceScanAsWritten(pw, point, sqrt, i);
            var c := DistanceScanCorrected(pw, point, sqrt, i);
            w.minDistance == s.minDistance && c.minDistance == s.minDistance &&
            (s.segmentIndex == -1 ==> w.pathDistance == 0.0 && c.pathDistance == 0.0) &&
            (s.segmentIndex != -1 ==>
               1 <= s.segmentIndex < i &&
               w.pathDistance == Sum(pw.lengths[..s.segmentIndex + 1]) + SegmentProjection(pw, point, s.segmentIndex).projection &&
               c.pathDistance == Sum(pw.lengths[..s.segmentIndex]) + SegmentProjection(pw, point, s.segmentIndex).projection)
  {
    AsWrittenScanAgrees(pw, point, sqrt, i);
    CorrectedScanAgrees(pw, point, sqrt, i);
  }

  /** The as-written loop keeps MapPointToPath's minimum and counts the
      selected segment's whole length. */
  lemma {:induction false} AsWrittenScanAgrees(pw: Pathway, point: Vec3, sqrt: real -> real, i: nat)
    requires 1 <= i <= Entries(pw.path) && Shaped(pw)
    ensures var s := ScanTo(pw, point, sqrt, Zero, i);
            var w := DistanceScanAsWritten(pw, point, sqrt, i);
            w.minDistance == s.minDistance &&
            (s.segmentIndex == -1 ==> w.pathDistance == 0.0) &&
            (s.segmentIndex != -1 ==>
               1 <= s.segmentIndex < i &&
               w.pathDistance == Sum(pw.lengths[..s.segmentIndex + 1]) + SegmentProjection(pw, point, s.segmentIndex).projection)
  {
    if i > 1 {
      var k := i - 1;
      AsWrittenScanAgrees(pw, point, sqrt, k);
      DistanceScanTotals(pw, point, sqrt, k);
      if Nearer(pw, point, sqrt, k, ScanTo(pw, point, sqrt, Zero, k).minDistance) {
        SumStep(pw.lengths, k);
      }
    }
  }

  /** The corrected loop keeps MapPointToPath's minimum and counts only the
      segments before the selected one. */
  lemma {:induction false} CorrectedScanAgrees(pw: Pathway, point: Vec3, sqrt: real -> real, i: nat)
    requires 1 <= i <= Entries(pw.path) && Shaped(pw)
    ensures var s := ScanTo(pw, point, sqrt, Zero, i);
            var c := DistanceScanCorrected(pw, point, sqrt, i);
            c.minDistance == s.minDistance &&
            (s.segmentIndex == -1 ==> c.pathDistance == 0.0) &&
            (s.segmentIndex != -1 ==>
               1 <= s.segmentIndex < i &&
               c.pathDistance == Sum(pw.lengths[..s.segmentIndex]) + SegmentProjection(pw, point, s.segmentIndex).projection)
  {
    if i > 1 {
      CorrectedScanAgrees(pw, point, sqrt, i - 1);
      DistanceScanTotals(pw, point, sqrt, i - 1);
    }
  }

  /** MapPointToPathDistance as written: zero for fewer than two points. */
  function MapPointToPathDistanceAsWritten(pw: Pathway, point: Vec3, sqrt: real -> real): (d: real)
    requires Shaped(pw)
    ensures |pw.path| < 2 ==> d == 0.0
    ensures var k := MapPointToPath(pw, point, sqrt, Zero).1.segmentIndex;
            |pw.path| >= 2 && k != -1 ==>
              d == Sum(pw.lengths[..k + 1]) + SegmentProjection(pw, point, k).projection
  {
    if |pw.path| < 2 then 0.0
    else
      DistanceScansAgree(pw, point, sqrt, |pw.path|);
      DistanceScanAsWritten(pw, point, sqrt, |pw.path|).pathDistance
  }

  /** MapPointToPathDistance corrected: the distance along the path of the
      point MapPointToPath finds. */
  function MapPointToPathDistance(pw: Pathway, point: Vec3, sqrt: real -> real): (d: real)
    requires Shaped(pw)
    ensures |pw.path| < 2 ==> d == 0.0
    ensures var k := MapPointToPath(pw, point, sqrt, Zero).1.segmentIndex;
            |pw.path| >= 2 && k != -1 ==>
              d == Sum(pw.lengths[..k]) + SegmentProjection(pw, point, k).projection
  {
    if |pw.path| < 2 then 0.0
    else
      DistanceScansAgree(pw, point, sqrt, |pw.path|);
      DistanceScanCorrected(pw, point, sqrt, |pw.path|).pathDistance
  }

  // ---------------------------------------------------------------------------
  // MapPathDistanceToPoint

  /** What MapPathDistanceToPoint returns: a point, or the vector of NaNs
      that Vector3.Lerp gives at the ratio 0/0. */
  datatype PathPoint = Point(p: Vec3) | NotANumber

  /** The loop of MapPathDistanceToPoint from segment i on: skip whole
      segments shorter than what remains, then interpolate on the first one
      that is not; zero if the segments run out. On a zero-length segment the
      ratio remaining/0 is NaN when nothing remains, which Vector3.Lerp passes
      through, and -infinity when less than nothing remains, which it clamps
      to 0. */
  function Walk(pw: Pathway, remaining: real, i: nat): PathPoint
    requires 1 <= i && |pw.lengths| == Entries(pw.path)
    decreases |pw.path| - i
  {
    if i >= |pw.path| then Point(Zero)
    else if pw.lengths[i] < remaining then Walk(pw, remaining - pw.lengths[i], i + 1)
    else if pw.lengths[i] != 0.0 then Point(Vector3Lerp(pw.path[i - 1], pw.path[i], remaining / pw.lengths[i]))
    else if remaining == 0.0 then NotANumber
    else Point(pw.path[i - 1])
  }

  /** MapPathDistanceToPoint: Path.First() below zero and Path.Last() at or
      beyond the total length, both of which throw on an empty path;
      otherwise the walk along the segments. */
  function MapPathDistanceToPoint(pw: Pathway, pathDistance: real): (r: Result<PathPoint, Exception>)
    requires |pw.lengths| == Entries(pw.path)
    ensures |pw.path| == 0 && (pathDistance < 0.0 || pathDistance >= pw.total) ==> r == Err(InvalidOperation)
    ensures |pw.path| > 0 && pathDistance < 0.0 ==> r == Ok(Point(pw.path[0]))
    ensures |pw.path| > 0 && 0.0 <= pathDistance && pathDistance >= pw.total ==> r == Ok(Point(pw.path[|pw.path| - 1]))
    ensures 0.0 <= pathDistance < pw.total ==> r == Ok(Walk(pw, pathDistance, 1))
  {
    if pathDistance < 0.0 then
      if |pw.path| == 0 then Err(InvalidOperation) else Ok(Point(pw.path[0]))
    else if pathDistance >= pw.total then
      if |pw.path| == 0 then Err(InvalidOperation) else Ok(Point(pw.path[|pw.path| - 1]))
    else Ok(Walk(pw, pathDistance, 1))
  }

  /** A walk with something left to go never meets the NaN: it skips every
      zero-length segment and interpolates only on one of positive length. */
  lemma {:induction false} WalkPositiveIsPoint(pw: Pathway, remaining: real, i: nat)
    requires Prepared(pw) && 1 <= i && remaining > 0.0
    ensures Walk(pw, remaining, i).Point?
    decreases |pw.path| - i
  {
    if i < |pw.path| && pw.lengths[i] < remaining {
      WalkPositiveIsPoint(pw, remaining - pw.lengths[i], i + 1);
    }
  }

  /** On a prepared path, MapPathDistanceToPoint gives the NaN vector exactly
      for distance 0 on a path of positive total length whose first segment
      has length 0, as when its first two points are equal. */
  lemma NaNExactlyAtRepeatedStart(pw: Pathway, pathDistance: real)
    requires Prepared(pw)
    ensures MapPathDistanceToPoint(pw, pathDistance) == Ok(NotANumber) <==>
              pathDistance == 0.0 && pw.total > 0.0 && |pw.path| >= 2 && pw.lengths[1] == 0.0
  {
    if 0.0 < pathDistance < pw.total {
      WalkPositiveIsPoint(pw, pathDistance, 1);
    } else if pathDistance == 0.0 < pw.total {
      ShortPathHasNoLength(pw);
      WalkFromStart(pw);
    }
  }

  /** A path of fewer than two points has total length 0. */
  lemma ShortPathHasNoLength(pw: Pathway)
    requires Prepared(pw)
    ensures |pw.path| < 2 ==> pw.total == 0.0
  {
    if |pw.path| < 2 {
      assert pw.lengths == [0.0];
      assert Sum(pw.lengths) == Sum([]) + 0.0;
    }
  }

  /** The walk of distance 0 stops on the first segment: the NaN vector when
      it has length 0, the first point otherwise. */
  lemma WalkFromStart(pw: Pathway)
    requires Prepared(pw) && |pw.path| >= 2
    ensures Walk(pw, 0.0, 1) == NotANumber <==> pw.lengths[1] == 0.0
    ensures pw.lengths[1] != 0.0 ==> Walk(pw, 0.0, 1) == Point(pw.path[0])
  {
    assert pw.lengths[1] >= 0.0;
  }

  /** Walking from segment i a distance made of the whole segments i .. j-1
      plus `proj` on segment j lands on segment j at `proj`. */
  lemma {:induction false} WalkLands(pw: Pathway, i: nat, j: nat, proj: real)
    requires Precalculated(pw) && 1 <= i <= j < |pw.path|
    requires 0.0 <= proj <= pw.lengths[j]
    ensures Walk(pw, Sum(pw.lengths[..j]) - Sum(pw.lengths[..i]) + proj, i) ==
            Point(Add(pw.path[j - 1], Scale(pw.normals[j], proj)))
    decreases j - i
  {
    var remaining := Sum(pw.lengths[..j]) - Sum(pw.lengths[..i]) + proj;
    if i == j {
      assert remaining == proj;
      LerpOnSegment(pw, j, proj);
    } else {
      SumStep(pw.lengths, i);
      SumGrows(pw, i + 1, j);
      var rest := Sum(pw.lengths[..j]) - Sum(pw.lengths[..i + 1]) + proj;
      assert remaining == pw.lengths[i] + rest;
      if pw.lengths[i] < remaining {
        WalkLands(pw, i + 1, j, proj);
      } else {
        assert rest == 0.0;
        assert j == i + 1 && proj == 0.0;
        WalkToSegmentEnd(pw, i, remaining);
      }
    }
  }

  /** A walk of exactly segment i's length from segment i ends at point i,
      where segment i + 1 starts at projection zero. */
  lemma WalkToSegmentEnd(pw: Pathway, i: nat, remaining: real)
    requires Precalculated(pw) && 1 <= i && i + 1 < |pw.path| && remaining == pw.lengths[i]
    ensures Walk(pw, remaining, i) == Point(Add(pw.path[i], Scale(pw.normals[i + 1], 0.0)))
  {
    LerpOnSegment(pw, i, pw.lengths[i]);
    SegmentFrame(pw, i);
    var n := pw.normals[i + 1];
    assert Scale(n, 0.0) == Zero;
  }

  lemma SumStep(s: seq<real>, i: nat)
    requires i < |s|
    ensures Sum(s[..i + 1]) == Sum(s[..i]) + s[i]
  {
    assert s[..i + 1][..i] == s[..i];
  }

  /** Prefix sums grow with the (positive) segment lengths. */
  lemma {:induction false} SumGrows(pw: Pathway, i: nat, j: nat)
    requires Precalculated(pw) && 1 <= i <= j <= |pw.path|
    ensures Sum(pw.lengths[..j]) >= Sum(pw.lengths[..i])
    ensures i < j ==> Sum(pw.lengths[..j]) > Sum(pw.lengths[..i])
    decreases j - i
  {
    if i < j {
      SumGrows(pw, i, j - 1);
      SumStep(pw.lengths, j - 1);
    }
  }

  /** The interpolation on segment j at `proj` is the point `proj` along it. */
  lemma LerpOnSegment(pw: Pathway, j: nat, proj: real)
    requires Precalculated(pw) && 1 <= j < |pw.path| && 0.0 <= proj <= pw.lengths[j]
    ensures Vector3Lerp(pw.path[j - 1], pw.path[j], proj / pw.lengths[j]) == Add(pw.path[j - 1], Scale(pw.normals[j], proj))
  {
    NormalAt(pw, j);
    LerpAlong(pw.path[j - 1], pw.path[j], pw.lengths[j], proj);
  }

  /** Interpolating a fraction proj/len of the way from a to b is moving
      `proj` along the direction (b - a)/len. */
  lemma LerpAlong(a: Vec3, b: Vec3, len: real, proj: real)
    requires len > 0.0 && 0.0 <= proj <= len
    ensures Vector3Lerp(a, b, proj / len) == Add(a, Scale(Scale(Sub(b, a), 1.0 / len), proj))
  {
    var d := Sub(b, a);
    var t := proj / len;
    assert 0.0 <= t <= 1.0 by {
      assert t * len == proj;
    }
    assert Clip(t, 0.0, 1.0) == t;
    assert Scale(d, t) == Scale(Scale(d, 1.0 / len), proj) by {
      assert (1.0 / len) * proj == t;
      assert d.x * (1.0 / len) * proj == d.x * t;
      assert d.y * (1.0 / len) * proj == d.y * t;
      assert d.z * (1.0 / len) * proj == d.z * t;
    }
  }

  /** A distance made of the whole segments before segment k plus `proj` on
      segment k lies within the path and maps to the point `proj` along
      segment k. */
  lemma DistanceOnSegmentMapsBack(pw: Pathway, k: nat, proj: real)
    requires Precalculated(pw) && 1 <= k < |pw.path| && 0.0 <= proj <= pw.lengths[k]
    ensures 0.0 <= Sum(pw.lengths[..k]) + proj <= pw.total
    ensures MapPathDistanceToPoint(pw, Sum(pw.lengths[..k]) + proj) == Ok(Point(Add(pw.path[k - 1], Scale(pw.normals[k], proj))))
  {
    var n := |pw.path|;
    var d := Sum(pw.lengths[..k]) + proj;
    SumStep(pw.lengths, k);
    SumGrows(pw, k + 1, n);
    SumGrows(pw, 1, k);
    assert pw.lengths[..1] == [pw.lengths[0]];
    assert Sum(pw.lengths[..1]) == Sum([]) + pw.lengths[0];
    assert pw.lengths[..n] == pw.lengths;
    if d >= pw.total {
      assert k == n - 1 && proj == pw.lengths[k];
      SegmentFrame(pw, k);
    } else {
      WalkLands(pw, 1, k, proj);
      assert Sum(pw.lengths[..k]) - Sum(pw.lengths[..1]) + proj == d;
    }
  }

  /** Round trip: the corrected distance along the path maps back to the
      point MapPointToPath finds. */
  lemma PathDistanceRoundTrip(pw: Pathway, point: Vec3, sqrt: real -> real)
    requires Precalculated(pw) && |pw.path| >= 2
    requires MapPointToPath(pw, point, sqrt, Zero).1.segmentIndex != -1
    ensures 0.0 <= MapPointToPathDistance(pw, point, sqrt) <= pw.total
    ensures MapPathDistanceToPoint(pw, MapPointToPathDistance(pw, point, sqrt)) == Ok(Point(MapPointToPath(pw, point, sqrt, Zero).0))
  {
    var r := MapPointToPath(pw, point, sqrt, Zero);
    var k := r.1.segmentIndex;
    var sp := SegmentProjection(pw, point, k);
    assert r.0 == sp.chosen;
    assert MapPointToPathDistance(pw, point, sqrt) == Sum(pw.lengths[..k]) + sp.projection;
    SegmentFrame(pw, k);
    SegmentChosenOnSegment(point, pw.path[k - 1], pw.path[k], pw.normals[k], pw.lengths[k]);
    DistanceOnSegmentMapsBack(pw, k, sp.projection);
  }

  // ---------------------------------------------------------------------------
  // The as-written distance of a path's own first point

  /** The first point of a path lies on the first segment at projection 0,
      at distance 0, so MapPointToPath selects segment 1. */
  lemma StartOnFirstSegment(pw: Pathway, sqrt: real -> real)
    requires Shaped(pw) && |pw.path| >= 2 && pw.lengths[1] >= 0.0 && sqrt(0.0) == 0.0
    ensures SegmentProjection(pw, pw.path[0], 1) == SegmentPoint(pw.path[0], 0.0)
    ensures SegmentDistance(pw, pw.path[0], 1, sqrt) == 0.0
  {
    var p := pw.path[0];
    assert Sub(p, p) == Zero;
    assert Dot(pw.normals[1], Zero) == 0.0;
  }

  lemma StartSelectsFirstSegment(pw: Pathway, sqrt: real -> real)
    requires Shaped(pw) && |pw.path| >= 2 && pw.lengths[1] > 0.0 && sqrt(0.0) == 0.0
    requires forall x :: x >= 0.0 ==> sqrt(x) >= 0.0
    ensures MapPointToPath(pw, pw.path[0], sqrt, Zero).1.segmentIndex == 1
  {
    var p := pw.path[0];
    StartOnFirstSegment(pw, sqrt);
    var k := MapPointToPath(pw, p, sqrt, Zero).1.segmentIndex;
    assert k != -1;
    var c := SegmentProjection(pw, p, k).chosen;
    SqrLengthNonNegative(Sub(p, c));
  }

  /** Every square root is non-negative and the root of 0 is 0. */
  lemma SqrtBasics(sqrt: real -> real)
    requires IsSqrtFn(sqrt)
    ensures sqrt(0.0) == 0.0
    ensures forall x :: x >= 0.0 ==> sqrt(x) >= 0.0
  {
    SqrtOfSquare(sqrt, 0.0);
    forall x | x >= 0.0 ensures sqrt(x) >= 0.0 {
      assert IsSqrt(sqrt(x), x);
    }
  }

  /** For the first point of a path the corrected distance is 0, but the
      as-written one is the whole length of the first segment. */
  lemma AsWrittenDistanceAtStart(pw: Pathway, sqrt: real -> real)
    requires Shaped(pw) && |pw.path| >= 2 && pw.lengths[1] > 0.0
    requires sqrt(0.0) == 0.0 && forall x :: x >= 0.0 ==> sqrt(x) >= 0.0
    ensures MapPointToPath(pw, pw.path[0], sqrt, Zero).0 == pw.path[0]
    ensures MapPointToPathDistance(pw, pw.path[0], sqrt) == 0.0
    ensures MapPointToPathDistanceAsWritten(pw, pw.path[0], sqrt) == pw.lengths[1] > 0.0
  {
    var p := pw.path[0];
    StartSelectsFirstSegment(pw, sqrt);
    StartOnFirstSegment(pw, sqrt);
    FirstSegmentSums(pw);
    DistancesOfSelected(pw, p, sqrt);
  }

  /** Both distances of a point for which segment 1 is selected. */
  lemma DistancesOfSelected(pw: Pathway, p: Vec3, sqrt: real -> real)
    requires Shaped(pw) && |pw.path| >= 2
    requires MapPointToPath(pw, p, sqrt, Zero).1.segmentIndex == 1
    ensures MapPointToPathDistance(pw, p, sqrt) == Sum(pw.lengths[..1]) + SegmentProjection(pw, p, 1).projection
    ensures MapPointToPathDistanceAsWritten(pw, p, sqrt) == Sum(pw.lengths[..2]) + SegmentProjection(pw, p, 1).projection
  {
  }

  /** Mapped back, the as-written distance of the first point gives the end
      of the first segment instead of the point itself. */
  lemma AsWrittenDistanceOvershoots(pw: Pathway, sqrt: real -> real)
    requires Precalculated(pw) && |pw.path| >= 2
    requires sqrt(0.0) == 0.0 && forall x :: x >= 0.0 ==> sqrt(x) >= 0.0
    ensures MapPathDistanceToPoint(pw, MapPointToPathDistanceAsWritten(pw, pw.path[0], sqrt)) == Ok(Point(pw.path[1]))
  {
    var d := MapPointToPathDistanceAsWritten(pw, pw.path[0], sqrt);
    assert d == Sum(pw.lengths[..1]) + pw.lengths[1] by {
      assert pw.lengths[1] > 0.0;
      AsWrittenDistanceAtStart(pw, sqrt);
      FirstSegmentSums(pw);
    }
    FirstSegmentMapsBack(pw);
  }

  /** The whole first segment's length maps back to the second point. */
  lemma FirstSegmentMapsBack(pw: Pathway)
    requires Precalculated(pw) && |pw.path| >= 2
    ensures MapPathDistanceToPoint(pw, Sum(pw.lengths[..1]) + pw.lengths[1]) == Ok(Point(pw.path[1]))
  {
    DistanceOnSegmentMapsBack(pw, 1, pw.lengths[1]);
    SegmentFrame(pw, 1);
  }

  lemma FirstSegmentSums(pw: Pathway)
    requires Shaped(pw) && |pw.path| >= 2
    ensures Sum(pw.lengths[..1]) == 0.0 && Sum(pw.lengths[..2]) == pw.lengths[1]
  {
    assert pw.lengths[..1] == [0.0];
    assert Sum(pw.lengths[..1]) == Sum([]) + 0.0;
    SumStep(pw.lengths, 1);
  }
}

=== FILE: speedometer.dfy ===
/** The Speedometer component (both copies, Tools and Behaviors, which
    compute the same thing): a ring buffer of squared distances sampled every
    `measuringSpeed` seconds, and a cached average speed refreshed at most
    every `cachedSpeedRefreshRate` seconds. The ticked queue that calls the
    sampler and Time.time are left to the caller. */
module Speedometer {
  import opened Wrappers
  import opened Geometry

  datatype Speedometer = Speedometer(
    lastRecordedPosition: Vec3,
    samples: seq<real>,
    cachedSpeed: real,
    lastAverageCalculationTime: real,
    lastSampleIndex: int,
    cachedSpeedRefreshRate: real,
    measuringSpeed: real,
    numberSamples: int)

  /** The serialized defaults: ten samples a quarter second apart, the average
      refreshed every second. */
  function DefaultSpeedometer(): (sp: Speedometer)
    ensures sp.numberSamples == 10 && sp.measuringSpeed == 0.25 && sp.cachedSpeedRefreshRate == 1.0
  {
    Speedometer(Zero, [], 0.0, 0.0, 0, 1.0, 0.25, 10)
  }

  /** What sampling keeps: one slot per sample, an index inside the buffer,
      and squared distances only. */
  predicate Valid(sp: Speedometer) {
    |sp.samples| == sp.numberSamples &&
    0 <= sp.lastSampleIndex &&
    (sp.numberSamples > 0 ==> sp.lastSampleIndex < sp.numberSamples) &&
    forall k :: 0 <= k < |sp.samples| ==> sp.samples[k] >= 0.0
  }

  /** Awake: remember the current position and allocate the buffer, zeroed; a
      negative sample count makes the allocation throw. The index is left as
      it was. */
  function Awake(sp: Speedometer, position: Vec3): (r: Result<Speedometer, Exception>)
    ensures sp.numberSamples < 0 <==> r == Err(Overflow)
    ensures r.Ok? ==> r.value.lastRecordedPosition == position &&
                      |r.value.samples| == sp.numberSamples &&
                      (forall k :: 0 <= k < |r.value.samples| ==> r.value.samples[k] == 0.0) &&
                      r.value == sp.(lastRecordedPosition := position, samples := r.value.samples)
    ensures r.Ok? && 0 <= sp.lastSampleIndex && (sp.numberSamples > 0 ==> sp.lastSampleIndex < sp.numberSamples) ==>
              Valid(r.value)
  {
    if sp.numberSamples < 0 then Err(Overflow)
    else
      var zeroes := seq(sp.numberSamples, _ => 0.0);
      assert forall k :: 0 <= k < |zeroes| ==> zeroes[k] == 0.0;
      Ok(sp.(lastRecordedPosition := position, samples := zeroes))
  }

  /** The defaults pass Awake with a valid, zeroed buffer of ten slots. */
  lemma AwakeDefault(position: Vec3)
    ensures Awake(DefaultSpeedometer(), position).Ok?
    ensures Valid(Awake(DefaultSpeedometer(), position).value)
    ensures |Awake(DefaultSpeedometer(), position).value.samples| == 10
  {
  }

  /** The slot the next sample goes to: the index is advanced before the
      write and wraps to zero at the end of the buffer. */
  function NextIndex(index: int, numberSamples: int): (i: int)
    ensures index + 1 < numberSamples ==> i == index + 1
    ensures index + 1 >= numberSamples ==> i == 0
  {
    if index + 1 >= numberSamples then 0 else index + 1
  }

  /** OnMeasureSpeed on a speedometer with at least one slot. */
  function Measure(sp: Speedometer, position: Vec3): (sp': Speedometer)
    requires Valid(sp) && sp.numberSamples > 0
    ensures Valid(sp')
    ensures sp'.lastSampleIndex == NextIndex(sp.lastSampleIndex, sp.numberSamples)
    ensures sp'.samples == sp.samples[sp'.lastSampleIndex := SqrDist(position, sp.lastRecordedPosition)]
    ensures sp'.lastRecordedPosition == position
    ensures sp'.(samples := sp.samples, lastSampleIndex := sp.lastSampleIndex, lastRecordedPosition := sp.lastRecordedPosition) == sp
  {
    var i := NextIndex(sp.lastSampleIndex, sp.numberSamples);
    SqrLengthNonNegative(Sub(position, sp.lastRecordedPosition));
    sp.(lastSampleIndex := i,
        samples := sp.samples[i := SqrDist(position, sp.lastRecordedPosition)],
        lastRecordedPosition := position)
  }

  /** OnMeasureSpeed: with an empty buffer the index is reset to zero and the
      write is out of range. */
  function MeasureSpeed(sp: Speedometer, position: Vec3): (r: Result<Speedometer, Exception>)
    requires Valid(sp)
    ensures sp.numberSamples == 0 <==> r == Err(IndexOutOfRange)
    ensures sp.numberSamples > 0 ==> r == Ok(Measure(sp, position))
  {
    if sp.numberSamples == 0 then Err(IndexOutOfRange) else Ok(Measure(sp, position))
  }

  /** A run of samples taken one after another. */
  function MeasureAll(sp: Speedometer, positions: seq<Vec3>): (sp': Speedometer)
    requires Valid(sp) && sp.numberSamples > 0
    ensures Valid(sp') && sp'.numberSamples == sp.numberSamples
    decreases |positions|
  {
    if |positions| == 0 then sp
    else Measure(MeasureAll(sp, positions[..|positions| - 1]), positions[|positions| - 1])
  }

  /** The slot `m` places after `start` in a ring of `n` slots, for at most
      one turn of the ring: (start + m) mod n. */
  function Slot(start: int, m: int, n: int): (i: int)
    requires 0 <= start < n && 0 <= m <= n
    ensures 0 <= i < n
    ensures (start + m) % n == i
  {
    if start + m < n then ModBelow(start + m, n); start + m
    else ModWrapOnce(start + m, n); start + m - n
  }

  /** A value below the modulus is its own residue. */
  lemma ModBelow(x: int, n: int)
    requires 0 <= x < n
    ensures x % n == x
  {
  }

  /** A value in [n, 2n) wraps once. */
  lemma ModWrapOnce(x: int, n: int)
    requires 0 < n <= x < 2 * n
    ensures x % n == x - n
  {
    assert x == 1 * n + (x - n);
  }

  /** Within one turn, the ring's slots are all different. */
  lemma SlotsDistinct(start: int, a: int, b: int, n: int)
    requires 0 <= start < n && 1 <= a < b <= n
    ensures Slot(start, a, n) != Slot(start, b, n)
  {
  }

  /** The position a run had reached before its `j`-th sample (1-based). */
  function Before(sp: Speedometer, positions: seq<Vec3>, j: nat): Vec3
    requires 1 <= j <= |positions|
  {
    if j == 1 then sp.lastRecordedPosition else positions[j - 2]
  }

  /** The ring buffer: after a run of at most `numberSamples` samples, the
      `j`-th of them sits `j` slots past the starting index, the slots the run
      did not reach keep their old values, and the index points at the last
      sample written. */
  lemma {:induction false} RingBuffer(sp: Speedometer, positions: seq<Vec3>)
    requires Valid(sp) && sp.numberSamples > 0 && |positions| <= sp.numberSamples
    ensures var sp' := MeasureAll(sp, positions);
            var n := sp.numberSamples;
            sp'.lastSampleIndex == Slot(sp.lastSampleIndex, |positions|, n) &&
            (|positions| > 0 ==> sp'.lastRecordedPosition == positions[|positions| - 1]) &&
            (|positions| == 0 ==> sp'.lastRecordedPosition == sp.lastRecordedPosition) &&
            (forall j :: 1 <= j <= |positions| ==>
               sp'.samples[Slot(sp.lastSampleIndex, j, n)] == SqrDist(positions[j - 1], Before(sp, positions, j))) &&
            (forall m :: |positions| < m <= n ==>
               sp'.samples[Slot(sp.lastSampleIndex, m, n)] == sp.samples[Slot(sp.lastSampleIndex, m, n)])
    decreases |positions|
  {
    var n := sp.numberSamples;
    var i0 := sp.lastSampleIndex;
    if |positions| > 0 {
      var k := |positions| - 1;
      var prefix := positions[..k];
      RingBuffer(sp, prefix);
      var mid := MeasureAll(sp, prefix);
      var sp' := Measure(mid, positions[k]);
      assert sp' == MeasureAll(sp, positions);
      assert sp'.lastSampleIndex == Slot(i0, k + 1, n);
      forall j | 1 <= j <= |positions|
        ensures sp'.samples[Slot(i0, j, n)] == SqrDist(positions[j - 1], Before(sp, positions, j))
      {
        if j <= k {
          SlotsDistinct(i0, j, k + 1, n);
          assert prefix[j - 1] == positions[j - 1];
          assert Before(sp, prefix, j) == Before(sp, positions, j);
        } else {
          assert Before(sp, positions, j) == mid.lastRecordedPosition;
        }
      }
      forall m | |positions| < m <= n
        ensures sp'.samples[Slot(i0, m, n)] == sp.samples[Slot(i0, m, n)]
      {
        SlotsDistinct(i0, k + 1, m, n);
      }
    }
  }

  /** A full turn of the ring: after exactly `numberSamples` samples the
      buffer holds the whole run, each sample in its own slot, and the index
      is back where it started. */
  lemma FullTurn(sp: Speedometer, positions: seq<Vec3>)
    requires Valid(sp) && sp.numberSamples > 0 && |positions| == sp.numberSamples
    ensures MeasureAll(sp, positions).lastSampleIndex == sp.lastSampleIndex
    ensures forall j :: 1 <= j <= |positions| ==>
              MeasureAll(sp, positions).samples[Slot(sp.lastSampleIndex, j, |positions|)]
                == SqrDist(positions[j - 1], Before(sp, positions, j))
  {
    RingBuffer(sp, positions);
  }

  // ---------------------------------------------------------------------------
  // The cached speed

  /** The sum of the samples, in slot order. */
  function Sum(s: seq<real>): real
    decreases |s|
  {
    if |s| == 0 then 0.0 else Sum(s[..|s| - 1]) + s[|s| - 1]
  }

  /** Whether a read of Speed at time `now` recomputes the average. */
  predicate Refreshes(sp: Speedometer, now: real) {
    now > sp.lastAverageCalculationTime + sp.cachedSpeedRefreshRate
  }

  /** The Speed getter. `root` is the square root the code takes of the mean
      squared distance (it is only read when the average is recomputed). */
  method Speed(sp: Speedometer, now: real, root: real) returns (sp': Speedometer, speed: real)
    requires Valid(sp) && sp.numberSamples > 0 && sp.measuringSpeed != 0.0
    requires Refreshes(sp, now) ==> IsSqrt(root, Sum(sp.samples) / sp.numberSamples as real)
    ensures speed == sp'.cachedSpeed
    ensures !Refreshes(sp, now) ==> sp' == sp
    ensures Refreshes(sp, now) ==>
              sp' == sp.(cachedSpeed := speed, lastAverageCalculationTime := now) &&
              IsSqrt(speed * sp.measuringSpeed, Sum(sp.samples) / sp.numberSamples as real)
  {
    if !Refreshes(sp, now) {
      return sp, sp.cachedSpeed;
    }
    var total := 0.0;
    var i := 0;
    while i < sp.numberSamples
      invariant 0 <= i <= sp.numberSamples
      invariant total == Sum(sp.samples[..i])
    {
      assert sp.samples[..i + 1][..i] == sp.samples[..i];
      total := total + sp.samples[i];
      i := i + 1;
    }
    assert sp.samples[..i] == sp.samples;
    var mean := total / sp.numberSamples as real;
    assert IsSqrt(root, mean);
    speed := root / sp.measuringSpeed;
    assert speed * sp.measuringSpeed == root;
    sp' := sp.(cachedSpeed := speed, lastAverageCalculationTime := now);
  }

  /** The sum of `n` copies of one value. */
  lemma {:induction false} SumConstant(s: seq<real>, v: real)
    requires forall k :: 0 <= k < |s| ==> s[k] == v
    ensures Sum(s) == |s| as real * v
    decreases |s|
  {
    if |s| > 0 {
      SumConstant(s[..|s| - 1], v);
    }
  }

  /** A vehicle that covered the same distance `d` in every sampling interval
      reports the speed d / measuringSpeed. */
  method SpeedOfSteadyMotion(sp: Speedometer, now: real, d: real) returns (speed: real)
    requires Valid(sp) && sp.numberSamples > 0 && sp.measuringSpeed != 0.0 && d >= 0.0
    requires forall k :: 0 <= k < |sp.samples| ==> sp.samples[k] == d * d
    requires Refreshes(sp, now)
    ensures speed == d / sp.measuringSpeed
  {
    SumConstant(sp.samples, d * d);
    assert Sum(sp.samples) / sp.numberSamples as real == d * d;
    var sp';
    sp', speed := Speed(sp, now, d);
    RootUnique(speed * sp.measuringSpeed, d);
  }
}

=== FILE: steer_library.dfy ===
/** The decision logic of OpenSteerDotNet's SteerLibrary: the pursuit and
    evasion prediction times, the choice of sphere-intersection root, length
    truncation and the neighbourhood tests. The vehicle is described by the
    values the code reads from it. */
module SteerLibrary {
  import opened Geometry
  import opened SteerUtil

  /** What the neighbourhood tests read of a vehicle: its identity (for the
      `other == this` test), position and radius. */
  datatype Agent = Agent(id: nat, position: Vec3, radius: real)

  // ---------------------------------------------------------------------------
  // Pursuit and evasion

  /** 0.707f, the bound of the forwardness / parallelness classes, as the
      binary32 value the literal denotes. */
  const ClassBound: real := 2965373.0 / 4194304.0
  /** 1.8f, 0.85f and 0.8f as binary32 values. */
  const Factor18: real := 7549747.0 / 4194304.0
  const Factor085: real := 7130317.0 / 8388608.0
  const Factor08: real := 13421773.0 / 16777216.0

  /** The nine-case switch of steerForPursuit: forwardness class `f` (ahead,
      aside, behind) and parallelness class `p` (parallel, perpendicular,
      anti-parallel). A class outside -1..1 matches no case and leaves the
      factor at its initial 0. */
  function TimeFactor(f: int, p: int): (t: real)
    ensures (f == -1 || f == 0 || f == 1) && (p == -1 || p == 0 || p == 1) <==> t > 0.0
    ensures 0.0 <= t <= 4.0
  {
    if f == 1 then
      if p == 1 then 4.0 else if p == 0 then Factor18 else if p == -1 then Factor085 else 0.0
    else if f == 0 then
      if p == 1 then 1.0 else if p == 0 then Factor08 else if p == -1 then 4.0 else 0.0
    else if f == -1 then
      if p == 1 then 0.5 else if p == 0 then 2.0 else if p == -1 then 2.0 else 0.0
    else 0.0
  }

  /** `t` capped at the maximum prediction time, as both behaviours write it. */
  function CapPrediction(t: real, maxPredictionTime: real): (r: real)
    ensures r <= t && r <= maxPredictionTime
    ensures r == t || r == maxPredictionTime
  {
    if t > maxPredictionTime then maxPredictionTime else t
  }

  /** The prediction time of steerForPursuit: the direct travel time
      (distance / speed, given) times the factor of the quarry's class, capped
      at the maximum prediction time. */
  function PursuitPredictionTime(directTravelTime: real, forwardness: real, parallelness: real,
                                 maxPredictionTime: real): (r: real)
    ensures r <= maxPredictionTime
    ensures r == maxPredictionTime ||
            r == directTravelTime * TimeFactor(IntervalComparison(forwardness, -ClassBound, ClassBound),
                                               IntervalComparison(parallelness, -ClassBound, ClassBound))
  {
    var f := IntervalComparison(forwardness, -ClassBound, ClassBound);
    var p := IntervalComparison(parallelness, -ClassBound, ClassBound);
    CapPrediction(directTravelTime * TimeFactor(f, p), maxPredictionTime)
  }

  /** Every quarry falls into one of the nine cases, so the factor is always
      positive, and the prediction never exceeds four times the direct travel
      time nor goes negative for a non-negative travel time and cap. */
  lemma PursuitFactorDefined(directTravelTime: real, forwardness: real, parallelness: real, maxPredictionTime: real)
    requires directTravelTime >= 0.0 && maxPredictionTime >= 0.0
    ensures TimeFactor(IntervalComparison(forwardness, -ClassBound, ClassBound),
                       IntervalComparison(parallelness, -ClassBound, ClassBound)) > 0.0
    ensures 0.0 <= PursuitPredictionTime(directTravelTime, forwardness, parallelness, maxPredictionTime) <= 4.0 * directTravelTime
  {
    var t := TimeFactor(IntervalComparison(forwardness, -ClassBound, ClassBound),
                        IntervalComparison(parallelness, -ClassBound, ClassBound));
    MulNonNegative(directTravelTime, t);
    MulNonNegative(directTravelTime, 4.0 - t);
  }

  /** The prediction time of steerForEvasion: the rough time (distance over
      the menace's speed, given) capped at the maximum prediction time. */
  function EvasionPredictionTime(roughTime: real, maxPredictionTime: real): (r: real)
    ensures r <= roughTime && r <= maxPredictionTime
    ensures r == roughTime || r == maxPredictionTime
  {
    CapPrediction(roughTime, maxPredictionTime)
  }

  // ---------------------------------------------------------------------------
  // Intersection of the forward axis with a sphere

  /** The outcome of findNextIntersectionWithSphere. `distance` keeps its
      previous value when no root is selected. */
  datatype Intersection = Intersection(intersect: bool, distance: real)

  /** The line-sphere parameters for an obstacle whose center is `lc` in the
      vehicle's local space, inflated by the vehicle's radius. */
  function LineB(lc: Vec3): real { -2.0 * lc.z }

  function LineC(lc: Vec3, obstacleRadius: real, radius: real): real {
    lc.x * lc.x + lc.y * lc.y + lc.z * lc.z - (obstacleRadius + radius) * (obstacleRadius + radius)
  }

  function Discriminant(lc: Vec3, obstacleRadius: real, radius: real): real {
    LineB(lc) * LineB(lc) - 4.0 * LineC(lc, obstacleRadius, radius)
  }

  /** The root the code selects: the smaller when both are in front, else the
      one in front (else the smaller, q). */
  function ChooseRoot(p: real, q: real): real {
    if p > 0.0 && q > 0.0 then (if p < q then p else q) else if p > 0.0 then p else q
  }

  /** findNextIntersectionWithSphere as written: `s` is the square root of the
      discriminant. Both exits and the hit path set `intersect` to 0. The
      result is what the routine writes into its PathIntersection parameter,
      a struct passed by value: the caller's copy is never written. */
  function IntersectionAsWritten(lc: Vec3, obstacleRadius: real, radius: real, s: real, previous: real): (hit: Intersection)
    requires Discriminant(lc, obstacleRadius, radius) >= 0.0 ==> IsSqrt(s, Discriminant(lc, obstacleRadius, radius))
    ensures !hit.intersect
  {
    var b := LineB(lc);
    if Discriminant(lc, obstacleRadius, radius) < 0.0 then Intersection(false, previous)
    else
      var p := (-b + s) / 2.0;
      var q := (-b - s) / 2.0;
      if p < 0.0 && q < 0.0 then Intersection(false, previous)
      else Intersection(false, ChooseRoot(p, q))
  }

  /** The as-written routine reports no obstacle even for one dead ahead:
      center 5 ahead, combined radius 1 (roots 4 and 6). */
  lemma AsWrittenMissesObstacleAhead()
    ensures Discriminant(Vec3(0.0, 0.0, 5.0), 1.0, 0.0) == 4.0
    ensures !IntersectionAsWritten(Vec3(0.0, 0.0, 5.0), 1.0, 0.0, 2.0, 0.0).intersect
    ensures FindNextIntersection(Vec3(0.0, 0.0, 5.0), 1.0, 0.0, 2.0, 0.0) == Intersection(true, 4.0)
  {
  }

  /** findNextIntersectionWithSphere with the hit reported and the
      PathIntersection passed by reference, as in the original OpenSteer: the
      result is what the caller sees. An intersection exists exactly when the
      discriminant is non-negative and the larger root is not behind the
      vehicle. */
  function FindNextIntersection(lc: Vec3, obstacleRadius: real, radius: real, s: real, previous: real): (hit: Intersection)
    requires Discriminant(lc, obstacleRadius, radius) >= 0.0 ==> IsSqrt(s, Discriminant(lc, obstacleRadius, radius))
    ensures hit.intersect <==> Discriminant(lc, obstacleRadius, radius) >= 0.0 && -LineB(lc) + s >= 0.0
    ensures !hit.intersect ==> hit.distance == previous
    ensures hit.distance == IntersectionAsWritten(lc, obstacleRadius, radius, s, previous).distance
  {
    var b := LineB(lc);
    if Discriminant(lc, obstacleRadius, radius) < 0.0 then Intersection(false, previous)
    else
      var p := (-b + s) / 2.0;
      var q := (-b - s) / 2.0;
      if p < 0.0 && q < 0.0 then Intersection(false, previous)
      else Intersection(true, ChooseRoot(p, q))
  }

  /** A reported distance is a root: the point that far along the forward
      axis lies on the obstacle's sphere inflated by the vehicle's radius. */
  lemma IntersectionOnSphere(lc: Vec3, obstacleRadius: real, radius: real, s: real, previous: real)
    requires Discriminant(lc, obstacleRadius, radius) >= 0.0 ==> IsSqrt(s, Discriminant(lc, obstacleRadius, radius))
    requires FindNextIntersection(lc, obstacleRadius, radius, s, previous).intersect
    ensures var t := FindNextIntersection(lc, obstacleRadius, radius, s, previous).distance;
            SqrDist(Vec3(0.0, 0.0, t), lc) == (obstacleRadius + radius) * (obstacleRadius + radius)
  {
    var b := LineB(lc);
    var c := LineC(lc, obstacleRadius, radius);
    var t := FindNextIntersection(lc, obstacleRadius, radius, s, previous).distance;
    assert t == (-b + s) / 2.0 || t == (-b - s) / 2.0;
    assert s * s == b * b - 4.0 * c;
    RootSolves(b, c, s, t);
    assert SqrDist(Vec3(0.0, 0.0, t), lc) == t * t + b * t + c + (obstacleRadius + radius) * (obstacleRadius + radius);
  }

  lemma RootSolves(b: real, c: real, s: real, t: real)
    requires s * s == b * b - 4.0 * c
    requires t == (-b + s) / 2.0 || t == (-b - s) / 2.0
    ensures t * t + b * t + c == 0.0
  {
    assert 2.0 * t + b == s || 2.0 * t + b == -s;
    assert (2.0 * t + b) * (2.0 * t + b) == s * s;
  }

  /** When some root lies strictly in front, the reported distance is the
      nearest such root. */
  lemma IntersectionNearestAhead(lc: Vec3, obstacleRadius: real, radius: real, s: real, previous: real)
    requires Discriminant(lc, obstacleRadius, radius) >= 0.0 && IsSqrt(s, Discriminant(lc, obstacleRadius, radius))
    requires (-LineB(lc) + s) / 2.0 > 0.0
    ensures var hit := FindNextIntersection(lc, obstacleRadius, radius, s, previous);
            var p := (-LineB(lc) + s) / 2.0;
            var q := (-LineB(lc) - s) / 2.0;
            hit.intersect && hit.distance > 0.0 && hit.distance <= p && (q > 0.0 ==> hit.distance <= q)
  {
  }

  // ---------------------------------------------------------------------------
  // Length truncation

  /** The double 1e-08 below which Vector3.Normalise leaves a vector alone. */
  const NormaliseThreshold: real := 3022314549036573.0 / 302231454903657293676544.0

  /** truncateLength: a vector longer than `maxLength` is normalised (when it
      is long enough for Normalise to act) and scaled to `maxLength`; `len` is
      its length. */
  function TruncateLength(v: Vec3, maxLength: real, len: real): (r: Vec3)
    requires IsSqrt(len, SqrLength(v))
    ensures len <= maxLength ==> r == v
  {
    if len > maxLength then
      var unit := if len > NormaliseThreshold then Scale(v, 1.0 / len) else v;
      Scale(unit, maxLength)
    else v
  }

  /** For a non-negative limit the result is never longer than the limit, and
      a vector that was too long ends up exactly that long. */
  lemma TruncateLengthBound(v: Vec3, maxLength: real, len: real)
    requires IsSqrt(len, SqrLength(v)) && maxLength >= 0.0
    ensures SqrLength(TruncateLength(v, maxLength, len)) <= maxLength * maxLength
    ensures len > maxLength && len > NormaliseThreshold ==>
              SqrLength(TruncateLength(v, maxLength, len)) == maxLength * maxLength
  {
    if len > maxLength {
      if len > NormaliseThreshold {
        SqrLengthScale(v, 1.0 / len);
        assert (1.0 / len) * (1.0 / len) * (len * len) == 1.0;
        SqrLengthScale(Scale(v, 1.0 / len), maxLength);
      } else {
        SqrLengthScale(v, maxLength);
        assert len * len <= 1.0 by { SquareMonotone(len, 1.0); }
        assert maxLength * maxLength * (len * len) <= maxLength * maxLength by {
          MulNonNegative(maxLength * maxLength, 1.0 - len * len);
        }
      }
    } else {
      SquareMonotone(len, maxLength);
    }
  }

  // ---------------------------------------------------------------------------
  // Neighbourhood tests

  /** inBoidNeighborhood: never oneself; in when strictly inside the minimum
      distance; out when strictly beyond the maximum; otherwise in when the
      cosine of the angle between `forward` and the offset exceeds
      `cosMaxAngle`. `dist` is the offset's length; at distance zero the
      offset divided by it is NaN and the comparison fails. */
  function InBoidNeighborhood(me: Agent, forward: Vec3, other: Agent, minDistance: real, maxDistance: real,
                              cosMaxAngle: real, dist: real): (r: bool)
    requires IsSqrt(dist, SqrDist(other.position, me.position))
    ensures r <==> other.id != me.id &&
                   (SqrDist(other.position, me.position) < minDistance * minDistance ||
                    (SqrDist(other.position, me.position) <= maxDistance * maxDistance && dist > 0.0 &&
                     Dot(forward, Sub(other.position, me.position)) > cosMaxAngle * dist))
  {
    var offset := Sub(other.position, me.position);
    var distanceSquared := SqrLength(offset);
    if other.id == me.id then false
    else if distanceSquared < minDistance * minDistance then true
    else if distanceSquared > maxDistance * maxDistance then false
    else
      dist > 0.0 && (ForwardnessScaled(forward, offset, dist); Dot(forward, Scale(offset, 1.0 / dist)) > cosMaxAngle)
  }

  lemma ForwardnessScaled(forward: Vec3, offset: Vec3, dist: real)
    requires dist > 0.0
    ensures Dot(forward, Scale(offset, 1.0 / dist)) * dist == Dot(forward, offset)
  {
    DotComm(forward, Scale(offset, 1.0 / dist));
    DotScale(offset, 1.0 / dist, forward);
    DotComm(offset, forward);
  }

  /** Widening the cone (a smaller cosine) or the distances never drops a
      neighbour. */
  lemma NeighborhoodWidens(me: Agent, forward: Vec3, other: Agent, minDistance: real, maxDistance: real,
                           cosMaxAngle: real, dist: real, cos': real, max': real)
    requires IsSqrt(dist, SqrDist(other.position, me.position))
    requires cos' <= cosMaxAngle && 0.0 <= maxDistance <= max'
    ensures InBoidNeighborhood(me, forward, other, minDistance, maxDistance, cosMaxAngle, dist) ==>
            InBoidNeighborhood(me, forward, other, minDistance, max', cos', dist)
  {
    SquareMonotone(maxDistance, max');
    if dist > 0.0 {
      assert cos' * dist <= cosMaxAngle * dist;
    }
  }

  // ---------------------------------------------------------------------------
  // Avoiding close neighbours

  /** `d < m` for the distance `d` whose square is `d2`, decided on squares. */
  predicate Closer(d2: real, m: real) {
    m > 0.0 && d2 < m * m
  }

  lemma CloserBySquares(d: real, d2: real, m: real)
    requires IsSqrt(d, d2)
    ensures d < m <==> Closer(d2, m)
  {
    if d < m {
      assert m > 0.0;
      assert d * d < m * m by { StrictSquareMonotone(d, m); }
    }
    if Closer(d2, m) && d >= m {
      SquareMonotone(m, d);
    }
  }

  /** An other vehicle closer, center to center, than the separation distance
      plus both radii. */
  predicate TooClose(me: Agent, other: Agent, minSeparationDistance: real) {
    other.id != me.id &&
    Closer(SqrDist(other.position, me.position), minSeparationDistance + me.radius + other.radius)
  }

  /** The lateral force away from a vehicle that is too close. */
  function AvoidanceFrom(me: Agent, forward: Vec3, other: Agent): Vec3 {
    PerpendicularComponent(Neg(Sub(other.position, me.position)), forward)
  }

  /** steerToAvoidCloseNeighbors: the avoidance force for the first other
      vehicle that is too close, or zero when none is. */
  method SteerToAvoidCloseNeighbors(me: Agent, forward: Vec3, minSeparationDistance: real, others: seq<Agent>)
    returns (r: Vec3)
    ensures (forall k :: 0 <= k < |others| ==> !TooClose(me, others[k], minSeparationDistance)) ==> r == Zero
    ensures forall k :: 0 <= k < |others| && TooClose(me, others[k], minSeparationDistance) &&
                        (forall j :: 0 <= j < k ==> !TooClose(me, others[j], minSeparationDistance)) ==>
                          r == AvoidanceFrom(me, forward, others[k])
  {
    var i := 0;
    while i < |others|
      invariant 0 <= i <= |others|
      invariant forall j :: 0 <= j < i ==> !TooClose(me, others[j], minSeparationDistance)
    {
      if TooClose(me, others[i], minSeparationDistance) {
        FirstTooCloseUnique(me, minSeparationDistance, others, i);
        return AvoidanceFrom(me, forward, others[i]);
      }
      i := i + 1;
    }
    return Zero;
  }

  /** Only one index is the first too-close vehicle. */
  lemma FirstTooCloseUnique(me: Agent, minSeparationDistance: real, others: seq<Agent>, i: nat)
    requires i < |others| && TooClose(me, others[i], minSeparationDistance)
    requires forall j :: 0 <= j < i ==> !TooClose(me, others[j], minSeparationDistance)
    ensures forall k :: 0 <= k < |others| && TooClose(me, others[k], minSeparationDistance) &&
                        (forall j :: 0 <= j < k ==> !TooClose(me, others[j], minSeparationDistance)) ==>
                          k == i
  {
  }

  /** The avoidance force is purely lateral: for a unit forward vector it has
      no component along the direction of travel. */
  lemma AvoidanceIsLateral(me: Agent, forward: Vec3, other: Agent)
    requires SqrLength(forward) == 1.0
    ensures Dot(AvoidanceFrom(me, forward, other), forward) == 0.0
  {
    ComponentsDecompose(Neg(Sub(other.position, me.position)), forward);
  }
}

=== FILE: steer_util.dfy ===
/** The scalar and vector helpers of OpenSteerUtility, in its UnitySteer form
    (Mathf / Vector3) and its OpenSteerDotNet form (clip / interpolate). Where
    the two forms compute the same thing it is defined once here. */
module SteerUtil {
  import opened Geometry

  // ---------------------------------------------------------------------------
  // Clamping and interpolation

  /** clip(x, min, max), and Mathf.Clamp, which makes the same two tests in the
      same order: below `min` gives `min`, otherwise above `max` gives `max`. */
  function Clip(x: real, min: real, max: real): (r: real)
    ensures min <= max ==> min <= r <= max
    ensures min <= x <= max ==> r == x
    ensures r == x || r == min || r == max
  {
    if x < min then min else if x > max then max else x
  }

  /** For an interval that is not empty, the clipped value is the point of the
      interval nearest to `x`. */
  lemma ClipNearest(x: real, min: real, max: real, y: real)
    requires min <= y <= max
    ensures Abs(Clip(x, min, max) - x) <= Abs(y - x)
  {
  }

  /** Clipping twice is clipping once. */
  lemma ClipIdempotent(x: real, min: real, max: real)
    requires min <= max
    ensures Clip(Clip(x, min, max), min, max) == Clip(x, min, max)
  {
  }

  function Abs(x: real): real { if x < 0.0 then -x else x }

  /** `r` lies between `a` and `b`, whichever is smaller. */
  predicate Between(r: real, a: real, b: real) {
    (a <= r <= b) || (b <= r <= a)
  }

  /** The product of a difference and a factor in [0, 1] lies between zero and
      the difference. */
  lemma ScaledDifference(d: real, alpha: real)
    ensures 0.0 <= alpha <= 1.0 ==> Between(d * alpha, 0.0, d)
  {
    if 0.0 <= alpha <= 1.0 {
      assert d - d * alpha == d * (1.0 - alpha);
      if d >= 0.0 {
        MulNonNegative(d, alpha);
        MulNonNegative(d, 1.0 - alpha);
      } else {
        MulNonNegative(-d, alpha);
        MulNonNegative(-d, 1.0 - alpha);
        assert (-d) * alpha == -(d * alpha);
        assert (-d) * (1.0 - alpha) == -(d * (1.0 - alpha));
      }
    }
  }

  lemma MulNonNegative(a: real, b: real)
    requires a >= 0.0 && b >= 0.0
    ensures a * b >= 0.0
  {
  }

  /** interpolate(alpha, x0, x1): the point a fraction `alpha` of the way from
      x0 to x1; the factor is not clamped. */
  function Interpolate(alpha: real, x0: real, x1: real): (r: real)
    ensures alpha == 0.0 ==> r == x0
    ensures alpha == 1.0 ==> r == x1
  {
    x0 + (x1 - x0) * alpha
  }

  /** For a factor in [0, 1] the interpolated value lies between the two
      ends. */
  lemma InterpolateBetween(alpha: real, x0: real, x1: real)
    requires 0.0 <= alpha <= 1.0
    ensures Between(Interpolate(alpha, x0, x1), x0, x1)
  {
    var d := x1 - x0;
    ScaledDifference(d, alpha);
    assert Interpolate(alpha, x0, x1) == x0 + d * alpha;
  }

  /** The vector form of interpolate, component by component. */
  function InterpolateVec(alpha: real, a: Vec3, b: Vec3): (r: Vec3)
    ensures alpha == 0.0 ==> r == a
    ensures alpha == 1.0 ==> r == b
    ensures r == Vec3(Interpolate(alpha, a.x, b.x), Interpolate(alpha, a.y, b.y), Interpolate(alpha, a.z, b.z))
  {
    Add(a, Scale(Sub(b, a), alpha))
  }

  /** Mathf.Lerp: interpolation with the factor clamped to [0, 1]. */
  function MathfLerp(a: real, b: real, t: real): (r: real)
    ensures Between(r, a, b)
    ensures t <= 0.0 ==> r == a
    ensures t >= 1.0 ==> r == b
  {
    InterpolateBetween(Clip(t, 0.0, 1.0), a, b);
    Interpolate(Clip(t, 0.0, 1.0), a, b)
  }

  /** Vector3.Lerp: the vector form of Mathf.Lerp. */
  function Vector3Lerp(a: Vec3, b: Vec3, t: real): (r: Vec3)
    ensures t <= 0.0 ==> r == a
    ensures t >= 1.0 ==> r == b
    ensures r == Vec3(MathfLerp(a.x, b.x, t), MathfLerp(a.y, b.y, t), MathfLerp(a.z, b.z, t))
  {
    InterpolateVec(Clip(t, 0.0, 1.0), a, b)
  }

  /** blendIntoAccumulator on floats: move the accumulator towards the new
      value by the smoothing rate, clamped to [0, 1]. */
  function Blend(smoothRate: real, newValue: real, accumulator: real): (r: real)
    ensures smoothRate <= 0.0 ==> r == accumulator
    ensures smoothRate >= 1.0 ==> r == newValue
    ensures Between(r, accumulator, newValue)
  {
    InterpolateBetween(Clip(smoothRate, 0.0, 1.0), accumulator, newValue);
    Interpolate(Clip(smoothRate, 0.0, 1.0), accumulator, newValue)
  }

  /** blendIntoAccumulator on vectors. */
  function BlendVec(smoothRate: real, newValue: Vec3, accumulator: Vec3): (r: Vec3)
    ensures smoothRate <= 0.0 ==> r == accumulator
    ensures smoothRate >= 1.0 ==> r == newValue
    ensures r == Vec3(Blend(smoothRate, newValue.x, accumulator.x),
                      Blend(smoothRate, newValue.y, accumulator.y),
                      Blend(smoothRate, newValue.z, accumulator.z))
  {
    InterpolateVec(Clip(smoothRate, 0.0, 1.0), accumulator, newValue)
  }

  /** The UnitySteer form, Mathf.Lerp / Vector3.Lerp of the clamped rate,
      clamps twice; it computes the same blend as the interpolate form. */
  lemma BlendFormsAgree(smoothRate: real, newValue: real, accumulator: real, newVec: Vec3, accVec: Vec3)
    ensures MathfLerp(accumulator, newValue, Clip(smoothRate, 0.0, 1.0)) == Blend(smoothRate, newValue, accumulator)
    ensures Vector3Lerp(accVec, newVec, Clip(smoothRate, 0.0, 1.0)) == BlendVec(smoothRate, newVec, accVec)
  {
  }

  // ---------------------------------------------------------------------------
  // Components along a basis

  /** parallelComponent: the projection of `source` on a unit basis. */
  function ParallelComponent(source: Vec3, unitBasis: Vec3): Vec3 {
    Scale(unitBasis, Dot(source, unitBasis))
  }

  /** perpendicularComponent: what is left of `source` after its projection. */
  function PerpendicularComponent(source: Vec3, unitBasis: Vec3): Vec3 {
    Sub(source, ParallelComponent(source, unitBasis))
  }

  /** The two components add up to the source, and for a basis of unit length
      the perpendicular one is orthogonal to the basis while the parallel one
      is a multiple of it. */
  lemma ComponentsDecompose(source: Vec3, unitBasis: Vec3)
    ensures Add(ParallelComponent(source, unitBasis), PerpendicularComponent(source, unitBasis)) == source
    ensures SqrLength(unitBasis) == 1.0 ==> Dot(PerpendicularComponent(source, unitBasis), unitBasis) == 0.0
    ensures SqrLength(unitBasis) == 1.0 ==>
              Dot(ParallelComponent(source, unitBasis), unitBasis) == Dot(source, unitBasis)
  {
    var p := Dot(source, unitBasis);
    var b := unitBasis;
    assert Dot(Scale(b, p), b) == p * SqrLength(b);
  }

  // ---------------------------------------------------------------------------
  // Wrap-around and the deviation limiter

  /** sphericalWrapAround: a point farther than `radius` from the center is
      moved through the center by twice the radius; `r` is the distance, whose
      square root the code takes. Any radius is accepted, a negative one
      included, except that a point at the center with a negative radius
      would divide 0 by 0. */
  function SphericalWrapAround(source: Vec3, center: Vec3, radius: real, r: real): (w: Vec3)
    requires IsSqrt(r, SqrDist(source, center)) && (radius >= 0.0 || r > 0.0)
    ensures r <= radius ==> w == source
  {
    var offset := Sub(source, center);
    if r > radius then Add(source, Scale(Scale(Scale(offset, 1.0 / r), radius), -2.0))
    else source
  }

  /** A wrapped point lands on the ray through the center at distance
      |r - 2·radius|: it is mirrored across the sphere's surface shell. */
  lemma WrapAroundDistance(source: Vec3, center: Vec3, radius: real, r: real)
    requires IsSqrt(r, SqrDist(source, center)) && r > radius && r > 0.0
    ensures SqrDist(SphericalWrapAround(source, center, radius, r), center) == (r - 2.0 * radius) * (r - 2.0 * radius)
  {
    var offset := Sub(source, center);
    var k := 1.0 + (1.0 / r) * radius * -2.0;
    WrapOffset(source, center, radius, r);
    ScaledSqrLength(offset, k, r);
    WrapFactor(radius, r);
  }

  /** The wrapped point, seen from the center, is the offset scaled by
      1 - 2·radius/r. */
  lemma WrapOffset(source: Vec3, center: Vec3, radius: real, r: real)
    requires IsSqrt(r, SqrDist(source, center)) && r > radius && r > 0.0
    ensures Sub(SphericalWrapAround(source, center, radius, r), center) ==
            Scale(Sub(source, center), 1.0 + (1.0 / r) * radius * -2.0)
  {
    var offset := Sub(source, center);
    ScaleScale(offset, 1.0 / r, radius);
    ScaleScale(offset, (1.0 / r) * radius, -2.0);
    OffsetGrows(source, center, (1.0 / r) * radius * -2.0);
  }

  lemma ScaleScale(a: Vec3, j: real, k: real)
    ensures Scale(Scale(a, j), k) == Scale(a, j * k)
  {
    assert a.x * j * k == a.x * (j * k);
    assert a.y * j * k == a.y * (j * k);
    assert a.z * j * k == a.z * (j * k);
  }

  /** Moving a point by a multiple of its offset from the center scales that
      offset. */
  lemma OffsetGrows(source: Vec3, center: Vec3, m: real)
    ensures Sub(Add(source, Scale(Sub(source, center), m)), center) == Scale(Sub(source, center), 1.0 + m)
  {
    var o := Sub(source, center);
    assert source.x + o.x * m - center.x == o.x * (1.0 + m);
    assert source.y + o.y * m - center.y == o.y * (1.0 + m);
    assert source.z + o.z * m - center.z == o.z * (1.0 + m);
  }

  lemma ScaledSqrLength(offset: Vec3, k: real, r: real)
    requires SqrLength(offset) == r * r
    ensures SqrLength(Scale(offset, k)) == (k * r) * (k * r)
  {
    SqrLengthScale(offset, k);
    Square(k, r);
  }

  lemma WrapFactor(radius: real, r: real)
    requires r > 0.0
    ensures (1.0 + (1.0 / r) * radius * -2.0) * r == r - 2.0 * radius
  {
    assert (1.0 / r) * r == 1.0;
  }

  lemma Square(k: real, r: real)
    ensures k * k * (r * r) == (k * r) * (k * r)
  {
  }

  /** vecLimitDeviationAngleUtility. `sourceLength` is the source's length;
      `unitPerp` and `perpDist` stand for the normalised perpendicular
      component and sqrt(1 - cos²), which the code computes only when the
      source has to be rotated onto the cone. */
  function LimitDeviation(insideOrOutside: bool, source: Vec3, cosineOfConeAngle: real, basis: Vec3,
                          sourceLength: real, unitPerp: Vec3, perpDist: real): (r: Vec3)
    requires IsSqrt(sourceLength, SqrLength(source))
    ensures SqrLength(source) == 0.0 ==> r == source
    ensures insideOrOutside && Dot(source, basis) >= cosineOfConeAngle * sourceLength ==> r == source
    ensures !insideOrOutside && Dot(source, basis) <= cosineOfConeAngle * sourceLength ==> r == source
  {
    if sourceLength == 0.0 then source
    else
      var cosineOfSourceAngle := Dot(Scale(source, 1.0 / sourceLength), basis);
      CosineOfSource(source, basis, sourceLength);
      if insideOrOutside && cosineOfSourceAngle >= cosineOfConeAngle then source
      else if !insideOrOutside && cosineOfSourceAngle <= cosineOfConeAngle then source
      else Scale(Add(Scale(basis, cosineOfConeAngle), Scale(unitPerp, perpDist)), sourceLength)
  }

  lemma CosineOfSource(source: Vec3, basis: Vec3, len: real)
    requires len > 0.0
    ensures Dot(Scale(source, 1.0 / len), basis) * len == Dot(source, basis)
  {
  }

  /** A rotated source lies exactly on the cone: same length as the source and
      angle cosine `cosineOfConeAngle` to the basis, given a unit basis, a unit
      perpendicular orthogonal to it and perpDist² = 1 - cos². */
  lemma DeviationOnCone(insideOrOutside: bool, source: Vec3, c: real, basis: Vec3,
                        sourceLength: real, unitPerp: Vec3, perpDist: real)
    requires IsSqrt(sourceLength, SqrLength(source))
    requires SqrLength(basis) == 1.0 && SqrLength(unitPerp) == 1.0 && Dot(unitPerp, basis) == 0.0
    requires perpDist * perpDist == 1.0 - c * c
    requires LimitDeviation(insideOrOutside, source, c, basis, sourceLength, unitPerp, perpDist) != source
    ensures var r := LimitDeviation(insideOrOutside, source, c, basis, sourceLength, unitPerp, perpDist);
            SqrLength(r) == SqrLength(source) && Dot(r, basis) == c * sourceLength
  {
    var a := Scale(basis, c);
    var b := Scale(unitPerp, perpDist);
    var v := Add(a, b);
    DotAdd(a, b, basis);
    DotScale(basis, c, basis);
    DotScale(unitPerp, perpDist, basis);
    assert Dot(v, basis) == c;
    SqrLengthAdd(a, b);
    SqrLengthScale(basis, c);
    SqrLengthScale(unitPerp, perpDist);
    DotScale(unitPerp, perpDist, a);
    DotComm(unitPerp, a);
    DotScale(basis, c, unitPerp);
    DotComm(basis, unitPerp);
    assert Dot(a, b) == 0.0;
    assert SqrLength(v) == 1.0;
    SqrLengthScale(v, sourceLength);
    DotScale(v, sourceLength, basis);
  }

  // ---------------------------------------------------------------------------
  // Random walk and interval comparison

  /** scalarRandomWalk: step from `initial` by a random fraction of
      `walkspeed` in either direction, then clamp to [min, max]. `draw` is the
      random number in [0, 1] the code asks for. */
  function ScalarRandomWalk(initial: real, walkspeed: real, min: real, max: real, draw: real): (r: real)
    requires 0.0 <= draw <= 1.0
    ensures min <= max ==> min <= r <= max
  {
    Clip(initial + (draw * 2.0 - 1.0) * walkspeed, min, max)
  }

  /** A walk that starts inside the range moves by at most `walkspeed`. */
  lemma RandomWalkStep(initial: real, walkspeed: real, min: real, max: real, draw: real)
    requires 0.0 <= draw <= 1.0 && walkspeed >= 0.0 && min <= initial <= max
    ensures Abs(ScalarRandomWalk(initial, walkspeed, min, max, draw) - initial) <= walkspeed
  {
    var step := (draw * 2.0 - 1.0) * walkspeed;
    StepBound(draw, walkspeed);
    ClipTowards(initial, step, min, max);
  }

  /** A factor in [-1, 1] times a non-negative speed is at most the speed in
      size. */
  lemma StepBound(draw: real, walkspeed: real)
    requires 0.0 <= draw <= 1.0 && walkspeed >= 0.0
    ensures Abs((draw * 2.0 - 1.0) * walkspeed) <= walkspeed
  {
    ScaledDifference(2.0 * walkspeed, draw);
    assert (draw * 2.0 - 1.0) * walkspeed == 2.0 * walkspeed * draw - walkspeed;
  }

  /** Clipping a step away from a point of the interval never lands farther
      from that point than the step. */
  lemma ClipTowards(initial: real, step: real, min: real, max: real)
    requires min <= initial <= max
    ensures Abs(Clip(initial + step, min, max) - initial) <= Abs(step)
  {
  }

  /** intervalComparison: -1 below the interval, +1 above it, 0 inside. */
  function IntervalComparison(x: real, lowerBound: real, upperBound: real): (r: int)
    ensures r == -1 || r == 0 || r == 1
    ensures r == -1 <==> x < lowerBound
    ensures r == 1 ==> x > upperBound
  {
    if x < lowerBound then -1 else if x > upperBound then 1 else 0
  }

  /** For an interval that is not empty the three answers are exactly the
      three positions of `x`. */
  lemma IntervalComparisonCases(x: real, lowerBound: real, upperBound: real)
    requires lowerBound <= upperBound
    ensures IntervalComparison(x, lowerBound, upperBound) == 0 <==> lowerBound <= x <= upperBound
    ensures IntervalComparison(x, lowerBound, upperBound) == 1 <==> x > upperBound
  {
  }

  // ---------------------------------------------------------------------------
  // Point to segment

  /** The nearest point of a segment and the projection of the query point on
      it; the distance PointToSegmentDistance returns is the length of
      point - chosen in all three of its branches. */
  datatype SegmentPoint = SegmentPoint(chosen: Vec3, projection: real)

  /** PointToSegmentDistance with the segment's unit normal and length given. */
  function PointToSegment(point: Vec3, ep0: Vec3, ep1: Vec3, normal: Vec3, length: real): (r: SegmentPoint)
    ensures length >= 0.0 ==> 0.0 <= r.projection <= length
    ensures Dot(normal, Sub(point, ep0)) < 0.0 ==> r == SegmentPoint(ep0, 0.0)
    ensures 0.0 <= Dot(normal, Sub(point, ep0)) <= length ==> r.projection == Dot(normal, Sub(point, ep0))
    ensures 0.0 <= Dot(normal, Sub(point, ep0)) && Dot(normal, Sub(point, ep0)) > length ==> r == SegmentPoint(ep1, length)
  {
    var projection := Dot(normal, Sub(point, ep0));
    if projection < 0.0 then SegmentPoint(ep0, 0.0)
    else if projection > length then SegmentPoint(ep1, length)
    else SegmentPoint(Add(Scale(normal, projection), ep0), projection)
  }

  /** When ep1 = ep0 + normal·length, the chosen point is always the point of
      the segment at the returned projection. */
  lemma SegmentChosenOnSegment(point: Vec3, ep0: Vec3, ep1: Vec3, normal: Vec3, length: real)
    requires ep1 == Add(ep0, Scale(normal, length))
    ensures var r := PointToSegment(point, ep0, ep1, normal, length);
            r.chosen == Add(ep0, Scale(normal, r.projection))
  {
  }

  /** With a unit normal the chosen point is a nearest point of the segment to
      the query point. */
  lemma SegmentNearest(point: Vec3, ep0: Vec3, normal: Vec3, length: real, t: real)
    requires SqrLength(normal) == 1.0 && length >= 0.0 && 0.0 <= t <= length
    ensures var r := PointToSegment(point, ep0, Add(ep0, Scale(normal, length)), normal, length);
            SqrDist(point, r.chosen) <= SqrDist(point, Add(ep0, Scale(normal, t)))
  {
    var ep1 := Add(ep0, Scale(normal, length));
    var r := PointToSegment(point, ep0, ep1, normal, length);
    SegmentChosenOnSegment(point, ep0, ep1, normal, length);
    ClampedNearest(point, ep0, normal, length, r.projection, t);
  }

  /** The point at the clamped projection is at least as close as any other
      point of the segment. */
  lemma ClampedNearest(point: Vec3, ep0: Vec3, normal: Vec3, length: real, s: real, t: real)
    requires SqrLength(normal) == 1.0 && length >= 0.0 && 0.0 <= t <= length
    requires s == Clip(Dot(normal, Sub(point, ep0)), 0.0, length)
    ensures SqrDist(point, Add(ep0, Scale(normal, s))) <= SqrDist(point, Add(ep0, Scale(normal, t)))
  {
    var l := Sub(point, ep0);
    DistanceAlong(point, ep0, normal, s);
    DistanceAlong(point, ep0, normal, t);
    ScalarNearest(SqrLength(l), Dot(normal, l), length, s, t);
  }

  /** The squared distance from the origin of a line to the point `t` along
      it, given the squared length `l2` and the projection `p` of the query
      point on the line's direction. */
  function AlongQuadratic(l2: real, p: real, t: real): real {
    l2 - 2.0 * t * p + t * t * 1.0
  }

  /** The same comparison on the quadratic the squared distances follow. */
  lemma ScalarNearest(l2: real, p: real, length: real, s: real, t: real)
    requires length >= 0.0 && 0.0 <= t <= length && s == Clip(p, 0.0, length)
    ensures AlongQuadratic(l2, p, s) <= AlongQuadratic(l2, p, t)
  {
    ProjectionClosest(p, length, s, t);
    CompleteSquare(l2, p, s, t);
  }

  /** The squared distance to the point `t` steps along a unit normal. */
  lemma DistanceAlong(point: Vec3, ep0: Vec3, normal: Vec3, t: real)
    requires SqrLength(normal) == 1.0
    ensures SqrDist(point, Add(ep0, Scale(normal, t))) ==
            AlongQuadratic(SqrLength(Sub(point, ep0)), Dot(normal, Sub(point, ep0)), t)
  {
    AlongSegment(point, ep0, normal, t);
    QuadraticAlongLine(Sub(point, ep0), normal, t);
  }

  /** The clamped projection is the point of [0, length] nearest the
      unclamped one, compared through squares. */
  lemma ProjectionClosest(p: real, length: real, s: real, t: real)
    requires length >= 0.0 && 0.0 <= t <= length && s == Clip(p, 0.0, length)
    ensures Abs(s - p) * Abs(s - p) <= Abs(t - p) * Abs(t - p)
  {
    ClipNearest(p, 0.0, length, t);
    SquareMonotone(Abs(s - p), Abs(t - p));
  }

  lemma CompleteSquare(l2: real, p: real, s: real, t: real)
    requires Abs(s - p) * Abs(s - p) <= Abs(t - p) * Abs(t - p)
    ensures l2 - 2.0 * s * p + s * s * 1.0 <= l2 - 2.0 * t * p + t * t * 1.0
  {
    assert Abs(s - p) * Abs(s - p) == s * s - 2.0 * s * p + p * p;
    assert Abs(t - p) * Abs(t - p) == t * t - 2.0 * t * p + p * p;
  }

  lemma AlongSegment(point: Vec3, ep0: Vec3, normal: Vec3, t: real)
    ensures SqrDist(point, Add(ep0, Scale(normal, t))) == SqrLength(Sub(Sub(point, ep0), Scale(normal, t)))
  {
    assert Sub(point, Add(ep0, Scale(normal, t))) == Sub(Sub(point, ep0), Scale(normal, t));
  }
}

=== FILE: steering.dfy ===
/** The Steering base behaviour: the Force getter's arrival / start-moving
    notifications and the weighed force. CalculateForce is abstract in the
    component; the forces it returns are arguments here, as are the
    presence of the event handlers and what the arrival handlers do to
    ShouldRetryForce. */
module Steering {
  import opened Geometry

  /** 9.99999944e-11f: UnityEngine.Vector3's == holds when the squared length
      of the difference is below this value. */
  const EqualityThreshold: real := 7205759.0 / 72057594037927936.0

  /** `_force == Vector3.zero` under Vector3's approximate equality. */
  predicate IsZero(f: Vec3) {
    SqrLength(Sub(f, Zero)) < EqualityThreshold
  }

  /** The behaviour's own fields. */
  datatype SteeringState = SteeringState(
    force: Vec3,
    reportedArrival: bool,
    reportedMove: bool,
    shouldRetryForce: bool,
    weight: real)

  /** The notifications one Force read raises. */
  datatype Event = StartMoving | Arrival

  /** What the environment contributes to one Force read: the force
      CalculateForce returns, whether the two handlers are set, the value
      ShouldRetryForce has once the arrival handlers ran, and the force a
      second CalculateForce returns. */
  datatype ForceInputs = ForceInputs(
    first: Vec3,
    hasStartMovingHandler: bool,
    hasArrivalHandler: bool,
    retryAfterArrival: bool,
    retried: Vec3)

  /** The result of one Force read: the new fields, the force returned and the
      events raised, in order. */
  datatype ForceRead = ForceRead(state: SteeringState, force: Vec3, events: seq<Event>)

  /** The field initialisers followed by Awake: arrival counts as already
      reported, so a behaviour that never moves raises nothing. */
  function Awake(weight: real): (s: SteeringState)
    ensures s.reportedArrival && !s.reportedMove && !s.shouldRetryForce
    ensures s.force == Zero && s.weight == weight
  {
    SteeringState(Zero, true, false, false, weight)
  }

  /** The Force getter. */
  function Force(s: SteeringState, inp: ForceInputs): (r: ForceRead)
    ensures !IsZero(inp.first) ==>
              r.force == inp.first && r.state.reportedMove && !r.state.reportedArrival &&
              r.events == (if !s.reportedMove && inp.hasStartMovingHandler then [StartMoving] else []) &&
              r.state.shouldRetryForce == s.shouldRetryForce
    ensures IsZero(inp.first) && s.reportedArrival ==>
              r.state == s.(force := inp.first) && r.force == inp.first && r.events == []
    ensures IsZero(inp.first) && !s.reportedArrival ==>
              r.events == (if inp.hasArrivalHandler then [Arrival] else []) &&
              (inp.hasArrivalHandler && inp.retryAfterArrival ==> r.force == inp.retried) &&
              (inp.hasArrivalHandler ==> !r.state.shouldRetryForce) &&
              (IsZero(r.force) ==> r.state.reportedArrival && !r.state.reportedMove) &&
              (!IsZero(r.force) ==> r.state.reportedArrival == s.reportedArrival && r.state.reportedMove == s.reportedMove)
    ensures r.state.force == r.force && r.state.weight == s.weight
    ensures |r.events| <= 1
  {
    if !IsZero(inp.first) then
      var events := if !s.reportedMove && inp.hasStartMovingHandler then [StartMoving] else [];
      ForceRead(s.(force := inp.first, reportedArrival := false, reportedMove := true), inp.first, events)
    else if !s.reportedArrival then
      var events := if inp.hasArrivalHandler then [Arrival] else [];
      var retry := inp.hasArrivalHandler && inp.retryAfterArrival;
      var f := if retry then inp.retried else inp.first;
      var shouldRetry := if inp.hasArrivalHandler then false else s.shouldRetryForce;
      var s1 := s.(force := f, shouldRetryForce := shouldRetry);
      var s2 := if IsZero(f) then s1.(reportedArrival := true, reportedMove := false) else s1;
      ForceRead(s2, f, events)
    else
      ForceRead(s.(force := inp.first), inp.first, [])
  }

  /** WeighedForce: the Force getter, with its notifications, scaled by the
      weight. */
  function WeighedForce(s: SteeringState, inp: ForceInputs): (r: ForceRead)
    ensures r.state == Force(s, inp).state && r.events == Force(s, inp).events
    ensures r.force == Scale(Force(s, inp).force, s.weight)
  {
    var read := Force(s, inp);
    ForceRead(read.state, Scale(read.force, s.weight), read.events)
  }

  /** The two flags are never both set. */
  predicate FlagsExclusive(s: SteeringState) {
    !(s.reportedArrival && s.reportedMove)
  }

  /** Awake establishes the exclusion and every Force read keeps it. */
  lemma ForceKeepsFlagsExclusive(s: SteeringState, inp: ForceInputs, weight: real)
    ensures FlagsExclusive(Awake(weight))
    ensures FlagsExclusive(s) ==> FlagsExclusive(Force(s, inp).state)
  {
  }

  /** Arrival is announced once per stop: once arrival has been reported,
      further zero-force reads raise nothing, however many handlers are
      set. */
  lemma {:induction false} ArrivalAnnouncedOnce(s: SteeringState, calls: seq<ForceInputs>)
    requires s.reportedArrival
    requires forall k :: 0 <= k < |calls| ==> IsZero(calls[k].first)
    ensures Replay(s, calls).1 == []
    ensures Replay(s, calls).0.reportedArrival
    decreases |calls|
  {
    if |calls| > 0 {
      ArrivalAnnouncedOnce(Force(s, calls[0]).state, calls[1..]);
    }
  }

  /** Starting to move is announced once per start: a moving behaviour that
      keeps returning non-zero forces raises nothing more. */
  lemma {:induction false} StartAnnouncedOnce(s: SteeringState, calls: seq<ForceInputs>)
    requires s.reportedMove
    requires forall k :: 0 <= k < |calls| ==> !IsZero(calls[k].first)
    ensures Replay(s, calls).1 == []
    ensures Replay(s, calls).0.reportedMove
    decreases |calls|
  {
    if |calls| > 0 {
      StartAnnouncedOnce(Force(s, calls[0]).state, calls[1..]);
    }
  }

  /** A sequence of Force reads: the final fields and every event raised. */
  function Replay(s: SteeringState, calls: seq<ForceInputs>): (SteeringState, seq<Event>)
    decreases |calls|
  {
    if |calls| == 0 then (s, [])
    else
      var r := Force(s, calls[0]);
      var rest := Replay(r.state, calls[1..]);
      (rest.0, r.events + rest.1)
  }

  /** A stop followed by a start: from rest, a zero read, then a non-zero
      read, then a zero read raises nothing, then StartMoving, then Arrival
      (both handlers set, no retry). */
  lemma StopStartStop(weight: real, moving: Vec3)
    requires !IsZero(moving)
    ensures var zero := ForceInputs(Zero, true, true, false, Zero);
            var go := ForceInputs(moving, true, true, false, Zero);
            Replay(Awake(weight), [zero, go, zero]).1 == [StartMoving, Arrival]
  {
    var zero := ForceInputs(Zero, true, true, false, Zero);
    var go := ForceInputs(moving, true, true, false, Zero);
    var s0 := Awake(weight);
    var s1 := Force(s0, zero).state;
    var s2 := Force(s1, go).state;
    assert [zero, go, zero][1..] == [go, zero];
    assert [go, zero][1..] == [zero];
    assert Replay(s2, [zero]).1 == [Arrival];
  }
}

=== FILE: testity_builder.dfy ===
/** The build process's class builder and what feeds it: the expansion of
    member modifier flags into keywords, the Unity serialized-field member
    provider, and the single-base-class rule. Roslyn syntax trees are
    modelled as plain datatypes; formatting to text is not modelled. */
module TestityBuilder {
  import opened Wrappers
  import opened TestityTypes

  // ------------------------------------------ MemberImplementationModifierExtensions

  /** The keywords of the conversion table, in its order. */
  datatype Keyword =
    | PrivateKeyword | PublicKeyword | VirtualKeyword | OverrideKeyword
    | StaticKeyword | SealedKeyword | ProtectedKeyword

  const TableOrder: seq<Keyword> :=
    [PrivateKeyword, PublicKeyword, VirtualKeyword, OverrideKeyword, StaticKeyword, SealedKeyword, ProtectedKeyword]

  /** The MemberImplementationModifier enum. Its declaration is not part of
      this model, so it is a parameter: `values` is what Enum.GetValues lists,
      in its order, and `flag(k)` the value of the member the table maps to
      keyword k. */
  datatype ModifierEnum = ModifierEnum(values: seq<bv32>, flag: Keyword -> bv32)

  /** Enum.HasFlag: every bit of `m` is set in `modifiers`. */
  predicate HasFlag(modifiers: bv32, m: bv32)
  {
    modifiers & m == m
  }

  /** ConvertToSyntaxKind: the keyword whose table value is `mod`; any other
      value throws ArgumentException. */
  function ConvertToSyntaxKind(e: ModifierEnum, mod: bv32): (r: Result<Keyword, Exception>)
    ensures r.Ok? <==> exists k: Keyword :: e.flag(k) == mod
    ensures r.Ok? ==> e.flag(r.value) == mod
    ensures r.Err? ==> r.error == Argument
  {
    var r := ConvertFrom(e, mod, 0);
    assert (exists k: Keyword :: e.flag(k) == mod) ==> r.Ok? by {
      if exists k: Keyword :: e.flag(k) == mod {
        var k: Keyword :| e.flag(k) == mod;
        assert e.flag(TableOrder[TableIndex(k)]) == mod;
      }
    }
    r
  }

  /** Where a keyword sits in the table. */
  function TableIndex(k: Keyword): (i: nat)
    ensures i < |TableOrder| && TableOrder[i] == k
  {
    match k
    case PrivateKeyword => 0
    case PublicKeyword => 1
    case VirtualKeyword => 2
    case OverrideKeyword => 3
    case StaticKeyword => 4
    case SealedKeyword => 5
    case ProtectedKeyword => 6
  }

  function ConvertFrom(e: ModifierEnum, mod: bv32, i: nat): (r: Result<Keyword, Exception>)
    requires i <= |TableOrder|
    ensures r.Ok? <==> exists j :: i <= j < |TableOrder| && e.flag(TableOrder[j]) == mod
    ensures r.Ok? ==> e.flag(r.value) == mod
    ensures r.Err? ==> r.error == Argument
    decreases |TableOrder| - i
  {
    if i == |TableOrder| then Err(Argument)
    else if e.flag(TableOrder[i]) == mod then Ok(TableOrder[i])
    else ConvertFrom(e, mod, i + 1)
  }

  /** The declared values from index `i` on that `modifiers` has. */
  function Selected(values: seq<bv32>, modifiers: bv32): (s: seq<bv32>)
    ensures forall x :: x in s <==> x in values && HasFlag(modifiers, x)
    ensures |s| <= |values|
  {
    if |values| == 0 then []
    else if HasFlag(modifiers, values[0]) then [values[0]] + Selected(values[1..], modifiers)
    else Selected(values[1..], modifiers)
  }

  /** ToSyntaxKind: one keyword for every declared value the flags hold, in
      declaration order; a held value outside the table throws
      ArgumentException when the sequence is enumerated. */
  function ToSyntaxKind(e: ModifierEnum, modifiers: bv32): (r: Result<seq<Keyword>, Exception>)
    ensures r.Ok? <==> forall m :: m in Selected(e.values, modifiers) ==> ConvertToSyntaxKind(e, m).Ok?
    ensures r.Err? ==> r.error == Argument
    ensures r.Ok? ==> |r.value| == |Selected(e.values, modifiers)|
    ensures r.Ok? ==> forall j :: 0 <= j < |r.value| ==> e.flag(r.value[j]) == Selected(e.values, modifiers)[j]
  {
    ConvertAll(e, Selected(e.values, modifiers))
  }

  function ConvertAll(e: ModifierEnum, ms: seq<bv32>): (r: Result<seq<Keyword>, Exception>)
    ensures r.Ok? <==> forall m :: m in ms ==> ConvertToSyntaxKind(e, m).Ok?
    ensures r.Err? ==> r.error == Argument
    ensures r.Ok? ==> |r.value| == |ms| && forall j :: 0 <= j < |ms| ==> e.flag(r.value[j]) == ms[j]
  {
    if |ms| == 0 then Ok([])
    else
      var head := ConvertToSyntaxKind(e, ms[0]);
      var rest := ConvertAll(e, ms[1..]);
      assert forall m :: m in ms <==> m == ms[0] || m in ms[1..];
      if head.Err? then Err(Argument)
      else if rest.Err? then Err(Argument)
      else Ok([head.value] + rest.value)
  }

  /** No values listed twice by Enum.GetValues. */
  predicate NoDuplicates<T(==)>(s: seq<T>)
  {
    forall i, j :: 0 <= i < j < |s| ==> s[i] != s[j]
  }

  lemma {:induction false} SelectedNoDuplicates(values: seq<bv32>, modifiers: bv32)
    requires NoDuplicates(values)
    ensures NoDuplicates(Selected(values, modifiers))
    decreases |values|
  {
    if |values| > 0 {
      SelectedNoDuplicates(values[1..], modifiers);
      assert forall k :: 0 <= k < |values| - 1 ==> values[1..][k] == values[k + 1];
      assert values[0] !in values[1..];
      var s := Selected(values, modifiers);
      if HasFlag(modifiers, values[0]) {
        forall i, j | 0 <= i < j < |s|
          ensures s[i] != s[j]
        {
          if i == 0 {
            assert s[j] in Selected(values[1..], modifiers);
          }
        }
      }
    }
  }

  /** With the enum's values each listed once, the keywords are
      distinct: distinct values map to distinct keywords. */
  lemma KeywordsDistinct(e: ModifierEnum, modifiers: bv32)
    requires NoDuplicates(e.values)
    requires ToSyntaxKind(e, modifiers).Ok?
    ensures NoDuplicates(ToSyntaxKind(e, modifiers).value)
  {
    SelectedNoDuplicates(e.values, modifiers);
  }

  /** Nothing is selected when no declared value is held. */
  lemma {:induction false} SelectedNone(values: seq<bv32>, modifiers: bv32)
    requires forall m :: m in values ==> !HasFlag(modifiers, m)
    ensures Selected(values, modifiers) == []
    decreases |values|
  {
    if |values| > 0 {
      assert values[0] in values;
      assert forall m :: m in values[1..] ==> m in values;
      SelectedNone(values[1..], modifiers);
    }
  }

  /** Exactly `p` is selected when it is the only held value and is listed
      once. */
  lemma {:induction false} SelectedSingle(values: seq<bv32>, modifiers: bv32, p: bv32)
    requires p in values && NoDuplicates(values) && HasFlag(modifiers, p)
    requires forall m :: m in values && HasFlag(modifiers, m) ==> m == p
    ensures Selected(values, modifiers) == [p]
    decreases |values|
  {
    assert forall k :: 0 <= k < |values| - 1 ==> values[1..][k] == values[k + 1];
    assert forall m :: m in values[1..] ==> m in values;
    if values[0] == p {
      assert p !in values[1..];
      SelectedNone(values[1..], modifiers);
    } else {
      assert values[0] in values;
      SelectedSingle(values[1..], modifiers, p);
    }
  }

  /** Private.ToSyntaxKind() is exactly [private] when no other declared
      value is a sub-mask of Private and Private is listed once: the
      constructor modifiers of every serialized field. Private is the
      table's first case, so even a shared value converts to it. */
  lemma PrivateOnly(e: ModifierEnum)
    requires e.flag(PrivateKeyword) in e.values && NoDuplicates(e.values)
    requires forall m :: m in e.values && HasFlag(e.flag(PrivateKeyword), m) ==> m == e.flag(PrivateKeyword)
    ensures ToSyntaxKind(e, e.flag(PrivateKeyword)) == Ok([PrivateKeyword])
  {
    var p := e.flag(PrivateKeyword);
    assert HasFlag(p, p);
    SelectedSingle(e.values, p, p);
    assert ConvertToSyntaxKind(e, p) == Ok(PrivateKeyword);
    assert [p][1..] == [] && ConvertAll(e, []) == Ok([]);
    assert [PrivateKeyword] + [] == [PrivateKeyword];
    assert ConvertAll(e, [p]) == Ok([PrivateKeyword]);
  }

  // ---------------------------------------------- UnitySerializedFieldImplementationProvider

  /** The attributes the builder writes on members. */
  datatype Attribute =
    | SerializeField
    | WiredTo(memberType: string, memberName: string, typeWiredTo: string)
    | Named(fullName: string)

  /** The WiredToAttribute the field was generated from. */
  datatype WiredToAttribute = WiredToAttribute(wiredMemberType: string, wiredMemberName: string, typeWiredTo: ClrType)

  /** What an IMemberImplementationProvider supplies. */
  datatype MemberProvider = MemberProvider(memberName: string, typeSyntax: TypeSyntax,
                                           modifiers: seq<Keyword>, attributes: seq<Attribute>)

  /** The two attributes every Unity field carries: SerializeField, then the
      wired-to attribute naming the member type, the member and the loadable
      string of the type it is wired to. */
  function UnityAttributes(wired: WiredToAttribute): (a: seq<Attribute>)
    ensures |a| == 2 && a[0] == SerializeField && a[1].WiredTo?
    ensures a[1].typeWiredTo == LoadableName(wired.typeWiredTo)
  {
    [SerializeField, WiredTo(wired.wiredMemberType, wired.wiredMemberName, LoadableName(wired.typeWiredTo))]
  }

  /** The constructor from a member type: a null type throws
      NullReferenceException at its FullName; a null FullName makes
      SyntaxFactory.ParseName throw ArgumentNullException (Roslyn's
      SourceText.From rejects a null text); otherwise the FullName parsed as
      the type, Private.ToSyntaxKind() as the modifiers, and the Unity
      attributes. */
  function SerializedFieldFromType(e: ModifierEnum, memberName: string, typeOfMember: Option<ClrType>,
                                   wired: WiredToAttribute): (r: Result<MemberProvider, Exception>)
    ensures typeOfMember.None? ==> r == Err(NullReference)
    ensures typeOfMember.Some? && typeOfMember.value.fullName.None? ==> r == Err(ArgumentNull)
    ensures r.Ok? <==> typeOfMember.Some? && typeOfMember.value.fullName.Some? && ToSyntaxKind(e, e.flag(PrivateKeyword)).Ok?
    ensures r.Ok? ==> r.value.memberName == memberName &&
                      r.value.typeSyntax == ParsedName(typeOfMember.value.fullName.value) &&
                      r.value.modifiers == ToSyntaxKind(e, e.flag(PrivateKeyword)).value &&
                      r.value.attributes == UnityAttributes(wired)
  {
    if typeOfMember.None? then Err(NullReference)
    else if typeOfMember.value.fullName.None? then Err(ArgumentNull)
    else SerializedFieldFromName(e, memberName, typeOfMember.value.fullName.value, wired)
  }

  /** The constructor from a full type name. */
  function SerializedFieldFromName(e: ModifierEnum, memberName: string, fullMemberName: string,
                                   wired: WiredToAttribute): (r: Result<MemberProvider, Exception>)
    ensures r.Ok? <==> ToSyntaxKind(e, e.flag(PrivateKeyword)).Ok?
    ensures r.Ok? ==> r.value.memberName == memberName && r.value.typeSyntax == ParsedName(fullMemberName) &&
                      r.value.modifiers == ToSyntaxKind(e, e.flag(PrivateKeyword)).value &&
                      r.value.attributes == UnityAttributes(wired)
  {
    var modifiers := ToSyntaxKind(e, e.flag(PrivateKeyword));
    if modifiers.Err? then Err(modifiers.error)
    else Ok(MemberProvider(memberName, ParsedName(fullMemberName), modifiers.value, UnityAttributes(wired)))
  }

  /** With the enum shaped as PrivateOnly requires, both constructors give
      a field that is private and nothing else. */
  lemma SerializedFieldsArePrivate(e: ModifierEnum, memberName: string, typeOfMember: ClrType, fullMemberName: string,
                                   wired: WiredToAttribute)
    requires e.flag(PrivateKeyword) in e.values && NoDuplicates(e.values)
    requires forall m :: m in e.values && HasFlag(e.flag(PrivateKeyword), m) ==> m == e.flag(PrivateKeyword)
    requires typeOfMember.fullName.Some?
    ensures SerializedFieldFromType(e, memberName, Some(typeOfMember), wired).value.modifiers == [PrivateKeyword]
    ensures SerializedFieldFromName(e, memberName, fullMemberName, wired).value.modifiers == [PrivateKeyword]
  {
    PrivateOnly(e);
  }

  // -------------------------------------------------------- TestityClassBuilder

  /** A member the builder holds: a field, or a method with its body and an
      optional parameter list. */
  datatype Member =
    | Field(provider: MemberProvider)
    | Method(provider: MemberProvider, body: string, parameters: Option<string>)

  /** The builder's state: the class declaration being built, the member
      list, and whether a class base has been added. `baseTypes` records the
      type each entry of `baseList` was generated from. */
  datatype ClassBuilder = ClassBuilder(className: string, modifiers: seq<Keyword>, baseTypes: seq<ClrType>,
                                       baseList: seq<TypeSyntax>, attributes: seq<Attribute>,
                                       members: seq<Member>, hasBaseclass: bool)

  /** The number of class (not interface) bases. */
  function ClassBaseCount(bases: seq<ClrType>): nat
  {
    if |bases| == 0 then 0 else ClassBaseCount(bases[..|bases| - 1]) + (if IsClass(bases[|bases| - 1]) then 1 else 0)
  }

  /** The builder's invariant: one syntax per base type, at most one class
      base, and the flag set exactly when there is one. */
  predicate BuilderValid(b: ClassBuilder)
  {
    |b.baseTypes| == |b.baseList| && ClassBaseCount(b.baseTypes) <= 1 &&
    (b.hasBaseclass <==> ClassBaseCount(b.baseTypes) == 1)
  }

  /** The constructor with a name only. */
  function NewClassBuilder(className: string): (b: ClassBuilder)
    ensures BuilderValid(b) && b.className == className && b.members == [] && b.baseList == [] && b.modifiers == []
  {
    ClassBuilder(className, [], [], [], [], [], false)
  }

  /** The constructor with modifiers: their keywords become the class
      modifiers; an unconvertible flag throws. */
  function NewClassBuilderWithModifiers(e: ModifierEnum, className: string, modifiers: bv32): (r: Result<ClassBuilder, Exception>)
    ensures r.Ok? <==> ToSyntaxKind(e, modifiers).Ok?
    ensures r.Ok? ==> BuilderValid(r.value) && r.value.members == [] && r.value.baseList == [] &&
                      r.value.modifiers == ToSyntaxKind(e, modifiers).value
  {
    var keywords := ToSyntaxKind(e, modifiers);
    if keywords.Err? then Err(keywords.error)
    else Ok(ClassBuilder(className, keywords.value, [], [], [], [], false))
  }

  /** AddBaseClass: a type that is neither class nor interface throws
      InvalidOperationException, and so does a second class base; otherwise
      the syntax the given ITypeSyntaxBuilder `gen` makes of the type is
      appended to the base list and the flag records a class (TestityTypes'
      GenerateFrom is the repository's builder; a null builder is one that
      throws NullReferenceException). A failed call leaves the builder as it
      was. */
  function AddBaseClass(b: ClassBuilder, gen: ClrType -> Result<TypeSyntax, Exception>, classType: ClrType): (r: Result<ClassBuilder, Exception>)
    ensures !IsClass(classType) && !IsInterface(classType) ==> r == Err(InvalidOperation)
    ensures b.hasBaseclass && IsClass(classType) ==> r == Err(InvalidOperation)
    ensures (IsInterface(classType) || (IsClass(classType) && !b.hasBaseclass)) ==>
              (r.Ok? <==> gen(classType).Ok?) && (r.Err? ==> r == Err(gen(classType).error))
    ensures r.Ok? ==> r.value.baseList == b.baseList + [gen(classType).value] &&
                      r.value.baseTypes == b.baseTypes + [classType] &&
                      r.value.hasBaseclass == (b.hasBaseclass || IsClass(classType)) &&
                      r.value.members == b.members && r.value.className == b.className &&
                      r.value.modifiers == b.modifiers && r.value.attributes == b.attributes
    ensures r.Ok? && BuilderValid(b) ==> BuilderValid(r.value)
  {
    if !IsClass(classType) && !IsInterface(classType) then Err(InvalidOperation)
    else if b.hasBaseclass && IsClass(classType) then Err(InvalidOperation)
    else
      var syntax := gen(classType);
      if syntax.Err? then Err(syntax.error)
      else
        var bases := b.baseTypes + [classType];
        assert bases[..|bases| - 1] == b.baseTypes;
        Ok(b.(baseTypes := bases, baseList := b.baseList + [syntax.value],
               hasBaseclass := b.hasBaseclass || IsClass(classType)))
  }

  /** Any run of AddBaseClass calls on a valid builder, keeping the
      successful ones, leaves at most one class base. */
  function AddBases(b: ClassBuilder, gen: ClrType -> Result<TypeSyntax, Exception>, types: seq<ClrType>): (r: ClassBuilder)
    requires BuilderValid(b)
    ensures BuilderValid(r)
    ensures ClassBaseCount(r.baseTypes) <= 1
    ensures r.members == b.members
    decreases |types|
  {
    if |types| == 0 then b
    else
      var step := AddBaseClass(b, gen, types[0]);
      AddBases(if step.Ok? then step.value else b, gen, types[1..])
  }

  /** Interfaces may come before or after the class base: an interface, the
      class, another interface all succeed, and a second class then
      throws. */
  lemma InterfacesAroundClassBase(b: ClassBuilder, gen: ClrType -> Result<TypeSyntax, Exception>, i1: ClrType, c: ClrType, i2: ClrType, c2: ClrType)
    requires BuilderValid(b) && !b.hasBaseclass
    requires IsInterface(i1) && IsInterface(i2) && IsClass(c) && IsClass(c2)
    requires gen(i1).Ok? && gen(c).Ok? && gen(i2).Ok?
    ensures var b1 := AddBaseClass(b, gen, i1);
            b1.Ok? && !b1.value.hasBaseclass &&
            var b2 := AddBaseClass(b1.value, gen, c);
            b2.Ok? && b2.value.hasBaseclass &&
            var b3 := AddBaseClass(b2.value, gen, i2);
            b3.Ok? && |b3.value.baseList| == |b.baseList| + 3 &&
            AddBaseClass(b3.value, gen, c2) == Err(InvalidOperation)
  {
  }

  /** AddClassField: appends one field built from the provider; a null
      provider is dereferenced and throws NullReferenceException. */
  function AddClassField(b: ClassBuilder, provider: Option<MemberProvider>): (r: Result<ClassBuilder, Exception>)
    ensures r.Err? <==> provider.None?
    ensures r.Err? ==> r.error == NullReference
    ensures r.Ok? ==> r.value.members == b.members + [Field(provider.value)] &&
                      r.value.(members := b.members) == b
  {
    if provider.None? then Err(NullReference)
    else Ok(b.(members := b.members + [Field(provider.value)]))
  }

  /** AddMemberMethod: a null implementation or body provider throws
      ArgumentNullException; the parameter provider is optional. Otherwise
      one method is appended. */
  function AddMemberMethod(b: ClassBuilder, implementation: Option<MemberProvider>, block: Option<string>,
                           parameters: Option<string>): (r: Result<ClassBuilder, Exception>)
    ensures r.Err? <==> implementation.None? || block.None?
    ensures r.Err? ==> r.error == ArgumentNull
    ensures r.Ok? ==> r.value.members == b.members + [Method(implementation.value, block.value, parameters)] &&
                      r.value.(members := b.members) == b
  {
    if implementation.None? then Err(ArgumentNull)
    else if block.None? then Err(ArgumentNull)
    else Ok(b.(members := b.members + [Method(implementation.value, block.value, parameters)]))
  }

  /** The compilation unit Compile formats: the class with its members. */
  datatype ClassDeclaration = ClassDeclaration(name: string, modifiers: seq<Keyword>, baseList: seq<TypeSyntax>,
                                               attributes: seq<Attribute>, members: seq<Member>)

  /** Compile: the class declaration with every member added, built from
      copies; the builder itself is returned unchanged, so compiling does
      not disturb later additions. */
  function Compile(b: ClassBuilder): (r: (ClassDeclaration, ClassBuilder))
    ensures r.1 == b
    ensures r.0.members == b.members && r.0.baseList == b.baseList && r.0.name == b.className
    ensures r.0.modifiers == b.modifiers && r.0.attributes == b.attributes
  {
    (ClassDeclaration(b.className, b.modifiers, b.baseList, b.attributes, b.members), b)
  }

  /** Adding a field after compiling compiles to one more member: the
      earlier compilation neither took nor left anything in the builder. */
  lemma CompileThenAdd(b: ClassBuilder, p: MemberProvider)
    ensures var (first, b') := Compile(b);
            var (second, _) := Compile(AddClassField(b', Some(p)).value);
            second.members == first.members + [Field(p)] && second.baseList == first.baseList
  {
  }

  /** AddParameterlessAttributeToClass<TAttributeType>: an attribute naming
      the attribute type's FullName is appended to the class, and nothing
      else changes. The generic constraints (a class with a parameterless
      constructor) mean that type is a closed class and has a FullName. */
  function AddParameterlessAttributeToClass(b: ClassBuilder, attributeType: ClrType): (r: ClassBuilder)
    requires IsClass(attributeType) && attributeType.fullName.Some?
    ensures r.attributes == b.attributes + [Named(attributeType.fullName.value)]
    ensures r.(attributes := b.attributes) == b
    ensures BuilderValid(b) ==> BuilderValid(r)
  {
    b.(attributes := b.attributes + [Named(attributeType.fullName.value)])
  }

  /** An attribute added to the class appears, last, on the compiled class;
      members and bases are untouched. */
  lemma AttributeCompiled(b: ClassBuilder, attributeType: ClrType)
    requires IsClass(attributeType) && attributeType.fullName.Some?
    ensures var (before, _) := Compile(b);
            var (after, _) := Compile(AddParameterlessAttributeToClass(b, attributeType));
            after.attributes == before.attributes + [Named(attributeType.fullName.value)] &&
            after.members == before.members && after.baseList == before.baseList
  {
  }
}

=== FILE: testity_mapping.dfy ===
/** The build process's type relational mappers: the Action-to-TestityEvent
    mapper with its event-name sanitiser, the last-chance interface mapper,
    and the chain that asks each mapper in turn. Each mapper answers a
    mapped type, null (`None`) for "not mine", or throws. */
module TestityMapping {
  import opened Wrappers
  import opened TestityTypes

  // --------------------------------------------------------- well-known types

  /** A digit character for 0..9. */
  function Digit(n: nat): char
    requires n < 10
  {
    ('0' as int + n) as char
  }

  /** An open generic definition `ns.name`n` with parameters named as the
      framework names them: "T" for one, "T1".."Tn" for several. */
  function GenericDefinition(ns: string, name: string, assembly: string, arity: nat): (d: ClrType)
    requires 1 <= arity < 10
    ensures IsGenericType(d) && GenericTypeDefinition(d) == d
    ensures |GenericArguments(d)| == arity
  {
    var parameters := seq(arity, i requires 0 <= i < arity =>
      ClrType(ns, if arity == 1 then "T" else "T" + [Digit(i + 1)], assembly, None, ParameterKind, NonGeneric));
    ClrType(ns, name + "`" + [Digit(arity)], assembly, Some(ns + "." + name + "`" + [Digit(arity)]),
            ClassKind, Definition(parameters))
  }

  const Action: ClrType := ClrType("System", "Action", "mscorlib", Some("System.Action"), ClassKind, NonGeneric)

  /** typeof(Action<>) .. typeof(Action<,,,>). */
  const ValidGenericActionTypes: seq<ClrType> :=
    [GenericDefinition("System", "Action", "mscorlib", 1), GenericDefinition("System", "Action", "mscorlib", 2),
     GenericDefinition("System", "Action", "mscorlib", 3), GenericDefinition("System", "Action", "mscorlib", 4)]

  const EventNamespace: string := "Testity.Unity3D.Events"
  const EventAssembly: string := "Testity.Unity3D.Events"

  const TestityEvent: ClrType :=
    ClrType(EventNamespace, "TestityEvent", EventAssembly, Some(EventNamespace + ".TestityEvent"), ClassKind, NonGeneric)

  /** typeof(TestityEvent<>) .. typeof(TestityEvent<,,,>). */
  function TestityEventDefinition(arity: nat): ClrType
    requires 1 <= arity <= 4
  {
    GenericDefinition(EventNamespace, "TestityEvent", EventAssembly, arity)
  }

  const MonoBehaviour: ClrType :=
    ClrType("UnityEngine", "MonoBehaviour", "UnityEngine", Some("UnityEngine.MonoBehaviour"), ClassKind, NonGeneric)

  /** Type.MakeGenericType: the definition closed over the arguments. The
      FullName follows the runtime's "def[[arg, assembly],...]" shape with
      short assembly names, and is null while an argument has none. */
  function MakeGenericType(def: ClrType, args: seq<ClrType>): (t: ClrType)
    ensures IsGenericType(t) && t.generic == Constructed(def, args) && GenericArguments(t) == args
  {
    var named := forall i :: 0 <= i < |args| ==> args[i].fullName.Some?;
    var fullName :=
      if def.fullName.Some? && named then
        Some(def.fullName.value + "[" +
             JoinCommas(seq(|args|, i requires 0 <= i < |args| && named =>
               "[" + args[i].fullName.value + ", " + args[i].assembly + "]")) + "]")
      else None;
    ClrType(def.ns, def.name, def.assembly, fullName, def.kind, Constructed(def, args))
  }

  /** A type whose generic structure is consistent: a constructed type has as
      many arguments as its definition has parameters. */
  predicate WellFormed(t: ClrType)
  {
    t.generic.Constructed? ==>
      t.generic.definition.generic.Definition? &&
      |t.generic.arguments| == |t.generic.definition.generic.parameters|
  }

  // --------------------------------------------------- ActionTypeRelationalMapper

  /** isActionType on a non-null type: Action itself, or a generic type whose
      definition is one of Action<> .. Action<,,,>. */
  predicate IsActionType(t: ClrType)
  {
    t == Action || (IsGenericType(t) && GenericTypeDefinition(t) in ValidGenericActionTypes)
  }

  /** isActionType as called: a null type is not Action, so the generic
      test dereferences it and throws NullReferenceException. */
  function IsActionTypeChecked(t: Option<ClrType>): (r: Result<bool, Exception>)
    ensures r.Err? <==> t.None?
    ensures r.Err? ==> r.error == NullReference
    ensures r.Ok? ==>
              (r.value <==>
                 (t.value == Action ||
                  exists n :: 1 <= n <= 4 && IsGenericType(t.value) &&
                              GenericTypeDefinition(t.value) == GenericDefinition("System", "Action", "mscorlib", n)))
  {
    if t.None? then Err(NullReference)
    else
      assert IsGenericType(t.value) && GenericTypeDefinition(t.value) in ValidGenericActionTypes ==>
        exists n :: 1 <= n <= 4 && GenericTypeDefinition(t.value) == GenericDefinition("System", "Action", "mscorlib", n);
      Ok(IsActionType(t.value))
  }

  /** isGenericActionType: an Action type that is generic. */
  function IsGenericActionType(t: Option<ClrType>): (r: Result<bool, Exception>)
    ensures r.Err? <==> t.None?
    ensures r.Err? ==> r.error == NullReference
    ensures r.Ok? ==> (r.value <==> IsActionTypeChecked(t) == Ok(true) && IsGenericType(t.value))
  {
    if t.None? then Err(NullReference) else Ok(IsActionType(t.value) && IsGenericType(t.value))
  }

  /** FindUnityEventTypeByArgCount: TestityEvent for no arguments, the
      TestityEvent definition of that arity for one to four, and an
      ArgumentException for any other count. */
  function FindUnityEventTypeByArgCount(argCount: int): (r: Result<ClrType, Exception>)
    ensures r.Ok? <==> 0 <= argCount <= 4
    ensures r.Err? ==> r.error == Argument
    ensures argCount == 0 ==> r == Ok(TestityEvent)
    ensures 1 <= argCount <= 4 ==> r == Ok(TestityEventDefinition(argCount))
    ensures r.Ok? ==> |GenericArguments(r.value)| == argCount
  {
    if argCount == 0 then Ok(TestityEvent)
    else if 1 <= argCount <= 4 then Ok(TestityEventDefinition(argCount))
    else Err(Argument)
  }

  /** FindValidUnityEventType: Action becomes TestityEvent; a generic
      Action becomes the TestityEvent of the same arity closed over the same
      arguments. */
  function FindValidUnityEventType(actionType: ClrType): (r: Result<Option<ClrType>, Exception>)
  {
    if actionType == Action then Ok(Some(TestityEvent))
    else if IsGenericType(actionType) then
      var genericArgs := GenericArguments(actionType);
      var unityEventType := FindUnityEventTypeByArgCount(|genericArgs|);
      if unityEventType.Err? then Err(unityEventType.error)
      else Ok(Some(MakeGenericType(unityEventType.value, genericArgs)))
    else Ok(None)
  }

  /** ResolveMappedType of the Action mapper: null for anything that is not
      an Action type; Action maps to TestityEvent, and a well-formed generic
      Action maps to the TestityEvent of the same arity with the same type
      arguments in the same order. */
  function ResolveAction(t: Option<ClrType>): (r: Result<Option<ClrType>, Exception>)
    ensures t.None? ==> r == Err(NullReference)
    ensures t.Some? && !IsActionType(t.value) ==> r == Ok(None)
    ensures t == Some(Action) ==> r == Ok(Some(TestityEvent))
    ensures t.Some? && WellFormed(t.value) ==> r.Ok?
    ensures t.Some? && IsActionType(t.value) && IsGenericType(t.value) && WellFormed(t.value) ==>
              var args := GenericArguments(t.value);
              1 <= |args| <= 4 && r.Ok? && r.value.Some? &&
              r.value.value.generic == Constructed(TestityEventDefinition(|args|), args)
  {
    if t.None? then Err(NullReference)
    else if !IsActionType(t.value) then Ok(None)
    else
      ActionArity(t.value);
      FindValidUnityEventType(t.value)
  }

  /** A well-formed generic Action type has one to four arguments. */
  lemma ActionArity(t: ClrType)
    requires IsActionType(t)
    ensures IsGenericType(t) && WellFormed(t) ==> 1 <= |GenericArguments(t)| <= 4
  {
    if IsGenericType(t) && WellFormed(t) {
      var d := GenericTypeDefinition(t);
      assert d in ValidGenericActionTypes;
      var n :| 1 <= n <= 4 && d == GenericDefinition("System", "Action", "mscorlib", n) by {
        assert d == ValidGenericActionTypes[0] || d == ValidGenericActionTypes[1] ||
               d == ValidGenericActionTypes[2] || d == ValidGenericActionTypes[3];
      }
      assert |GenericArguments(d)| == n;
    }
  }

  /** Action<int> maps to TestityEvent<int>; Action<,,,,> and Func<> are not
      Action types and map to null. */
  lemma ActionMapperExamples()
    ensures var int32 := ClrType("System", "Int32", "mscorlib", Some("System.Int32"), ValueKind, NonGeneric);
            var actionOfInt := MakeGenericType(ValidGenericActionTypes[0], [int32]);
            ResolveAction(Some(actionOfInt)) == Ok(Some(MakeGenericType(TestityEventDefinition(1), [int32])))
    ensures ResolveAction(Some(GenericDefinition("System", "Action", "mscorlib", 5))) == Ok(None)
    ensures ResolveAction(Some(GenericDefinition("System", "Func", "mscorlib", 1))) == Ok(None)
  {
    var a5 := GenericDefinition("System", "Action", "mscorlib", 5);
    assert forall k :: 0 <= k < 4 ==> |GenericArguments(ValidGenericActionTypes[k])| == k + 1;
    assert |GenericArguments(a5)| == 5;
    var f1 := GenericDefinition("System", "Func", "mscorlib", 1);
    assert f1.name[0] != ValidGenericActionTypes[0].name[0];
    assert forall d :: d in ValidGenericActionTypes ==> d.name[0] == 'A';
  }

  // ------------------------------------------------ shared generic event name

  /** The characters the name regex keeps: ASCII letters, digits, space and
      hyphen. */
  predicate Allowed(c: char)
  {
    ('a' <= c <= 'z') || ('A' <= c <= 'Z') || ('0' <= c <= '9') || c == ' ' || c == '-'
  }

  /** Regex.Replace with [^a-zA-Z0-9 -] and the empty string: every other
      character removed, the kept ones in order. */
  function Sanitize(s: string): (r: string)
    ensures |r| <= |s|
    ensures forall i :: 0 <= i < |r| ==> Allowed(r[i])
    ensures (forall i :: 0 <= i < |s| ==> Allowed(s[i])) ==> r == s
  {
    if |s| == 0 then ""
    else if Allowed(s[0]) then [s[0]] + Sanitize(s[1..])
    else Sanitize(s[1..])
  }

  /** Sanitising distributes over concatenation. */
  lemma {:induction false} SanitizeAppend(a: string, b: string)
    ensures Sanitize(a + b) == Sanitize(a) + Sanitize(b)
    decreases |a|
  {
    if |a| == 0 {
      assert a + b == b;
    } else {
      assert (a + b)[0] == a[0] && (a + b)[1..] == a[1..] + b;
      SanitizeAppend(a[1..], b);
    }
  }

  /** A character survives sanitising exactly when it is allowed and occurs
      in the input. */
  lemma {:induction false} SanitizeKeeps(s: string, c: char)
    ensures c in Sanitize(s) <==> c in s && Allowed(c)
    decreases |s|
  {
    if |s| > 0 {
      SanitizeKeeps(s[1..], c);
      assert s == [s[0]] + s[1..];
    }
  }

  /** Sanitising is idempotent. */
  lemma SanitizeIdempotent(s: string)
    ensures Sanitize(Sanitize(s)) == Sanitize(s)
  {
  }

  /** Aggregate("", (x, y) => x + y.FullName): a null FullName adds
      nothing. */
  function ConcatFullNames(types: seq<ClrType>): string
    decreases |types|
  {
    if |types| == 0 then "" else ConcatFullNames(types[..|types| - 1]) + types[|types| - 1].fullName.GetOr("")
  }

  const EventNamePrefix: string := "TestityEvent"

  /** GetSharedGenericEventTypeName: a null collection throws
      ArgumentNullException; otherwise "TestityEvent" followed by the
      arguments' FullNames, with every character outside [a-zA-Z0-9 -]
      removed. The name starts with "TestityEvent" and holds only allowed
      characters, so it is a valid type name. */
  function GetSharedGenericEventTypeName(genericTypeArgs: Option<seq<ClrType>>): (r: Result<string, Exception>)
    ensures r.Err? <==> genericTypeArgs.None?
    ensures r.Err? ==> r.error == ArgumentNull
    ensures r.Ok? ==> r.value == EventNamePrefix + Sanitize(ConcatFullNames(genericTypeArgs.value))
    ensures r.Ok? ==> EventNamePrefix <= r.value && forall i :: 0 <= i < |r.value| ==> Allowed(r.value[i])
  {
    if genericTypeArgs.None? then Err(ArgumentNull)
    else
      var joined := ConcatFullNames(genericTypeArgs.value);
      SanitizeAppend(EventNamePrefix, joined);
      PrefixSurvives();
      Ok(Sanitize(EventNamePrefix + joined))
  }

  /** "TestityEvent" is made of letters only. */
  lemma PrefixSurvives()
    ensures Sanitize(EventNamePrefix) == EventNamePrefix
  {
    assert EventNamePrefix == ['T', 'e', 's', 't', 'i', 't', 'y', 'E', 'v', 'e', 'n', 't'];
    forall i | 0 <= i < |EventNamePrefix|
      ensures Allowed(EventNamePrefix[i])
    {
    }
  }

  /** Two argument lists whose FullNames concatenate to the same text share
      one event name: the name depends on the text alone, which is what
      lets the tracker merge them. */
  lemma SharedNameDependsOnText(a: seq<ClrType>, b: seq<ClrType>)
    requires ConcatFullNames(a) == ConcatFullNames(b)
    ensures GetSharedGenericEventTypeName(Some(a)) == GetSharedGenericEventTypeName(Some(b))
  {
  }

  // -------------------------------------------------- DefaultTypeRelationalMapper

  /** The last-chance mapper: a null type throws ArgumentNullException, an
      interface maps to MonoBehaviour, anything else to null. */
  function ResolveDefault(t: Option<ClrType>): (r: Result<Option<ClrType>, Exception>)
    ensures r.Err? <==> t.None?
    ensures r.Err? ==> r.error == ArgumentNull
    ensures r.Ok? ==> (r.value.Some? <==> IsInterface(t.value))
    ensures r.Ok? ==> r.value == None || r.value == Some(MonoBehaviour)
  {
    if t.None? then Err(ArgumentNull)
    else if IsInterface(t.value) then Ok(Some(MonoBehaviour))
    else Ok(None)
  }

  // ------------------------------------------ UnityBuildProcessTypeRelationalMapper

  /** A mapper in the chain. The string, engine and primitive mappers are not
      part of this model; any such mapper is an arbitrary answer function. */
  datatype Mapper =
    | ActionMapper
    | DefaultMapper
    | OtherMapper(resolve: Option<ClrType> -> Result<Option<ClrType>, Exception>)

  function Resolve(m: Mapper, t: Option<ClrType>): Result<Option<ClrType>, Exception>
  {
    match m
    case ActionMapper => ResolveAction(t)
    case DefaultMapper => ResolveDefault(t)
    case OtherMapper(f) => f(t)
  }

  datatype MapperChain = MapperChain(chain: seq<Mapper>)

  /** The constructor: a null chain throws ArgumentNullException, an empty
      one ArgumentException. */
  function NewMapperChain(mapperChain: Option<seq<Mapper>>): (r: Result<MapperChain, Exception>)
    ensures r.Ok? <==> mapperChain.Some? && |mapperChain.value| > 0
    ensures mapperChain.None? ==> r == Err(ArgumentNull)
    ensures mapperChain == Some([]) ==> r == Err(Argument)
    ensures r.Ok? ==> r.value.chain == mapperChain.value
  {
    if mapperChain.None? then Err(ArgumentNull)
    else if |mapperChain.value| == 0 then Err(Argument)
    else Ok(MapperChain(mapperChain.value))
  }

  /** Asks the mappers from index `i` on, in order. */
  function ResolveFrom(chain: seq<Mapper>, t: ClrType, i: nat): (r: Result<ClrType, Exception>)
    requires i <= |chain|
    ensures r.Ok? ==> exists k :: i <= k < |chain| && Resolve(chain[k], Some(t)) == Ok(Some(r.value)) &&
                                  forall j :: i <= j < k ==> Resolve(chain[j], Some(t)) == Ok(None)
    ensures (forall j :: i <= j < |chain| ==> Resolve(chain[j], Some(t)) == Ok(None)) ==> r == Err(Argument)
    ensures forall k :: i <= k < |chain| && Resolve(chain[k], Some(t)).Err? &&
                        (forall j :: i <= j < k ==> Resolve(chain[j], Some(t)) == Ok(None)) ==>
                          r == Err(Resolve(chain[k], Some(t)).error)
    ensures forall k :: i <= k < |chain| && Resolve(chain[k], Some(t)).Ok? && Resolve(chain[k], Some(t)).value.Some? &&
                        (forall j :: i <= j < k ==> Resolve(chain[j], Some(t)) == Ok(None)) ==>
                          r == Ok(Resolve(chain[k], Some(t)).value.value)
    decreases |chain| - i
  {
    if i == |chain| then Err(Argument)
    else
      var answer := Resolve(chain[i], Some(t));
      if answer.Err? then Err(answer.error)
      else if answer.value.Some? then Ok(answer.value.value)
      else ResolveFrom(chain, t, i + 1)
  }

  /** ResolveMappedType of the chain: a null type throws
      ArgumentNullException; otherwise the answer of the first mapper that
      does not answer null, later mappers never consulted, an exception of a
      mapper passed on, and ArgumentException when every mapper answers
      null. It never answers null itself. */
  function ResolveChain(c: MapperChain, t: Option<ClrType>): (r: Result<ClrType, Exception>)
    ensures t.None? ==> r == Err(ArgumentNull)
    ensures t.Some? ==> r == ResolveFrom(c.chain, t.value, 0)
  {
    if t.None? then Err(ArgumentNull) else ResolveFrom(c.chain, t.value, 0)
  }

  /** The chain's answer only depends on the mappers up to the first one
      that answers: appending mappers after it changes nothing. */
  lemma {:induction false} LaterMappersIgnored(chain: seq<Mapper>, more: seq<Mapper>, t: ClrType, i: nat)
    requires i <= |chain|
    requires ResolveFrom(chain, t, i).Ok?
    ensures ResolveFrom(chain + more, t, i) == ResolveFrom(chain, t, i)
    decreases |chain| - i
  {
    assert (chain + more)[i] == chain[i];
    var answer := Resolve(chain[i], Some(t));
    if answer.Ok? && answer.value.None? {
      LaterMappersIgnored(chain, more, t, i + 1);
    }
  }

  /** The chain of the action and the default mapper: Action<int> maps to
      TestityEvent<int>, an interface to MonoBehaviour, and a plain class
      (System.String) to an ArgumentException. */
  lemma ActionThenDefaultChain()
    ensures var c := MapperChain([ActionMapper, DefaultMapper]);
            var iface := ClrType("System", "IServiceProvider", "mscorlib", Some("System.IServiceProvider"),
                                 InterfaceKind, NonGeneric);
            var int32 := ClrType("System", "Int32", "mscorlib", Some("System.Int32"), ValueKind, NonGeneric);
            var str := ClrType("System", "String", "mscorlib", Some("System.String"), ClassKind, NonGeneric);
            ResolveChain(c, Some(MakeGenericType(ValidGenericActionTypes[0], [int32]))) ==
              Ok(MakeGenericType(TestityEventDefinition(1), [int32])) &&
            ResolveChain(c, Some(iface)) == Ok(MonoBehaviour) &&
            ResolveChain(c, Some(str)) == Err(Argument)
  {
    ActionMapperExamples();
  }
}

=== FILE: testity_math.dfy ===
/** Testity's generic engine math: MathT and the Vector3<T> and Vector2<T>
    structs. The element type's arithmetic, which the C# code reaches through
    MiscUtil's Operator<T>, is an `Ops` value: `Int32Ops` is C#'s unchecked
    `int`, `RealOps` stands for `float` and `double` computed exactly. Element
    equality is identity, as `T.Equals` is for every element type used. */
module TestityMath {
  import opened Wrappers

  const TwoTo32: int := 0x1_0000_0000

  predicate IsInt32(n: int) { -0x8000_0000 <= n < 0x8000_0000 }

  /** An unchecked C# `int` result: the 32-bit value congruent to `n`. */
  function Wrap32(n: int): (r: int)
    ensures IsInt32(r) && (r - n) % TwoTo32 == 0
    ensures IsInt32(n) ==> r == n
  {
    (n + 0x8000_0000) % TwoTo32 - 0x8000_0000
  }

  /** Only one 32-bit value is congruent to `n`, so Wrap32 is determined by
      the two properties its contract states. */
  lemma WrapUnique(n: int, r: int)
    requires IsInt32(r) && (r - n) % TwoTo32 == 0
    ensures r == Wrap32(n)
  {
    var w := Wrap32(n);
    var d := w - r;
    assert d % TwoTo32 == 0 by {
      assert (w - n) % TwoTo32 == 0;
      assert d == (w - n) - (r - n);
    }
    assert -TwoTo32 < d < TwoTo32;
  }

  /** Congruent arguments wrap to the same value. */
  lemma WrapCongruent(m: int, n: int)
    requires (m - n) % TwoTo32 == 0
    ensures Wrap32(m) == Wrap32(n)
  {
    var w := Wrap32(m);
    assert (w - n) % TwoTo32 == 0 by {
      assert (w - m) % TwoTo32 == 0;
      assert w - n == (w - m) + (m - n);
    }
    WrapUnique(n, w);
  }

  /** Wrapping an operand first changes nothing: C#'s unchecked `+` on
      already-wrapped values is wrap-around of the exact sum. */
  lemma WrapAdd(a: int, b: int)
    ensures Wrap32(Wrap32(a) + b) == Wrap32(a + b)
    ensures Wrap32(a + Wrap32(b)) == Wrap32(a + b)
  {
    WrapCongruent(Wrap32(a) + b, a + b);
    WrapCongruent(a + Wrap32(b), a + b);
  }

  /** Unchecked `int` addition is associative. */
  lemma WrapAddAssoc(a: int, b: int, c: int)
    ensures Wrap32(Wrap32(a + b) + c) == Wrap32(a + Wrap32(b + c))
  {
    WrapAdd(a + b, c);
    WrapAdd(a, b + c);
  }

  /** The arithmetic MiscUtil's Operator<T> supplies for one element type. */
  datatype Ops<!T> = Ops(
    add: (T, T) -> T,
    subtract: (T, T) -> T,
    multiply: (T, T) -> T,
    negate: T -> T,
    greaterThanOrEqual: (T, T) -> bool,
    lessThanOrEqual: (T, T) -> bool,
    zero: T,
    one: T)

  /** C# `int`: every arithmetic result wraps to 32 bits. */
  const Int32Ops: Ops<int> := Ops(
    (a, b) => Wrap32(a + b),
    (a, b) => Wrap32(a - b),
    (a, b) => Wrap32(a * b),
    a => Wrap32(-a),
    (a: int, b: int) => a >= b,
    (a: int, b: int) => a <= b,
    0,
    1)

  /** C# `float` and `double`, computed exactly. */
  const RealOps: Ops<real> := Ops(
    (a, b) => a + b,
    (a, b) => a - b,
    (a, b) => a * b,
    a => -a,
    (a: real, b: real) => a >= b,
    (a: real, b: real) => a <= b,
    0.0,
    1.0)

  // ---------------------------------------------------------------- MathT

  /** MathT.Max: the first argument unless the comparison says it is below
      the second. */
  function Max<T>(ops: Ops<T>, val1: T, val2: T): (r: T)
    ensures r == val1 || r == val2
  {
    if ops.greaterThanOrEqual(val1, val2) then val1 else val2
  }

  /** MathT.Min: the first argument unless the comparison says it is above
      the second. */
  function Min<T>(ops: Ops<T>, val1: T, val2: T): (r: T)
    ensures r == val1 || r == val2
  {
    if ops.lessThanOrEqual(val1, val2) then val1 else val2
  }

  /** On `int`, Max is an upper and Min a lower bound of both arguments, each
      one of them, and a tie returns the first argument. */
  lemma IntMaxMin(a: int, b: int)
    ensures Max(Int32Ops, a, b) >= a && Max(Int32Ops, a, b) >= b
    ensures Min(Int32Ops, a, b) <= a && Min(Int32Ops, a, b) <= b
    ensures Max(Int32Ops, a, b) == (if a >= b then a else b)
    ensures Min(Int32Ops, a, b) == (if a <= b then a else b)
  {
  }

  /** The same on `float`/`double` read as exact reals. */
  lemma RealMaxMin(a: real, b: real)
    ensures Max(RealOps, a, b) >= a && Max(RealOps, a, b) >= b
    ensures Min(RealOps, a, b) <= a && Min(RealOps, a, b) <= b
    ensures Max(RealOps, a, b) == (if a >= b then a else b)
    ensures Min(RealOps, a, b) == (if a <= b then a else b)
  {
  }

  // -------------------------------------------------------------- Vector3

  datatype Vector3<T> = Vector3(x: T, y: T, z: T)

  /** The two-argument constructor: z is zero. */
  function Vector3XY<T>(ops: Ops<T>, x: T, y: T): (v: Vector3<T>)
    ensures Get3(v, 0) == Ok(x) && Get3(v, 1) == Ok(y) && Get3(v, 2) == Ok(ops.zero)
  {
    Vector3(x, y, ops.zero)
  }

  /** The indexer's getter: 0, 1 and 2 name x, y and z; any other index
      throws IndexOutOfRangeException. */
  function Get3<T>(v: Vector3<T>, index: int): (r: Result<T, Exception>)
    ensures r.Ok? <==> 0 <= index < 3
    ensures r.Err? ==> r.error == IndexOutOfRange
    ensures r.Ok? ==> r.value == [v.x, v.y, v.z][index]
  {
    match index
    case 0 => Ok(v.x)
    case 1 => Ok(v.y)
    case 2 => Ok(v.z)
    case _ => Err(IndexOutOfRange)
  }

  /** The indexer's setter on a copy of the struct: reading back the
      addressed component gives the value, every other index reads as before;
      an index outside 0..2 throws. */
  function Set3<T>(v: Vector3<T>, index: int, value: T): (r: Result<Vector3<T>, Exception>)
    ensures r.Ok? <==> 0 <= index < 3
    ensures r.Err? ==> r.error == IndexOutOfRange
    ensures r.Ok? ==> Get3(r.value, index) == Ok(value)
    ensures r.Ok? ==> forall j :: j != index ==> Get3(r.value, j) == Get3(v, j)
  {
    match index
    case 0 => Ok(v.(x := value))
    case 1 => Ok(v.(y := value))
    case 2 => Ok(v.(z := value))
    case _ => Err(IndexOutOfRange)
  }

  /** Two vectors that read the same at every index are the same vector. */
  lemma Get3Extensional<T>(a: Vector3<T>, b: Vector3<T>)
    requires forall i :: 0 <= i < 3 ==> Get3(a, i) == Get3(b, i)
    ensures a == b
  {
    assert Get3(a, 0) == Get3(b, 0);
    assert Get3(a, 1) == Get3(b, 1);
    assert Get3(a, 2) == Get3(b, 2);
  }

  /** Writing a component and then writing back what was there restores the
      vector. */
  lemma Set3RoundTrip<T>(v: Vector3<T>, index: int, value: T)
    requires 0 <= index < 3
    ensures Set3(v, index, value).Ok?
    ensures Set3(Set3(v, index, value).value, index, Get3(v, index).value) == Ok(v)
  {
    var w := Set3(Set3(v, index, value).value, index, Get3(v, index).value).value;
    forall i | 0 <= i < 3
      ensures Get3(w, i) == Get3(v, i)
    {
    }
    Get3Extensional(w, v);
  }

  /** Set(new_x, new_y, new_z) overwrites all three components. */
  function SetAll3<T>(v: Vector3<T>, newX: T, newY: T, newZ: T): (r: Vector3<T>)
    ensures forall i :: 0 <= i < 3 ==> Get3(r, i) == Ok([newX, newY, newZ][i])
  {
    Vector3(newX, newY, newZ)
  }

  /** The struct's Equals(Vector3): x, then y, then z. */
  function Equals3<T(==)>(a: Vector3<T>, other: Vector3<T>): (r: bool)
    ensures r <==> a == other
  {
    if a.x != other.x || a.y != other.y then false else a.z == other.z
  }

  /** The boxed argument of Equals(object): a Vector3 of the same element
      type, or anything else. */
  datatype Boxed<T> = BoxedVector3(vector: Vector3<T>) | BoxedOther

  /** Equals(object): false for anything that is not a Vector3, otherwise
      the component-wise Equals. */
  function EqualsObject3<T(==)>(a: Vector3<T>, other: Boxed<T>): (r: bool)
    ensures r <==> other.BoxedVector3? && other.vector == a
  {
    match other
    case BoxedVector3(v) => Equals3(a, v)
    case BoxedOther => false
  }

  /** The loop of operator ==, from index `i` on: every remaining index reads
      the same on both sides. */
  function EqualFrom3<T(==)>(lhs: Vector3<T>, rhs: Vector3<T>, i: nat): (r: bool)
    requires i <= 3
    ensures r <==> forall j :: i <= j < 3 ==> Get3(lhs, j) == Get3(rhs, j)
    decreases 3 - i
  {
    if i == 3 then true
    else if Get3(lhs, i).value != Get3(rhs, i).value then false
    else EqualFrom3(lhs, rhs, i + 1)
  }

  /** operator ==: the index loop over 0..2. */
  function OpEquals3<T(==)>(lhs: Vector3<T>, rhs: Vector3<T>): (r: bool)
  {
    EqualFrom3(lhs, rhs, 0)
  }

  /** operator !=: the negation of ==. */
  function OpNotEquals3<T(==)>(lhs: Vector3<T>, rhs: Vector3<T>): (r: bool)
  {
    !OpEquals3(lhs, rhs)
  }

  /** operator ==, Equals and value identity agree, and != is the exact
      complement; so == is reflexive and symmetric. */
  lemma Equality3<T>(a: Vector3<T>, b: Vector3<T>)
    ensures OpEquals3(a, b) <==> Equals3(a, b)
    ensures OpEquals3(a, b) <==> a == b
    ensures OpNotEquals3(a, b) <==> !OpEquals3(a, b)
    ensures OpEquals3(a, a) && OpEquals3(a, b) == OpEquals3(b, a)
  {
    if OpEquals3(a, b) {
      Get3Extensional(a, b);
    }
  }

  /** operator + : component-wise Operator.Add. */
  function Add3<T>(ops: Ops<T>, a: Vector3<T>, b: Vector3<T>): (r: Vector3<T>)
  {
    Vector3(ops.add(a.x, b.x), ops.add(a.y, b.y), ops.add(a.z, b.z))
  }

  /** Binary operator - : component-wise Operator.Subtract. */
  function Sub3<T>(ops: Ops<T>, a: Vector3<T>, b: Vector3<T>): (r: Vector3<T>)
  {
    Vector3(ops.subtract(a.x, b.x), ops.subtract(a.y, b.y), ops.subtract(a.z, b.z))
  }

  /** Unary operator - : component-wise Operator.Negate. */
  function Neg3<T>(ops: Ops<T>, a: Vector3<T>): (r: Vector3<T>)
  {
    Vector3(ops.negate(a.x), ops.negate(a.y), ops.negate(a.z))
  }

  /** operator *(vector, scalar). */
  function MulScalar3<T>(ops: Ops<T>, a: Vector3<T>, d: T): (r: Vector3<T>)
  {
    Vector3(ops.multiply(a.x, d), ops.multiply(a.y, d), ops.multiply(a.z, d))
  }

  /** operator *(scalar, vector): the same products, vector component first;
      every index reads the product of that component and the scalar. */
  function ScalarMul3<T>(ops: Ops<T>, d: T, a: Vector3<T>): (r: Vector3<T>)
    ensures forall i :: 0 <= i < 3 ==> Get3(r, i) == Ok(ops.multiply(Get3(a, i).value, d))
    ensures r == MulScalar3(ops, a, d)
  {
    Vector3(ops.multiply(a.x, d), ops.multiply(a.y, d), ops.multiply(a.z, d))
  }

  /** Over the reals, scaling by 1 is the identity, scaling distributes over
      vector addition, and scaling twice scales by the product. */
  lemma ScalarMulReal3(d: real, e: real, a: Vector3<real>, b: Vector3<real>)
    ensures ScalarMul3(RealOps, 1.0, a) == a
    ensures ScalarMul3(RealOps, d, Add3(RealOps, a, b)) == Add3(RealOps, ScalarMul3(RealOps, d, a), ScalarMul3(RealOps, d, b))
    ensures ScalarMul3(RealOps, d, ScalarMul3(RealOps, e, a)) == ScalarMul3(RealOps, e * d, a)
  {
    var m := RealOps.multiply;
    var ad := RealOps.add;
    assert m(a.x, 1.0) == a.x;
    assert m(a.y, 1.0) == a.y;
    assert m(a.z, 1.0) == a.z;
    assert m(ad(a.x, b.x), d) == ad(m(a.x, d), m(b.x, d));
    assert m(ad(a.y, b.y), d) == ad(m(a.y, d), m(b.y, d));
    assert m(ad(a.z, b.z), d) == ad(m(a.z, d), m(b.z, d));
    RealScaleTwice(a.x, e, d);
    RealScaleTwice(a.y, e, d);
    RealScaleTwice(a.z, e, d);
  }

  /** Multiplying by e and then by d is multiplying by their product. */
  lemma RealScaleTwice(x: real, e: real, d: real)
    ensures RealOps.multiply(RealOps.multiply(x, e), d) == RealOps.multiply(x, e * d)
  {
    assert x * e * d == x * (e * d);
  }

  /** Over `int`, scaling by 1 leaves a vector of 32-bit values unchanged,
      and scaling by 0 gives the zero vector. */
  lemma ScalarMulInt3(v: Vector3<int>)
    requires IsInt32(v.x) && IsInt32(v.y) && IsInt32(v.z)
    ensures ScalarMul3(Int32Ops, 1, v) == v
    ensures ScalarMul3(Int32Ops, 0, v) == Vector3(0, 0, 0)
  {
  }

  /** Vector3.Max: the component-wise MathT.Max. */
  function Max3<T>(ops: Ops<T>, lhs: Vector3<T>, rhs: Vector3<T>): (r: Vector3<T>)
    ensures forall i :: 0 <= i < 3 ==>
              Get3(r, i).value == Max(ops, Get3(lhs, i).value, Get3(rhs, i).value)
  {
    Vector3(Max(ops, lhs.x, rhs.x), Max(ops, lhs.y, rhs.y), Max(ops, lhs.z, rhs.z))
  }

  /** Vector3.Min: the component-wise MathT.Min. */
  function Min3<T>(ops: Ops<T>, lhs: Vector3<T>, rhs: Vector3<T>): (r: Vector3<T>)
    ensures forall i :: 0 <= i < 3 ==>
              Get3(r, i).value == Min(ops, Get3(lhs, i).value, Get3(rhs, i).value)
  {
    Vector3(Min(ops, lhs.x, rhs.x), Min(ops, lhs.y, rhs.y), Min(ops, lhs.z, rhs.z))
  }

  predicate Int32Vector3(v: Vector3<int>) { IsInt32(v.x) && IsInt32(v.y) && IsInt32(v.z) }

  /** On `int` vectors, the Max vector bounds both arguments from above and
      the Min vector from below, component by component. */
  lemma IntVectorMaxMin(a: Vector3<int>, b: Vector3<int>)
    ensures forall i :: 0 <= i < 3 ==>
              Get3(a, i).value <= Get3(Max3(Int32Ops, a, b), i).value &&
              Get3(b, i).value <= Get3(Max3(Int32Ops, a, b), i).value
    ensures forall i :: 0 <= i < 3 ==>
              Get3(Min3(Int32Ops, a, b), i).value <= Get3(a, i).value &&
              Get3(Min3(Int32Ops, a, b), i).value <= Get3(b, i).value
  {
    IntMaxMin(a.x, b.x);
    IntMaxMin(a.y, b.y);
    IntMaxMin(a.z, b.z);
  }

  /** One `int` component: + commutes and associates. */
  lemma IntElementAdd(p: int, q: int, u: int)
    ensures Int32Ops.add(p, q) == Int32Ops.add(q, p) == Wrap32(p + q)
    ensures Int32Ops.add(Int32Ops.add(p, q), u) == Int32Ops.add(p, Int32Ops.add(q, u))
  {
    WrapAddAssoc(p, q, u);
  }

  /** One `int` component: - is + of the negation. */
  lemma IntElementSub(p: int, q: int)
    ensures Int32Ops.subtract(p, q) == Int32Ops.add(p, Int32Ops.negate(q))
  {
    WrapAdd(p, -q);
  }

  /** One `int` component: negation is an involution on 32-bit values. */
  lemma IntElementNeg(p: int)
    requires IsInt32(p)
    ensures Int32Ops.negate(Int32Ops.negate(p)) == p
  {
    WrapCongruent(-Wrap32(-p), p);
  }

  /** `int` vector addition wraps each component and is commutative and
      associative despite the wrap-around. */
  lemma IntAdd3(a: Vector3<int>, b: Vector3<int>, c: Vector3<int>)
    ensures Add3(Int32Ops, a, b) == Add3(Int32Ops, b, a)
    ensures Add3(Int32Ops, a, b) ==
              Vector3(Wrap32(a.x + b.x), Wrap32(a.y + b.y), Wrap32(a.z + b.z))
    ensures Add3(Int32Ops, Add3(Int32Ops, a, b), c) == Add3(Int32Ops, a, Add3(Int32Ops, b, c))
  {
    IntElementAdd(a.x, b.x, c.x);
    IntElementAdd(a.y, b.y, c.y);
    IntElementAdd(a.z, b.z, c.z);
  }

  /** On `int` vectors, a - b is a + (-b), even where -b wraps (the
      component int.MinValue is its own negation). */
  lemma IntSubIsAddNeg(a: Vector3<int>, b: Vector3<int>)
    ensures Sub3(Int32Ops, a, b) == Add3(Int32Ops, a, Neg3(Int32Ops, b))
  {
    IntElementSub(a.x, b.x);
    IntElementSub(a.y, b.y);
    IntElementSub(a.z, b.z);
  }

  /** Negating an `int` vector twice gives it back; -int.MinValue wraps to
      itself, so this holds for every 32-bit vector. */
  lemma IntNegInvolution(a: Vector3<int>)
    requires Int32Vector3(a)
    ensures Neg3(Int32Ops, Neg3(Int32Ops, a)) == a
  {
    IntElementNeg(a.x);
    IntElementNeg(a.y);
    IntElementNeg(a.z);
  }

  /** On exact reals, + commutes, - is + of the negation, and negation is an
      involution. */
  lemma RealVectorAlgebra(a: Vector3<real>, b: Vector3<real>)
    ensures Add3(RealOps, a, b) == Add3(RealOps, b, a)
    ensures Sub3(RealOps, a, b) == Add3(RealOps, a, Neg3(RealOps, b))
    ensures Neg3(RealOps, Neg3(RealOps, a)) == a
  {
  }

  /** back, down, forward, left, one, right, up and zero, built from the
      element type's 0 and 1. */
  function Back<T>(ops: Ops<T>): Vector3<T> { Vector3(ops.zero, ops.zero, ops.subtract(ops.zero, ops.one)) }
  function Down<T>(ops: Ops<T>): Vector3<T> { Vector3(ops.zero, ops.subtract(ops.zero, ops.one), ops.zero) }
  function Forward<T>(ops: Ops<T>): Vector3<T> { Vector3(ops.zero, ops.zero, ops.one) }
  function Left<T>(ops: Ops<T>): Vector3<T> { Vector3(ops.subtract(ops.zero, ops.one), ops.zero, ops.zero) }
  function One3<T>(ops: Ops<T>): Vector3<T> { Vector3(ops.one, ops.one, ops.one) }
  function Right<T>(ops: Ops<T>): Vector3<T> { Vector3(ops.one, ops.zero, ops.zero) }
  function Up<T>(ops: Ops<T>): Vector3<T> { Vector3(ops.zero, ops.one, ops.zero) }
  function Zero3<T>(ops: Ops<T>): Vector3<T> { Vector3(ops.zero, ops.zero, ops.zero) }

  /** For `int` the direction constants are the signed unit axes: right, up
      and forward read 1 at their own index and 0 elsewhere, and left, down
      and back are their negations. */
  lemma IntDirections()
    ensures forall i :: 0 <= i < 3 ==>
              Get3(Right(Int32Ops), i) == Ok(if i == 0 then 1 else 0) &&
              Get3(Up(Int32Ops), i) == Ok(if i == 1 then 1 else 0) &&
              Get3(Forward(Int32Ops), i) == Ok(if i == 2 then 1 else 0)
    ensures Left(Int32Ops) == Neg3(Int32Ops, Right(Int32Ops)) == Vector3(-1, 0, 0)
    ensures Down(Int32Ops) == Neg3(Int32Ops, Up(Int32Ops)) == Vector3(0, -1, 0)
    ensures Back(Int32Ops) == Neg3(Int32Ops, Forward(Int32Ops)) == Vector3(0, 0, -1)
    ensures One3(Int32Ops) == Vector3(1, 1, 1) && Zero3(Int32Ops) == Vector3(0, 0, 0)
    ensures Add3(Int32Ops, Add3(Int32Ops, Right(Int32Ops), Up(Int32Ops)), Forward(Int32Ops)) == One3(Int32Ops)
  {
  }

  // -------------------------------------------------------------- Vector2

  datatype Vector2<T> = Vector2(x: T, y: T)

  /** The one-argument constructor: y is zero. */
  function Vector2X<T>(ops: Ops<T>, x: T): (v: Vector2<T>)
    ensures Get2(v, 0) == Ok(x) && Get2(v, 1) == Ok(ops.zero)
  {
    Vector2(x, ops.zero)
  }

  /** The indexer's getter: 0 and 1 name x and y; anything else throws. */
  function Get2<T>(v: Vector2<T>, index: int): (r: Result<T, Exception>)
    ensures r.Ok? <==> 0 <= index < 2
    ensures r.Err? ==> r.error == IndexOutOfRange
    ensures r.Ok? ==> r.value == [v.x, v.y][index]
  {
    match index
    case 0 => Ok(v.x)
    case 1 => Ok(v.y)
    case _ => Err(IndexOutOfRange)
  }

  /** The indexer's setter: only the addressed component changes. */
  function Set2<T>(v: Vector2<T>, index: int, value: T): (r: Result<Vector2<T>, Exception>)
    ensures r.Ok? <==> 0 <= index < 2
    ensures r.Err? ==> r.error == IndexOutOfRange
    ensures r.Ok? ==> Get2(r.value, index) == Ok(value)
    ensures r.Ok? ==> forall j :: j != index ==> Get2(r.value, j) == Get2(v, j)
  {
    match index
    case 0 => Ok(v.(x := value))
    case 1 => Ok(v.(y := value))
    case _ => Err(IndexOutOfRange)
  }

  /** Equals(Vector2): both components. */
  function Equals2<T(==)>(a: Vector2<T>, other: Vector2<T>): (r: bool)
    ensures r <==> a == other
  {
    a.x == other.x && a.y == other.y
  }

  /** The loop of operator ==, from index `i` on. */
  function EqualFrom2<T(==)>(lhs: Vector2<T>, rhs: Vector2<T>, i: nat): (r: bool)
    requires i <= 2
    ensures r <==> forall j :: i <= j < 2 ==> Get2(lhs, j) == Get2(rhs, j)
    decreases 2 - i
  {
    if i == 2 then true
    else if Get2(lhs, i).value != Get2(rhs, i).value then false
    else EqualFrom2(lhs, rhs, i + 1)
  }

  function OpEquals2<T(==)>(lhs: Vector2<T>, rhs: Vector2<T>): bool
  {
    EqualFrom2(lhs, rhs, 0)
  }

  function OpNotEquals2<T(==)>(lhs: Vector2<T>, rhs: Vector2<T>): bool
  {
    !OpEquals2(lhs, rhs)
  }

  /** operator ==, Equals and value identity agree; != is the complement. */
  lemma Equality2<T>(a: Vector2<T>, b: Vector2<T>)
    ensures OpEquals2(a, b) <==> Equals2(a, b)
    ensures OpEquals2(a, b) <==> a == b
    ensures OpNotEquals2(a, b) <==> !OpEquals2(a, b)
    ensures OpEquals2(a, a)
  {
    if OpEquals2(a, b) {
      assert Get2(a, 0) == Get2(b, 0) && Get2(a, 1) == Get2(b, 1);
    }
  }

  function Add2<T>(ops: Ops<T>, a: Vector2<T>, b: Vector2<T>): Vector2<T>
  {
    Vector2(ops.add(a.x, b.x), ops.add(a.y, b.y))
  }

  function Sub2<T>(ops: Ops<T>, a: Vector2<T>, b: Vector2<T>): Vector2<T>
  {
    Vector2(ops.subtract(a.x, b.x), ops.subtract(a.y, b.y))
  }

  function Neg2<T>(ops: Ops<T>, a: Vector2<T>): Vector2<T>
  {
    Vector2(ops.negate(a.x), ops.negate(a.y))
  }

  function MulScalar2<T>(ops: Ops<T>, a: Vector2<T>, d: T): Vector2<T>
  {
    Vector2(ops.multiply(a.x, d), ops.multiply(a.y, d))
  }

  function ScalarMul2<T>(ops: Ops<T>, d: T, a: Vector2<T>): (r: Vector2<T>)
    ensures forall i :: 0 <= i < 2 ==> Get2(r, i) == Ok(ops.multiply(Get2(a, i).value, d))
    ensures r == MulScalar2(ops, a, d)
  {
    Vector2(ops.multiply(a.x, d), ops.multiply(a.y, d))
  }

  /** The 2-D form of ScalarMulReal3. */
  lemma ScalarMulReal2(d: real, e: real, a: Vector2<real>, b: Vector2<real>)
    ensures ScalarMul2(RealOps, 1.0, a) == a
    ensures ScalarMul2(RealOps, d, Add2(RealOps, a, b)) == Add2(RealOps, ScalarMul2(RealOps, d, a), ScalarMul2(RealOps, d, b))
    ensures ScalarMul2(RealOps, d, ScalarMul2(RealOps, e, a)) == ScalarMul2(RealOps, e * d, a)
  {
    var m := RealOps.multiply;
    var ad := RealOps.add;
    assert m(a.x, 1.0) == a.x;
    assert m(a.y, 1.0) == a.y;
    assert m(ad(a.x, b.x), d) == ad(m(a.x, d), m(b.x, d));
    assert m(ad(a.y, b.y), d) == ad(m(a.y, d), m(b.y, d));
    RealScaleTwice(a.x, e, d);
    RealScaleTwice(a.y, e, d);
  }

  /** The 2-D form of ScalarMulInt3. */
  lemma ScalarMulInt2(v: Vector2<int>)
    requires IsInt32(v.x) && IsInt32(v.y)
    ensures ScalarMul2(Int32Ops, 1, v) == v
    ensures ScalarMul2(Int32Ops, 0, v) == Vector2(0, 0)
  {
  }

  function Max2<T>(ops: Ops<T>, lhs: Vector2<T>, rhs: Vector2<T>): (r: Vector2<T>)
    ensures forall i :: 0 <= i < 2 ==>
              Get2(r, i).value == Max(ops, Get2(lhs, i).value, Get2(rhs, i).value)
  {
    Vector2(Max(ops, lhs.x, rhs.x), Max(ops, lhs.y, rhs.y))
  }

  function Min2<T>(ops: Ops<T>, lhs: Vector2<T>, rhs: Vector2<T>): (r: Vector2<T>)
    ensures forall i :: 0 <= i < 2 ==>
              Get2(r, i).value == Min(ops, Get2(lhs, i).value, Get2(rhs, i).value)
  {
    Vector2(Min(ops, lhs.x, rhs.x), Min(ops, lhs.y, rhs.y))
  }

  /** On `int` vectors, + and - act on each component with wrap-around, - is
      + of the negation, and subtracting a vector from itself gives zero. */
  lemma IntVector2Algebra(a: Vector2<int>, b: Vector2<int>)
    ensures Add2(Int32Ops, a, b) == Add2(Int32Ops, b, a) == Vector2(Wrap32(a.x + b.x), Wrap32(a.y + b.y))
    ensures Sub2(Int32Ops, a, b) == Add2(Int32Ops, a, Neg2(Int32Ops, b))
    ensures Sub2(Int32Ops, a, a) == Vector2(0, 0)
  {
    IntElementAdd(a.x, b.x, 0);
    IntElementAdd(a.y, b.y, 0);
    IntElementSub(a.x, b.x);
    IntElementSub(a.y, b.y);
  }

  function Down2<T>(ops: Ops<T>): Vector2<T> { Vector2(ops.zero, ops.subtract(ops.zero, ops.one)) }
  function Left2<T>(ops: Ops<T>): Vector2<T> { Vector2(ops.subtract(ops.zero, ops.one), ops.zero) }
  function One2<T>(ops: Ops<T>): Vector2<T> { Vector2(ops.one, ops.one) }
  function Right2<T>(ops: Ops<T>): Vector2<T> { Vector2(ops.one, ops.zero) }
  function Up2<T>(ops: Ops<T>): Vector2<T> { Vector2(ops.zero, ops.one) }
  function Zero2<T>(ops: Ops<T>): Vector2<T> { Vector2(ops.zero, ops.zero) }

  /** The Vector2 constants for `int`: left and down are the negations of
      right and up. */
  lemma IntDirections2()
    ensures Left2(Int32Ops) == Neg2(Int32Ops, Right2(Int32Ops)) == Vector2(-1, 0)
    ensures Down2(Int32Ops) == Neg2(Int32Ops, Up2(Int32Ops)) == Vector2(0, -1)
    ensures Add2(Int32Ops, Right2(Int32Ops), Up2(Int32Ops)) == One2(Int32Ops)
    ensures Zero2(Int32Ops) == Vector2(0, 0)
  {
  }
}

=== FILE: testity_quaternion.dfy ===
/** Testity's generic Quaternion<T> struct: its indexer, the xyz view,
    constructors, Set, identity, Equals and the dot-product operators. The
    operators exist only for `float` and `double` (the dot product they call
    is defined for those two), so they are modelled on exact reals. */
module TestityQuaternion {
  import opened Wrappers
  import opened TestityMath

  datatype Quaternion<T> = Quaternion(x: T, y: T, z: T, w: T)

  /** The indexer's getter: 0..3 name x, y, z and w; anything else throws
      IndexOutOfRangeException. */
  function Get4<T>(q: Quaternion<T>, index: int): (r: Result<T, Exception>)
    ensures r.Ok? <==> 0 <= index < 4
    ensures r.Err? ==> r.error == IndexOutOfRange
    ensures r.Ok? ==> r.value == [q.x, q.y, q.z, q.w][index]
  {
    match index
    case 0 => Ok(q.x)
    case 1 => Ok(q.y)
    case 2 => Ok(q.z)
    case 3 => Ok(q.w)
    case _ => Err(IndexOutOfRange)
  }

  /** The indexer's setter on a copy: reading back the addressed component
      gives the value and every other index reads as before. */
  function Set4<T>(q: Quaternion<T>, index: int, value: T): (r: Result<Quaternion<T>, Exception>)
    ensures r.Ok? <==> 0 <= index < 4
    ensures r.Err? ==> r.error == IndexOutOfRange
    ensures r.Ok? ==> Get4(r.value, index) == Ok(value)
    ensures r.Ok? ==> forall j :: j != index ==> Get4(r.value, j) == Get4(q, j)
  {
    match index
    case 0 => Ok(q.(x := value))
    case 1 => Ok(q.(y := value))
    case 2 => Ok(q.(z := value))
    case 3 => Ok(q.(w := value))
    case _ => Err(IndexOutOfRange)
  }

  /** Two quaternions that read the same at every index are equal. */
  lemma Get4Extensional<T>(a: Quaternion<T>, b: Quaternion<T>)
    requires forall i :: 0 <= i < 4 ==> Get4(a, i) == Get4(b, i)
    ensures a == b
  {
    assert Get4(a, 0) == Get4(b, 0) && Get4(a, 1) == Get4(b, 1);
    assert Get4(a, 2) == Get4(b, 2) && Get4(a, 3) == Get4(b, 3);
  }

  /** The getter of xyz: the first three indexer components. */
  function Xyz<T>(q: Quaternion<T>): (v: Vector3<T>)
    ensures forall i :: 0 <= i < 3 ==> Get3(v, i) == Get4(q, i)
  {
    Vector3(q.x, q.y, q.z)
  }

  /** The setter of xyz: the first three components come from `v`, w stays. */
  function SetXyz<T>(q: Quaternion<T>, v: Vector3<T>): (r: Quaternion<T>)
    ensures forall i :: 0 <= i < 3 ==> Get4(r, i) == Get3(v, i)
    ensures Get4(r, 3) == Get4(q, 3)
  {
    q.(x := v.x, y := v.y, z := v.z)
  }

  /** Setting xyz and reading it back gives the vector, w unchanged; setting
      xyz to what it reads changes nothing. */
  lemma XyzRoundTrip<T>(q: Quaternion<T>, v: Vector3<T>)
    ensures Xyz(SetXyz(q, v)) == v && SetXyz(q, v).w == q.w
    ensures SetXyz(q, Xyz(q)) == q
  {
    var r := SetXyz(q, v);
    forall i | 0 <= i < 3
      ensures Get3(Xyz(r), i) == Get3(v, i)
    {
    }
    Get3Extensional(Xyz(r), v);
    assert Get4(r, 3) == Get4(q, 3);
  }

  /** The (v, w) constructor: the xyz part is `v`, the last component `w`. */
  function FromVector<T>(v: Vector3<T>, w: T): (q: Quaternion<T>)
    ensures Xyz(q) == v && Get4(q, 3) == Ok(w)
  {
    Quaternion(v.x, v.y, v.z, w)
  }

  /** The (v, w) constructor agrees with the four-component one. */
  lemma FromVectorComponents<T>(v: Vector3<T>, w: T)
    ensures FromVector(v, w) == Quaternion(Get3(v, 0).value, Get3(v, 1).value, Get3(v, 2).value, w)
  {
  }

  /** Set(new_x, new_y, new_z, new_w) overwrites all four components. */
  function SetAll4<T>(q: Quaternion<T>, newX: T, newY: T, newZ: T, newW: T): (r: Quaternion<T>)
    ensures forall i :: 0 <= i < 4 ==> Get4(r, i) == Ok([newX, newY, newZ, newW][i])
  {
    Quaternion(newX, newY, newZ, newW)
  }

  /** identity: no rotation, (0, 0, 0, 1) in the element type. */
  function Identity<T>(ops: Ops<T>): (q: Quaternion<T>)
    ensures Xyz(q) == Zero3(ops) && Get4(q, 3) == Ok(ops.one)
  {
    Quaternion(ops.zero, ops.zero, ops.zero, ops.one)
  }

  /** The boxed argument of Equals(object). */
  datatype BoxedQuaternion<T> = BoxedQuat(quaternion: Quaternion<T>) | BoxedOther

  /** Equals(object): false for anything that is not a Quaternion, otherwise
      x, y, z, then w compared by Equals. */
  function EqualsObject4<T(==)>(a: Quaternion<T>, other: BoxedQuaternion<T>): (r: bool)
    ensures r <==> other.BoxedQuat? && other.quaternion == a
  {
    match other
    case BoxedQuat(q) =>
      if a.x != q.x || a.y != q.y || a.z != q.z then false else a.w == q.w
    case BoxedOther => false
  }

  /** The DotRef product the operators call. */
  function Dot4(a: Quaternion<real>, b: Quaternion<real>): real
  {
    a.x * b.x + a.y * b.y + a.z * b.z + a.w * b.w
  }

  /** 0.999999f, the float nearest 0.999999: 16777199 * 2^-24. */
  const DotCompare: real := 16777199.0 / 16777216.0

  /** operator ==: the dot product exceeds 0.999999f. */
  function OpEquals4(lhs: Quaternion<real>, rhs: Quaternion<real>): bool
  {
    Dot4(lhs, rhs) > DotCompare
  }

  /** operator !=: the dot product does not exceed 0.999999f. */
  function OpNotEquals4(lhs: Quaternion<real>, rhs: Quaternion<real>): bool
  {
    Dot4(lhs, rhs) <= DotCompare
  }

  /** On exact reals != is the exact complement of ==, and both are
      symmetric. */
  lemma QuaternionOperators(a: Quaternion<real>, b: Quaternion<real>)
    ensures OpNotEquals4(a, b) <==> !OpEquals4(a, b)
    ensures OpEquals4(a, b) == OpEquals4(b, a)
  {
  }

  /** A unit quaternion is == to itself, identity among them. */
  lemma UnitEqualsItself(q: Quaternion<real>)
    requires Dot4(q, q) == 1.0
    ensures OpEquals4(q, q)
    ensures OpEquals4(Identity(RealOps), Identity(RealOps))
  {
  }

  /** operator == is not Equals: the zero quaternion Equals itself but is
      not == to itself, and (0, 0, 0, 2) is == to identity without being
      Equal to it. */
  lemma OperatorIsNotEquals()
    ensures var z := Quaternion(0.0, 0.0, 0.0, 0.0);
            EqualsObject4(z, BoxedQuat(z)) && !OpEquals4(z, z)
    ensures var d := Quaternion(0.0, 0.0, 0.0, 2.0);
            OpEquals4(d, Identity(RealOps)) && !EqualsObject4(d, BoxedQuat(Identity(RealOps)))
  {
  }
}

=== FILE: testity_services.dfy ===
/** Testity's engine-object reference dictionary and the build process's
    generic-event tracker: two small keyed stores with register/remove rules.
    A `None` argument stands for a null reference. */
module TestityServices {
  import opened Wrappers

  // ------------------------------------------- EngineObjectReferenceDictionary

  /** The dictionary from engine-object adapters to the engine's own objects.
      Keys compare with the dictionary's equality comparer, modelled as
      equality of `K`. */
  datatype ReferenceDictionary<K(==), V> = ReferenceDictionary(entries: map<K, V>)

  function EmptyDictionary<K(==), V>(): (d: ReferenceDictionary<K, V>)
    ensures |d.entries| == 0
  {
    ReferenceDictionary(map[])
  }

  /** Register: a null key or a null reference throws ArgumentNullException;
      otherwise the pair is added unless the key is already present, an
      existing mapping is never overwritten, and the answer is always true. */
  function Register<K(==), V>(d: ReferenceDictionary<K, V>, key: Option<K>, reference: Option<V>)
    : (r: Result<(ReferenceDictionary<K, V>, bool), Exception>)
    ensures r.Err? <==> key.None? || reference.None?
    ensures r.Err? ==> r.error == ArgumentNull
    ensures r.Ok? ==> r.value.1
    ensures r.Ok? ==> r.value.0.entries.Keys == d.entries.Keys + {key.value}
    ensures r.Ok? ==> forall k :: k in d.entries ==> r.value.0.entries[k] == d.entries[k]
    ensures r.Ok? && key.value !in d.entries ==> r.value.0.entries[key.value] == reference.value
  {
    if key.None? then Err(ArgumentNull)
    else if reference.None? then Err(ArgumentNull)
    else if key.value !in d.entries then Ok((ReferenceDictionary(d.entries[key.value := reference.value]), true))
    else Ok((d, true))
  }

  /** TryLookup: the stored reference for a present key, null for an absent
      one; a null key throws ArgumentNullException from the key test. */
  function TryLookup<K(==), V>(d: ReferenceDictionary<K, V>, key: Option<K>): (r: Result<Option<V>, Exception>)
    ensures r.Err? <==> key.None?
    ensures r.Err? ==> r.error == ArgumentNull
    ensures r.Ok? ==> (r.value.Some? <==> key.value in d.entries)
    ensures r.Ok? && r.value.Some? ==> r.value.value == d.entries[key.value]
  {
    if key.None? then Err(ArgumentNull)
    else if key.value in d.entries then Ok(Some(d.entries[key.value]))
    else Ok(None)
  }

  /** The UnregistrationResult: success flag and the removed reference. */
  datatype Unregistration<V> = Unregistration(success: bool, value: Option<V>)

  /** TryUnregister: a present key is removed and its reference handed back
      with success; an absent key gives failure and null and changes
      nothing; a null key throws ArgumentNullException. */
  function TryUnregister<K(==), V>(d: ReferenceDictionary<K, V>, key: Option<K>)
    : (r: Result<(ReferenceDictionary<K, V>, Unregistration<V>), Exception>)
    ensures r.Err? <==> key.None?
    ensures r.Err? ==> r.error == ArgumentNull
    ensures r.Ok? ==> (r.value.1.success <==> key.value in d.entries)
    ensures r.Ok? && key.value in d.entries ==> r.value.1.value == Some(d.entries[key.value])
    ensures r.Ok? && key.value !in d.entries ==> r.value.1.value == None && r.value.0 == d
    ensures r.Ok? ==> r.value.0.entries.Keys == d.entries.Keys - {key.value}
    ensures r.Ok? ==> forall k :: k in r.value.0.entries ==> r.value.0.entries[k] == d.entries[k]
  {
    if key.None? then Err(ArgumentNull)
    else if key.value in d.entries then
      Ok((ReferenceDictionary(d.entries - {key.value}), Unregistration(true, Some(d.entries[key.value]))))
    else Ok((d, Unregistration(false, None)))
  }

  /** Register and then look up: a fresh key finds its reference, a taken
      key still finds the first one. */
  lemma RegisterThenLookup<K, V>(d: ReferenceDictionary<K, V>, key: K, reference: V)
    ensures var d' := Register(d, Some(key), Some(reference)).value.0;
            TryLookup(d', Some(key)) == Ok(Some(if key in d.entries then d.entries[key] else reference))
  {
  }

  /** Registering a fresh key and unregistering it hands the reference back
      and restores the dictionary; a second unregistration then fails. */
  lemma RegisterUnregisterRoundTrip<K, V>(d: ReferenceDictionary<K, V>, key: K, reference: V)
    requires key !in d.entries
    ensures var d1 := Register(d, Some(key), Some(reference)).value.0;
            var u1 := TryUnregister(d1, Some(key)).value;
            var u2 := TryUnregister(u1.0, Some(key)).value;
            u1.0 == d && u1.1 == Unregistration(true, Some(reference)) &&
            u2.0 == d && u2.1 == Unregistration(false, None)
  {
    var d1 := Register(d, Some(key), Some(reference)).value.0;
    assert d1.entries - {key} == d.entries;
  }

  // ------------------------------------------------ TestityGenericEventTracker

  /** The tracker: generic event names registered since the last drain with
      their type arguments, and the names already handed out. */
  datatype EventTracker<A> = EventTracker(pending: map<string, A>, handled: set<string>)

  /** No name is both waiting and already handed out. */
  predicate TrackerValid<A>(t: EventTracker<A>)
  {
    t.pending.Keys !! t.handled
  }

  function NewTracker<A>(): (t: EventTracker<A>)
    ensures TrackerValid(t) && |t.pending| == 0 && |t.handled| == 0
  {
    EventTracker(map[], {})
  }

  /** Register: a name already pending or already handled is ignored,
      anything else is recorded with its arguments; a null name throws
      ArgumentNullException from the key test. The invariant is kept. */
  function TrackerRegister<A>(t: EventTracker<A>, key: Option<string>, args: A): (r: Result<EventTracker<A>, Exception>)
    ensures r.Err? <==> key.None?
    ensures r.Err? ==> r.error == ArgumentNull
    ensures r.Ok? && (key.value in t.pending || key.value in t.handled) ==> r.value == t
    ensures r.Ok? && key.value !in t.pending && key.value !in t.handled ==>
              r.value.handled == t.handled && r.value.pending.Keys == t.pending.Keys + {key.value} &&
              r.value.pending[key.value] == args &&
              forall k :: k in t.pending ==> r.value.pending[k] == t.pending[k]
    ensures r.Ok? && TrackerValid(t) ==> TrackerValid(r.value)
  {
    if key.None? then Err(ArgumentNull)
    else if key.value in t.pending || key.value in t.handled then Ok(t)
    else Ok(t.(pending := t.pending[key.value := args]))
  }

  /** GetAdditionsAndClear: the snapshot of the pending entries is returned,
      its names join the handled set, and nothing stays pending. Adding a
      name that is already handled would throw ArgumentException; on a valid
      tracker that never happens. */
  function GetAdditionsAndClear<A>(t: EventTracker<A>): (r: Result<(EventTracker<A>, map<string, A>), Exception>)
    ensures r.Err? <==> !TrackerValid(t)
    ensures r.Err? ==> r.error == Argument
    ensures r.Ok? ==> r.value.1 == t.pending
    ensures r.Ok? ==> |r.value.0.pending| == 0 && r.value.0.handled == t.handled + t.pending.Keys
    ensures r.Ok? ==> TrackerValid(r.value.0)
  {
    if !(t.pending.Keys !! t.handled) then Err(Argument)
    else Ok((EventTracker(map[], t.handled + t.pending.Keys), t.pending))
  }

  /** One call on the tracker, as the build steps make them. */
  datatype TrackerCall<A> = RegisterCall(key: string, args: A) | DrainCall

  /** Runs the calls in order from a valid tracker, collecting the snapshot
      each drain returns. */
  function RunTracker<A>(t: EventTracker<A>, calls: seq<TrackerCall<A>>): (r: (EventTracker<A>, seq<map<string, A>>))
    requires TrackerValid(t)
    ensures TrackerValid(r.0)
    ensures t.handled <= r.0.handled
    decreases |calls|
  {
    if |calls| == 0 then (t, [])
    else match calls[0]
      case RegisterCall(k, a) => RunTracker(TrackerRegister(t, Some(k), a).value, calls[1..])
      case DrainCall =>
        var (t', snapshot) := GetAdditionsAndClear(t).value;
        var (t'', rest) := RunTracker(t', calls[1..]);
        (t'', [snapshot] + rest)
  }

  /** The snapshots hand out pairwise distinct names, none of them in
      `before` and all of them in `after`. */
  predicate HandedOutOnce<A>(before: set<string>, after: set<string>, snaps: seq<map<string, A>>)
  {
    (forall i :: 0 <= i < |snaps| ==> snaps[i].Keys !! before && snaps[i].Keys <= after) &&
    (forall i, j :: 0 <= i < j < |snaps| ==> snaps[i].Keys !! snaps[j].Keys)
  }

  /** Over the tracker's lifetime no name is handed out twice: the
      snapshots are pairwise disjoint, none repeats a name handled before the
      run, and every name handed out ends up handled. */
  lemma {:induction false} EachNameHandedOutOnce<A>(t: EventTracker<A>, calls: seq<TrackerCall<A>>)
    requires TrackerValid(t)
    ensures HandedOutOnce(t.handled, RunTracker(t, calls).0.handled, RunTracker(t, calls).1)
    decreases |calls|
  {
    if |calls| > 0 {
      match calls[0]
      case RegisterCall(k, a) =>
        var t1 := TrackerRegister(t, Some(k), a).value;
        assert t1.handled == t.handled;
        assert RunTracker(t, calls) == RunTracker(t1, calls[1..]);
        EachNameHandedOutOnce(t1, calls[1..]);
      case DrainCall =>
        var (t1, snapshot) := GetAdditionsAndClear(t).value;
        EachNameHandedOutOnce(t1, calls[1..]);
        var r := RunTracker(t1, calls[1..]);
        assert RunTracker(t, calls) == (r.0, [snapshot] + r.1);
        HandedOutCons(t.handled, t1.handled, r.0.handled, snapshot, r.1);
    }
  }

  /** A drain's snapshot in front of the later ones: it is disjoint from the
      names handled before it and contained in those handled after it. */
  lemma HandedOutCons<A>(before: set<string>, mid: set<string>, after: set<string>,
                         snapshot: map<string, A>, rest: seq<map<string, A>>)
    requires snapshot.Keys !! before && before <= mid && snapshot.Keys <= mid && mid <= after
    requires HandedOutOnce(mid, after, rest)
    ensures HandedOutOnce(before, after, [snapshot] + rest)
  {
    var snaps := [snapshot] + rest;
    forall i, j | 0 <= i < j < |snaps|
      ensures snaps[i].Keys !! snaps[j].Keys
    {
      assert snaps[j] == rest[j - 1];
      if i > 0 {
        assert snaps[i] == rest[i - 1];
      }
    }
    forall i | 0 <= i < |snaps|
      ensures snaps[i].Keys !! before && snaps[i].Keys <= after
    {
      if i > 0 {
        assert snaps[i] == rest[i - 1];
      }
    }
  }

  /** A name registered on a fresh tracker is handed out by the next drain,
      and registering it again afterwards does nothing. */
  lemma RegisterDrainRegister<A>(key: string, a: A, b: A)
    ensures var t1 := TrackerRegister(NewTracker(), Some(key), a).value;
            var (t2, snapshot) := GetAdditionsAndClear(t1).value;
            snapshot == map[key := a] && TrackerRegister(t2, Some(key), b) == Ok(t2)
  {
  }
}

=== FILE: testity_types.dfy ===
/** A small model of .NET reflection types as the Testity build process sees
    them, the type-name syntax the default type syntax builder generates, and
    the loadable type string the serialized-field provider writes into the
    wired-to attribute. */
module TestityTypes {
  import opened Wrappers

  /** What a type is: a class (delegates included), an interface, a value
      type or a generic parameter. */
  datatype TypeKind = ClassKind | InterfaceKind | ValueKind | ParameterKind

  /** A non-generic type, an open generic definition with its parameters, or
      a constructed generic type with its definition and arguments. */
  datatype Genericity =
    | NonGeneric
    | Definition(parameters: seq<ClrType>)
    | Constructed(definition: ClrType, arguments: seq<ClrType>)

  /** A runtime type. `fullName` is the reflection FullName, null for generic
      parameters and for partly open constructed types; `ns` is the
      Namespace ("" for the global one) and `assembly` the assembly's short
      name. */
  datatype ClrType = ClrType(ns: string, name: string, assembly: string, fullName: Option<string>,
                             kind: TypeKind, generic: Genericity)

  predicate IsClass(t: ClrType) { t.kind == ClassKind }
  predicate IsInterface(t: ClrType) { t.kind == InterfaceKind }
  predicate IsGenericType(t: ClrType) { !t.generic.NonGeneric? }

  /** GetGenericTypeDefinition: an open definition is its own definition. */
  function GenericTypeDefinition(t: ClrType): (d: ClrType)
    requires IsGenericType(t)
    ensures t.generic.Definition? ==> d == t
    ensures t.generic.Constructed? ==> d == t.generic.definition
  {
    if t.generic.Definition? then t else t.generic.definition
  }

  /** GetGenericArguments: the parameters of a definition, the arguments of a
      constructed type, none for a non-generic type. */
  function GenericArguments(t: ClrType): (args: seq<ClrType>)
    ensures !IsGenericType(t) ==> args == []
    ensures forall i :: 0 <= i < |args| ==> args[i] < t
  {
    match t.generic
    case NonGeneric => []
    case Definition(ps) => ps
    case Constructed(_, args) => args
  }

  // ------------------------------------------------------------ string helpers

  /** String.IndexOf(char): the first position of `c`, or -1. */
  function IndexOf(s: string, c: char): (r: int)
    ensures -1 <= r < |s|
    ensures r == -1 <==> c !in s
    ensures r >= 0 ==> s[r] == c && c !in s[..r]
  {
    if |s| == 0 then -1
    else if s[0] == c then 0
    else
      var k := IndexOf(s[1..], c);
      if k == -1 then
        assert s == [s[0]] + s[1..];
        -1
      else
        assert s[..k + 1] == [s[0]] + s[1..][..k];
        k + 1
  }

  /** String.Replace(char, char). */
  function ReplaceChar(s: string, from: char, to: char): (r: string)
    ensures |r| == |s|
    ensures forall i :: 0 <= i < |s| ==> r[i] == if s[i] == from then to else s[i]
  {
    seq(|s|, i requires 0 <= i < |s| => if s[i] == from then to else s[i])
  }

  // ---------------------------------------------------- DefaultTypeSyntaxBuilder

  /** The Roslyn type syntax the builder produces: a generic name with type
      arguments, or a name parsed from text. */
  datatype TypeSyntax = GenericName(identifier: string, arguments: seq<TypeSyntax>) | ParsedName(text: string)

  /** Collects a sequence of results: all values if every one succeeded,
      otherwise the first failure. */
  function Collect<T>(rs: seq<Result<T, Exception>>): (r: Result<seq<T>, Exception>)
    ensures r.Ok? <==> forall i :: 0 <= i < |rs| ==> rs[i].Ok?
    ensures r.Ok? ==> |r.value| == |rs| && forall i :: 0 <= i < |rs| ==> r.value[i] == rs[i].value
    ensures r.Err? ==> exists i :: 0 <= i < |rs| && rs[i] == Err(r.error) && forall j :: 0 <= j < i ==> rs[j].Ok?
  {
    if |rs| == 0 then Ok([])
    else if rs[0].Err? then Err(rs[0].error)
    else
      var rest := Collect(rs[1..]);
      if rest.Err? then
        ghost var i :| 0 <= i < |rs[1..]| && rs[1..][i] == Err(rest.error) && forall j :: 0 <= j < i ==> rs[1..][j].Ok?;
        assert rs[i + 1] == Err(rest.error);
        Err(rest.error)
      else Ok([rs[0].value] + rest.value)
  }

  /** GenerateFrom(Type): a generic type becomes a generic name, the
      definition's FullName cut before its first '`', with one syntax per
      type argument in order; any other type is its FullName with '+' (the
      nested-type separator) replaced by '.'. A null FullName throws
      NullReferenceException, a definition name without '`' makes Remove
      throw ArgumentOutOfRangeException. */
  function GenerateFrom(t: ClrType): (r: Result<TypeSyntax, Exception>)
    ensures !IsGenericType(t) ==>
              (r.Ok? <==> t.fullName.Some?) &&
              (r.Ok? ==> r.value == ParsedName(ReplaceChar(t.fullName.value, '+', '.')))
    ensures r.Ok? && IsGenericType(t) ==>
              var def := GenericTypeDefinition(t).fullName;
              def.Some? && '`' in def.value && r.value.GenericName? &&
              r.value.identifier == def.value[..IndexOf(def.value, '`')] && '`' !in r.value.identifier &&
              GenerateFromList(GenericArguments(t)) == Ok(r.value.arguments)
    decreases t
  {
    if IsGenericType(t) then
      var def := GenericTypeDefinition(t);
      var args := GenericArguments(t);
      var syntaxes := Collect(seq(|args|, i requires 0 <= i < |args| => GenerateFrom(args[i])));
      if syntaxes.Err? then Err(syntaxes.error)
      else if def.fullName.None? then Err(NullReference)
      else
        var cut := IndexOf(def.fullName.value, '`');
        if cut < 0 then Err(ArgumentOutOfRange)
        else Ok(GenericName(def.fullName.value[..cut], syntaxes.value))
    else if t.fullName.None? then Err(NullReference)
    else Ok(ParsedName(ReplaceChar(t.fullName.value, '+', '.')))
  }

  /** GenerateFrom(IEnumerable<Type>): one syntax per type, in order. */
  function GenerateFromList(types: seq<ClrType>): (r: Result<seq<TypeSyntax>, Exception>)
    ensures r.Ok? <==> forall i :: 0 <= i < |types| ==> GenerateFrom(types[i]).Ok?
    ensures r.Ok? ==> |r.value| == |types|
    ensures r.Ok? ==> forall i :: 0 <= i < |types| ==> r.value[i] == GenerateFrom(types[i]).value
  {
    var rs := seq(|types|, i requires 0 <= i < |types| => GenerateFrom(types[i]));
    assert forall i :: 0 <= i < |types| ==> rs[i] == GenerateFrom(types[i]);
    Collect(rs)
  }

  /** A type argument that cannot be named makes the whole generic name fail
      with the same exception. */
  lemma GenericArgumentFailurePropagates(t: ClrType, i: int)
    requires IsGenericType(t) && 0 <= i < |GenericArguments(t)|
    requires GenerateFrom(GenericArguments(t)[i]).Err?
    ensures GenerateFrom(t).Err?
  {
    var args := GenericArguments(t);
    var rs := seq(|args|, k requires 0 <= k < |args| => GenerateFrom(args[k]));
    assert rs[i].Err?;
  }

  // ------------------------------------------- loadable type string (wired-to)

  /** The comma-separated join the generic argument list is meant to be. */
  function JoinCommas(parts: seq<string>): (r: string)
    decreases |parts|
  {
    if |parts| == 0 then ""
    else if |parts| == 1 then parts[0]
    else JoinCommas(parts[..|parts| - 1]) + "," + parts[|parts| - 1]
  }

  /** Each generic argument's loadable string wrapped in brackets. */
  function BracketedArguments(t: ClrType): (parts: seq<string>)
    ensures |parts| == |GenericArguments(t)|
    decreases t, 0
  {
    var args := GenericArguments(t);
    seq(|args|, i requires 0 <= i < |args| => "[" + LoadableName(args[i]) + "]")
  }

  /** The reference form of the loadable string: "{Namespace}.{Name},
      {assembly}", with "[{arg},{arg}...]" after the name for a generic
      type. The assembly carries no version or key. */
  function LoadableName(t: ClrType): string
    decreases t, 1
  {
    if IsGenericType(t) then t.ns + "." + t.name + "[" + JoinCommas(BracketedArguments(t)) + "], " + t.assembly
    else t.ns + "." + t.name + ", " + t.assembly
  }

  /** What the builder holds after `count` of the `n` arguments: their join,
      plus the comma the loop writes after every argument but the last. */
  function PartialJoin(parts: seq<string>, count: nat): string
    requires count <= |parts|
  {
    if count == 0 then "" else JoinCommas(parts[..count]) + (if count < |parts| then "," else "")
  }

  /** TypeToLoadableString as the source writes it: each argument appended
      in brackets, followed by a comma whenever `useCommaAfter <= count` and
      another argument follows. */
  method TypeToLoadableString(t: ClrType) returns (s: string)
    ensures s == LoadableName(t)
    decreases t
  {
    if IsGenericType(t) {
      var args := GenericArguments(t);
      var parts := BracketedArguments(t);
      var genericTypeArgBuilder := "";
      var count := 0;
      var useCommaAfter := 0;
      while count < |args|
        invariant 0 <= count <= |args|
        invariant genericTypeArgBuilder == PartialJoin(parts, count)
      {
        var inner := TypeToLoadableString(args[count]);
        var piece := "[" + inner + "]";
        assert piece == parts[count];
        var comma := if useCommaAfter <= count && count + 1 < |args| then "," else "";
        PartialJoinStep(parts, count);
        genericTypeArgBuilder := genericTypeArgBuilder + piece + comma;
        count := count + 1;
      }
      assert genericTypeArgBuilder == JoinCommas(parts) by {
        assert parts[..count] == parts;
      }
      s := t.ns + "." + t.name + "[" + genericTypeArgBuilder + "], " + t.assembly;
    } else {
      s := t.ns + "." + t.name + ", " + t.assembly;
    }
  }

  /** One more argument extends the partial join by that argument and, unless
      it is the last, a comma. */
  lemma PartialJoinStep(parts: seq<string>, count: nat)
    requires count < |parts|
    ensures PartialJoin(parts, count + 1) ==
              PartialJoin(parts, count) + parts[count] + (if count + 1 < |parts| then "," else "")
  {
    assert parts[..count + 1][..count] == parts[..count];
  }

  /** The number of occurrences of `c` in `s`. */
  function Occurrences(s: string, c: char): nat
  {
    if |s| == 0 then 0 else (if s[0] == c then 1 else 0) + Occurrences(s[1..], c)
  }

  lemma {:induction false} OccurrencesAppend(a: string, b: string, c: char)
    ensures Occurrences(a + b, c) == Occurrences(a, c) + Occurrences(b, c)
    decreases |a|
  {
    if |a| > 0 {
      assert (a + b)[1..] == a[1..] + b && (a + b)[0] == a[0];
      OccurrencesAppend(a[1..], b, c);
    } else {
      assert a + b == b;
    }
  }

  /** The occurrences of `c` over all the parts. */
  function TotalOccurrences(parts: seq<string>, c: char): nat
    decreases |parts|
  {
    if |parts| == 0 then 0 else TotalOccurrences(parts[..|parts| - 1], c) + Occurrences(parts[|parts| - 1], c)
  }

  /** Joining n >= 1 parts adds exactly n - 1 commas to those the parts
      already hold: one between neighbours, none trailing. */
  lemma {:induction false} JoinAddsSeparators(parts: seq<string>)
    requires |parts| >= 1
    ensures Occurrences(JoinCommas(parts), ',') == TotalOccurrences(parts, ',') + |parts| - 1
    decreases |parts|
  {
    if |parts| == 1 {
      assert parts[..0] == [];
    } else {
      var init := parts[..|parts| - 1];
      var last := parts[|parts| - 1];
      JoinAddsSeparators(init);
      OccurrencesAppend(JoinCommas(init) + ",", last, ',');
      OccurrencesAppend(JoinCommas(init), ",", ',');
      assert Occurrences(",", ',') == 1 by {
        assert ","[1..] == "";
      }
    }
  }

  /** The generic loadable string: the bracketed arguments of a type with n
      arguments are separated by exactly n - 1 commas. */
  lemma LoadableArgumentCommas(t: ClrType)
    requires IsGenericType(t) && |GenericArguments(t)| >= 1
    ensures var parts := BracketedArguments(t);
            Occurrences(JoinCommas(parts), ',') == TotalOccurrences(parts, ',') + |GenericArguments(t)| - 1
  {
    JoinAddsSeparators(BracketedArguments(t));
  }
}

=== FILE: testity_vector_ext.dfy ===
/** Testity's Vector3Extensions: the type-specific products, reflections and
    magnitude operations. `float` and `double` are exact reals; the square
    root is an argument `mag` with `mag * mag == SqrMagnitude(v)`. `int`
    arithmetic wraps to 32 bits; the `byte` and `char` overloads compute in
    `int` and cast the result down. */
module TestityVectorExtensions {
  import opened TestityMath
  import Geometry

  newtype Byte = b: int | 0 <= b < 0x100
  newtype Char16 = c: int | 0 <= c < 0x1_0000

  function WidenBytes(v: Vector3<Byte>): Vector3<int> { Vector3(v.x as int, v.y as int, v.z as int) }
  function WidenChars(v: Vector3<Char16>): Vector3<int> { Vector3(v.x as int, v.y as int, v.z as int) }

  /** The exact integer dot product, the reference for the overloads. */
  function ExactDot(a: Vector3<int>, b: Vector3<int>): int
  {
    a.x * b.x + a.y * b.y + a.z * b.z
  }

  // ------------------------------------------------------- real vector facts

  lemma RealScaled(v: Vector3<real>, k: real)
    ensures MulScalar3(RealOps, v, k) == Vector3(v.x * k, v.y * k, v.z * k)
    ensures ScalarMul3(RealOps, k, v) == Vector3(v.x * k, v.y * k, v.z * k)
  {
    assert RealOps.multiply(v.x, k) == v.x * k;
    assert RealOps.multiply(v.y, k) == v.y * k;
    assert RealOps.multiply(v.z, k) == v.z * k;
  }

  lemma RealAxpy(k: real, n: Vector3<real>, d: Vector3<real>)
    ensures Add3(RealOps, ScalarMul3(RealOps, k, n), d) == Vector3(n.x * k + d.x, n.y * k + d.y, n.z * k + d.z)
  {
    RealScaled(n, k);
  }

  lemma RealSub(a: Vector3<real>, b: Vector3<real>)
    ensures Sub3(RealOps, a, b) == Vector3(a.x - b.x, a.y - b.y, a.z - b.z)
  {
  }

  /** c / m * m == c */
  lemma DivideBack(c: real, m: real)
    requires m != 0.0
    ensures c * (1.0 / m) * m == c
  {
    assert (1.0 / m) * m == 1.0;
    assert c * (1.0 / m) * m == c * ((1.0 / m) * m);
  }

  /** A sum of three squares is never negative and vanishes only when every
      term does. */
  lemma SumOfSquares(x: real, y: real, z: real)
    ensures x * x + y * y + z * z >= 0.0
    ensures x * x + y * y + z * z == 0.0 ==> x == 0.0 && y == 0.0 && z == 0.0
    ensures x == 0.0 && y == 0.0 && z == 0.0 ==> x * x + y * y + z * z == 0.0
  {
    Geometry.SquareZero(x);
    Geometry.SquareZero(y);
    Geometry.SquareZero(z);
  }

  // ------------------------------------------------------------ modular facts

  /** A multiple of 2^32 changes no residue modulo 2^16 or 2^8. */
  lemma ModOfWrap(n: int)
    ensures Wrap32(n) % 0x1_0000 == n % 0x1_0000
    ensures Wrap32(n) % 0x100 == n % 0x100
  {
    var k := (Wrap32(n) - n) / TwoTo32;
    assert Wrap32(n) == n + (k * 0x1_0000) * 0x1_0000;
    AddMultipleMod16(n, k * 0x1_0000);
    assert Wrap32(n) == n + (k * 0x100_0000) * 0x100;
    AddMultipleMod8(n, k * 0x100_0000);
  }

  /** Adding a multiple of 2^16 keeps the residue modulo 2^16. */
  lemma AddMultipleMod16(a: int, j: int)
    ensures (a + j * 0x1_0000) % 0x1_0000 == a % 0x1_0000
  {
    var q, r := a / 0x1_0000, a % 0x1_0000;
    assert a + j * 0x1_0000 == (q + j) * 0x1_0000 + r;
  }

  /** Adding a multiple of 2^8 keeps the residue modulo 2^8. */
  lemma AddMultipleMod8(a: int, j: int)
    ensures (a + j * 0x100) % 0x100 == a % 0x100
  {
    var q, r := a / 0x100, a % 0x100;
    assert a + j * 0x100 == (q + j) * 0x100 + r;
  }

  /** Three unchecked additions of wrapped terms wrap the exact sum once. */
  lemma WrapSum3(p: int, q: int, u: int)
    ensures Wrap32(Wrap32(Wrap32(p) + Wrap32(q)) + Wrap32(u)) == Wrap32(p + q + u)
  {
    WrapAdd(p, Wrap32(q));
    WrapAdd(p, q);
    WrapAdd(p + q, Wrap32(u));
    WrapAdd(p + q, u);
  }

  /** Wrapping a factor first does not change the wrapped product. */
  lemma WrapMul(a: int, c: int)
    ensures Wrap32(Wrap32(a) * c) == Wrap32(a * c)
  {
    var k := (Wrap32(a) - a) / TwoTo32;
    assert Wrap32(a) == a + k * TwoTo32;
    assert Wrap32(a) * c - a * c == (k * c) * TwoTo32;
    WrapCongruent(Wrap32(a) * c, a * c);
  }

  // ------------------------------------------------------------------- Dot

  /** Dot on `int`: each product and each sum wraps, which is the exact dot
      product wrapped once. */
  function DotInt(lhs: Vector3<int>, rhs: Vector3<int>): (r: int)
    ensures r == Wrap32(ExactDot(lhs, rhs))
  {
    WrapSum3(lhs.x * rhs.x, lhs.y * rhs.y, lhs.z * rhs.z);
    Wrap32(Wrap32(Wrap32(lhs.x * rhs.x) + Wrap32(lhs.y * rhs.y)) + Wrap32(lhs.z * rhs.z))
  }

  /** Dot on `byte`: computed in `int`, cast to `byte`. The sum of three
      byte products never leaves the `int` range, so the result is the exact
      dot product modulo 256. */
  function DotByte(lhs: Vector3<Byte>, rhs: Vector3<Byte>): (r: Byte)
    ensures r as int == ExactDot(WidenBytes(lhs), WidenBytes(rhs)) % 0x100
    ensures r as int == DotInt(WidenBytes(lhs), WidenBytes(rhs)) % 0x100
  {
    var d := DotInt(WidenBytes(lhs), WidenBytes(rhs));
    ModOfWrap(ExactDot(WidenBytes(lhs), WidenBytes(rhs)));
    (d % 0x100) as Byte
  }

  /** Dot on `char`: computed in `int`, where the products of large code
      units do wrap, then cast to `char`. Wrap-around by 2^32 leaves the low
      16 bits alone, so the result is still the exact dot product modulo
      65536. */
  function DotChar(lhs: Vector3<Char16>, rhs: Vector3<Char16>): (r: Char16)
    ensures r as int == ExactDot(WidenChars(lhs), WidenChars(rhs)) % 0x1_0000
  {
    var d := DotInt(WidenChars(lhs), WidenChars(rhs));
    ModOfWrap(ExactDot(WidenChars(lhs), WidenChars(rhs)));
    (d % 0x1_0000) as Char16
  }

  /** The `char` dot product of large code units is not the `int` one:
      (65535, 0, 0) with itself wraps in `int` to -131071 but is 1 as a
      `char`. */
  lemma CharDotWraps()
    ensures var v := Vector3(0xFFFF as Char16, 0 as Char16, 0 as Char16);
            DotInt(WidenChars(v), WidenChars(v)) == -131071 && DotChar(v, v) == 1
  {
    var v := Vector3(0xFFFF as Char16, 0 as Char16, 0 as Char16);
    assert ExactDot(WidenChars(v), WidenChars(v)) == 0xFFFE_0001;
  }

  /** Dot on `float`/`double`. */
  function DotReal(lhs: Vector3<real>, rhs: Vector3<real>): real
  {
    lhs.x * rhs.x + lhs.y * rhs.y + lhs.z * rhs.z
  }

  /** SqrMagnitude on `float`/`double`: never negative, zero only for the
      zero vector, and the dot product of the vector with itself. */
  function SqrMagnitude(v: Vector3<real>): (r: real)
    ensures r >= 0.0 && r == DotReal(v, v)
    ensures r == 0.0 ==> v == Zero3(RealOps)
    ensures v == Zero3(RealOps) ==> r == 0.0
  {
    SumOfSquares(v.x, v.y, v.z);
    assert Zero3(RealOps) == Vector3(0.0, 0.0, 0.0);
    v.x * v.x + v.y * v.y + v.z * v.z
  }

  /** SqrMagnitude on `int`: the sum of squares in unchecked `int` arithmetic
      before its conversion to `float`, which is the `int` dot product of the
      vector with itself. */
  function SqrMagnitudeInt(v: Vector3<int>): (r: int)
    ensures IsInt32(r) && r == DotInt(v, v)
  {
    Wrap32(Wrap32(Wrap32(v.x * v.x) + Wrap32(v.y * v.y)) + Wrap32(v.z * v.z))
  }

  /** Components below 26755 in size keep the `int` sum of squares exact and
      non-negative. */
  lemma SqrMagnitudeIntSmall(v: Vector3<int>)
    requires -26755 < v.x < 26755 && -26755 < v.y < 26755 && -26755 < v.z < 26755
    ensures SqrMagnitudeInt(v) == v.x * v.x + v.y * v.y + v.z * v.z >= 0
  {
    SquareBound(v.x);
    SquareBound(v.y);
    SquareBound(v.z);
  }

  /** c * c stays below 26755^2 when |c| < 26755. */
  lemma SquareBound(c: int)
    requires -26755 < c < 26755
    ensures 0 <= c * c < 26755 * 26755
  {
    if c < 0 {
      assert c * c == (-c) * (-c);
    }
    assert (if c < 0 then -c else c) * (if c < 0 then -c else c) <= 26754 * 26754;
  }

  /** Past that bound the `int` sum wraps: (46341, 0, 0) has a negative
      square magnitude. */
  lemma SqrMagnitudeIntWraps()
    ensures SqrMagnitudeInt(Vector3(46341, 0, 0)) == -2147479015
  {
    assert 46341 * 46341 == 2147488281;
  }

  // ----------------------------------------------------------------- Scale

  /** Scale on `int`: each component product wraps. */
  function ScaleInt(a: Vector3<int>, b: Vector3<int>): (r: Vector3<int>)
    ensures forall i :: 0 <= i < 3 ==>
              Get3(r, i).value == Wrap32(Get3(a, i).value * Get3(b, i).value)
  {
    Vector3(Wrap32(a.x * b.x), Wrap32(a.y * b.y), Wrap32(a.z * b.z))
  }

  /** Scale on `byte`: each product computed in `int` and cast to `byte`, that
      is the `int` Scale truncated to its low eight bits. */
  function ScaleByte(a: Vector3<Byte>, b: Vector3<Byte>): (r: Vector3<Byte>)
    ensures var s := ScaleInt(WidenBytes(a), WidenBytes(b));
            r.x as int == s.x % 0x100 && r.y as int == s.y % 0x100 && r.z as int == s.z % 0x100
  {
    ByteProduct(a.x, b.x);
    ByteProduct(a.y, b.y);
    ByteProduct(a.z, b.z);
    Vector3(((a.x as int * b.x as int) % 0x100) as Byte,
            ((a.y as int * b.y as int) % 0x100) as Byte,
            ((a.z as int * b.z as int) % 0x100) as Byte)
  }

  /** A product of two bytes fits in an `int`. */
  lemma ByteProduct(p: Byte, q: Byte)
    ensures 0 <= p as int * q as int < 0x1_0000
    ensures Wrap32(p as int * q as int) == p as int * q as int
  {
    assert p as int * q as int <= p as int * 0xFF <= 0xFF * 0xFF;
  }

  /** Scale on `float`/`double`. */
  function ScaleReal(a: Vector3<real>, b: Vector3<real>): (r: Vector3<real>)
  {
    Vector3(a.x * b.x, a.y * b.y, a.z * b.z)
  }

  /** Dot is the sum of the components of Scale; Scale of a vector with
      itself squares each component. */
  lemma DotIsSumOfScaleReal(a: Vector3<real>, b: Vector3<real>)
    ensures var s := ScaleReal(a, b); DotReal(a, b) == s.x + s.y + s.z
    ensures ScaleReal(a, a) == Vector3(a.x * a.x, a.y * a.y, a.z * a.z)
  {
    var s := ScaleReal(a, a);
    assert s.x == a.x * a.x && s.y == a.y * a.y && s.z == a.z * a.z;
  }

  /** The same on `int`, where the sum of the Scale components wraps at each
      addition exactly as Dot does. */
  lemma DotIsSumOfScaleInt(c: Vector3<int>, d: Vector3<int>)
    ensures var s := ScaleInt(c, d); DotInt(c, d) == Wrap32(Wrap32(s.x + s.y) + s.z)
  {
    var s := ScaleInt(c, d);
    assert s == Vector3(Wrap32(c.x * d.x), Wrap32(c.y * d.y), Wrap32(c.z * d.z));
    WrapSum3(c.x * d.x, c.y * d.y, c.z * d.z);
  }

  // ----------------------------------------------------------------- Cross

  /** Cross on `float`/`double`. */
  function Cross(lhs: Vector3<real>, rhs: Vector3<real>): Vector3<real>
  {
    Vector3(lhs.y * rhs.z - lhs.z * rhs.y, lhs.z * rhs.x - lhs.x * rhs.z, lhs.x * rhs.y - lhs.y * rhs.x)
  }

  /** In exact arithmetic Cross is anti-commutative and orthogonal to both
      arguments. */
  lemma CrossAlgebra(a: Vector3<real>, b: Vector3<real>)
    ensures Cross(a, b) == Neg3(RealOps, Cross(b, a))
    ensures DotReal(a, Cross(a, b)) == 0.0
    ensures DotReal(b, Cross(a, b)) == 0.0
  {
  }

  // --------------------------------------------------------------- Reflect

  /** Reflect on `int`: -2 times Dot(normal, direction), times the normal,
      plus the direction, every step wrapping. */
  function ReflectInt(inDirection: Vector3<int>, inNormal: Vector3<int>): (r: Vector3<int>)
    ensures DotInt(inNormal, inDirection) == 0 && Int32Vector3(inDirection) ==> r == inDirection
  {
    var twoTimesDotNDir := Wrap32(-2 * DotInt(inNormal, inDirection));
    Add3(Int32Ops, ScalarMul3(Int32Ops, twoTimesDotNDir, inNormal), inDirection)
  }

  /** The `int` Reflect is the exact reflection d - 2 (n . d) n wrapped once
      per component. */
  lemma ReflectIntExact(d: Vector3<int>, n: Vector3<int>)
    ensures var k := -2 * ExactDot(n, d);
            ReflectInt(d, n) == Vector3(Wrap32(k * n.x + d.x), Wrap32(k * n.y + d.y), Wrap32(k * n.z + d.z))
  {
    var e := ExactDot(n, d);
    var k := -2 * e;
    var t := Wrap32(-2 * DotInt(n, d));
    assert t == Wrap32(k) by {
      WrapMul(e, -2);
      assert Wrap32(e) * -2 == -2 * Wrap32(e);
    }
    ReflectComponent(k, n.x, d.x);
    ReflectComponent(k, n.y, d.y);
    ReflectComponent(k, n.z, d.z);
  }

  /** One component of ReflectIntExact. */
  lemma ReflectComponent(k: int, nc: int, dc: int)
    ensures Int32Ops.add(Int32Ops.multiply(nc, Wrap32(k)), dc) == Wrap32(k * nc + dc)
  {
    WrapMul(k, nc);
    assert Wrap32(k) * nc == nc * Wrap32(k);
    WrapAdd(k * nc, dc);
  }

  /** Reflect on `float`/`double`. */
  function ReflectReal(inDirection: Vector3<real>, inNormal: Vector3<real>): (r: Vector3<real>)
    ensures DotReal(inNormal, r) == DotReal(inNormal, inDirection) * (1.0 - 2.0 * DotReal(inNormal, inNormal))
  {
    var twoTimesDotNDir := -2.0 * DotReal(inNormal, inDirection);
    DotScaledAdd(inNormal, twoTimesDotNDir, inDirection);
    Add3(RealOps, ScalarMul3(RealOps, twoTimesDotNDir, inNormal), inDirection)
  }

  /** n . (k n + d) == k (n . n) + n . d */
  lemma DotScaledAdd(n: Vector3<real>, k: real, d: Vector3<real>)
    ensures DotReal(n, Add3(RealOps, ScalarMul3(RealOps, k, n), d)) == k * DotReal(n, n) + DotReal(n, d)
  {
    var v := Add3(RealOps, ScalarMul3(RealOps, k, n), d);
    RealAxpy(k, n, d);
    calc {
      DotReal(n, v);
      n.x * (n.x * k + d.x) + n.y * (n.y * k + d.y) + n.z * (n.z * k + d.z);
      k * (n.x * n.x + n.y * n.y + n.z * n.z) + (n.x * d.x + n.y * d.y + n.z * d.z);
    }
  }

  /** With a unit normal, Reflect flips the normal component, keeps the
      length, and reflecting twice gives the direction back. */
  lemma ReflectUnit(d: Vector3<real>, n: Vector3<real>)
    requires DotReal(n, n) == 1.0
    ensures DotReal(n, ReflectReal(d, n)) == -DotReal(n, d)
    ensures ReflectReal(ReflectReal(d, n), n) == d
  {
    var r := ReflectReal(d, n);
    var e := DotReal(n, d);
    RealAxpy(-2.0 * e, n, d);
    assert DotReal(n, r) == -e;
    var rr := ReflectReal(r, n);
    RealAxpy(-2.0 * -e, n, r);
    assert rr.x == n.x * (2.0 * e) + (n.x * (-2.0 * e) + d.x);
    assert rr.y == n.y * (2.0 * e) + (n.y * (-2.0 * e) + d.y);
    assert rr.z == n.z * (2.0 * e) + (n.z * (-2.0 * e) + d.z);
  }

  // ------------------------------------------------------------ magnitudes

  /** `mag` is the square root Magnitude would compute. */
  predicate IsMagnitude(v: Vector3<real>, mag: real)
  {
    mag >= 0.0 && mag * mag == SqrMagnitude(v)
  }

  /** kEpsilon: 1E-05f, the float nearest 0.00001, 10995116 * 2^-40. */
  const KEpsilon: real := 10995116.0 / 1099511627776.0

  /** Normalized on `float`/`double`: the zero vector when the magnitude is
      at most kEpsilon, otherwise the vector divided by its magnitude, which
      has length one and the direction of the input. */
  function Normalized(vec: Vector3<real>, mag: real): (r: Vector3<real>)
    requires IsMagnitude(vec, mag)
    ensures mag <= KEpsilon ==> r == Zero3(RealOps)
    ensures mag > KEpsilon ==> SqrMagnitude(r) == 1.0
    ensures mag > KEpsilon ==> MulScalar3(RealOps, r, mag) == vec
  {
    if mag <= KEpsilon then Zero3(RealOps)
    else
      var r := MulScalar3(RealOps, vec, 1.0 / mag);
      ScaleSqrMagnitude(vec, 1.0 / mag);
      DivideBack(1.0 / mag, mag);
      DivideBack(1.0, mag);
      assert (1.0 / mag) * (1.0 / mag) * (mag * mag) == 1.0 by {
        assert (1.0 / mag) * (1.0 / mag) * (mag * mag) == ((1.0 / mag) * mag) * ((1.0 / mag) * mag);
      }
      RealScaled(vec, 1.0 / mag);
      NormalizedScalesBack(vec, mag);
      r
  }

  /** Dividing by a non-zero magnitude and multiplying back is the identity. */
  lemma NormalizedScalesBack(vec: Vector3<real>, mag: real)
    requires mag != 0.0
    ensures MulScalar3(RealOps, MulScalar3(RealOps, vec, 1.0 / mag), mag) == vec
  {
    var r := MulScalar3(RealOps, vec, 1.0 / mag);
    RealScaled(vec, 1.0 / mag);
    RealScaled(r, mag);
    DivideBack(vec.x, mag);
    DivideBack(vec.y, mag);
    DivideBack(vec.z, mag);
    var b := MulScalar3(RealOps, r, mag);
    assert b.x == vec.x && b.y == vec.y && b.z == vec.z;
  }

  /** |k v|^2 == k^2 |v|^2 */
  lemma ScaleSqrMagnitude(v: Vector3<real>, k: real)
    ensures SqrMagnitude(MulScalar3(RealOps, v, k)) == k * k * SqrMagnitude(v)
  {
    var s := MulScalar3(RealOps, v, k);
    RealScaled(v, k);
    calc {
      SqrMagnitude(s);
      (v.x * k) * (v.x * k) + (v.y * k) * (v.y * k) + (v.z * k) * (v.z * k);
      k * k * (v.x * v.x + v.y * v.y + v.z * v.z);
    }
  }

  /** ClampMagnitude on `float`/`double`: the vector itself when its square
      magnitude is within maxLength^2, otherwise the normalized vector times
      maxLength. The result's square magnitude never exceeds maxLength^2,
      and a clamped non-negligible vector lands exactly on it. */
  function ClampMagnitude(vector: Vector3<real>, maxLength: real, mag: real): (r: Vector3<real>)
    requires IsMagnitude(vector, mag)
    ensures SqrMagnitude(r) <= maxLength * maxLength
    ensures SqrMagnitude(vector) <= maxLength * maxLength ==> r == vector
    ensures SqrMagnitude(vector) > maxLength * maxLength && mag > KEpsilon ==>
              SqrMagnitude(r) == maxLength * maxLength
  {
    if SqrMagnitude(vector) <= maxLength * maxLength then vector
    else
      var n := Normalized(vector, mag);
      ScaleSqrMagnitude(n, maxLength);
      MulScalar3(RealOps, n, maxLength)
  }

  /** The two rounding conventions of Project: the `float` overload gives
      zero when n . n < kEpsilon, the `double` one when n . n <= kEpsilon. */
  datatype Precision = Float | Double

  predicate Negligible(p: Precision, sqr: real)
  {
    match p
    case Float => sqr < KEpsilon
    case Double => sqr <= KEpsilon
  }

  /** Project: zero for a negligible normal, otherwise the normal times
      (vector . normal) / (normal . normal). Then `vector` minus the result
      is orthogonal to the normal, and the result is a multiple of it. */
  function Project(p: Precision, vector: Vector3<real>, onNormal: Vector3<real>): (r: Vector3<real>)
    ensures Negligible(p, DotReal(onNormal, onNormal)) ==> r == Zero3(RealOps)
    ensures !Negligible(p, DotReal(onNormal, onNormal)) ==>
              DotReal(Sub3(RealOps, vector, r), onNormal) == 0.0 &&
              r == MulScalar3(RealOps, onNormal, DotReal(vector, onNormal) / DotReal(onNormal, onNormal))
  {
    var single := DotReal(onNormal, onNormal);
    if Negligible(p, single) then Zero3(RealOps)
    else
      var r := MulScalar3(RealOps, MulScalar3(RealOps, onNormal, DotReal(vector, onNormal)), 1.0 / single);
      ProjectOrthogonal(vector, onNormal, r);
      r
  }

  lemma ProjectOrthogonal(v: Vector3<real>, n: Vector3<real>, r: Vector3<real>)
    requires DotReal(n, n) != 0.0
    requires r == MulScalar3(RealOps, MulScalar3(RealOps, n, DotReal(v, n)), 1.0 / DotReal(n, n))
    ensures r == MulScalar3(RealOps, n, DotReal(v, n) / DotReal(n, n))
    ensures DotReal(Sub3(RealOps, v, r), n) == 0.0
  {
    ProjectCoefficient(n, DotReal(v, n), DotReal(n, n));
    ResidueOrthogonal(v, n);
  }

  /** Scaling by e and then by 1 / s is scaling by e / s. */
  lemma ProjectCoefficient(n: Vector3<real>, e: real, s: real)
    requires s != 0.0
    ensures MulScalar3(RealOps, MulScalar3(RealOps, n, e), 1.0 / s) == MulScalar3(RealOps, n, e / s)
  {
    var c := e / s;
    var m := MulScalar3(RealOps, n, e);
    var r := MulScalar3(RealOps, m, 1.0 / s);
    RealScaled(n, e);
    RealScaled(m, 1.0 / s);
    RealScaled(n, c);
    assert e * (1.0 / s) == c;
    assert r.x == n.x * c by { assert n.x * e * (1.0 / s) == n.x * (e * (1.0 / s)); }
    assert r.y == n.y * c by { assert n.y * e * (1.0 / s) == n.y * (e * (1.0 / s)); }
    assert r.z == n.z * c by { assert n.z * e * (1.0 / s) == n.z * (e * (1.0 / s)); }
  }

  /** v minus its component along n is orthogonal to n. */
  lemma ResidueOrthogonal(v: Vector3<real>, n: Vector3<real>)
    requires DotReal(n, n) != 0.0
    ensures DotReal(Sub3(RealOps, v, MulScalar3(RealOps, n, DotReal(v, n) / DotReal(n, n))), n) == 0.0
  {
    var s := DotReal(n, n);
    var e := DotReal(v, n);
    var c := e / s;
    var r := MulScalar3(RealOps, n, c);
    RealScaled(n, c);
    RealSub(v, r);
    calc {
      DotReal(Sub3(RealOps, v, r), n);
      (v.x - n.x * c) * n.x + (v.y - n.y * c) * n.y + (v.z - n.z * c) * n.z;
      e - c * s;
      { DivideBack(e, s); }
      0.0;
    }
  }

  /** ProjectOnPlane: the vector minus its projection on the normal. The
      result is orthogonal to any non-negligible normal, and projecting it
      again leaves it unchanged. */
  function ProjectOnPlane(p: Precision, vector: Vector3<real>, planeNormal: Vector3<real>): (r: Vector3<real>)
    ensures !Negligible(p, DotReal(planeNormal, planeNormal)) ==> DotReal(r, planeNormal) == 0.0
    ensures Negligible(p, DotReal(planeNormal, planeNormal)) ==> r == vector
  {
    Sub3(RealOps, vector, Project(p, vector, planeNormal))
  }

  /** Projecting onto a plane is idempotent. */
  lemma ProjectOnPlaneIdempotent(p: Precision, v: Vector3<real>, n: Vector3<real>)
    ensures ProjectOnPlane(p, ProjectOnPlane(p, v, n), n) == ProjectOnPlane(p, v, n)
  {
    var w := ProjectOnPlane(p, v, n);
    if !Negligible(p, DotReal(n, n)) {
      assert DotReal(w, n) == 0.0;
      var r := Project(p, w, n);
      assert r == MulScalar3(RealOps, n, 0.0 / DotReal(n, n));
      assert r == Zero3(RealOps);
    }
  }
}

=== FILE: tick.dfy ===
/** The Tick helper: when a ticked behaviour should next run, with an
    optional random spread on each lapse. Time.time and the Random.Range
    draw are arguments. */
module Tick {
  import opened SteerUtil

  /** 0.1f, the lapse of the default constructor. */
  const DefaultLapse: real := 13421773.0 / 134217728.0

  datatype Tick = Tick(nextTick: real, randomRangeMin: real, randomRangeMax: real, tickLapse: real, priority: real)

  /** What the setters maintain: a non-empty random range and a lapse that is
      not negative. */
  predicate Valid(t: Tick) {
    t.randomRangeMin <= t.randomRangeMax && t.tickLapse >= 0.0
  }

  /** Tick(tickLapse): the field initialisers, then the TickLapse setter. */
  function NewTick(tickLapse: real): (t: Tick)
    ensures Valid(t) && t.nextTick == 0.0
    ensures t.randomRangeMin == 0.0 && t.randomRangeMax == 0.0 && t.priority == 0.0
    ensures tickLapse >= 0.0 ==> t.tickLapse == tickLapse
  {
    SetTickLapse(Tick(0.0, 0.0, 0.0, DefaultLapse, 0.0), tickLapse)
  }

  /** Tick(): the lapse is 0.1f. */
  function DefaultTick(): (t: Tick)
    ensures Valid(t) && t.tickLapse == DefaultLapse && t.nextTick == 0.0
  {
    NewTick(DefaultLapse)
  }

  /** RandomRangeMax: never below the current minimum. */
  function SetRandomRangeMax(t: Tick, value: real): (t': Tick)
    ensures t'.randomRangeMax >= t.randomRangeMin && t'.randomRangeMax >= value
    ensures value >= t.randomRangeMin ==> t'.randomRangeMax == value
    ensures t'.(randomRangeMax := t.randomRangeMax) == t
    ensures Valid(t) ==> Valid(t')
  {
    t.(randomRangeMax := if value > t.randomRangeMin then value else t.randomRangeMin)
  }

  /** RandomRangeMin: never above the current maximum. */
  function SetRandomRangeMin(t: Tick, value: real): (t': Tick)
    ensures t'.randomRangeMin <= t.randomRangeMax && t'.randomRangeMin <= value
    ensures value <= t.randomRangeMax ==> t'.randomRangeMin == value
    ensures t'.(randomRangeMin := t.randomRangeMin) == t
    ensures Valid(t) ==> Valid(t')
  {
    t.(randomRangeMin := if value < t.randomRangeMax then value else t.randomRangeMax)
  }

  /** TickLapse: never negative, and setting it makes the next call tick. */
  function SetTickLapse(t: Tick, value: real): (t': Tick)
    ensures t'.tickLapse >= 0.0 && t'.tickLapse >= value
    ensures value >= 0.0 ==> t'.tickLapse == value
    ensures t'.nextTick == 0.0
    ensures t'.(tickLapse := t.tickLapse, nextTick := t.nextTick) == t
    ensures t.randomRangeMin <= t.randomRangeMax ==> Valid(t')
  {
    t.(tickLapse := if value > 0.0 then value else 0.0, nextTick := 0.0)
  }

  /** Setting a range [lo, hi] through the two setters, maximum first, gives
      exactly that range when the old minimum does not exceed `hi`; in the
      other order it does when the old maximum is not below `lo`. */
  lemma SetRangeOrder(t: Tick, lo: real, hi: real)
    requires Valid(t) && lo <= hi
    ensures var t' := SetRandomRangeMin(SetRandomRangeMax(t, hi), lo);
            t.randomRangeMin <= hi ==> t'.randomRangeMin == lo && t'.randomRangeMax == hi
    ensures var t' := SetRandomRangeMax(SetRandomRangeMin(t, lo), hi);
            lo <= t.randomRangeMax ==> t'.randomRangeMin == lo && t'.randomRangeMax == hi
  {
  }

  /** The setters alone cannot always set a range: from [5, 5], asking for
      [1, 2] with the maximum first keeps the maximum at 5. */
  lemma SetRangeBlocked()
    ensures var t := SetRandomRangeMin(SetRandomRangeMax(Tick(0.0, 5.0, 5.0, 0.0, 0.0), 2.0), 1.0);
            t.randomRangeMin == 1.0 && t.randomRangeMax == 5.0
  {
  }

  /** CanTick: the next tick time has passed. */
  predicate CanTick(t: Tick, now: real) {
    t.nextTick < now
  }

  /** Random.Range(min, max) for a draw `u` in [0, 1]. */
  function RandomRange(min: real, max: real, u: real): (r: real)
    requires 0.0 <= u <= 1.0
    ensures min <= max ==> min <= r <= max
  {
    InterpolateBetween(u, min, max);
    Interpolate(u, min, max)
  }

  /** TickBehavior(nextTickLapseOverride): answers CanTick, and when it ticks
      schedules the next tick a lapse plus a random spread after `now`. */
  function TickBehavior(t: Tick, now: real, nextTickLapseOverride: real, u: real): (r: (Tick, bool))
    requires 0.0 <= u <= 1.0
    ensures r.1 == CanTick(t, now)
    ensures !r.1 ==> r.0 == t
    ensures r.1 ==> r.0 == t.(nextTick := r.0.nextTick)
    ensures r.1 && t.randomRangeMin <= t.randomRangeMax ==>
              now + nextTickLapseOverride + t.randomRangeMin <= r.0.nextTick <= now + nextTickLapseOverride + t.randomRangeMax
  {
    if CanTick(t, now) then
      (t.(nextTick := now + nextTickLapseOverride + RandomRange(t.randomRangeMin, t.randomRangeMax, u)), true)
    else (t, false)
  }

  /** TickBehavior(): the override is the stored lapse. */
  function TickBehaviorDefault(t: Tick, now: real, u: real): (r: (Tick, bool))
    requires 0.0 <= u <= 1.0
    ensures r == TickBehavior(t, now, t.tickLapse, u)
  {
    TickBehavior(t, now, t.tickLapse, u)
  }

  /** A behaviour that ticked at `now` does not tick again before `now` plus
      its lapse plus the range minimum, and may tick right after that
      horizon's upper end. */
  lemma NoTickBeforeLapse(t: Tick, now: real, u: real, later: real)
    requires Valid(t) && 0.0 <= u <= 1.0 && CanTick(t, now)
    ensures var t' := TickBehaviorDefault(t, now, u).0;
            (later <= now + t.tickLapse + t.randomRangeMin ==> !CanTick(t', later)) &&
            (later > now + t.tickLapse + t.randomRangeMax ==> CanTick(t', later))
  {
  }

  /** Setting the lapse makes the very next check tick, at any time after
      zero. */
  lemma LapseResetTicks(t: Tick, value: real, now: real)
    requires now > 0.0
    ensures CanTick(SetTickLapse(t, value), now)
  {
  }
}

=== FILE: uniject.dfy ===
/** Uniject's test harness: the updatable manager that keeps every game
    object of a test with queues of pending additions and removals, and the
    testable game object that forwards engine callbacks to its components.
    Component callbacks are code this model cannot see, so they are recorded
    as a trace of calls instead of being run. */
module Uniject {
  import opened Wrappers

  // ------------------------------------------------------ TestUpdatableManager

  /** The manager's three hash sets. */
  datatype UpdatableManager<O> = UpdatableManager(objects: set<O>, toAdd: set<O>, toRemove: set<O>)

  function NewManager<O>(): (m: UpdatableManager<O>)
    ensures m.objects == {} && m.toAdd == {} && m.toRemove == {}
  {
    UpdatableManager({}, {}, {})
  }

  /** Every pending removal names an object the manager knows, live or
      pending. */
  predicate QueuesValid<O>(m: UpdatableManager<O>)
  {
    m.toRemove <= m.objects + m.toAdd
  }

  /** RegisterGameobject: an object already live or pending throws
      ArgumentException; otherwise it joins the additions queue. */
  function Register<O>(m: UpdatableManager<O>, obj: O): (r: Result<UpdatableManager<O>, Exception>)
    ensures r.Err? <==> obj in m.objects || obj in m.toAdd
    ensures r.Err? ==> r.error == Argument
    ensures r.Ok? ==> r.value.toAdd == m.toAdd + {obj} && r.value.objects == m.objects && r.value.toRemove == m.toRemove
    ensures r.Ok? && QueuesValid(m) ==> QueuesValid(r.value)
  {
    if obj in m.objects || obj in m.toAdd then Err(Argument)
    else Ok(m.(toAdd := m.toAdd + {obj}))
  }

  /** UnRegisterGameobject: an object neither live nor pending throws
      ArgumentException; otherwise it joins the removals queue. */
  function Unregister<O>(m: UpdatableManager<O>, obj: O): (r: Result<UpdatableManager<O>, Exception>)
    ensures r.Err? <==> obj !in m.objects && obj !in m.toAdd
    ensures r.Err? ==> r.error == Argument
    ensures r.Ok? ==> r.value.toRemove == m.toRemove + {obj} && r.value.objects == m.objects && r.value.toAdd == m.toAdd
    ensures r.Ok? && QueuesValid(m) ==> QueuesValid(r.value)
  {
    if obj !in m.objects && obj !in m.toAdd then Err(Argument)
    else Ok(m.(toRemove := m.toRemove + {obj}))
  }

  /** One iteration of step: the additions are merged in before the removals
      are taken out, and both queues are emptied. The objects then updated
      are the new live set. */
  function StepOnce<O>(m: UpdatableManager<O>): (r: UpdatableManager<O>)
    ensures r.toAdd == {} && r.toRemove == {} && QueuesValid(r)
    ensures r.objects <= m.objects + m.toAdd && r.objects !! m.toRemove
    ensures m.objects + m.toAdd <= r.objects + m.toRemove
  {
    UpdatableManager((m.objects + m.toAdd) - m.toRemove, {}, {})
  }

  /** step(numUpdates): the loop of iterations, each updating every live
      object once. After the first iteration the queues are empty, so the
      whole run is one merge followed by numUpdates updates of the same
      set; a count of zero or less changes nothing. */
  method Step<O>(m: UpdatableManager<O>, numUpdates: int) returns (r: UpdatableManager<O>, updated: seq<set<O>>)
    ensures numUpdates <= 0 ==> r == m && updated == []
    ensures numUpdates > 0 ==> r == StepOnce(m)
    ensures numUpdates > 0 ==> |updated| == numUpdates && forall t :: 0 <= t < |updated| ==> updated[t] == r.objects
  {
    r := m;
    updated := [];
    var t := 0;
    while t < numUpdates
      invariant 0 <= t && (numUpdates > 0 ==> t <= numUpdates) && (numUpdates <= 0 ==> t == 0)
      invariant t == 0 ==> r == m
      invariant t > 0 ==> r == StepOnce(m)
      invariant |updated| == t && forall s :: 0 <= s < t ==> updated[s] == r.objects
    {
      var objects := r.objects + r.toAdd;
      objects := objects - r.toRemove;
      r := UpdatableManager(objects, {}, {});
      updated := updated + [objects];
      t := t + 1;
    }
  }

  /** The Count property: pending additions make it throw
      InvalidOperationException; otherwise the number of live objects. */
  function Count<O>(m: UpdatableManager<O>): (r: Result<nat, Exception>)
    ensures r.Err? <==> m.toAdd != {}
    ensures r.Err? ==> r.error == InvalidOperation
    ensures r.Ok? ==> r.value == |m.objects|
  {
    if m.toAdd != {} then Err(InvalidOperation) else Ok(|m.objects|)
  }

  /** An object registered and unregistered before a step is not live after
      it, and every other object keeps its place. */
  lemma RegisterUnregisterStep<O>(m: UpdatableManager<O>, obj: O)
    requires obj !in m.objects && obj !in m.toAdd
    ensures Register(m, obj).Ok? && Unregister(Register(m, obj).value, obj).Ok?
    ensures var r := StepOnce(Unregister(Register(m, obj).value, obj).value);
            obj !in r.objects && r.objects == StepOnce(m).objects
  {
  }

  /** Registering a new object and stepping makes it live, and Count then
      grows by one. */
  lemma RegisterStepCount<O>(m: UpdatableManager<O>, obj: O)
    requires obj !in m.objects && obj !in m.toAdd && obj !in m.toRemove && m.toRemove == {}
    ensures Register(m, obj).Ok?
    ensures var r := StepOnce(Register(m, obj).value);
            obj in r.objects && Count(r) == Ok(|StepOnce(m).objects| + 1)
  {
    var r := StepOnce(Register(m, obj).value);
    assert r.objects == StepOnce(m).objects + {obj};
  }

  /** A second registration of the same object throws, before the step that
      makes it live and after it. */
  lemma RegisterTwiceThrows<O>(m: UpdatableManager<O>, obj: O)
    requires QueuesValid(m) && Register(m, obj).Ok?
    ensures Register(Register(m, obj).value, obj) == Err(Argument)
    ensures Register(StepOnce(Register(m, obj).value), obj) == Err(Argument)
  {
  }

  // ------------------------------------------------------ TestableGameObject

  /** A component callback the game object makes. */
  datatype ComponentCall<C, K> =
    | OnDestroyCall(component: C)
    | OnUpdateCall(component: C)
    | OnCollisionEnterCall(component: C, collision: K)

  /** The game object's state: its components in registration order, the
      destroyed flag, and `active`, which subclasses provide. */
  datatype GameObject<C> = GameObject(components: seq<C>, destroyed: bool, active: bool)

  /** registerComponent: appends to the list. */
  function RegisterComponent<C>(g: GameObject<C>, c: C): (r: GameObject<C>)
    ensures |r.components| == |g.components| + 1 && r.components[|g.components|] == c
    ensures r.components[..|g.components|] == g.components
    ensures r.destroyed == g.destroyed && r.active == g.active
  {
    g.(components := g.components + [c])
  }

  /** Destroy: the first call tells each component OnDestroy, in order, and
      marks the object destroyed; later calls do nothing. */
  function Destroy<C, K>(g: GameObject<C>): (r: (GameObject<C>, seq<ComponentCall<C, K>>))
    ensures r.0.destroyed && r.0.components == g.components && r.0.active == g.active
    ensures g.destroyed ==> r.1 == []
    ensures !g.destroyed ==> |r.1| == |g.components| &&
                             forall i :: 0 <= i < |g.components| ==> r.1[i] == OnDestroyCall(g.components[i])
  {
    if g.destroyed then (g, [])
    else (g.(destroyed := true), seq(|g.components|, i requires 0 <= i < |g.components| => OnDestroyCall(g.components[i])))
  }

  /** Destroying twice tells each component OnDestroy exactly once in all. */
  lemma DestroyOnce<C, K>(g: GameObject<C>)
    requires !g.destroyed
    ensures var (g1, calls1) := Destroy<C, K>(g);
            var (g2, calls2) := Destroy<C, K>(g1);
            g2 == g1 && |calls1 + calls2| == |g.components| &&
            forall i :: 0 <= i < |g.components| ==> (calls1 + calls2)[i] == OnDestroyCall(g.components[i])
  {
  }

  /** Update: nothing while inactive; otherwise OnUpdate on every component
      by index, in order. */
  method Update<C, K>(g: GameObject<C>) returns (calls: seq<ComponentCall<C, K>>)
    ensures !g.active ==> calls == []
    ensures g.active ==> |calls| == |g.components| &&
                         forall i :: 0 <= i < |g.components| ==> calls[i] == OnUpdateCall(g.components[i])
  {
    calls := [];
    if g.active {
      var t := 0;
      while t < |g.components|
        invariant 0 <= t <= |g.components|
        invariant |calls| == t && forall i :: 0 <= i < t ==> calls[i] == OnUpdateCall(g.components[i])
      {
        calls := calls + [OnUpdateCall(g.components[t])];
        t := t + 1;
      }
    }
  }

  /** OnCollisionEnter: forwarded to every component in order, whether or
      not the object is active. */
  method OnCollisionEnter<C, K>(g: GameObject<C>, collision: K) returns (calls: seq<ComponentCall<C, K>>)
    ensures |calls| == |g.components|
    ensures forall i :: 0 <= i < |g.components| ==> calls[i] == OnCollisionEnterCall(g.components[i], collision)
  {
    calls := [];
    var t := 0;
    while t < |g.components|
      invariant 0 <= t <= |g.components|
      invariant |calls| == t && forall i :: 0 <= i < t ==> calls[i] == OnCollisionEnterCall(g.components[i], collision)
    {
      calls := calls + [OnCollisionEnterCall(g.components[t], collision)];
      t := t + 1;
    }
  }

  /** getComponent<T>: the first component that is a T (`isT` stands for the
      runtime type test), or null when none is. */
  method GetComponent<C>(g: GameObject<C>, isT: C -> bool) returns (r: Option<C>)
    ensures r.None? <==> forall i :: 0 <= i < |g.components| ==> !isT(g.components[i])
    ensures r.Some? ==> exists i :: 0 <= i < |g.components| && g.components[i] == r.value && isT(r.value) &&
                                    forall j :: 0 <= j < i ==> !isT(g.components[j])
    ensures r == FirstOfType(g.components, isT)
  {
    var t := 0;
    while t < |g.components|
      invariant 0 <= t <= |g.components|
      invariant forall j :: 0 <= j < t ==> !isT(g.components[j])
      invariant FirstOfType(g.components[t..], isT) == FirstOfType(g.components, isT)
    {
      if isT(g.components[t]) {
        return Some(g.components[t]);
      }
      assert g.components[t..][1..] == g.components[t + 1..];
      t := t + 1;
    }
    return None;
  }

  /** The reference search getComponent agrees with. */
  function FirstOfType<C>(cs: seq<C>, isT: C -> bool): (r: Option<C>)
    ensures r.None? <==> forall i :: 0 <= i < |cs| ==> !isT(cs[i])
    ensures r.Some? ==> isT(r.value) && r.value in cs
  {
    if |cs| == 0 then None
    else if isT(cs[0]) then Some(cs[0])
    else FirstOfType(cs[1..], isT)
  }

  /** Registering another component never changes what getComponent finds
      once something matches; on an object with no match it finds the new
      component exactly when that component matches. */
  lemma {:induction false} RegisterKeepsFirst<C>(cs: seq<C>, c: C, isT: C -> bool)
    ensures FirstOfType(cs, isT).Some? ==> FirstOfType(cs + [c], isT) == FirstOfType(cs, isT)
    ensures FirstOfType(cs, isT).None? ==> FirstOfType(cs + [c], isT) == (if isT(c) then Some(c) else None)
  {
    if |cs| == 0 {
      assert cs + [c] == [c];
      assert [c][1..] == [];
    } else {
      assert (cs + [c])[0] == cs[0];
      assert (cs + [c])[1..] == cs[1..] + [c];
      RegisterKeepsFirst(cs[1..], c, isT);
    }
  }
}

=== FILE: vehicle.dfy ===
/** The Vehicle component of the Behaviors namespace: its clamping property
    setters, Awake's derived values and the decision helpers other behaviours
    call (neighbourhood, seek, target speed, nearest approach). Speed and
    Velocity are abstract in the component; here they are fields or
    arguments. */
module Vehicles {
  import opened Geometry
  import opened SteerUtil
  import SteerLibrary

  /** 0.01f, the smallest arrival radius the setter accepts. */
  const MinArrivalRadius: real := 5368709.0 / 536870912.0

  /** 0.1f, the serialized default of the minimum speed for turning. */
  const DefaultMinSpeedForTurning: real := 13421773.0 / 134217728.0

  /** The vehicle's fields; `id` stands for object identity and `forward` for
      Transform.forward. */
  datatype Vehicle = Vehicle(
    id: nat,
    position: Vec3,
    forward: Vec3,
    velocity: Vec3,
    mass: real,
    maxForce: real,
    maxSpeed: real,
    arrivalRadius: real,
    squaredArrivalRadius: real,
    turnTime: real,
    minSpeedForTurning: real,
    movementPriority: int,
    canMove: bool)

  /** The serialized defaults, before Awake: SquaredArrivalRadius is an
      auto-property and still zero. */
  function NewVehicle(id: nat, position: Vec3, forward: Vec3): (v: Vehicle)
    ensures v.mass == 1.0 && v.maxForce == 10.0 && v.maxSpeed == 1.0
    ensures v.arrivalRadius == 0.25 && v.squaredArrivalRadius == 0.0 && v.turnTime == 0.25
    ensures v.canMove && v.movementPriority == 0 && v.velocity == Zero
  {
    Vehicle(id, position, forward, Zero, 1.0, 10.0, 1.0, 0.25, 0.0, 0.25, DefaultMinSpeedForTurning, 0, true)
  }

  /** What the setters guarantee about the stored values. */
  predicate Consistent(v: Vehicle) {
    v.mass >= 0.0 &&
    0.0 <= v.maxForce <= FloatMax &&
    0.0 <= v.maxSpeed <= FloatMax &&
    MinArrivalRadius <= v.arrivalRadius <= FloatMax &&
    v.squaredArrivalRadius == v.arrivalRadius * v.arrivalRadius &&
    v.turnTime >= 0.0
  }

  /** Awake: a zero movement priority is replaced by the game object's
      instance id, and the squared arrival radius is derived. */
  function Awake(v: Vehicle, instanceId: int): (w: Vehicle)
    ensures w.squaredArrivalRadius == w.arrivalRadius * w.arrivalRadius
    ensures v.movementPriority != 0 ==> w.movementPriority == v.movementPriority
    ensures v.movementPriority == 0 ==> w.movementPriority == instanceId
    ensures w.(squaredArrivalRadius := v.squaredArrivalRadius, movementPriority := v.movementPriority) == v
  {
    v.(movementPriority := if v.movementPriority == 0 then instanceId else v.movementPriority,
       squaredArrivalRadius := v.arrivalRadius * v.arrivalRadius)
  }

  /** The defaults, once awake, satisfy everything the setters promise. */
  lemma AwakeDefaultsConsistent(id: nat, position: Vec3, forward: Vec3, instanceId: int)
    ensures Consistent(Awake(NewVehicle(id, position, forward), instanceId))
  {
  }

  // ---------------------------------------------------------------------------
  // Clamping setters

  /** Mass: Mathf.Max(0, value). */
  function SetMass(v: Vehicle, value: real): (w: Vehicle)
    ensures w.mass >= 0.0 && w.mass >= value
    ensures value >= 0.0 ==> w.mass == value
    ensures w.(mass := v.mass) == v
  {
    v.(mass := if value > 0.0 then value else 0.0)
  }

  /** MaxForce: Mathf.Clamp(value, 0, float.MaxValue). */
  function SetMaxForce(v: Vehicle, value: real): (w: Vehicle)
    ensures 0.0 <= w.maxForce <= FloatMax
    ensures 0.0 <= value <= FloatMax ==> w.maxForce == value
    ensures w.(maxForce := v.maxForce) == v
  {
    v.(maxForce := Clip(value, 0.0, FloatMax))
  }

  /** MaxSpeed: Mathf.Clamp(value, 0, float.MaxValue). */
  function SetMaxSpeed(v: Vehicle, value: real): (w: Vehicle)
    ensures 0.0 <= w.maxSpeed <= FloatMax
    ensures 0.0 <= value <= FloatMax ==> w.maxSpeed == value
    ensures w.(maxSpeed := v.maxSpeed) == v
  {
    v.(maxSpeed := Clip(value, 0.0, FloatMax))
  }

  /** ArrivalRadius: clamped to [0.01f, float.MaxValue], and the squared
      radius follows it. */
  function SetArrivalRadius(v: Vehicle, value: real): (w: Vehicle)
    ensures MinArrivalRadius <= w.arrivalRadius <= FloatMax
    ensures MinArrivalRadius <= value <= FloatMax ==> w.arrivalRadius == value
    ensures w.squaredArrivalRadius == w.arrivalRadius * w.arrivalRadius
    ensures w.(arrivalRadius := v.arrivalRadius, squaredArrivalRadius := v.squaredArrivalRadius) == v
  {
    var r := Clip(value, MinArrivalRadius, FloatMax);
    v.(arrivalRadius := r, squaredArrivalRadius := r * r)
  }

  /** TurnTime: Mathf.Max(0, value). */
  function SetTurnTime(v: Vehicle, value: real): (w: Vehicle)
    ensures w.turnTime >= 0.0 && w.turnTime >= value
    ensures value >= 0.0 ==> w.turnTime == value
    ensures w.(turnTime := v.turnTime) == v
  {
    v.(turnTime := if value > 0.0 then value else 0.0)
  }

  /** Every setter keeps the vehicle consistent, whatever value it is given. */
  lemma SettersKeepConsistent(v: Vehicle, value: real)
    requires Consistent(v)
    ensures Consistent(SetMass(v, value)) && Consistent(SetMaxForce(v, value)) &&
            Consistent(SetMaxSpeed(v, value)) && Consistent(SetArrivalRadius(v, value)) &&
            Consistent(SetTurnTime(v, value))
  {
  }

  /** Writing back what a getter read changes nothing, and a setter applied
      twice is applied once. */
  lemma SettersRoundTrip(v: Vehicle, value: real)
    requires Consistent(v)
    ensures SetMass(v, v.mass) == v && SetMaxForce(v, v.maxForce) == v && SetMaxSpeed(v, v.maxSpeed) == v
    ensures SetArrivalRadius(v, v.arrivalRadius) == v && SetTurnTime(v, v.turnTime) == v
    ensures SetArrivalRadius(SetArrivalRadius(v, value), value) == SetArrivalRadius(v, value)
    ensures SetMaxForce(SetMaxForce(v, value), value) == SetMaxForce(v, value)
  {
    ClipIdempotent(value, MinArrivalRadius, FloatMax);
    ClipIdempotent(value, 0.0, FloatMax);
  }

  // ---------------------------------------------------------------------------
  // Neighbourhood

  function AsAgent(v: Vehicle): SteerLibrary.Agent {
    SteerLibrary.Agent(v.id, v.position, 0.0)
  }

  /** IsInNeighborhood: the rule of SteerLibrary.inBoidNeighborhood applied
      to this vehicle's position and forward vector; `dist` is the root the
      code takes of the squared distance (a zero distance makes the unit
      offset NaN, and the comparison false). */
  function IsInNeighborhood(me: Vehicle, other: Vehicle, minDistance: real, maxDistance: real,
                            cosMaxAngle: real, dist: real): (r: bool)
    requires IsSqrt(dist, SqrDist(other.position, me.position))
    ensures other.id == me.id ==> !r
    ensures other.id != me.id && SqrDist(other.position, me.position) < minDistance * minDistance ==> r
    ensures (SqrDist(other.position, me.position) >= minDistance * minDistance &&
             SqrDist(other.position, me.position) > maxDistance * maxDistance) ==> !r
    ensures other.id != me.id && minDistance * minDistance <= SqrDist(other.position, me.position) <= maxDistance * maxDistance ==>
            (r <==> dist > 0.0 && Dot(me.forward, Sub(other.position, me.position)) > cosMaxAngle * dist)
  {
    SteerLibrary.InBoidNeighborhood(AsAgent(me), me.forward, AsAgent(other), minDistance, maxDistance, cosMaxAngle, dist)
  }

  // ---------------------------------------------------------------------------
  // Seek and target speed

  /** GetSeekVector: zero inside the arrival radius, otherwise the offset to
      the target, less the velocity when asked to consider it. */
  function GetSeekVector(v: Vehicle, target: Vec3, considerVelocity: bool): (force: Vec3)
    ensures SqrDist(target, v.position) <= v.squaredArrivalRadius ==> force == Zero
    ensures SqrDist(target, v.position) > v.squaredArrivalRadius && !considerVelocity ==>
            Add(v.position, force) == target
    ensures SqrDist(target, v.position) > v.squaredArrivalRadius && considerVelocity ==>
            Add(Add(v.position, v.velocity), force) == target
  {
    var difference := Sub(target, v.position);
    if SqrLength(difference) > v.squaredArrivalRadius then
      (if considerVelocity then Sub(difference, v.velocity) else difference)
    else Zero
  }

  /** Without the velocity term, the seek vector is zero exactly when the
      target lies within the arrival radius. */
  lemma SeekStopsIffArrived(v: Vehicle, target: Vec3)
    requires v.squaredArrivalRadius >= 0.0
    ensures GetSeekVector(v, target, false) == Zero <==> SqrDist(target, v.position) <= v.squaredArrivalRadius
  {
  }

  /** GetTargetSpeedVector: the forward vector scaled by the speed error
      clamped to [-MaxForce, MaxForce]. */
  function GetTargetSpeedVector(v: Vehicle, speed: real, targetSpeed: real): (force: Vec3)
    ensures exists k :: force == Scale(v.forward, k) && (v.maxForce >= 0.0 ==> -v.maxForce <= k <= v.maxForce)
    ensures -v.maxForce <= targetSpeed - speed <= v.maxForce ==> force == Scale(v.forward, targetSpeed - speed)
  {
    var k := Clip(targetSpeed - speed, -v.maxForce, v.maxForce);
    Scale(v.forward, k)
  }

  /** The scalar never overshoots: it moves the speed toward the target and
      no farther than the target. */
  lemma TargetSpeedTowardTarget(v: Vehicle, speed: real, targetSpeed: real)
    requires v.maxForce >= 0.0
    ensures var k := Clip(targetSpeed - speed, -v.maxForce, v.maxForce);
            GetTargetSpeedVector(v, speed, targetSpeed) == Scale(v.forward, k) &&
            (speed <= targetSpeed ==> speed <= speed + k <= targetSpeed) &&
            (targetSpeed <= speed ==> targetSpeed <= speed + k <= speed)
  {
  }

  // ---------------------------------------------------------------------------
  // Nearest approach

  /** 1e-06f, Mathf.Approximately's relative tolerance. */
  const RelativeTolerance: real := 8796093.0 / 8796093022208.0

  /** Mathf.Epsilon * 8: eight times the smallest positive float, 2^-146. */
  const EightEpsilon: real := 1.0 / 89202980794122492566142873090593446023921664.0

  /** Mathf.Approximately. */
  predicate Approximately(a: real, b: real) {
    Abs(b - a) < Max(RelativeTolerance * Max(Abs(a), Abs(b)), EightEpsilon)
  }

  function Max(a: real, b: real): real { if a > b then a else b }

  /** For a non-negative value, being approximately zero is being below 2^-146. */
  lemma ApproximatelyZero(a: real)
    requires a >= 0.0
    ensures Approximately(a, 0.0) <==> a < EightEpsilon
  {
  }

  /** PredictNearestApproachTime. `relSpeed` is the root the code takes of the
      squared relative speed. */
  function PredictNearestApproachTime(me: Vehicle, other: Vehicle, relSpeed: real): (t: real)
    requires IsSqrt(relSpeed, SqrLength(Sub(other.velocity, me.velocity)))
    ensures relSpeed < EightEpsilon ==> t == 0.0
    ensures relSpeed >= EightEpsilon ==>
            t * SqrLength(Sub(other.velocity, me.velocity)) == Dot(Sub(other.velocity, me.velocity), Sub(me.position, other.position))
  {
    ApproximatelyZero(relSpeed);
    var relVelocity := Sub(other.velocity, me.velocity);
    var relPosition := Sub(me.position, other.position);
    if Approximately(relSpeed, 0.0) then 0.0
    else
      var projection := Dot(Scale(relVelocity, 1.0 / relSpeed), relPosition);
      ApproachTimeScaled(relVelocity, relPosition, relSpeed);
      projection / relSpeed
  }

  lemma ApproachTimeScaled(relVelocity: Vec3, relPosition: Vec3, relSpeed: real)
    requires relSpeed > 0.0 && relSpeed * relSpeed == SqrLength(relVelocity)
    ensures Dot(Scale(relVelocity, 1.0 / relSpeed), relPosition) / relSpeed * SqrLength(relVelocity) ==
            Dot(relVelocity, relPosition)
  {
    var p := Dot(relVelocity, relPosition);
    DotScale(relVelocity, 1.0 / relSpeed, relPosition);
    assert Dot(Scale(relVelocity, 1.0 / relSpeed), relPosition) / relSpeed == p / (relSpeed * relSpeed);
  }

  /** The predicted time is the one at which the two vehicles, moving at their
      current velocities, are closest: no other time brings them nearer. */
  lemma NearestApproachIsNearest(me: Vehicle, other: Vehicle, relSpeed: real, s: real)
    requires IsSqrt(relSpeed, SqrLength(Sub(other.velocity, me.velocity))) && relSpeed >= EightEpsilon
    ensures var t := PredictNearestApproachTime(me, other, relSpeed);
            var relVelocity := Sub(other.velocity, me.velocity);
            var relPosition := Sub(me.position, other.position);
            SqrLength(Sub(relPosition, Scale(relVelocity, t))) <= SqrLength(Sub(relPosition, Scale(relVelocity, s)))
  {
    var relVelocity := Sub(other.velocity, me.velocity);
    assert SqrLength(relVelocity) > 0.0 by { StrictSquareMonotone(0.0, relSpeed); }
    LineNearest(Sub(me.position, other.position), relVelocity, PredictNearestApproachTime(me, other, relSpeed), s);
  }

  /** Along the line l - n·t, the point at t = (n·l)/|n|² is the nearest to
      the origin. */
  lemma LineNearest(l: Vec3, n: Vec3, t: real, s: real)
    requires SqrLength(n) > 0.0 && t * SqrLength(n) == Dot(n, l)
    ensures SqrLength(Sub(l, Scale(n, t))) <= SqrLength(Sub(l, Scale(n, s)))
  {
    QuadraticAlongLine(l, n, t);
    QuadraticAlongLine(l, n, s);
    QuadraticMinimum(SqrLength(l), Dot(n, l), SqrLength(n), t, s);
  }

  /** A quadratic with a positive leading coefficient is smallest at its
      vertex. */
  lemma QuadraticMinimum(l2: real, p: real, n: real, t: real, s: real)
    requires n > 0.0 && t * n == p
    ensures l2 - 2.0 * t * p + t * t * n <= l2 - 2.0 * s * p + s * s * n
  {
    assert (l2 - 2.0 * s * p + s * s * n) - (l2 - 2.0 * t * p + t * t * n) == n * ((s - t) * (s - t));
    assert (s - t) * (s - t) >= 0.0;
    MulNonNegative(n, (s - t) * (s - t));
  }
}

=== FILE: wrappers.dfy ===
/** Wrappers shared by the whole model: `Option` stands for a
    C# reference that may be null, `Result` for a call that may throw. */
module Wrappers {

  datatype Option<+T> = None | Some(value: T) {
    function GetOr(default: T): T {
      match this
      case Some(v) => v
      case None => default
    }
  }

  datatype Result<+T, +E> = Ok(value: T) | Err(error: E)

  /** The .NET exception classes the modelled code throws. */
  datatype Exception =
    | ArgumentNull
    | Argument
    | ArgumentOutOfRange
    | InvalidOperation
    | IndexOutOfRange
    | Overflow
    | NullReference
}
